=== FILE: README.md ===
# mastermind-db in Dafny

This project models the core of **mastermind-db**, an interactive command-line
tool that scaffolds per-service relational databases and then manages them. For
each service it writes a Docker container declaration into `docker-compose.yml`
and records the service in the JSON project registry (`.mastermindrc`).
It also generates Sequelize configuration, migration, model and seeder files,
and manages the database afterwards: migrations and seeders, dumps and imports,
resets, scheduled backups with a retention period, and deletion.

The model keeps the decisions the tool makes and drops the side effects:

- Documents (the compose file, the registry, a backup's cron configuration) are
  one JSON-like `Document.Value`. Loading and saving such a document is a pure
  function from the old value to the new one.
- Prompt answers, the clock (`toISOString()` text), directory listings, file
  contents and crontab text are parameters.
- Shell commands (`docker`, `sequelize-cli`, `crontab`, `pg_dump`,
  `mysqldump`) become values that record which tool would run on which
  container, database and file. Rendering a template is recorded as the
  triple of template, target and data.
- JavaScript's semantics are written out wherever the source depends on them:
  truthiness, `undefined` in template strings, `parseInt` with and without a
  radix, `String(v)` of arrays and objects, strict-mode property assignment on
  primitives, `path.extname`/`path.dirname`, and the normalisation done by
  `path.join` and `path.relative` (module `NodePath`).

Modules follow the repository's files. `Wrappers`, `Text`, `Seqs` and
`Document` are the shared vocabulary: options and results, strings, filters,
and JSON-like values.

## Model

| member | source | states |
|---|---|---|
| NodePath.JoinUnderRoot | src/helper/mastermind-config.helper.ts:39-41 | `path.join(root, a, b, '/' + leaf)` under a root spelled by plain segments, with or without a leading './', is the segments and a, b, leaf joined by single '/' |
| NodePath.JoinNameUnderRoot | src/operations/manage-docker.operation.ts:111 | `path.join(root, name)` under such a root is the root's segments and the name joined by single '/' |
| NodePath.RelativeBelowCwd | src/operations/manage-docker.operation.ts:120-123 | a path below the working directory, spelled by plain segments, taken relative to '.', is spelled the same way again |
| StringsUtils.SanitizeName | src/utils/strings.utils.ts:14-16 | a sanitized name contains no whitespace at all |
| StringsUtils.SanitizeNameIsJoinOfWords | src/utils/strings.utils.ts:14-16 | the sanitized name is the name's maximal whitespace-free runs, in order, joined by single hyphens: leading and trailing whitespace vanish and each inner run becomes one "-" |
| StringsUtils.SanitizeNameKeepsClean | src/utils/strings.utils.ts:14-16 | a name without whitespace is its own key |
| StringsUtils.SanitizeNameIdempotent | src/utils/strings.utils.ts:14-16 | sanitizing a sanitized name changes nothing |
| StringsUtils.SanitizeNameNotInjective | src/utils/strings.utils.ts:14-16 | "a b" and "a-b" give the same key, so two such services share one container and one volume |
| StringsUtils.CapitalizeString | src/utils/strings.utils.ts:10-12 | the length is kept, the first character is upper-cased, and the rest is unchanged |
| StringsUtils.CapitalizeIdempotent | src/utils/strings.utils.ts:10-12 | capitalizing twice is the same as capitalizing once |
| FilePath.GetTimestamp | src/utils/file-path.utils.ts:16-18 | the timestamp is the ISO text with every '-', 'T', ':', '.' and 'Z' removed: none of them survives, every other character occurs exactly as often as in the ISO text, and the survivors keep their original order |
| FilePath.GetTimestampIdempotent | src/utils/file-path.utils.ts:16-18 | stripping an already-stripped timestamp changes nothing |
| FilePath.TimestampOfIso | src/utils/file-path.utils.ts:16-18 | for any valid `toISOString()` instant, the timestamp is exactly the 17 digits YYYYMMDDHHmmssSSS |
| FilePath.TimestampOrderIsTimeOrder | src/utils/file-path.utils.ts:16-18 | one instant is earlier than another exactly when its timestamp sorts first as a string, so generated files list in creation order |
| AllocatePort.BasePort | src/helper/allocate-port.helper.ts:4-5 | the base port is 5432 exactly for "PostgreSQL"; every other name, including SQLite with its falsy 0, gets 3306 |
| AllocatePort.AllocatePort | src/helper/allocate-port.helper.ts:3-25 | the port is the least one at or above the base whose "port:base" mapping is absent from the compose text: it is not taken and every port below it is; with no compose file it is the base port |
| AllocatePort.LongerPortBlocks | src/helper/allocate-port.helper.ts:19-21 | the test is a substring test, so the mapping "13306:3306" also counts as taking 3306 |
| ManageDocker.LookupTables | src/operations/manage-docker.operation.ts:125-140 | the volume path is '/data/unknown' exactly for names other than mysql, postgres and sqlite; the container port is 3306 for every name but postgres, which gets 5432 |
| ManageDocker.ServiceEntry | src/operations/manage-docker.operation.ts:160-172 | the written entry has exactly the seven keys container_name, build, restart, env_file, networks, ports and volumes; it is named `<sanitized>-db`, restarts 'unless-stopped', joins db-network, maps "port:dbPort" and mounts `<sanitized>-data` at the engine's data path |
| ManageDocker.SetDefault | src/operations/manage-docker.operation.ts:156-158 | `o[k] = o[k] \|\| d` leaves the fields unchanged when k is truthy; otherwise it adds only k; either way k is truthy afterwards and no other key changes |
| ManageDocker.InsertIfAbsent | src/operations/manage-docker.operation.ts:160-185 | the insertion succeeds exactly on objects and arrays; an array or an object whose key is already truthy comes back unchanged; an object without it gains exactly that key; a string, number or boolean section throws |
| ManageDocker.Sections | src/operations/manage-docker.operation.ts:156-158 | the three sections are set afterwards; each keeps its old value when truthy and otherwise gets its default; every other key is untouched |
| ManageDocker.CreateDockerComposeFile | src/operations/manage-docker.operation.ts:206-220 | the skeleton is written only when no file exists; an existing file is left as it was |
| ManageDocker.ServiceDir | src/operations/manage-docker.operation.ts:110-111 | the service folder exists exactly when the registry lookup succeeds and yields a string rootDir, and it is then `path.join(rootDir, name)` |
| ManageDocker.ServiceDirFromRoot | src/operations/manage-docker.operation.ts:110-111 | for a registry with databases whose entry does not override rootDir, the folder exists exactly when rootDir is a string, and is `path.join(rootDir, name)` |
| ManageDocker.BuildNeedsRegistry | src/operations/manage-docker.operation.ts:110-111 | without a registry file the loaded default has no rootDir, so the update throws before anything is written |
| ManageDocker.BuildNeedsDatabases | src/operations/manage-docker.operation.ts:110-111 | a registry without a databases key makes the lookup throw, so the update fails whatever the compose file holds |
| ManageDocker.DefaultServiceDir | src/operations/manage-docker.operation.ts:111 | under the default root './src', the service folder is `src/<name>`: the leading './' vanishes |
| ManageDocker.ContextBelowCwd | src/operations/manage-docker.operation.ts:120-168 | for a service folder spelled by plain segments below the working directory, the build context is that folder's docker subfolder relative to the compose file's folder, and the env file is `<context>/.env` |
| ManageDocker.DefaultRootContext | src/operations/manage-docker.operation.ts:110-168 | with the default root, the build context is `src/<name>/docker` and the env file `src/<name>/docker/.env`, whatever plain working directory the tool runs in |
| ManageDocker.Merge | src/operations/manage-docker.operation.ts:151-194 | a list document comes back unchanged; a successful merge keeps a mapping a mapping, and then the services, volumes and networks sections are all set |
| ManageDocker.BuildDockerCompose | src/operations/manage-docker.operation.ts:104-204 | a service folder that cannot be computed fails the update before anything is written; with no compose file the update succeeds exactly when the folder can be computed; what is written is a mapping exactly when the file was missing or held a mapping |
| ManageDocker.BuildOnMissingFile | src/operations/manage-docker.operation.ts:104-197 | with no compose file and a registry that yields the service folder, the written document is version 3.8 with db-network, exactly the new service (its build context computed from the registry's rootDir) and exactly its empty volume |
| ManageDocker.BuildFailsExactly | src/operations/manage-docker.operation.ts:104-203 | the update fails, writing nothing, exactly when the service folder cannot be computed (the registry lookup throws, or rootDir is not a string for `path.join`), or the loaded YAML is neither a mapping nor a list, or its services or volumes section is a truthy scalar |
| ManageDocker.BuildPreserves | src/operations/manage-docker.operation.ts:151-197 | on a mapping, every top-level key except the three sections is kept as it was, a truthy networks section is kept, and the services and volumes of other services are kept, as is an entry already present under the new keys |
| ManageDocker.BuildInserts | src/operations/manage-docker.operation.ts:160-194 | afterwards the service key and the volume key are set; each holds the new entry or `{}` unless a truthy value was already there |
| ManageDocker.BuildIdempotent | src/operations/manage-docker.operation.ts:104-204 | running the update a second time with the same arguments on its own output writes the same document |
| ManageDocker.MergeWhenPresent | src/operations/manage-docker.operation.ts:156-194 | a document that already holds the service and its volume, with all three sections set, is written back unchanged |
| ManageDocker.MergeFailsExactly | src/operations/manage-docker.operation.ts:151-185 | merging a new entry into a loaded document throws exactly when the document is neither a mapping nor a list, or its services or volumes section is a truthy scalar |
| ManageDocker.MergePreserves | src/operations/manage-docker.operation.ts:151-194 | a successful merge into a mapping adds only the three section keys, keeps every other top-level key, keeps a truthy networks section, and keeps the other entries of services and volumes |
| ManageDocker.MergeInserts | src/operations/manage-docker.operation.ts:160-194 | after a successful merge, the services section holds the new entry under the service key, and the volumes section holds `{}` under the volume key, unless a truthy value was already there |
| ManageDocker.MergeIdempotent | src/operations/manage-docker.operation.ts:151-194 | merging the same entry again into a merge's result gives that result back |
| ComposeHelper.DbPort | src/helper/docker-compose.helper.ts:16-23 | the mapped container port is never 0: SQLite's falsy 0 and unknown types fall back to 3306 |
| ComposeHelper.HelperPorts | src/helper/docker-compose.helper.ts:11-23 | this helper keys PostgreSQL as 'postgresql': 5432 is chosen exactly for that name, and 'postgres' gets port 3306 and the '/data/unknown' volume path |
| ComposeHelper.RawKeysDifferFromSanitized | src/helper/docker-compose.helper.ts:24-25 | for a name containing whitespace, the raw keys of this helper differ from the sanitized keys of the newer builder, so the two never find each other's entries |
| ComposeHelper.ServiceEntry | src/helper/docker-compose.helper.ts:45-57 | the entry has the seven keys; its build context and env file are fixed under ./src/<name>/docker whatever the configured root |
| ComposeHelper.GenerateDockerCompose | src/helper/docker-compose.helper.ts:77-91 | its skeleton is written only when no file exists |
| ComposeHelper.GeneratedSkeletonGetsBothNetworkKeys | src/helper/docker-compose.helper.ts:41-89 | merging into the skeleton this helper generates leaves both a `network` and a `networks` section, each holding db-network |
| ComposeHelper.RewritesWhenPresent | src/helper/docker-compose.helper.ts:41-73 | when the service and volume are already present, the document is still written, and it is exactly the one loaded |
| ComposeHelper.MergeOnGenerated | src/helper/docker-compose.helper.ts:77-89 | merging into this helper's generated skeleton succeeds and leaves exactly the keys version, services, network, networks and volumes, with db-network under both network keys |
| ComposeHelper.UpdateDockerCompose | src/helper/docker-compose.helper.ts:4-75 | with no file the merge always succeeds with a mapping; a list document is written back unchanged; a successful merge over no file or a mapping leaves the services and volumes sections set |
| ComposeText.EnsureSections | src/service/update-docker-compose.service.ts:51-59 | the text is only ever extended, never edited; afterwards it contains both "networks:" and "volumes:"; a text that had both is returned unchanged |
| ComposeText.InsertService | src/service/update-docker-compose.service.ts:45-49 | a text without "services:" is returned unchanged; for a name without `$` the service block is inserted literally right after the first "services:" |
| ComposeText.AddVolumeEntry | src/service/update-docker-compose.service.ts:60-66 | a text that already holds the entry, or has no "volumes:" line, is returned unchanged; otherwise, for a name without `$`, the entry is inserted literally right after the first "volumes:" line |
| ComposeText.UpdateDockerComposeText | src/service/update-docker-compose.service.ts:4-73 | a file (or the skeleton, when there is none) that already mentions `<name>-db` is left as it is, and the update never shortens the text |
| ComposeText.DollarNameNeverFound | src/service/update-docker-compose.service.ts:20-66 | `String.replace` expands `$&` in the replacement, so for a name holding `$&` the inserted key differs from `<name>-db`: the presence check never finds it, so a second update inserts the block again and lengthens the file |
| ComposeText.SubstringNameSkips | src/service/update-docker-compose.service.ts:20-26 | the presence check is a substring test, so a file that mentions a longer name ending in `<name>-db` (oauth-db for auth) is left untouched |
| ComposeText.NoAppendAfterInsert | src/service/update-docker-compose.service.ts:45-59 | once the block is inserted under "services:", the text contains "networks:" and "volumes:" from the block itself, so no section is ever appended |
| ComposeText.AddVolumeEntryKeeps | src/service/update-docker-compose.service.ts:60-66 | inserting the volume entry keeps every single-line substring of the text, the service key included |
| ComposeText.UpdateTextIdempotent | src/service/update-docker-compose.service.ts:4-73 | for a service name without `$` or line breaks, after one update of a file with a "services:" key, the service key is in the file and a second update leaves the file unchanged |
| ComposeText.VolumeEntryStaysInBlock | src/service/update-docker-compose.service.ts:41-66 | as written, the entry is inserted after the block's own "    volumes:" line: the whole text after the original "services:" key, any top-level volumes section included, is the unchanged tail of the result |
| ComposeText.MissingFileVolumeUndeclared | src/service/update-docker-compose.service.ts:14-66 | as written, starting with no file, the result still ends with the skeleton's empty top-level "volumes:" section, so the named volume is never declared |
| ComposeText.AddVolumeEntryFixed | src/service/update-docker-compose.service.ts:56-66 | the corrected volume step: the entry is always in the result and, when it was new, sits directly under a top-level "\nvolumes:\n" line |
| ComposeText.FixedDeclaresVolume | src/service/update-docker-compose.service.ts:56-66 | with the correction, adding a new service declares its volume under the top-level volumes section |
| ComposeText.FixedDiffersOnlyInVolumeStep | src/service/update-docker-compose.service.ts:20-26 | the correction agrees with the original whenever the service is already present: both leave the file untouched |
| ScaffoldCompose.ScaffoldDecisions | src/service/scaffold-docker-compose.service.ts:14-44 | declining creation leaves no file; confirming it writes the skeleton holding exactly the new service and volume, or the bare skeleton when the service folder cannot be computed; an existing file is left as it was unless the user agrees to update it, and then a file remains |
| ScaffoldCompose.ExistingFileKept | src/service/scaffold-docker-compose.service.ts:31-44 | an existing mapping is never replaced by the skeleton: whatever the user answers, and whether or not the registry yields the service folder, the top-level keys other than the three sections, and a set networks section, keep their values |
| ScaffoldCompose.ScaffoldDockerCompose | src/service/scaffold-docker-compose.service.ts:9-45 | no compose file is left exactly when there was none and creation was declined; an existing file is untouched when the user declines the update |
| ScaffoldCompose.EntryPorts | src/operations/manage-docker.operation.ts:130-170 | for every engine except postgres, the written port mapping is "<port>:3306" |
| Registry.LoadProjectConfig | src/helper/mastermind-config.helper.ts:12-22 | an existing file is read as it is; a missing one reads as exactly `{databases: {}}`, with no rootDir |
| Registry.DatabaseEntry | src/helper/mastermind-config.helper.ts:37-43 | a stored entry has exactly orm, migrationsDir, modelsDir, seedersDir and templatesDir; the three folders are `path.join(rootDir, name, lower-cased orm, '/' + leaf)` for leaf migrations, models and seeders |
| Registry.EntryDirUnderRoot | src/helper/mastermind-config.helper.ts:39-41 | under a root spelled by plain segments, with or without a leading './', a stored folder is the root's segments, the name, the lower-cased ORM and the leaf joined by single '/': the './' and the doubled '/' vanish |
| Registry.DefaultEntryDir | src/helper/mastermind-config.helper.ts:39-41 | under the default root './src', a stored folder is `src/<name>/<orm>/<leaf>` |
| Registry.DefaultRootEntry | src/helper/mastermind-config.helper.ts:37-41 | with the default root, the stored migrationsDir is `src/<name>/<orm>/migrations` |
| Registry.AddOrUpdateProjectConfig | src/helper/mastermind-config.helper.ts:29-46 | the update throws exactly when the loaded registry is not an object or its databases is missing or neither an object nor an array; a saved registry is an object whose rootDir is the given root |
| Registry.AddOrUpdateEffect | src/helper/mastermind-config.helper.ts:29-46 | on a registry with a databases object, the save succeeds; the saved document has the new rootDir and the new entry in full; every other entry and every other top-level key is kept, and no key besides rootDir is added |
| Registry.AddOrUpdateFailsExactly | src/helper/mastermind-config.helper.ts:34-45 | the update throws, and nothing is saved, exactly when the registry is not an object or its databases is missing or neither an object nor an array |
| Registry.LastWriterWins | src/helper/mastermind-config.helper.ts:36-37 | rootDir is one document-wide value: a second registration overwrites it, while the first registration's entry, with the paths computed from the old root, stays |
| Registry.SaveTwice | src/helper/mastermind-config.helper.ts:34-45 | two registrations of different names both succeed on a registry with databases; the second's rootDir wins and the first's entry is kept as it was |
| Registry.ConfigPathsLookup | src/helper/mastermind-config.helper.ts:48-55 | for a registered name, the result is rootDir overlaid with the entry's own fields, and nothing is logged; for a name that is not an own key of databases, only rootDir remains, and the error is logged exactly when the name is not one inherited from `Object.prototype` (`constructor`, `toString`, …), whose truthy value hides the miss |
| Registry.PrototypeNameFound | src/helper/mastermind-config.helper.ts:50-54 | looking up `constructor` in an empty databases object succeeds, logs nothing, and yields only rootDir |
| Registry.GetConfigPaths | src/helper/mastermind-config.helper.ts:48-55 | the lookup throws exactly when the loaded registry is not an object or its databases is missing or null; when no error is logged, databases is an object holding the name or the name is inherited from `Object.prototype`; an inherited name that is not an own key logs nothing and adds no field beyond rootDir |
| Registry.ConfigPathsNeedDatabases | src/helper/mastermind-config.helper.ts:29-55 | a registry without a databases key (for example one keyed `services`) makes both the path lookup and the update throw |
| Registry.WrittenEntryLacksDatabase | src/helper/mastermind-config.helper.ts:37-54 | an entry written by the update has no `database` field, so the paths looked up for it carry no engine, while their rootDir is the one just saved |
| DeleteService.ServiceNames | src/core/delete-service.core.ts:19-25 | the names offered are exactly the keys of the registry's entries object; a missing or falsy section offers none; a null registry throws |
| DeleteService.DeleteServiceAction | src/core/delete-service.core.ts:18-96 | declining the deletion changes nothing; a compose file is written only when the user confirms the Docker step and the file exists; a saved registry no longer lists the selected service under `services` |
| DeleteService.DeleteServiceActionWith | src/core/delete-service.core.ts:18-96 | the same three guarantees for the entries read under any given key |
| DeleteService.DeleteDockerService | src/core/delete-service.core.ts:98-161 | it throws exactly when the user confirms and the loaded YAML is empty (null); a file is written exactly when the user confirms; on a mapping the written document has the same top-level keys, and every key other than services and volumes keeps its value |
| DeleteService.NothingWithoutConfirmation | src/core/delete-service.core.ts:18-48 | with no registered services, or when the user declines, neither the registry nor the compose file is written |
| DeleteService.RegistryRemoval | src/core/delete-service.core.ts:45-73 | on confirmation, the saved registry lacks exactly the selected entry; rootDir, the other entries and the other top-level keys are unchanged |
| DeleteService.DockerDeletionEffect | src/core/delete-service.core.ts:111-134 | the compose step removes `<name>-db` from services and `<name>-data` from volumes exactly when they are set, changes nothing else, and writes the file even when neither was there |
| DeleteService.DockerDeclineWritesNothing | src/core/delete-service.core.ts:112-160 | declining the compose step writes no compose file |
| DeleteService.RawNameMissesSanitizedKey | src/core/delete-service.core.ts:111-118 | the removal uses the raw name, so a service stored under a different (sanitized) key survives the deletion |
| DeleteService.RegisteredEntriesNotListed | src/core/delete-service.core.ts:19-25 | as written, a service registered by the registry update (under `databases`) is not offered: the names read from `services` are empty and the action does nothing |
| DeleteService.FixedDeletesRegistered | src/core/delete-service.core.ts:19-73 | reading the key the registry is written under, the registered service is offered, and deleting it leaves the entries object empty |
| Prompt.InputAnswer | src/core/configure.core.ts:31-38 | an empty answer yields the question's default; any other answer is taken as typed, as a truthy string |
| Prompt.ValidatedIsFirstAccepted | src/helper/generate-files.helper.ts:21-22 | a question with a validator yields the first typed answer the validator accepts; there is no answer yet exactly when every answer so far was refused |
| Prompt.AcceptedName | src/helper/generate-files.helper.ts:21-22 | an accepted migration, seeder or model name is one of the typed answers and is not blank after trimming |
| Prompt.AcceptedNameIsFirstValid | src/helper/generate-files.helper.ts:21-22 | the accepted name is the first answer that is not blank after trimming, and all answers before it were blank |
| Configure.OnlyTwoActionsSave | src/core/configure.core.ts:24-62 | only changing the root and resetting save the registry; view, back and an unknown choice never save and never fail |
| Configure.ChangeRootOnlyRoot | src/core/configure.core.ts:30-41 | changing the root replaces rootDir and nothing else, the registered entries included; a non-empty answer becomes the new root as typed |
| Configure.EmptyAnswerKeepsRoot | src/core/configure.core.ts:31-41 | an empty answer saves the loaded document unchanged when a root is set, and './src' when none is |
| Configure.ChangeRootKeepsEntryPaths | src/core/configure.core.ts:30-41 | entries are not recomputed: after moving the root, a registered database still resolves to directories under the old root, beside the new rootDir |
| Configure.ResetForgetsEverything | src/core/configure.core.ts:46-51 | reset saves `{rootDir: './src', databases: {}}` whatever was loaded, so every later lookup misses, and it logs the error for every name except those inherited from `Object.prototype` |
| Configure.ConfigureCLI | src/core/configure.core.ts:8-85 | the command throws exactly when changing the root of a registry file that holds a primitive; only changing the root and resetting save; reset always saves the fixed default |
| CheckConfig.SetsRootOnlyIfMissing | src/service/check-configration-file.service.ts:10-30 | nothing is saved exactly when a truthy root is already set; otherwise only rootDir changes, to the answer, or to './src' for an empty answer |
| CheckConfig.FirstRun | src/service/check-configration-file.service.ts:10-25 | with no registry file, the saved document is `{databases: {}}` plus the chosen root |
| CheckConfig.SecondRunWritesNothing | src/service/check-configration-file.service.ts:12-25 | once a run has saved a root, a second run writes nothing whatever is typed |
| CheckConfig.InitConfigIfNotExists | src/service/check-configration-file.service.ts:9-31 | the check throws exactly when the registry file holds a primitive; nothing is saved exactly when the registry is an object whose rootDir is already truthy |
| InitCli.WritesOnlyWhenAbsent | src/cmd/init.ts:4-25 | the blueprint default (root ./src and the three /sequelize folders) is written exactly when the file does not exist; an existing file is never overwritten |
| InitCli.InitIdempotent | src/cmd/init.ts:7-24 | a second call writes nothing and leaves the file as the first call left it |
| InitCli.InitCLI | src/cmd/init.ts:4-25 | a file is written exactly when none exists, and it holds exactly the keys rootDir, migrationsDir, modelsDir and seedersDir |
| SequelizeFiles.RunEmitsInOrder | src/operations/sequelize-files.operation.ts:55-141 | when every picked type renders a file, the loop completes with one file per type, in the order the types were picked |
| SequelizeFiles.RunRequests | src/operations/sequelize-files.operation.ts:55-141 | at most one file per picked type; the loop completes exactly when no type halts it; types that are all skipped do nothing |
| SequelizeFiles.GenerateSequelizeFiles | src/operations/sequelize-files.operation.ts:48-142 | at most one file per picked type; a completed call got an accepted name for every known type; unknown types alone do nothing |
| SequelizeFiles.SkippedAreIgnored | src/operations/sequelize-files.operation.ts:138-139 | types that fall to `default` leave no trace: the loop does the same as on the list without them |
| SequelizeFiles.StampedNamesJoinWhole | src/operations/sequelize-files.operation.ts:67-68 | a digit-only timestamp gives migration and seeder file names with no slash at either end, so joining them to a folder keeps them whole |
| SequelizeFiles.OperationNaming | src/operations/sequelize-files.operation.ts:67-135 | migration and seeder files are `<stamp>-<lower-cased name>` in their configured folders; the seeder gets the table answer; a model file is `<lower-cased name>.model.ts` in the models folder and its class name capitalizes the name as entered |
| SequelizeFiles.OperationChoiceEmits | src/operations/sequelize-files.operation.ts:56-137 | a known type with an accepted name renders exactly its file |
| SequelizeFiles.OneTimestampPerCall | src/operations/sequelize-files.operation.ts:52-78 | one timestamp serves the whole call: with the folders configured and every name answered, the call renders one file per type, and every migration starts with `<migrationsDir>/<stamp>-` |
| SequelizeFiles.OperationIgnoresUnknown | src/operations/sequelize-files.operation.ts:138-139 | unknown type labels change nothing: the call does the same on the known labels alone |
| SequelizeFiles.TemplateScaffoldForEntry | src/operations/sequelize-files.operation.ts:23-43 | for a registered database, the scaffold ensures exactly its three registry folders under the lower-cased ORM folder, then renders config.ts and .sequelizerc under `<root>/<name>/sequelize`, in that order |
| SequelizeFiles.EntryDirs | src/helper/mastermind-config.helper.ts:48-54 | the paths looked up for a registered database give the root and its three folders as strings |
| SequelizeFiles.TemplateScaffoldPlan | src/operations/sequelize-files.operation.ts:23-43 | with a root and the three folders configured, the scaffold completes with the three folder creations and the two rendered files |
| SequelizeFiles.ScaffoldSequelizeTemplate | src/operations/sequelize-files.operation.ts:17-46 | the scaffold completes exactly when the root and the three folders are configured as strings, and then takes five steps; its first steps are folder creations |
| SequelizeFiles.BlueprintNaming | src/helper/generate-sequelize-files.helper.ts:26-108 | with the default blueprint folders, files land under `<root>/<service>/sequelize/...`: a migration is timestamped and lower-cased, a seeder and a model keep the name as entered, and no class name is passed to the model template |
| SequelizeFiles.GenerateBlueprintFiles | src/helper/generate-sequelize-files.helper.ts:7-115 | at most one file per picked type; the call completes exactly when every known type got an accepted name; unknown types alone do nothing |
| SequelizeFiles.DefaultDirsMatchInit | src/cmd/init.ts:8-13 | the default folders used are the ones the blueprint initialisation writes |
| SequelizeFiles.GenerateFilesMatchesBlueprint | src/helper/generate-files.helper.ts:25-101 | this older generator writes the same file with the same data as the blueprint generator; only the template name differs |
| SequelizeFiles.GenerateFiles | src/helper/generate-files.helper.ts:7-112 | at most one file per picked type; the call completes exactly when every known type got an accepted name; unknown types alone do nothing |
| SequelizeFiles.ScaffoldFilesFixedPart | src/service/scaffold-sequelize-files.service.ts:16-32 | the scaffold always first ensures the migrations, models and seeders folders and renders .sequelizerc into the same sequelize folder; the generated files follow, and with no types that is all it does |
| SequelizeFiles.ScaffoldSequelizeFiles | src/service/scaffold-sequelize-files.service.ts:10-135 | the four fixed steps, then at most one file per picked type; the scaffold completes exactly when every known type got an accepted name |
| SequelizeFiles.GetFilesInFolder | src/operations/sequelize-files.operation.ts:189-197 | a missing folder lists nothing; otherwise the result is a subsequence of the listing holding every listed name that ends with the extension and nothing else (the copy in src/helper/run-sequelize-command.helper.ts:19-27 is the same function) |
| SequelizeFiles.FilesInFolderStable | src/helper/run-sequelize-command.helper.ts:19-27 | filtering a filtered listing changes nothing, and a listing with no match gives nothing |
| SequelizeFiles.MigrationCarriesStamp | src/operations/sequelize-files.operation.ts:67-68 | a migration is always written into the migrations folder under a name that starts with the call's timestamp and a hyphen |
| ScaffoldDatabase.FoldersFirst | src/service/scaffold-database.service.ts:14-20 | the first two steps ensure the docker and sequelize folders under `<root>/<service>` |
| ScaffoldDatabase.ScaffoldDatabase | src/service/scaffold-database.service.ts:8-104 | the scaffold takes five or six steps, six exactly for 'mysql' and 'potgres'; the first two create the docker and sequelize folders under `<root>/<service>` |
| ScaffoldDatabase.ScaffoldDatabaseWith | src/service/scaffold-database.service.ts:8-104 | with the switch's second case label as a parameter, six steps exactly for 'mysql' and that label, five otherwise |
| ScaffoldDatabase.RendersFollow | src/service/scaffold-database.service.ts:22-90 | after the folders come only renders: Dockerfile, .env and config.ts in every case, in that order, and init.sql last when it is rendered |
| ScaffoldDatabase.EverythingUnderService | src/service/scaffold-database.service.ts:15-90 | whatever the branch, every folder and file the scaffold touches lies under `<root>/<service>/` |
| ScaffoldDatabase.InitSqlExactly | src/service/scaffold-database.service.ts:75-101 | init.sql is rendered exactly when the engine equals 'mysql' or the label of the switch's second case |
| ScaffoldDatabase.BranchData | src/service/scaffold-database.service.ts:22-71 | the PostgreSQL branch gives the Dockerfile and .env the same data, with `<svc>User`/`<svc>Password`; the other branch gives the Dockerfile only dbName and port and the .env `<svc>_user`/`<svc>_password`; all three renders get the same port and dbName |
| ScaffoldDatabase.ConfigIndependentOfBranch | src/service/scaffold-database.service.ts:63-101 | config.ts and init.sql do not depend on which branch ran: config.ts gets exactly dbType, port and dbName from the engine's own template |
| ScaffoldDatabase.PostgresGetsNoInitSql | src/service/scaffold-database.service.ts:87 | as written, an engine passed as 'postgres' gets five steps and no init.sql, because the case is spelled 'potgres' |
| ScaffoldDatabase.FixedInitSqlForBothEngines | src/service/scaffold-database.service.ts:75-97 | with the case spelled 'postgres', both mysql and postgres get init.sql from their own template, with the credentials their .env uses |
| CreateDatabase.DatabaseMap | src/core/create-database.core.ts:31-35 | 'MySQL' maps to mysql, 'PostgreSQL' to postgres and 'SQLite' to sqlite; every other name maps to undefined |
| CreateDatabase.DbName | src/core/create-database.core.ts:29 | the database name is the service name followed by `_db` |
| CreateDatabase.CreateDatabaseAction | src/core/create-database.core.ts:8-39 | nothing runs until a non-blank service name is typed; then the database scaffold, the Sequelize scaffold with no file types and the compose scaffold run in that order with one mapped engine and one port, and that port is the least free one at or above the base port |
| CreateDatabase.EngineTablesAgree | src/core/create-database.core.ts:30-39 | for every offered database, the base port searched from (keyed by display name) equals the container port of the compose entry (keyed by engine name), and the engine has its own data folder |
| CreateDatabase.DisplayNamedEnumSkipsPgBranch | src/core/create-database.core.ts:31-37 | if the PostgreSQL enum value is its display name, no database created here takes the scaffold's PostgreSQL branch: the Dockerfile gets no credentials and .env gets `<svc>_user` |
| BackupRetention.ParseSpelling | src/operations/backup.operation.ts:390 | `parseInt` of a number's decimal spelling gives that number back, with or without an explicit radix |
| BackupRetention.ValidatedDays | src/operations/backup.operation.ts:389-394 | the prompt only accepts an answer whose leading number is above zero |
| BackupRetention.StoredRetention | src/operations/backup.operation.ts:400 | the stored retention is a number, or `null` when base 10 finds no digits |
| BackupRetention.SetRetention | src/operations/backup.operation.ts:374-402 | setting the retention fails exactly when the file exists but holds a primitive; a missing file writes nothing; an object stays an object |
| BackupRetention.ConfigureDataPurge | src/operations/backup.operation.ts:358-428 | for an accepted answer, the setup throws exactly when the backup file holds a primitive; an object record then stores the answer's base-10 re-parse as its retention |
| BackupRetention.RetentionRoundTrip | src/operations/backup.operation.ts:383-400 | typing a positive number's decimal spelling is accepted, and that number is both the validated and the stored value |
| BackupRetention.PurgeChangesOnlyRetention | src/operations/backup.operation.ts:148-153 | on the record the backup setup writes, only `retentionPeriod` changes; service, frequency and backup folder are kept, and no key is added or removed |
| BackupRetention.HexAnswerParses | src/operations/backup.operation.ts:389-400 | the answer `0x5` is accepted as 5 days, but base 10 re-parses it as 0 |
| BackupRetention.HexRetentionStoredAsZero | src/operations/backup.operation.ts:389-400 | with the code as written, the accepted 5-day answer `0x5` is stored as 0, and a later manual purge deletes nothing |
| BackupRetention.StoredDaysPurge | src/operations/backup.operation.ts:454-493 | a record holding a positive retention purges exactly the expired files of its backup folder |
| BackupRetention.FixedStoresValidatedDays | src/operations/backup.operation.ts:389-400 | if the validated number is stored, every accepted answer leaves a positive retention, and a purge removes exactly the files older than it |
| BackupRetention.DeletedPaths | src/operations/backup.operation.ts:480-493 | the deleted paths are the files older than the retention threshold, each joined to the folder, and nothing else |
| BackupRetention.LongerRetentionDeletesLess | src/operations/backup.operation.ts:478-488 | every file a longer retention deletes is also deleted by a shorter one |
| BackupRetention.RetentionDays | src/operations/backup.operation.ts:455-465 | a missing or falsy retention, or one whose `Number` coercion is not positive, stops the purge; a positive number is applied as-is; a truthy value that coerces to NaN gets through the guard |
| BackupRetention.StringToNumberSpelling | src/operations/backup.operation.ts:458 | `Number` of a non-negative number's decimal spelling is that number |
| BackupRetention.SingletonNumber | src/operations/backup.operation.ts:458 | a one-element array of a number coerces to that number, through its string |
| BackupRetention.ArrayWrappedRetention | src/operations/backup.operation.ts:455-458 | a retention stored as `[n]` is treated exactly as the number n |
| BackupRetention.StringRetention | src/operations/backup.operation.ts:455-458 | a retention stored as a positive number's decimal string is applied as that number of days |
| BackupRetention.PairNaN | src/operations/backup.operation.ts:458 | an array of two numbers coerces to NaN, because its string holds a comma |
| BackupRetention.ArrayRetentionShapes | src/operations/backup.operation.ts:455-458 | an empty array stops the purge as 0; a two-number array and an object get through the guard as NaN |
| BackupRetention.NaNRetentionDeletesNothing | src/operations/backup.operation.ts:458-493 | a truthy retention that coerces to NaN passes the guard, and with an existing folder the purge deletes nothing |
| BackupRetention.NoRetentionNoDeletion | src/operations/backup.operation.ts:454-465 | a record without a positive retention deletes nothing, whatever the folder holds |
| BackupRetention.ZeroRetentionContrast | src/operations/backup.operation.ts:27-42 | a freshly scheduled backup (retention 0) purges nothing manually, while `enforceBackupRetention` with period 0 deletes every file older than now |
| BackupRetention.PurgeDeletesExpired | src/operations/backup.operation.ts:430-505 | if file names are distinct and the retention is positive, a file's path is deleted exactly when the file is older than the period |
| BackupRetention.ManualPurge | src/operations/backup.operation.ts:430-506 | the purge throws exactly when the backup file holds null; with no file it stops with nothing to purge; it deletes at most one path per listed file |
| BackupRetention.EnforceBackupRetention | src/operations/backup.operation.ts:11-57 | files are deleted exactly when the backups folder can be listed; then every expired file's path under `<root>/<svc>/backups` is deleted, at most one per listed file |
| BackupCron.FieldsMatchIffWords | src/operations/backup.operation.ts:137-139 | a string matches the n-field pattern exactly when it is n fields (`*` or digits) separated by whitespace, with no whitespace at either end |
| BackupCron.CronAcceptedIffFiveFields | src/operations/backup.operation.ts:129-146 | a custom expression is accepted exactly when it has five whitespace-separated fields, each `*` or all digits |
| CronJobs.HourlyValid | src/operations/backup.operation.ts:121 | the hourly preset would also pass the custom-expression check |
| CronJobs.DailyValid | src/operations/backup.operation.ts:122 | the daily preset would also pass the custom-expression check |
| CronJobs.WeeklyValid | src/operations/backup.operation.ts:123 | the weekly preset would also pass the custom-expression check |
| CronJobs.StepSyntaxRejected | src/operations/backup.operation.ts:137-141 | step syntax is outside the check: the every-five-minutes expression `*/5 * * * *` is refused |
| CronJobs.ChosenSchedule | src/operations/backup.operation.ts:115-146 | the schedule is the chosen preset, or else the first custom answer the check accepts; it is missing exactly when no answer has been accepted yet; every schedule passes the check |
| CronJobs.TaggedLine | src/operations/backup.operation.ts:177 | every installed line ends with the service's `# Backup for <svc>` tag |
| CronJobs.ScheduleLine | src/operations/backup.operation.ts:173-177 | the backup job's line starts with its schedule and ends with the service's tag |
| CronJobs.PurgeLine | src/operations/backup.operation.ts:415-417 | the purge job's line starts with the configured frequency and ends with the service's tag |
| CronJobs.PurgeArgs | src/operations/backup.operation.ts:415-417 | the purge job passes five arguments: the service, the interpolated `configPaths.database`, `<svc>_db`, then the backup folder and the retention |
| CronJobs.CommentAfter | src/operations/backup.operation.ts:177 | `sh` runs exactly the `#`-free prefix before a `#` that starts a word |
| CronJobs.TaggedLineDanglingPipe | src/operations/backup.operation.ts:173-177 | once the tag comment is stripped, a line of a `#`-free command as written leaves `sh` a command that ends in a bare pipe |
| CronJobs.ScheduleJobNeverRuns | src/operations/backup.operation.ts:173-181 | with the code as written, the backup job's line ends in a bare pipe for every `#`-free schedule, path, name and engine, so `sh` never runs it |
| CronJobs.PurgeJobNeverRuns | src/operations/backup.operation.ts:415-423 | with the code as written, the purge job's line ends in a bare pipe too |
| CronJobs.FixedTaggedLine | src/operations/backup.operation.ts:177 | the corrected line still ends with the service's tag |
| CronJobs.FixedLineRunsBody | src/operations/backup.operation.ts:177 | without the pipe, `sh` runs exactly the command, and that command does not end in a pipe |
| CronJobs.FixedScheduleJobRuns | src/operations/backup.operation.ts:173-177 | the corrected backup job runs its whole command, ending in the backup folder, and no bare pipe is left |
| CronJobs.ScriptRetention | src/operations/backup.operation.ts:337-347 | the script purges only for a positive decimal retention, and then uses that number of days |
| CronJobs.RunScript | src/operations/backup.operation.ts:304-350 | the script stops as unsupported exactly when the engine argument is neither `mysql` nor `postgres`; otherwise it dumps argument three's database through the `<svc>-db` container with that engine's tool |
| CronJobs.ScheduledRunKeepsFiles | src/operations/backup.operation.ts:173-177 | the backup job passes no retention argument, so its run never purges |
| CronJobs.UndefinedEngineUnsupported | src/operations/backup.operation.ts:415-417 | without a `database` field the purge job passes `undefined` as the engine, and the script stops as unsupported |
| CronJobs.RegisteredPurgeJobUnsupported | src/operations/backup.operation.ts:364-417 | for an entry written by `addOrUpdateProjectConfig` (which has no `database` field), the purge job's script always stops as unsupported |
| CronJobs.FixedPurgeArgs | src/operations/backup.operation.ts:415-417 | the corrected arguments pass the engine in second position |
| CronJobs.FixedPurgeJobPurges | src/operations/backup.operation.ts:304-347 | with the engine passed, the purge job dumps `<svc>_db` through `<svc>-db` with that engine and purges after the configured days |
| CronJobs.ListCronJobs | src/operations/backup.operation.ts:195-203 | a blank crontab lists nothing; otherwise the listed jobs are exactly the crontab lines that mention the service |
| CronJobs.Rewrite | src/operations/backup.operation.ts:247-257 | the crontab is cleared exactly when the kept lines join to blank text; otherwise the trimmed, non-empty join is installed |
| CronJobs.RemoveBackupCronJob | src/operations/backup.operation.ts:188-286 | nothing changes when no job mentions the service or delete-all is not confirmed; otherwise the crontab is rewritten, with trimmed, non-empty text or cleared |
| CronJobs.Installed | src/operations/backup.operation.ts:254-256 | reinstalling keeps the crontab in the form `crontab -l` prints: empty, or ending in a newline |
| CronJobs.AddCronJob | src/operations/backup.operation.ts:181 | adding a line keeps the crontab in the form `crontab -l` prints |
| CronJobs.ReplaceCronJob | src/operations/backup.operation.ts:420-423 | the grep-and-append edit keeps the crontab in the form `crontab -l` prints |
| CronJobs.TabLinesAdd | src/operations/backup.operation.ts:181 | appending a line adds exactly that line at the end |
| CronJobs.AddedJobListed | src/operations/backup.operation.ts:181-203 | once a tagged line is added, the removal menu lists it |
| CronJobs.DeleteAllDropsAdded | src/operations/backup.operation.ts:247-249 | if the crontab had no line tagged for the service, the delete-all filter takes exactly the added line back out |
| CronJobs.AddThenDeleteAll | src/operations/backup.operation.ts:181-257 | if the crontab had no line tagged for the service, scheduling a backup and then deleting all its jobs gives the crontab back, trimmed |
| CronJobs.RemoveDropsAdded | src/operations/backup.operation.ts:265-269 | if the added line was new, removing it by value takes exactly it back out |
| CronJobs.AddThenRemoveSelected | src/operations/backup.operation.ts:181-275 | if the line was new, scheduling a backup and then removing that job gives the crontab back, trimmed |
| CronJobs.RemoveSelectedKeepsOthers | src/operations/backup.operation.ts:265-275 | removing one job drops every line equal to it and keeps every other line, in order |
| CronJobs.DeleteAllTakesLongerNames | src/operations/backup.operation.ts:249 | deleting all jobs of a service also deletes the jobs of any service whose name starts with it (`auth` takes `auth2`'s) |
| CronJobs.GeneratedLinesTagged | src/operations/backup.operation.ts:173-177 | every line the tool generates, as written or corrected, is removed by its service's delete-all filter |
| CronJobs.ReplaceKeepsUntagged | src/operations/backup.operation.ts:420-423 | after the purge's edit, the crontab holds its untagged lines in order, then the new line |
| CronJobs.ReplaceLeavesOneTagged | src/operations/backup.operation.ts:420-423 | after the purge's edit, the new line is the only one tagged for the service |
| CronJobs.ReplaceIdempotent | src/operations/backup.operation.ts:420-423 | setting up the purge twice with the same line has the same effect as doing it once |
| CronJobs.ScheduleTwiceTwoJobs | src/operations/backup.operation.ts:181 | scheduling a backup twice leaves two tagged jobs, because scheduling appends and never replaces |
| DatabaseOps.FileStamp | src/operations/database.operation.ts:21 | the stamp is the timestamp with every `:` and `.` replaced by `-`, and its length is unchanged |
| DatabaseOps.DumpFileName | src/operations/database.operation.ts:22 | every dump file name starts with `dump-` and ends with `.sql` |
| DatabaseOps.DistinctInstantsDistinctFiles | src/operations/database.operation.ts:20-23 | two exports of a service at different ISO instants write to different files |
| DatabaseOps.UnsupportedMessage | src/operations/database.operation.ts:35 | the refusal names the engine it got, and says `undefined` when there is none |
| DatabaseOps.ExportDatabase | src/operations/database.operation.ts:13-51 | a dump is made exactly for `mysql` and `postgresql`, through the `<svc>-db` container, into the stamped file of the target folder; any other engine is refused with the engine named |
| DatabaseOps.ExportDatabaseDump | src/operations/database.operation.ts:53-80 | a failing registry lookup fails the export; otherwise `<svc>_db` is exported with the entry's `database` field as engine into `<rootDir>/<svc>/database/backups/manual` |
| DatabaseOps.ResetDatabase | src/operations/database.operation.ts:82-136 | declining cancels; a missing compose file stops after confirming; a reset happens exactly for `mysql` and `postgres`, dropping and recreating `<svc>_db` in `<svc>-db`; any other engine is refused |
| DatabaseOps.SqlExtension | src/operations/database.operation.ts:295 | a name has the `.sql` extension exactly when it ends in `.sql` and has more before it than a bare dot |
| DatabaseOps.Choices | src/operations/database.operation.ts:288-301 | one choice per entry, in order, with only directories and `.sql` files enabled; then go-up and cancel, both enabled |
| DatabaseOps.Dirname | src/operations/database.operation.ts:315 | the parent of `/` is `/`; otherwise going up gives `.`, a root, or a proper prefix of the path |
| DatabaseOps.DirnameOfJoin | src/operations/database.operation.ts:290-315 | going up from a folder entry joined to its folder gives that folder back |
| DatabaseOps.BrowseStep | src/operations/database.operation.ts:285-324 | a failed listing ends with the error logged; cancel ends with nothing; `..` moves to the parent; a file is returned only when `lstat` says it is no directory |
| DatabaseOps.PickedIsSqlFile | src/operations/database.operation.ts:288-319 | a file picked from an offered list is a `.sql` file listed in the current folder |
| DatabaseOps.Navigate | src/operations/database.operation.ts:282-326 | a picked file is one the user selected in some round while `lstat` reported it as a non-directory |
| DatabaseOps.EnterThenUp | src/operations/database.operation.ts:314-317 | entering a listed folder and then going up returns to where the user was |
| DatabaseOps.ImportEngine | src/operations/database.operation.ts:234-247 | an import uses the MySQL commands exactly for `mysql`; every other engine gets the PostgreSQL commands |
| DatabaseOps.ImportDatabaseDump | src/operations/database.operation.ts:194-259 | an import happens exactly when a file was picked; it targets the `<svc>-db` container and the picked file; it names a database exactly for the PostgreSQL commands, and then the given one |
| DatabaseOps.ImportTarget | src/operations/database.operation.ts:242-246 | `psql -d` names the given database; the MySQL command's bare backticks become an empty command substitution in the container's `sh`, so `mysql` gets no database |
| DatabaseOps.MySqlImportNamesNoDatabase | src/operations/database.operation.ts:242-246 | with the code as written, a MySQL import names no database for any name, while a PostgreSQL import names the given one |
| DatabaseOps.MySqlImportCreatesOtherDatabase | src/operations/database.operation.ts:233-236 | with the code as written, a MySQL import ensures that a database named `<svc>_db` with a leading space exists, which is not the intended `<svc>_db` |
| DatabaseOps.FixedImportDatabaseDump | src/operations/database.operation.ts:233-247 | with both MySQL commands corrected (no leading space; escaped backticks in the import), the import creates the given database and imports into it, for either engine, exactly when a file was picked |
| DatabaseOps.PostgresResetButNotExported | src/operations/database.operation.ts:30 | with the code as written, a `postgres` service that can be reset cannot be exported, because export expects `postgresql` |
| DatabaseOps.FixedExportDatabase | src/operations/database.operation.ts:28-39 | the corrected export dumps exactly `mysql` and `postgres`, the names the tool records |
| DatabaseOps.FixedExportMatchesReset | src/operations/database.operation.ts:13-136 | with the corrected export, every engine the create menu records can be exported exactly when it can be reset, with the same tools, container and database |
| DatabaseOps.RegisteredServiceActions | src/services/existingService/database/manage-selected-database.service.ts:19-69 | for a service registered by `addOrUpdateProjectConfig` the engine read back is `undefined`: export is refused, reset is refused after confirming, and import uses the PostgreSQL commands |
| DatabaseOps.FixedEngineActions | src/operations/database.operation.ts:13-259 | with the engine passed explicitly, export, reset and import all use that engine's tools |
| Logger.OneLinePerCall | src/utils/logger.utils.ts:3-11 | every logger call prints exactly one line: its own message at its own level, in call order |
| Logger.LogAllAppend | src/utils/logger.utils.ts:3-11 | logging two batches of calls prints the first batch's lines, then the second's |
| Logger.LogAll | src/utils/logger.utils.ts:3-11 | a batch of logger calls prints exactly one line per call |
| Logger.HandlerLevel | src/utils/logger.utils.ts:17-22 | exactly the three known Sequelize messages have handlers; only "No migration to execute" logs at info, and the other two log at success |
| Logger.HandlerSequelizeMessage | src/utils/logger.utils.ts:24-31 | when a line is logged, its text is the message unchanged, at the message's handler level or else info |
| Logger.SequelizeLevels | src/utils/logger.utils.ts:17-31 | the three known messages log at their levels; matching is exact, so any other ordinary line logs at info |
| Logger.PrototypeNamesNotLogged | src/utils/logger.utils.ts:24-27 | with the code as written, a line that names an inherited `Object.prototype` member is not logged: `constructor` prints nothing and `valueOf` throws |
| Logger.FixedHandlerSequelizeMessage | src/utils/logger.utils.ts:24-31 | with an own-key lookup, every line is logged exactly once with its text unchanged, at success for the two completion messages and at info otherwise |
| Logger.FixedAgreesOnOrdinaryLines | src/utils/logger.utils.ts:24-31 | the corrected dispatch agrees with the code as written on every line that does not name an inherited member |
| ErrorHandler.MessageOf | src/utils/error-handler.utils.ts:16 | the reported message is always truthy: the error's truthy `message`, otherwise its truthy `error`, otherwise the fixed unknown-error text |
| ErrorHandler.FindKey | src/utils/error-handler.utils.ts:21-23 | a reported key is one of the table's keys, and the message includes it |
| ErrorHandler.FindKeyFirst | src/utils/error-handler.utils.ts:21-23 | the key found is the first in table order that the message includes, and none is found exactly when the message includes no key |
| ErrorHandler.SolutionLines | src/utils/error-handler.utils.ts:28-30 | each solution is printed once, in order, at success level |
| ErrorHandler.Reported | src/utils/error-handler.utils.ts:21-33 | the handler throws after the context line exactly when the message is neither a string nor an array |
| ErrorHandler.MatchedLines | src/utils/error-handler.utils.ts:25-30 | a matched key prints one error line naming the key, the solutions header, then exactly that key's solutions |
| ErrorHandler.HandlerError | src/utils/error-handler.utils.ts:15-34 | the context line, when printed, comes before everything else; the handler throws exactly when the message has no `includes` |
| ErrorHandler.ReportedLevels | src/utils/error-handler.utils.ts:25-33 | after the context line nothing is printed at info, and only the first line of the report is at error |
| ErrorHandler.ContextLineFirst | src/utils/error-handler.utils.ts:17-19 | a non-empty context prints its line first, and that is the only line at info |
| ErrorHandler.MatchReport | src/utils/error-handler.utils.ts:21-30 | when the message includes a key and no earlier one, the report after the context is exactly that key's error line, header and solutions |
| ErrorHandler.FoundKey | src/utils/error-handler.utils.ts:3-23 | a key the message includes, with no earlier key included, is the key found |
| ErrorHandler.RefusedConnectionWins | src/utils/error-handler.utils.ts:3-30 | a message with both codes is reported as a refused connection, on the only error line |
| ErrorHandler.NoMatchReport | src/utils/error-handler.utils.ts:31-33 | a message with no known code prints exactly one line after the context: an error line ending with the message's text |
| ErrorHandler.RefusedMigrationReport | src/operations/sequelize-files.operation.ts:183-185 | a refused connection during a migration prints six lines: the context, the code and its three solutions |

## Left out

- Shell commands are not run. The `docker`, `docker compose`, `crontab`, `mysqldump`, `pg_dump`, `psql` and `npx sequelize-cli` calls, and the failures they report, are outside the model; only the decision and the names that feed each command are modelled.
- The container helpers of src/operations/manage-docker.operation.ts (start, stop, refresh, purge, the Docker-running probe and the start prompt) only shell out, so they are left out.
- `runSequelizeCommand` (both copies) only shells out, so it is left out. What it prints is covered by `Logger.HandlerSequelizeMessage`, and its error path by `ErrorHandler.HandlerError`.
- Shell quoting inside the generated commands is left out: the `echo "…"` that reinstalls a crontab, the word splitting of `$VAR` in `backup.sh`, and `grep -v "…"` reading its pattern as a regular expression (the model uses a fixed-string test). Names containing quotes, `$`, `#` or regex metacharacters are therefore not covered.
- `backup.sh` is modelled as the decision it takes (which dump it runs, into which file, and whether it purges). `find -mtime` rounding and the script's own exit codes are left out.
- `viewBackupCronStatus` only renders the jobs that `CronJobs.ListCronJobs` selects, so its output formatting is left out.
- Interactive menus, spinners, kleur colours, the pacing delays and the logo are left out. Prompt answers are inputs, and a validated question is a sequence of typed attempts.
- EJS rendering is recorded as (template, output, data) triples. The YAML and JSON parsers and printers are left out; documents are already parsed values.
- `process.cwd()` is a parameter. `path.resolve` is left out: the registry's templatesDir is stored as the plain '/'-join of its parts, and absolute script and backup paths are inputs.
- `path.join` and `path.relative` are written out with POSIX normalisation (`NodePath`) where the result is stored or compared: the registry's three folders, the compose service folder, its build context and env file. Every other path (templates, backups, Sequelize output) is a plain '/'-join, so `..` and duplicate slashes there are not normalised. `path.dirname` and `path.extname` are written out for POSIX paths.
- NodePath.JoinUnderRoot, NodePath.JoinNameUnderRoot, NodePath.RelativeBelowCwd and the lemmas built on them (Registry.EntryDirUnderRoot, ManageDocker.ContextBelowCwd, ManageDocker.DefaultRootContext) are stated for paths of plain segments (no '/', '.', '..' or empty part); other spellings are normalised by the same functions but not described by a lemma.
- The clock and file modification times are inputs. `Date.now()` and `mtimeMs` are integer milliseconds, whereas Node reports `mtimeMs` as a float.
- `toLowerCase` and `toUpperCase` are restricted to ASCII letters; `trim` uses the full ECMAScript white-space and line-terminator set.
- In `importDatabaseDump`, the step that offers to edit the chosen file before importing is left out, since it only rewrites the file's contents. `lstat` reporting a symbolic link as a non-directory is not distinguished from a plain file.
- `exportDatabase` builds the PostgreSQL command with both `-f <file>` and a trailing `> <file>` redirect. Only the file is modelled, not how the two writes interact. Likewise, `importDatabaseDump` passes a path relative to the host's working directory to `psql -f`, which resolves it inside the container; `ImportDatabaseDump.file` is only the path the command names, not a file the container is known to see.
- DatabaseOps.ImportDatabaseDump: the dump's contents are not modelled. A MySQL import with no database succeeds only when the file itself selects one; a dump from `exportDatabase` does not, since `mysqldump <db>` without `--databases` writes no `USE`.
- `handlerError` is `async` and nothing awaits it, so a throw becomes an unhandled promise rejection; the model records only that it threw.
- ComposeText.UpdateTextIdempotent: stated for service names without `$` or line breaks; for a name with `$&` the file keeps growing, as ComposeText.DollarNameNeverFound shows, and other `$` patterns are not described.
- BackupRetention.EnforceBackupRetention, BackupRetention.ManualPurge, BackupRetention.ConfigureDataPurge: every operation that joins a path under the registry's rootDir takes that root as a string, so the throw of `path.join` on an undefined rootDir is not modelled for any of them.
- Registry.GetConfigPaths: an entry that is a string or an array spreads its indices into the result in JavaScript; the model spreads only object entries.
- Registry.GetConfigPaths: when databases is an array, a string, a number or a boolean, the model reads no entry from it except the inherited `Object.prototype` names; the indices, `length` and the names that `Array.prototype`, `String.prototype`, `Number.prototype` or `Boolean.prototype` add are not modelled.
- DeleteService.ServiceNames: for a `services` value that is a truthy string or array, `Object.keys` lists its indices; the model lists no names.
- ErrorHandler.Reported: an error whose `message` is an object with its own callable `includes` is treated as throwing, whereas JavaScript would call that method.
- BackupRetention.RetentionDays: `Number` of a string is modelled only for an optional sign and decimal digits (and blank strings, which are 0); a hand-edited retention spelled as a fraction, with an exponent, in hex, octal or binary, or as `Infinity` coerces to NaN in the model but to a number in JavaScript.
- Document.Value: JSON numbers are integers (`Num(n: int)`); a fraction such as `retentionPeriod: 2.5` cannot be represented, nor can a port, a timestamp or any other stored number with a fractional part.
- CronJobs.ScriptRetention: only a plain run of digits counts as a number; bash's `-gt` also accepts a sign and surrounding blanks, which the tool never writes.
- ScaffoldDatabase: the `DBType` enum's values are not part of this model, so its PostgreSQL value is a parameter (`pgValue`); `CreateDatabase.DisplayNamedEnumSkipsPgBranch` shows what follows if that value is the display name.
- src/service/scaffold-docker-compose.service.ts imports `createDockerComposeFile` and `buildDockerCompose` from a helper that does not export them; the model binds them to the definitions in src/operations/manage-docker.operation.ts.

## Findings

Each row is backed by a lemma about the code as written and by a corrected definition whose intended property is proved. Nothing was executed.

| source | as written | input that shows it | evidently intended | confidence | as-written member | corrected member |
|---|---|---|---|---|---|---|
| src/service/update-docker-compose.service.ts:60-66 | the `  <svc>-data:` entry is inserted after the first `volumes:` line, which is the new service block's own `volumes:` line | no compose file, any service name without `$`: the file still ends with the skeleton's empty top-level `volumes:` | the named volume is declared under the top-level `volumes:` section | not executed; high | ComposeText.MissingFileVolumeUndeclared | ComposeText.FixedDeclaresVolume |
| src/core/delete-service.core.ts:20 | registry entries are read from and deleted under `services` | a registry written by `addOrUpdateProjectConfig`, which stores entries under `databases` | the key the registry helper writes, `databases` | not executed; high | DeleteService.RegisteredEntriesNotListed | DeleteService.FixedDeletesRegistered |
| src/service/scaffold-database.service.ts:87 | the case label is `'potgres'` | `dbType` = `postgres` | `init.sql` rendered for PostgreSQL as well | not executed; high | ScaffoldDatabase.PostgresGetsNoInitSql | ScaffoldDatabase.FixedInitSqlForBothEngines |
| src/operations/backup.operation.ts:390-400 | the prompt validates with `parseInt(x)` but the value is stored as `parseInt(x, 10)` | the answer `0x5`: accepted as 5 days, stored as 0 | the validated number is stored | not executed; medium | BackupRetention.HexRetentionStoredAsZero | BackupRetention.FixedStoresValidatedDays |
| src/operations/backup.operation.ts:173-177 | each cron line is `<command> \| # Backup for <svc>`, so once the comment is stripped, `sh` sees a pipe with no command after it | any schedule, service, engine and path without `#` | `<command> # Backup for <svc>`: the tag is a comment and the command runs | not executed; high | CronJobs.ScheduleJobNeverRuns | CronJobs.FixedScheduleJobRuns |
| src/operations/backup.operation.ts:415-417 | the purge job passes `configPaths.database` as the engine, a field the registry never writes | a service registered by `addOrUpdateProjectConfig`: the script gets `undefined` and stops as unsupported | the service's engine is passed | not executed; high | CronJobs.RegisteredPurgeJobUnsupported | CronJobs.FixedPurgeJobPurges |
| src/services/existingService/database/manage-selected-database.service.ts:19-69 | export, reset and import read the engine from `configPaths.database`, which the registry never writes | a service registered by `addOrUpdateProjectConfig`: export and reset are refused, and import uses `psql` for MySQL | the service's engine is used | not executed; high | DatabaseOps.RegisteredServiceActions | DatabaseOps.FixedEngineActions |
| src/operations/database.operation.ts:30 | export matches `'postgresql'` | `dbType` = `postgres`, the name the tool records and the one reset accepts | PostgreSQL databases exported with `pg_dump` | not executed; high | DatabaseOps.PostgresResetButNotExported | DatabaseOps.FixedExportDatabase |
| src/operations/database.operation.ts:235 | the MySQL create command quotes `` ` ${dbName}` `` with a leading space | any MySQL import: it creates `" <svc>_db"`, not `<svc>_db` | the import creates `<svc>_db` | not executed; high | DatabaseOps.MySqlImportCreatesOtherDatabase | DatabaseOps.FixedImportDatabaseDump |
| src/operations/database.operation.ts:244 | the MySQL import command wraps the name in bare backticks, which the container's `sh` runs as a command substitution that prints nothing | any MySQL import: `mysql` runs with no database, so a dump without a `USE` statement, such as the one `exportDatabase` writes, fails with no database selected | the import names `<svc>_db` | not executed; high | DatabaseOps.MySqlImportNamesNoDatabase | DatabaseOps.FixedImportDatabaseDump |
| src/utils/logger.utils.ts:25 | `sequelizeCLIMessageHandler[message]` also finds inherited `Object.prototype` members | an output line `constructor` (prints nothing) or `valueOf` (throws) | only the table's own keys are handlers; every other line is logged at info | not executed; low | Logger.PrototypeNamesNotLogged | Logger.FixedHandlerSequelizeMessage |

=== FILE: allocate_port.dfy ===
/** `allocatePort` of src/helper/allocate-port.helper.ts: the least port at or
    above the engine's base port whose `"<port>:<base>"` mapping does not occur
    in the compose text. The file's content is a parameter; a missing file reads
    as the empty text. */
module AllocatePort {
  import opened Wrappers
  import opened Text

  /** `basePorts[dbType] || 3306`, keyed by the display names. SQLite's 0 is
      falsy, so it and every unknown name get 3306. */
  function BasePort(dbType: string): (base: nat)
    ensures base == 5432 <==> dbType == "PostgreSQL"
    ensures base != 5432 ==> base == 3306
  {
    if dbType == "MySQL" then 3306
    else if dbType == "PostgreSQL" then 5432
    else 3306
  }

  /** `dockerCompose.includes(`${port}:${basePort}`)`. */
  predicate Occupied(text: string, port: nat, base: nat) {
    Contains(text, NatToString(port) + ":" + NatToString(base))
  }

  /** A mapping that occurs in the text is no longer than the text, which
      bounds the port by a power of ten. */
  lemma OccupiedBound(text: string, port: nat, base: nat)
    requires Occupied(text, port, base)
    ensures port < Pow10(|text|)
  {
    NatToStringBound(port);
    Pow10Monotone(|NatToString(port)|, |text|);
  }

  /** `allocatePort(dbType)`: scans upwards from the base port while the
      mapping is taken. */
  method AllocatePort(dbType: string, compose: Option<string>) returns (port: nat)
    ensures port >= BasePort(dbType)
    ensures !Occupied(compose.GetOr(""), port, BasePort(dbType))
    ensures forall p | BasePort(dbType) <= p < port :: Occupied(compose.GetOr(""), p, BasePort(dbType))
    ensures compose.None? ==> port == BasePort(dbType)
  {
    var base := BasePort(dbType);
    var text := compose.GetOr("");
    port := base;
    while Contains(text, NatToString(port) + ":" + NatToString(base))
      invariant port >= base
      invariant forall p | base <= p < port :: Occupied(text, p, base)
      invariant compose.None? ==> port == base
      decreases Pow10(|text|) - port
    {
      OccupiedBound(text, port, base);
      port := port + 1;
    }
  }

  /** Occupancy is a substring test: a longer host port that ends in the same
      digits, as in `13306:3306`, also takes 3306. */
  lemma LongerPortBlocks()
    ensures Occupied("13306:3306", 3306, 3306)
  {
    NatToString3306();
    assert NatToString(3306) + ":" + NatToString(3306) == "3306:3306";
    OccursAtMiddle("1", "3306:3306", "");
    assert "13306:3306" == "1" + "3306:3306" + "";
  }
}

=== FILE: backup_cron.dfy ===
/** The check `backup.operation.ts` applies to a custom cron schedule: five
    fields, each a run of digits or `*`, separated by whitespace. */
module BackupCron {
  import opened Text
  import StringsUtils

  // ---------------------------------------------------------------------------
  // The custom schedule check

  /** Where the run of ASCII digits starting at `i` ends. */
  function DigitsEnd(s: string, i: nat): (j: nat)
    requires i <= |s|
    ensures i <= j <= |s| && (j < |s| ==> !IsDigit(s[j]))
    ensures forall k | i <= k < j :: IsDigit(s[k])
    decreases |s| - i
  {
    if i < |s| && IsDigit(s[i]) then DigitsEnd(s, i + 1) else i
  }

  /** Where the run of whitespace starting at `i` ends. */
  function SpaceEnd(s: string, i: nat): (j: nat)
    requires i <= |s|
    ensures i <= j <= |s| && (j < |s| ==> !IsWhitespace(s[j]))
    ensures forall k | i <= k < j :: IsWhitespace(s[k])
    decreases |s| - i
  {
    if i < |s| && IsWhitespace(s[i]) then SpaceEnd(s, i + 1) else i
  }

  /** Where `(\d+|\*)` stops when it starts at the beginning of `s`; 0
      when it does not match. */
  function FieldEnd(s: string): (f: nat)
    ensures f <= |s|
  {
    if s != [] && s[0] == '*' then 1 else DigitsEnd(s, 0)
  }

  /** `s` matches `(\d+|\*)(\s+(\d+|\*)){n-1}$` from its first character.
      Every part takes its longest run: a shorter run of digits or of
      whitespace would leave a digit or a space where the next part cannot
      start, so backtracking finds no other match. */
  predicate FieldsMatch(s: string, n: nat)
    decreases n
  {
    var f := FieldEnd(s);
    && n >= 1 && f > 0
    && if n == 1 then f == |s|
       else var e := SpaceEnd(s, f); e > f && FieldsMatch(s[e..], n - 1)
  }

  /** The prompt's check on a custom expression,
      `/^(\d+|\*)\s+(\d+|\*)\s+(\d+|\*)\s+(\d+|\*)\s+(\d+|\*)$/.test(input)`. */
  predicate ValidCron(s: string) {
    FieldsMatch(s, 5)
  }

  /** One field as the expression reads it: `*` or a run of digits. */
  predicate CronField(f: string) {
    (|f| == 1 && f[0] == '*') || (f != [] && AllDigits(f))
  }

  /** Every word is a field. */
  predicate AllFields(ws: seq<string>) {
    forall w | w in ws :: CronField(w)
  }

  /** Neither end of `s` is whitespace. */
  predicate NoBlankEnds(s: string) {
    s == [] || (!IsWhitespace(s[0]) && !IsWhitespace(s[|s| - 1]))
  }

  /** Reference reading: nothing blank at either end, exactly `n` words
      separated by whitespace, and every word a field. */
  predicate FieldWords(s: string, n: nat) {
    NoBlankEnds(s) && |StringsUtils.Words(s)| == n && AllFields(StringsUtils.Words(s))
  }

  /** A run of digits from `i` to a non-digit (or the end) at `j`. */
  lemma {:induction false} DigitsEndAt(s: string, i: nat, j: nat)
    requires i <= j <= |s| && (j < |s| ==> !IsDigit(s[j]))
    requires forall k | i <= k < j :: IsDigit(s[k])
    ensures DigitsEnd(s, i) == j
    decreases j - i
  {
    if i < j {
      DigitsEndAt(s, i + 1, j);
    }
  }

  /** A run of whitespace from `i` to a non-space (or the end) at `j`. */
  lemma {:induction false} SpaceEndAt(s: string, i: nat, j: nat)
    requires i <= j <= |s| && (j < |s| ==> !IsWhitespace(s[j]))
    requires forall k | i <= k < j :: IsWhitespace(s[k])
    ensures SpaceEnd(s, i) == j
    decreases j - i
  {
    if i < j {
      SpaceEndAt(s, i + 1, j);
    }
  }

  // Matches are fields

  /** The first field of a match is a word of its own. */
  lemma FirstField(s: string)
    requires FieldEnd(s) > 0
    ensures var f := FieldEnd(s); CronField(s[..f]) && NoWhitespace(s[..f])
  {
    var f := FieldEnd(s);
    if s[0] == '*' {
      assert s[..f] == "*";
    } else {
      assert forall k | 0 <= k < f :: s[..f][k] == s[k];
    }
  }

  /** The pieces of a match of more than one field: the first field, the
      whitespace after it, and the rest. */
  lemma MatchPieces(s: string, n: nat) returns (tok: string, pre: string, rest: string)
    requires n > 1 && FieldsMatch(s, n)
    ensures s == tok + pre + rest && FieldsMatch(rest, n - 1)
    ensures tok != [] && CronField(tok) && NoWhitespace(tok) && pre != [] && AllWhitespace(pre)
  {
    var f := FieldEnd(s);
    FirstField(s);
    var e := SpaceEnd(s, f);
    tok, pre, rest := s[..f], s[f..e], s[e..];
    assert forall k | 0 <= k < e - f :: pre[k] == s[f + k];
    assert s == s[..f] + s[f..e] + s[e..];
  }

  /** A string that `(\d+|\*)` consumes whole is a field without whitespace. */
  lemma WholeField(s: string)
    requires FieldEnd(s) == |s| > 0
    ensures CronField(s) && NoWhitespace(s)
  {
    FirstField(s);
    assert s[..|s|] == s;
  }

  /** A whitespace-free field is one word. */
  lemma OneFieldWords(s: string)
    requires s != [] && NoWhitespace(s) && CronField(s)
    ensures FieldWords(s, 1) && !IsWhitespace(s[0])
  {
    StringsUtils.OneWord(s);
  }

  /** Adding a field in front keeps every word a field. */
  lemma AllFieldsCons(w: string, ws: seq<string>)
    requires CronField(w) && AllFields(ws)
    ensures AllFields([w] + ws)
  {
  }

  /** A word in front of and a string after some text: the ends of the
      whole are the ends of those two. */
  lemma ConsEnds(a: string, b: string, c: string)
    requires a != [] && !IsWhitespace(a[0]) && c != [] && NoBlankEnds(c)
    ensures NoBlankEnds(a + b + c) && (a + b + c)[0] == a[0]
  {
    LastOfConcat(a + b, c);
  }

  /** A field, a whitespace run and `n` further fields are `n + 1` fields. */
  lemma ConsFieldWords(tok: string, pre: string, rest: string, n: nat)
    requires tok != [] && CronField(tok) && NoWhitespace(tok) && pre != [] && AllWhitespace(pre)
    requires FieldWords(rest, n) && rest != [] && !IsWhitespace(rest[0])
    ensures FieldWords(tok + pre + rest, n + 1) && !IsWhitespace((tok + pre + rest)[0])
  {
    StringsUtils.WordsAfterWord(tok, pre, rest);
    ConsEnds(tok, pre, rest);
    AllFieldsCons(tok, StringsUtils.Words(rest));
  }

  /** A match is its fields separated by whitespace. */
  lemma {:induction false} MatchToWords(s: string, n: nat)
    requires FieldsMatch(s, n)
    ensures FieldWords(s, n) && s != [] && !IsWhitespace(s[0])
    decreases n
  {
    if n == 1 {
      WholeField(s);
      OneFieldWords(s);
    } else {
      var tok, pre, rest := MatchPieces(s, n);
      MatchToWords(rest, n - 1);
      ConsFieldWords(tok, pre, rest, n - 1);
    }
  }

  // Fields are matches

  /** Words with no leading word are no words at all, and vice versa. */
  lemma WordsEmpty(t: string)
    requires t == [] || !IsWhitespace(t[0])
    ensures StringsUtils.Words(t) == [] <==> t == []
  {
    if t != [] {
      StringsUtils.WordsOfWordStart(t);
    }
  }

  /** A string with nothing blank at either end is its first word, the
      whitespace after it and a rest of the same kind, empty only when the
      whitespace is. */
  lemma WordsPieces(s: string) returns (w: string, pre: string, t: string)
    requires s != [] && NoBlankEnds(s)
    ensures s == w + pre + t && StringsUtils.Words(s) == [w] + StringsUtils.Words(t)
    ensures w != [] && NoWhitespace(w) && AllWhitespace(pre)
    ensures t == [] ==> pre == []
    ensures t != [] ==> pre != [] && !IsWhitespace(t[0]) && NoBlankEnds(t)
  {
    w, pre, t := StringsUtils.SplitFirstWord(s);
    StringsUtils.WordsAfterWord(w, pre, t);
    PiecesEnds(w, pre, t);
  }

  /** The last character of a concatenation with a non-empty right side is
      that side's last character. */
  lemma LastOfConcat(a: string, b: string)
    ensures b != [] ==> (a + b)[|a + b| - 1] == b[|b| - 1]
  {
  }

  /** When a word, whitespace and a rest end in a non-space, the whitespace is
      followed by something, and that rest ends in the same non-space. */
  lemma PiecesEnds(w: string, pre: string, t: string)
    requires w != [] && AllWhitespace(pre)
    requires !IsWhitespace((w + pre + t)[|w + pre + t| - 1])
    ensures t == [] ==> pre == []
    ensures t != [] ==> !IsWhitespace(t[|t| - 1])
  {
    LastOfConcat(w + pre, t);
    LastOfConcat(w, pre);
    assert t == [] ==> w + pre + t == w + pre;
  }

  /** Taking the first word off keeps the rest fields. */
  lemma AllFieldsUncons(w: string, ws: seq<string>)
    requires AllFields([w] + ws)
    ensures CronField(w) && AllFields(ws)
  {
    assert w == ([w] + ws)[0];
    forall x | x in ws ensures CronField(x) {
      assert x in [w] + ws;
    }
  }

  /** A field followed by whitespace or nothing is what `(\d+|\*)` consumes. */
  lemma FieldPrefix(w: string, r: string)
    requires CronField(w) && (r == [] || IsWhitespace(r[0]))
    ensures FieldEnd(w + r) == |w|
  {
    var s := w + r;
    if !(|w| == 1 && w[0] == '*') {
      assert forall k | 0 <= k < |w| :: s[k] == w[k];
      assert |w| < |s| ==> s[|w|] == r[0];
      DigitsEndAt(s, 0, |w|);
    } else {
      assert s[0] == w[0];
    }
  }

  /** A lone field is a one-field match. */
  lemma OneFieldMatches(w: string)
    requires CronField(w)
    ensures FieldsMatch(w, 1)
  {
    FieldPrefix(w, []);
    assert w + [] == w;
  }

  /** A field, a whitespace run and an `n`-field match are an `n + 1`-field match. */
  lemma MatchCons(tok: string, pre: string, rest: string, n: nat)
    requires CronField(tok) && pre != [] && AllWhitespace(pre)
    requires rest != [] && !IsWhitespace(rest[0]) && FieldsMatch(rest, n)
    ensures FieldsMatch(tok + pre + rest, n + 1)
  {
    var s := tok + pre + rest;
    var f, e := |tok|, |tok| + |pre|;
    assert s == tok + (pre + rest);
    FieldPrefix(tok, pre + rest);
    assert forall k | f <= k < e :: s[k] == pre[k - f];
    assert s[e] == rest[0];
    SpaceEndAt(s, f, e);
    assert s[e..] == rest;
  }

  /** Fields separated by whitespace are a match. */
  lemma {:induction false} WordsToMatch(s: string, n: nat)
    requires n >= 1 && FieldWords(s, n)
    ensures FieldsMatch(s, n)
    decreases n
  {
    assert StringsUtils.Words([]) == [];
    var w, pre, t := WordsPieces(s);
    AllFieldsUncons(w, StringsUtils.Words(t));
    WordsEmpty(t);
    if n == 1 {
      OneFieldMatches(w);
      assert s == w + pre + t == w;
    } else {
      WordsToMatch(t, n - 1);
      MatchCons(w, pre, t, n - 1);
    }
  }

  /** A string matches the `n`-field pattern exactly when it is `n` fields
      separated by whitespace, with nothing blank at either end. */
  lemma FieldsMatchIffWords(s: string, n: nat)
    requires n >= 1
    ensures FieldsMatch(s, n) <==> FieldWords(s, n)
  {
    if FieldsMatch(s, n) {
      MatchToWords(s, n);
    }
    if FieldWords(s, n) {
      WordsToMatch(s, n);
    }
  }

  /** A custom expression is accepted exactly when it has five
      whitespace-separated fields, each `*` or all digits. */
  lemma CronAcceptedIffFiveFields(s: string)
    ensures ValidCron(s) <==> FieldWords(s, 5)
  {
    FieldsMatchIffWords(s, 5);
  }
}

=== FILE: backup_retention.dfy ===
/** The data-purge half of src/operations/backup.operation.ts: the
    retention-period prompt and the value it stores, the cron-config record,
    the age test, `manualPurge` and `enforceBackupRetention`. The clock, the
    folder listings and the modification times (integer milliseconds) are
    parameters; the cron-config file is the parsed JSON document, `None` when
    it does not exist. */
module BackupRetention {
  import opened Wrappers
  import opened Text
  import opened Document

  // ---------------------------------------------------------------------------
  // parseInt

  predicate IsHexDigit(c: char) {
    IsDigit(c) || 'a' <= c <= 'f' || 'A' <= c <= 'F'
  }

  /** A digit of base 16 (`hex`) or base 10. */
  predicate RadixDigit(c: char, hex: bool) {
    if hex then IsHexDigit(c) else IsDigit(c)
  }

  /** The value of one digit of the radix. */
  function RadixDigitValue(c: char, hex: bool): (d: nat)
    requires RadixDigit(c, hex)
    ensures d < (if hex then 16 else 10)
  {
    if IsDigit(c) then DigitValue(c)
    else if 'a' <= c <= 'f' then c as int - 'a' as int + 10
    else c as int - 'A' as int + 10
  }

  /** The number a string of digits of the radix denotes. */
  function RadixValue(s: string, hex: bool): nat
    requires forall i | 0 <= i < |s| :: RadixDigit(s[i], hex)
  {
    if s == [] then 0
    else RadixValue(s[..|s| - 1], hex) * (if hex then 16 else 10) + RadixDigitValue(s[|s| - 1], hex)
  }

  /** In base 10 this is the decimal value. */
  lemma {:induction false} RadixValueDecimal(s: string)
    requires AllDigits(s)
    ensures RadixValue(s, false) == DecimalValue(s)
  {
    if s != [] {
      RadixValueDecimal(s[..|s| - 1]);
    }
  }

  /** The length of the longest prefix of `s` made of digits of the radix. */
  function DigitRun(s: string, hex: bool): (n: nat)
    ensures n <= |s|
    ensures forall i | 0 <= i < n :: RadixDigit(s[i], hex)
    ensures n < |s| ==> !RadixDigit(s[n], hex)
  {
    if s == [] || !RadixDigit(s[0], hex) then 0 else 1 + DigitRun(s[1..], hex)
  }

  /** The number the leading digits of `v` denote, `None` when there are
      none. */
  function ReadDigits(v: string, hex: bool): Option<nat> {
    var n := DigitRun(v, hex);
    if n == 0 then None else Some(RadixValue(v[..n], hex))
  }

  /** Without a radix, `0x` or `0X` selects base 16. */
  predicate HexPrefix(u: string, autoRadix: bool) {
    autoRadix && |u| >= 2 && u[0] == '0' && (u[1] == 'x' || u[1] == 'X')
  }

  /** `parseInt(s)` (`autoRadix`) or `parseInt(s, 10)`: leading whitespace
      and one sign are skipped; without a radix, a `0x` or `0X` prefix
      selects base 16; the longest run of digits that follows is read, and
      the result is `None` (NaN) when there is none. */
  function ParseInt(s: string, autoRadix: bool): Option<int> {
    var t := TrimStart(s);
    var signed := |t| > 0 && (t[0] == '-' || t[0] == '+');
    var u := if signed then t[1..] else t;
    var hex := HexPrefix(u, autoRadix);
    var m := ReadDigits(if hex then u[2..] else u, hex);
    if m.None? then None
    else
      var k: int := m.value;
      Some(if signed && t[0] == '-' then -k else k)
  }

  /** The decimal spelling of a number parses back to it, with or without a
      radix. */
  lemma ParseSpelling(n: nat, autoRadix: bool)
    ensures ParseInt(NatToString(n), autoRadix) == Some(n)
  {
    var s := NatToString(n);
    assert !IsWhitespace(s[0]);
    assert TrimStart(s) == s;
    assert !(s[0] == '-' || s[0] == '+');
    assert |s| >= 2 ==> s[0] != '0';
    assert DigitRun(s, false) == |s|;
    assert s[..|s|] == s;
    RadixValueDecimal(s);
  }

  // ---------------------------------------------------------------------------
  // The retention prompt and the stored value

  /** The prompt's `validate`: `parseInt(input.trim())` is a number above 0. */
  predicate RetentionAccepted(answer: string) {
    var d := ParseInt(Trim(answer), true);
    d.Some? && d.value > 0
  }

  /** The number of days the prompt accepted. */
  function ValidatedDays(answer: string): (d: nat)
    requires RetentionAccepted(answer)
    ensures d > 0
  {
    ParseInt(Trim(answer), true).value
  }

  /** `parseInt(retentionPeriod, 10)` as `writeJson` stores it: NaN becomes
      `null`. */
  function StoredRetention(answer: string): (v: Value)
    ensures v.Null? || v.Num?
  {
    var d := ParseInt(answer, false);
    if d.Some? then Num(d.value) else Null
  }

  /** The record `configureSystemCronBackup` writes: no retention yet. */
  function CronConfig(serviceName: string, frequency: string, backupDir: string): Value {
    Obj(map["service" := Str(serviceName), "frequency" := Str(frequency),
            "retentionPeriod" := Num(0), "backupDir" := Str(backupDir)])
  }

  /** The four keys of the record are distinct. */
  lemma CronConfigKeys()
    ensures "retentionPeriod" != "service" && "retentionPeriod" != "frequency" && "retentionPeriod" != "backupDir"
    ensures "backupDir" != "service" && "backupDir" != "frequency" && "service" != "frequency"
  {
    assert |"retentionPeriod"| == 15 && |"backupDir"| == 9 && |"service"| == 7 && |"frequency"| == 9;
    assert "backupDir"[0] != "frequency"[0];
  }

  /** `cronConfig.retentionPeriod = v` on the record read from disk: `None`
      when the file is missing (nothing is written), `Failure` when the
      assignment throws. */
  function SetRetention(file: Option<Value>, v: Value): (r: Result<Option<Value>>)
    ensures r.Failure? <==> file.Some? && !(file.value.Obj? || file.value.Arr?)
    ensures r.Success? && r.value.Some? ==> file.Some? && r.value.value.Obj? == file.value.Obj?
    ensures r.Success? && r.value.Some? && r.value.value.Obj? ==>
              "retentionPeriod" in r.value.value.fields && r.value.value.fields["retentionPeriod"] == v
  {
    if file.None? then Success(None)
    else
      var saved := SetProperty(file.value, "retentionPeriod", v);
      if saved.Failure? then Failure(saved.error) else Success(Some(saved.value))
  }

  /** `configureDataPurge`'s update of the cron config, storing the answer
      re-parsed in base 10. The prompt only returns an accepted answer. */
  function ConfigureDataPurge(file: Option<Value>, answer: string): (r: Result<Option<Value>>)
    requires RetentionAccepted(answer)
    ensures r.Failure? <==> file.Some? && !(file.value.Obj? || file.value.Arr?)
    ensures r.Success? && r.value.Some? && r.value.value.Obj? ==>
              "retentionPeriod" in r.value.value.fields
              && r.value.value.fields["retentionPeriod"] == StoredRetention(answer)
  {
    SetRetention(file, StoredRetention(answer))
  }

  /** The update storing the number the prompt validated. */
  function ConfigureDataPurgeFixed(file: Option<Value>, answer: string): Result<Option<Value>>
    requires RetentionAccepted(answer)
  {
    SetRetention(file, Num(ValidatedDays(answer)))
  }

  /** Typing the decimal spelling of a positive number is accepted and stores
      that number. */
  lemma RetentionRoundTrip(n: nat)
    requires n > 0
    ensures RetentionAccepted(NatToString(n))
    ensures ValidatedDays(NatToString(n)) == n
    ensures StoredRetention(NatToString(n)) == Num(n)
  {
    var s := NatToString(n);
    assert NoWhitespace(s);
    ParseSpelling(n, true);
    ParseSpelling(n, false);
  }

  /** Only `retentionPeriod` changes: the service, frequency and backup
      folder of the record are kept, and no key is added or removed. */
  lemma PurgeChangesOnlyRetention(serviceName: string, frequency: string, backupDir: string, v: Value)
    ensures var r := SetRetention(Some(CronConfig(serviceName, frequency, backupDir)), v);
            var before := CronConfig(serviceName, frequency, backupDir).fields;
            && r.Success? && r.value.Some? && r.value.value.Obj?
            && r.value.value.fields.Keys == before.Keys
            && r.value.value.fields["retentionPeriod"] == v
            && r.value.value.fields["service"] == Str(serviceName)
            && r.value.value.fields["frequency"] == Str(frequency)
            && r.value.value.fields["backupDir"] == Str(backupDir)
  {
    CronConfigKeys();
    var before := CronConfig(serviceName, frequency, backupDir).fields;
    assert SetRetention(Some(CronConfig(serviceName, frequency, backupDir)), v)
           == Success(Some(Obj(before["retentionPeriod" := v])));
  }

  /** The answer `0x5` passes the prompt as 5 days (`parseInt` without a
      radix reads hexadecimal) but re-parses in base 10 as 0 (`parseInt(..,
      10)` stops at the `x`). */
  lemma HexAnswerParses()
    ensures RetentionAccepted("0x5") && ValidatedDays("0x5") == 5
    ensures StoredRetention("0x5") == Num(0)
  {
    var s := "0x5";
    assert !IsWhitespace(s[0]) && s[0] != '-' && s[0] != '+';
    assert TrimStart(s) == s;
    assert NoWhitespace(s);
    assert HexPrefix(s, true) && !HexPrefix(s, false);
    assert ReadDigits(s[2..], true) == Some(5) by {
      assert s[2..] == "5" && DigitRun("5", true) == 1 && "5"[..1] == "5";
      assert RadixValue("5", true) == 5 by { assert "5"[..0] == []; }
    }
    assert ReadDigits(s, false) == Some(0) by {
      assert DigitRun(s, false) == 1 && s[..1] == "0";
      assert RadixValue("0", false) == 0 by { assert "0"[..0] == []; }
    }
  }

  /** As written, the accepted answer `0x5` (5 days) is stored as 0, so a
      manual purge of that service then deletes nothing. */
  lemma HexRetentionStoredAsZero(serviceName: string, frequency: string, backupDir: string,
                                 listing: Option<seq<BackupFile>>, now: int)
    ensures RetentionAccepted("0x5") && ValidatedDays("0x5") == 5
    ensures var saved := ConfigureDataPurge(Some(CronConfig(serviceName, frequency, backupDir)), "0x5");
            && saved.Success? && saved.value.Some? && saved.value.value.Obj?
            && saved.value.value.fields["retentionPeriod"] == Num(0)
            && ManualPurge(saved.value, listing, now) == Success(RetentionUnset)
  {
    HexAnswerParses();
    PurgeChangesOnlyRetention(serviceName, frequency, backupDir, Num(0));
    var saved := SetRetention(Some(CronConfig(serviceName, frequency, backupDir)), Num(0));
    NoRetentionNoDeletion(saved.value.value, listing, now);
  }

  /** A record holding a positive retention purges the expired files of its
      backup folder. */
  lemma StoredDaysPurge(serviceName: string, frequency: string, backupDir: string, days: nat,
                        files: seq<BackupFile>, now: int)
    requires days > 0
    ensures var saved := SetRetention(Some(CronConfig(serviceName, frequency, backupDir)), Num(days));
            && saved.Success? && saved.value.Some?
            && ManualPurge(saved.value, Some(files), now) == Success(Purged(DeletedPaths(backupDir, files, now, days)))
  {
    PurgeChangesOnlyRetention(serviceName, frequency, backupDir, Num(days));
  }

  /** Storing the validated number, every accepted answer leaves a positive
      retention, and a manual purge then removes the expired backups. */
  lemma FixedStoresValidatedDays(answer: string, serviceName: string, frequency: string, backupDir: string,
                                 files: seq<BackupFile>, now: int)
    requires RetentionAccepted(answer)
    ensures var saved := ConfigureDataPurgeFixed(Some(CronConfig(serviceName, frequency, backupDir)), answer);
            && saved.Success? && saved.value.Some? && saved.value.value.Obj?
            && saved.value.value.fields["retentionPeriod"] == Num(ValidatedDays(answer))
            && ManualPurge(saved.value, Some(files), now)
               == Success(Purged(DeletedPaths(backupDir, files, now, ValidatedDays(answer))))
  {
    var d := ValidatedDays(answer);
    PurgeChangesOnlyRetention(serviceName, frequency, backupDir, Num(d));
    StoredDaysPurge(serviceName, frequency, backupDir, d, files, now);
  }

  // ---------------------------------------------------------------------------
  // Age of a backup

  /** `24 * 60 * 60 * 1000`. */
  const DayMs: nat := 86400000

  datatype BackupFile = BackupFile(name: string, mtime: int)

  /** `now - stats.mtimeMs > retentionThreshold`: strictly older than the
      retention period. */
  predicate Expired(now: int, mtime: int, days: int) {
    now - mtime > days * DayMs
  }

  /** The paths the loop removes, in listing order: exactly the expired
      files. */
  function DeletedPaths(dir: string, files: seq<BackupFile>, now: int, days: int): (r: seq<string>)
    ensures |r| <= |files|
    ensures forall p | p in r :: exists f | f in files :: Expired(now, f.mtime, days) && p == PathJoin(dir, f.name)
    ensures forall f | f in files && Expired(now, f.mtime, days) :: PathJoin(dir, f.name) in r
  {
    if files == [] then []
    else
      var rest := DeletedPaths(dir, files[1..], now, days);
      assert forall f | f in files[1..] :: f in files;
      if Expired(now, files[0].mtime, days) then [PathJoin(dir, files[0].name)] + rest else rest
  }

  /** A longer retention period deletes no more: whatever it deletes, a
      shorter one deletes too. */
  lemma LongerRetentionDeletesLess(dir: string, files: seq<BackupFile>, now: int, shorter: int, longer: int)
    requires shorter <= longer
    ensures forall p | p in DeletedPaths(dir, files, now, longer) :: p in DeletedPaths(dir, files, now, shorter)
  {
    forall p | p in DeletedPaths(dir, files, now, longer)
      ensures p in DeletedPaths(dir, files, now, shorter)
    {
      var f :| f in files && Expired(now, f.mtime, longer) && p == PathJoin(dir, f.name);
      assert Expired(now, f.mtime, shorter);
    }
  }

  /** What `manualPurge` does. */
  datatype PurgeOutcome = NoConfig | RetentionUnset | NoBackupDir | Purged(deleted: seq<string>)

  // ---------------------------------------------------------------------------
  // Number coercion of the stored retention

  /** `Number(s)` for a string, `None` being NaN: after trimming, the empty
      string is 0, and one optional sign followed by decimal digits is that
      integer. */
  function StringToNumber(s: string): (r: Option<int>)
    ensures Trim(s) == [] ==> r == Some(0)
  {
    var t := Trim(s);
    var signed := |t| > 0 && (t[0] == '-' || t[0] == '+');
    var u := if signed then t[1..] else t;
    if t == [] then Some(0)
    else if u == [] || DigitRun(u, false) < |u| then None
    else
      var k: int := RadixValue(u, false);
      Some(if signed && t[0] == '-' then -k else k)
  }

  /** `Number(v)` of a stored value, `None` being NaN: an array is first
      turned into its string, the elements joined with `,`, and an object
      into `[object Object]`. */
  function ToNumber(v: Value): (r: Option<int>)
    ensures v.Num? ==> r == Some(v.n)
    ensures v.Obj? ==> r.None?
  {
    match v
    case Null => Some(0)
    case Bool(b) => Some(if b then 1 else 0)
    case Num(n) => Some(n)
    case Str(s) => StringToNumber(s)
    case Arr(_) => StringToNumber(ToText(v))
    case Obj(_) => StringToNumber(ToText(v))
  }

  /** What the guard `!retentionPeriod || retentionPeriod <= 0` lets through:
      nothing (`Unset`), a positive number of days, or NaN, which passes the
      guard because NaN is not `<= 0`. */
  datatype Retention = Unset | Period(days: int) | NotANumber

  /** The guard on a stored retention, as JavaScript coerces it. */
  function RetentionDays(v: Option<Value>): (r: Retention)
    ensures r.Period? ==> r.days > 0
    ensures v.None? || !Truthy(v.value) ==> r.Unset?
    ensures v.Some? && v.value.Num? ==> r == (if v.value.n > 0 then Period(v.value.n) else Unset)
    ensures r.NotANumber? <==> v.Some? && Truthy(v.value) && ToNumber(v.value).None?
  {
    if v.None? || !Truthy(v.value) then Unset
    else
      var n := ToNumber(v.value);
      if n.None? then NotANumber
      else if n.value <= 0 then Unset
      else Period(n.value)
  }

  /** The decimal spelling of a number coerces back to it. */
  lemma StringToNumberSpelling(n: nat)
    ensures StringToNumber(NatToString(n)) == Some(n)
  {
    var s := NatToString(n);
    assert !IsWhitespace(s[0]) && !IsWhitespace(s[|s| - 1]);
    TrimNoop(s);
    assert !(s[0] == '-' || s[0] == '+');
    assert DigitRun(s, false) == |s|;
    RadixValueDecimal(s);
  }

  /** A one-element array of a number coerces to that number. */
  lemma SingletonNumber(n: nat)
    ensures ToNumber(Arr([Num(n)])) == Some(n)
  {
    var parts := seq(1, i requires 0 <= i < 1 => if [Num(n)][i].Null? then "" else ToText([Num(n)][i]));
    assert parts == [NatToString(n)];
    assert ToText(Arr([Num(n)])) == NatToString(n);
    StringToNumberSpelling(n);
  }

  /** A retention stored as a one-element array of a number is applied as
      the number itself. */
  lemma ArrayWrappedRetention(n: nat)
    ensures RetentionDays(Some(Arr([Num(n)]))) == RetentionDays(Some(Num(n)))
  {
    SingletonNumber(n);
  }

  /** A retention stored as a positive number's decimal string is applied
      as that number. */
  lemma StringRetention(n: nat)
    requires n > 0
    ensures RetentionDays(Some(Str(NatToString(n)))) == Period(n)
  {
    var s := NatToString(n);
    StringToNumberSpelling(n);
    assert Truthy(Str(s));
    assert ToNumber(Str(s)) == Some(n);
  }

  /** Two numbers in an array coerce to NaN: their string has a comma. */
  lemma PairNaN(a: nat, b: nat)
    ensures ToNumber(Arr([Num(a), Num(b)])) == None
  {
    var p, q := NatToString(a), NatToString(b);
    var t := ToText(Arr([Num(a), Num(b)]));
    assert t == p + [','] + q by {
      var parts := seq(2, i requires 0 <= i < 2 => if [Num(a), Num(b)][i].Null? then "" else ToText([Num(a), Num(b)][i]));
      assert parts == [p, q];
      assert Join(parts[1..], ',') == q;
    }
    assert !IsWhitespace(t[0]) && !IsWhitespace(t[|t| - 1]);
    TrimNoop(t);
    assert t[|p|] == ',';
    assert DigitRun(t, false) < |t|;
  }

  /** An empty array is `0` and stops the purge; an array of two numbers or
      an object is NaN and gets through the guard. */
  lemma ArrayRetentionShapes(a: nat, b: nat)
    ensures RetentionDays(Some(Arr([]))) == Unset
    ensures RetentionDays(Some(Arr([Num(a), Num(b)]))) == NotANumber
    ensures RetentionDays(Some(Obj(map[]))) == NotANumber
  {
    PairNaN(a, b);
    assert ToText(Arr([])) == "";
  }

  /** `manualPurge`: the record's retention and backup folder decide what is
      deleted; `listing` is the folder's contents, `None` when it does not
      exist. Reading a property of a `null` record throws. */
  function ManualPurge(file: Option<Value>, listing: Option<seq<BackupFile>>, now: int): (r: Result<PurgeOutcome>)
    ensures r.Failure? <==> file.Some? && file.value.Null?
    ensures file.None? ==> r == Success(NoConfig)
    ensures r.Success? && r.value.Purged? ==> listing.Some? && |r.value.deleted| <= |listing.value|
  {
    if file.None? then Success(NoConfig)
    else if file.value.Null? then Failure("Cannot read properties of null (reading 'retentionPeriod')")
    else
      var fields := if file.value.Obj? then file.value.fields else map[];
      var days := RetentionDays(Get(fields, "retentionPeriod"));
      var dir := Get(fields, "backupDir");
      if days.Unset? then Success(RetentionUnset)
      else if listing.None? || !(dir.Some? && dir.value.Str?) then Success(NoBackupDir)
      else if days.NotANumber? then Success(Purged([]))
      else Success(Purged(DeletedPaths(dir.value.s, listing.value, now, days.days)))
  }

  /** `enforceBackupRetention`: the paths deleted from `<root>/<svc>/backups`,
      `None` when that folder does not exist. Unlike `manualPurge` it has no
      guard on the period. */
  function EnforceBackupRetention(rootDir: string, serviceName: string, days: int,
                                  listing: Option<seq<BackupFile>>, now: int): (deleted: Option<seq<string>>)
    ensures deleted.Some? <==> listing.Some?
    ensures deleted.Some? ==>
              && (forall f | f in listing.value && Expired(now, f.mtime, days) ::
                    PathJoin(JoinSegment(JoinSegment(rootDir, serviceName), "backups"), f.name) in deleted.value)
              && |deleted.value| <= |listing.value|
  {
    var backupDir := JoinSegment(JoinSegment(rootDir, serviceName), "backups");
    if listing.None? then None else Some(DeletedPaths(backupDir, listing.value, now, days))
  }

  /** A record with no positive retention deletes nothing, whatever the
      folder holds; a freshly created record is such a record. */
  lemma NoRetentionNoDeletion(cfg: Value, listing: Option<seq<BackupFile>>, now: int)
    requires cfg.Obj?
    requires "retentionPeriod" !in cfg.fields || !Truthy(cfg.fields["retentionPeriod"])
             || (cfg.fields["retentionPeriod"].Num? && cfg.fields["retentionPeriod"].n <= 0)
    ensures ManualPurge(Some(cfg), listing, now) == Success(RetentionUnset)
  {
  }

  /** A freshly scheduled backup has retention 0, so a manual purge deletes
      nothing, while `enforceBackupRetention` with period 0 deletes every
      file older than now. */
  lemma ZeroRetentionContrast(serviceName: string, frequency: string, backupDir: string, rootDir: string,
                              files: seq<BackupFile>, now: int)
    ensures ManualPurge(Some(CronConfig(serviceName, frequency, backupDir)), Some(files), now)
            == Success(RetentionUnset)
    ensures var deleted := EnforceBackupRetention(rootDir, serviceName, 0, Some(files), now);
            deleted.Some? && forall f | f in files && f.mtime < now ::
              PathJoin(JoinSegment(JoinSegment(rootDir, serviceName), "backups"), f.name) in deleted.value
  {
    CronConfigKeys();
    var cfg := CronConfig(serviceName, frequency, backupDir);
    assert cfg.fields["retentionPeriod"] == Num(0);
  }

  /** With a positive retention and an existing folder, a manual purge
      deletes exactly the files of the folder older than the period. */
  lemma PurgeDeletesExpired(cfg: Value, files: seq<BackupFile>, now: int, days: nat, dir: string)
    requires cfg.Obj? && days > 0
    requires forall i, j | 0 <= i < j < |files| :: files[i].name != files[j].name
    requires Get(cfg.fields, "retentionPeriod") == Some(Num(days)) && Get(cfg.fields, "backupDir") == Some(Str(dir))
    ensures var r := ManualPurge(Some(cfg), Some(files), now);
            && r.Success? && r.value.Purged?
            && (forall f | f in files :: Expired(now, f.mtime, days) <==> PathJoin(dir, f.name) in r.value.deleted)
  {
    var r := ManualPurge(Some(cfg), Some(files), now);
    forall f | f in files && PathJoin(dir, f.name) in r.value.deleted
      ensures Expired(now, f.mtime, days)
    {
      var g :| g in files && Expired(now, g.mtime, days) && PathJoin(dir, f.name) == PathJoin(dir, g.name);
      assert f.name == g.name by {
        assert PathJoin(dir, f.name)[|dir| + 1..] == f.name;
        assert PathJoin(dir, g.name)[|dir| + 1..] == g.name;
      }
      var i :| 0 <= i < |files| && files[i] == f;
      var j :| 0 <= j < |files| && files[j] == g;
      assert i == j;
    }
  }

  /** A retention that coerces to NaN passes the guard but deletes nothing:
      no age is greater than a NaN threshold. */
  lemma NaNRetentionDeletesNothing(cfg: Value, files: seq<BackupFile>, now: int, dir: string)
    requires cfg.Obj? && Get(cfg.fields, "backupDir") == Some(Str(dir))
    requires var v := Get(cfg.fields, "retentionPeriod"); v.Some? && Truthy(v.value) && ToNumber(v.value).None?
    ensures ManualPurge(Some(cfg), Some(files), now) == Success(Purged([]))
  {
  }
}

=== FILE: check_config.dfy ===
/** `initConfigIfNotExists` of src/service/check-configration-file.service.ts:
    ask for a root directory when the registry has none. The typed answer is a
    parameter; the logo and the log lines are left out. */
module CheckConfig {
  import opened Wrappers
  import opened Document
  import Prompt
  import Registry

  /** The registry document saved, `None` when nothing is saved, `Failure`
      when reading or setting `rootDir` throws. */
  function InitConfigIfNotExists(file: Option<Value>, answer: string): (r: Result<Option<Value>>)
    ensures r.Failure? <==> file.Some? && !(file.value.Obj? || file.value.Arr?)
    ensures r == Success(None) <==> file.Some? && file.value.Obj? && IsSet(file.value.fields, "rootDir")
  {
    var cfg := Registry.LoadProjectConfig(file);
    if cfg.Null? then Failure("Cannot read properties of null (reading 'rootDir')")
    else if cfg.Obj? && IsSet(cfg.fields, "rootDir") then Success(None)
    else
      var saved := SetProperty(cfg, "rootDir", Prompt.InputAnswer(answer, Str(Registry.DefaultRootDir)));
      if saved.Failure? then Failure(saved.error) else Success(Some(saved.value))
  }

  /** A set root means nothing is written; a missing or falsy one is replaced
      by the answer (`./src` for an empty answer) and only that key changes. */
  lemma SetsRootOnlyIfMissing(cfg: Value, answer: string)
    requires cfg.Obj?
    ensures var r := InitConfigIfNotExists(Some(cfg), answer);
            && r.Success?
            && (IsSet(cfg.fields, "rootDir") <==> r.value.None?)
            && (r.value.Some? ==>
                  && r.value.value.Obj?
                  && r.value.value.fields.Keys == cfg.fields.Keys + {"rootDir"}
                  && (forall k | k in cfg.fields && k != "rootDir" ::
                        r.value.value.fields[k] == cfg.fields[k])
                  && r.value.value.fields["rootDir"]
                     == (if answer == "" then Str(Registry.DefaultRootDir) else Str(answer)))
  {
  }

  /** Without a registry file the saved document is the default one with the
      chosen root. */
  lemma FirstRun(answer: string)
    ensures InitConfigIfNotExists(None, answer)
            == Success(Some(Obj(map[Registry.DatabasesKey := EmptyObj,
                                    "rootDir" := Str(if answer == "" then Registry.DefaultRootDir else answer)])))
  {
  }

  /** After a run that saved, the root is set, so a second run with any answer
      writes nothing. */
  lemma SecondRunWritesNothing(file: Option<Value>, first: string, second: string)
    requires file.None? || file.value.Obj?
    ensures var r := InitConfigIfNotExists(file, first);
            && r.Success?
            && (r.value.Some? ==> InitConfigIfNotExists(r.value, second) == Success(None))
  {
    var cfg := Registry.LoadProjectConfig(file);
    var r := InitConfigIfNotExists(file, first);
    if r.value.Some? {
      var root := Prompt.InputAnswer(first, Str(Registry.DefaultRootDir));
      assert Truthy(root);
      assert r.value.value == Obj(cfg.fields["rootDir" := root]);
    }
  }
}

=== FILE: compose_helper.dfy ===
/** The older map-level compose helpers of src/helper/docker-compose.helper.ts:
    `updateDockerCompose`, which keys entries by the raw service name and has its
    own lookup tables, and `generateDockerCompose`, whose skeleton spells the
    networks section `network`. Its merge statements (lines 41-69) are the same
    as those of `buildDockerCompose`, so it shares `ManageDocker.Merge`; there is
    no `try`, so a `Failure` is a rejected call, and the file is written last in
    both cases. */
module ComposeHelper {
  import opened Wrappers
  import opened Text
  import opened Document
  import opened StringsUtils
  import ManageDocker

  /** `volumeMappingPaths[dbType] || '/data/unknown'`, keyed `postgresql` here. */
  function VolumePath(dbType: string): string {
    if dbType == "mysql" then "/var/lib/mysql"
    else if dbType == "postgresql" then "/var/lib/postgresql/data"
    else if dbType == "sqlite" then "/data/sqlite"
    else "/data/unknown"
  }

  /** `defaultPorts[dbType]`, with 0 standing for both SQLite's entry and
      `undefined`: both are falsy. */
  function PortTable(dbType: string): nat {
    if dbType == "mysql" then 3306
    else if dbType == "postgresql" then 5432
    else 0
  }

  /** `defaultPorts[dbType] || 3306`. */
  function DbPort(dbType: string): (p: nat)
    ensures p != 0
  {
    if PortTable(dbType) == 0 then 3306 else PortTable(dbType)
  }

  /** SQLite's table port is falsy, so it and every unknown type get 3306; the
      key is `postgresql`, so `postgres` falls back to 3306 as well. */
  lemma HelperPorts(dbType: string)
    ensures DbPort(dbType) == 5432 <==> dbType == "postgresql"
    ensures DbPort("sqlite") == 3306 && DbPort("postgres") == 3306 && DbPort("mysql") == 3306
    ensures VolumePath("postgres") == "/data/unknown"
  {
  }

  /** `${serviceName}-db`, with the name as given. */
  function ServiceKey(serviceName: string): string {
    serviceName + "-db"
  }

  /** `${serviceName}-data`, with the name as given. */
  function VolumeKey(serviceName: string): string {
    serviceName + "-data"
  }

  /** A name with whitespace gets a different key here than in
      `buildDockerCompose`, which sanitizes it first. */
  lemma RawKeysDifferFromSanitized(serviceName: string)
    requires !NoWhitespace(serviceName)
    ensures ServiceKey(serviceName) != ManageDocker.ServiceKey(serviceName)
    ensures VolumeKey(serviceName) != ManageDocker.VolumeKey(serviceName)
  {
    var k :| 0 <= k < |serviceName| && IsWhitespace(serviceName[k]);
    assert ServiceKey(serviceName)[k] == serviceName[k];
    assert VolumeKey(serviceName)[k] == serviceName[k];
    var s := SanitizeName(serviceName);
    if |s| > k {
      assert ManageDocker.ServiceKey(serviceName)[k] == s[k];
      assert ManageDocker.VolumeKey(serviceName)[k] == s[k];
    }
  }

  /** The build folder, fixed under `./src` whatever the configured root. */
  function ContextPath(serviceName: string): string {
    "./src/" + serviceName + "/docker"
  }

  function ServiceEntry(serviceName: string, dbType: string, port: nat): (v: Value)
    ensures v.Obj? && Truthy(v)
    ensures v.fields.Keys == {"container_name", "build", "restart", "env_file",
                              "networks", "ports", "volumes"}
    ensures v.fields["container_name"] == Str(ServiceKey(serviceName))
    ensures v.fields["build"] == Obj(map["context" := Str(ContextPath(serviceName)), "dockerfile" := Str("Dockerfile")])
    ensures v.fields["env_file"] == Str(ContextPath(serviceName) + "/.env")
    ensures v.fields["ports"] == Arr([Str(NatToString(port) + ":" + NatToString(DbPort(dbType)))])
    ensures v.fields["volumes"] == Arr([Str(VolumeKey(serviceName) + ":" + VolumePath(dbType))])
  {
    Obj(map[
      "container_name" := Str(ServiceKey(serviceName)),
      "build" := Obj(map["context" := Str(ContextPath(serviceName)), "dockerfile" := Str("Dockerfile")]),
      "restart" := Str("unless-stopped"),
      "env_file" := Str(ContextPath(serviceName) + "/.env"),
      "networks" := Arr([Str("db-network")]),
      "ports" := Arr([Str(NatToString(port) + ":" + NatToString(DbPort(dbType)))]),
      "volumes" := Arr([Str(VolumeKey(serviceName) + ":" + VolumePath(dbType))])
    ])
  }

  /** `updateDockerCompose`: the document written, or `Failure` when the call
      throws before writing. */
  function UpdateDockerCompose(file: Option<Value>, serviceName: string, dbType: string,
                               port: nat): (r: Result<Value>)
    ensures file.None? ==> r.Success? && r.value.Obj?
    ensures file.Some? && file.value.Arr? ==> r == Success(file.value)
    ensures r.Success? && (file.None? || file.value.Obj?) ==>
              r.value.Obj? && IsSet(r.value.fields, "services") && IsSet(r.value.fields, "volumes")
  {
    var entry := ServiceEntry(serviceName, dbType, port);
    ManageDocker.MergeOnSkeleton(ServiceKey(serviceName), VolumeKey(serviceName), entry);
    ManageDocker.Merge(file.GetOr(ManageDocker.Skeleton), ServiceKey(serviceName), VolumeKey(serviceName), entry)
  }

  /** The skeleton `generateDockerCompose` writes, with the key `network`. */
  const GeneratedSkeleton: Value :=
    Obj(map["version" := Str("3.8"), "services" := EmptyObj,
            "network" := ManageDocker.DefaultNetworks, "volumes" := EmptyObj])

  /** `generateDockerCompose`: writes its skeleton only when there is no file. */
  function GenerateDockerCompose(file: Option<Value>): (after: Option<Value>)
    ensures file.None? ==> after == Some(GeneratedSkeleton)
    ensures file.Some? ==> after == file
  {
    if file.None? then Some(GeneratedSkeleton) else file
  }

  /** Merging into the generated skeleton adds a separate `networks` section
      beside its `network` one. */
  lemma GeneratedSkeletonGetsBothNetworkKeys(serviceName: string, dbType: string, port: nat)
    ensures var r := UpdateDockerCompose(GenerateDockerCompose(None), serviceName, dbType, port);
            r.Success? && r.value.Obj?
            && r.value.fields.Keys == {"version", "services", "network", "networks", "volumes"}
            && r.value.fields["network"] == ManageDocker.DefaultNetworks
            && r.value.fields["networks"] == ManageDocker.DefaultNetworks
  {
    MergeOnGenerated(ServiceKey(serviceName), VolumeKey(serviceName), ServiceEntry(serviceName, dbType, port));
  }

  lemma MergeOnGenerated(sKey: string, vKey: string, entry: Value)
    requires Truthy(entry)
    ensures var r := ManageDocker.Merge(GeneratedSkeleton, sKey, vKey, entry);
            r.Success? && r.value.Obj?
            && r.value.fields.Keys == {"version", "services", "network", "networks", "volumes"}
            && r.value.fields["network"] == ManageDocker.DefaultNetworks
            && r.value.fields["networks"] == ManageDocker.DefaultNetworks
  {
    ManageDocker.MergeFailsExactly(GeneratedSkeleton, sKey, vKey, entry);
    var d := ManageDocker.Merge(GeneratedSkeleton, sKey, vKey, entry).value;
    ManageDocker.MergePreserves(GeneratedSkeleton, sKey, vKey, entry, d);
    NetworkKeysDistinct();
  }

  /** `network` is none of the section names, and `networks` is not a key of
      the generated skeleton. */
  lemma NetworkKeysDistinct()
    ensures "network" !in {"services", "volumes", "networks"}
    ensures "networks" !in GeneratedSkeleton.fields
  {
    assert |"network"| != |"services"| && |"network"| != |"networks"|;
    assert "network"[1] != "volumes"[1];
    assert "networks"[0] != "version"[0] && "networks"[0] != "services"[0];
    assert "networks"[0] != "volumes"[0] && |"networks"| != |"network"|;
  }

  /** The file is rewritten even when both keys are already set; what is written
      is then the document as loaded. */
  lemma RewritesWhenPresent(doc: Value, serviceName: string, dbType: string, port: nat)
    requires doc.Obj?
    requires IsSet(doc.fields, "services") && doc.fields["services"].Obj?
    requires IsSet(doc.fields, "volumes") && doc.fields["volumes"].Obj?
    requires IsSet(doc.fields, "networks")
    requires IsSet(doc.fields["services"].fields, ServiceKey(serviceName))
    requires IsSet(doc.fields["volumes"].fields, VolumeKey(serviceName))
    ensures UpdateDockerCompose(Some(doc), serviceName, dbType, port) == Success(doc)
  {
    ManageDocker.MergeWhenPresent(doc, ServiceKey(serviceName), VolumeKey(serviceName),
                                  ServiceEntry(serviceName, dbType, port));
  }
}

=== FILE: compose_text.dfy ===
/** The text-template variant of the compose update,
    src/service/update-docker-compose.service.ts, with the text skeleton of
    src/helper/generate-docker-compose.helper.ts. The file is edited as a
    string with `includes` and first-occurrence `replace`, whose replacement
    strings expand `$` patterns; `dbType` and `dbName` are accepted and
    ignored, so the block always maps the MySQL port and data directory. */
module ComposeText {
  import opened Wrappers
  import opened Text

  /** The file `generateDockerCompose` writes when there is none:
      `version: "3.8"\nservices:\nnetworks:\n  db-network:\nvolumes:\n`. */
  const TextSkeleton: string := SkeletonHead + "services:" + SkeletonRest
  const SkeletonHead: string := "version: \"3.8\"\n"
  const SkeletonRest: string := "\nnetworks:\n  db-network:" + VolumesSection

  /** `${serviceName}-db`. */
  function ServiceKey(serviceName: string): string {
    serviceName + "-db"
  }

  /** The lines of the service block up to its `networks:` key: the block
      opens with the service key. */
  function BlockHead(serviceName: string): string {
    "\n  " + ServiceKey(serviceName) + BlockSettings(serviceName)
  }

  /** The rest of the block's lines before `networks:`. */
  function BlockSettings(serviceName: string): string {
    ":\n    container_name: " + ServiceKey(serviceName)
    + "\n    build:" + "\n      context: ./src/" + serviceName + "/docker"
    + "\n      dockerfile: Dockerfile"
    + "\n    restart: unless-stopped"
    + "\n    env_file: ./src/" + serviceName + "/docker/.env" + "\n    "
  }

  /** The lines between the block's `networks:` and `volumes:` keys. */
  function BlockPorts(port: nat): string {
    "\n      - db-network" + "\n    ports:" + "\n      - \"" + NatToString(port) + ":3306\"" + "\n    "
  }

  /** The block's volume line and the indentation that closes the template. */
  function BlockVolumes(serviceName: string): string {
    "      - " + serviceName + "-data:/var/lib/mysql" + "\n  "
  }

  /** The `newService` template. */
  function ServiceBlock(serviceName: string, port: nat): string {
    BlockHead(serviceName) + "networks:" + BlockPorts(port) + "volumes:\n" + BlockVolumes(serviceName)
  }

  /** `  ${serviceName}-data:`. */
  function VolumeEntry(serviceName: string): string {
    "  " + serviceName + "-data:"
  }

  /** `content.replace('services:', 'services:\n' + newService)`. */
  function InsertService(text: string, serviceName: string, port: nat): (r: string)
    ensures !Contains(text, "services:") ==> r == text
    ensures '$' !in serviceName ==>
              r == ReplaceFirst(text, "services:", "services:\n" + ServiceBlock(serviceName, port))
  {
    if '$' in serviceName then Replace(text, "services:", "services:\n" + ServiceBlock(serviceName, port))
    else
      BlockNoDollar(serviceName, port);
      Replace(text, "services:", "services:\n" + ServiceBlock(serviceName, port))
  }

  /** Appends `networks:` and `volumes:` sections when the text has no such
      substring anywhere. */
  function EnsureSections(text: string): (r: string)
    ensures |text| <= |r| && r[..|text|] == text
    ensures Contains(r, "networks:") && Contains(r, "volumes:")
    ensures Contains(text, "networks:") && Contains(text, "volumes:") ==> r == text
  {
    SectionLiterals();
    var t1 := if Contains(text, "networks:") then text else text + NetworksSection;
    assert Contains(t1, "networks:") by {
      if !Contains(text, "networks:") {
        ContainsPrepend(text, NetworksSection, "networks:");
      }
    }
    var t2 := if Contains(t1, "volumes:") then t1 else t1 + VolumesSection;
    assert Contains(t2, "networks:") by {
      if !Contains(t1, "volumes:") {
        ContainsAppend(t1, VolumesSection, "networks:");
      }
    }
    assert Contains(t2, "volumes:") by {
      if !Contains(t1, "volumes:") {
        ContainsPrepend(t1, VolumesSection, "volumes:");
      }
    }
    t2
  }

  /** The sections appended when missing. */
  const NetworksSection: string := "\nnetworks:\n  db-network:\n"
  const VolumesSection: string := "\nvolumes:\n"

  /** Which keys the literal pieces hold. */
  lemma SectionLiterals()
    ensures Contains(NetworksSection, "networks:")
    ensures Contains(VolumesSection, "volumes:")
    ensures Contains("volumes:\n", "volumes:")
  {
    assert NetworksSection == "\n" + "networks:" + "\n  db-network:\n";
    OccursAtMiddle("\n", "networks:", "\n  db-network:\n");
    assert VolumesSection == "\n" + "volumes:" + "\n";
    OccursAtMiddle("\n", "volumes:", "\n");
    assert "volumes:\n" == "" + "volumes:" + "\n";
    OccursAtMiddle("", "volumes:", "\n");
  }

  /** Inserts the volume entry after the first `volumes:` line break unless the
      entry is already there. */
  function AddVolumeEntry(text: string, serviceName: string): (r: string)
    ensures Contains(text, VolumeEntry(serviceName)) || !Contains(text, "volumes:\n") ==> r == text
    ensures '$' !in serviceName && !Contains(text, VolumeEntry(serviceName)) ==>
              r == ReplaceFirst(text, "volumes:\n", "volumes:\n" + VolumeEntry(serviceName) + "\n")
  {
    if Contains(text, VolumeEntry(serviceName)) then text
    else
      TemplateNoDollar5();
      assert '$' in serviceName || '$' !in "volumes:\n" + VolumeEntry(serviceName) + "\n";
      Replace(text, "volumes:\n", "volumes:\n" + VolumeEntry(serviceName) + "\n")
  }

  /** The block template adds no `$` to the name. */
  lemma BlockNoDollar(serviceName: string, port: nat)
    requires '$' !in serviceName
    ensures '$' !in "services:\n" + ServiceBlock(serviceName, port)
  {
    assert '$' !in NatToString(port);
    TemplateNoDollar1();
    TemplateNoDollar2();
    TemplateNoDollar3();
    TemplateNoDollar4();
    TemplateNoDollar5();
    assert '$' !in BlockSettings(serviceName);
    assert '$' !in BlockHead(serviceName);
    assert '$' !in BlockPorts(port);
    assert '$' !in BlockVolumes(serviceName);
  }

  // The literal pieces of the templates, a few at a time: deciding that a
  // literal has no `$` costs the solver more than linear time in its length.

  lemma TemplateNoDollar1()
    ensures '$' !in ":\n    container_name: " && '$' !in "\n    build:"
    ensures '$' !in "\n      context: ./src/" && '$' !in "/docker"
  {
  }

  lemma TemplateNoDollar2()
    ensures '$' !in "\n      dockerfile: Dockerfile" && '$' !in "\n    restart: unless-stopped"
  {
  }

  lemma TemplateNoDollar3()
    ensures '$' !in "\n    env_file: ./src/" && '$' !in "/docker/.env" && '$' !in "\n    "
    ensures '$' !in "\n      - db-network" && '$' !in "\n    ports:"
  {
  }

  lemma TemplateNoDollar4()
    ensures '$' !in "\n      - \"" && '$' !in ":3306\"" && '$' !in "      - "
    ensures '$' !in "-data:/var/lib/mysql" && '$' !in "\n  "
  {
  }

  lemma TemplateNoDollar5()
    ensures '$' !in "services:\n" && '$' !in "-db" && '$' !in "networks:"
    ensures '$' !in "volumes:\n" && '$' !in "  " && '$' !in "-data:" && '$' !in "\n"
  {
  }

  /** The compose text that `updateDockerCompose` leaves behind, given the file
      content, or `None` when the file does not exist. */
  function UpdateDockerComposeText(file: Option<string>, serviceName: string, dbType: string,
                                   port: nat, dbName: string): (r: string)
    ensures Contains(file.GetOr(TextSkeleton), ServiceKey(serviceName)) ==> r == file.GetOr(TextSkeleton)
    ensures |r| >= |file.GetOr(TextSkeleton)|
  {
    var text := file.GetOr(TextSkeleton);
    if Contains(text, ServiceKey(serviceName)) then text
    else
      var s := InsertService(text, serviceName, port);
      assert |s| >= |text| by {
        if Contains(text, "services:") {
          InsertServiceGrows(text, serviceName, port);
        }
      }
      AddVolumeEntryNeverShrinks(EnsureSections(s), serviceName);
      AddVolumeEntry(EnsureSections(s), serviceName)
  }

  // ---------------------------------------------------------------------------
  // Names holding `$`

  /** `replace` expands the `$&` of a raw name into the text it matched
      (`services:` or `volumes:\n`). For a name holding `$&` and no other `$`,
      on a file without `$`, the written file has no `$` at all: the presence
      check never finds the service key, so each later update inserts the
      block once more and the file keeps growing. */
  lemma DollarNameNeverFound(text: string, a: string, b: string, dbType: string, port: nat,
                             dbName: string)
    requires '$' !in text && '$' !in a && '$' !in b && Contains(text, "services:")
    ensures var name := a + "$&" + b;
            var after := UpdateDockerComposeText(Some(text), name, dbType, port, dbName);
            var again := UpdateDockerComposeText(Some(after), name, dbType, port, dbName);
            && !Contains(after, ServiceKey(name))
            && again == AddVolumeEntry(EnsureSections(InsertService(after, name, port)), name)
            && |again| > |after|
  {
    var name := a + "$&" + b;
    var key := ServiceKey(name);
    assert key[|a|] == '$';
    var after := UpdateDockerComposeText(Some(text), name, dbType, port, dbName);
    if Contains(text, key) {
      ContainsChar(text, key, '$');
    }
    var s1 := InsertService(text, name, port);
    var s2 := EnsureSections(s1);
    assert after == AddVolumeEntry(s2, name);
    DollarNamePatterns(a, b, port);
    ReplaceNoDollar(text, "services:", "services:\n" + ServiceBlock(name, port));
    assert '$' !in NetworksSection && '$' !in VolumesSection;
    assert '$' !in s2;
    if !Contains(s2, VolumeEntry(name)) {
      ReplaceNoDollar(s2, "volumes:\n", "volumes:\n" + VolumeEntry(name) + "\n");
    }
    assert '$' !in after;
    if Contains(after, key) {
      ContainsChar(after, key, '$');
    }
    InsertServiceGrows(text, name, port);
    ContainsPrefix(s1, s2, "services:");
    AddVolumeEntryKeepsServices(s2, name);
    var again := UpdateDockerComposeText(Some(after), name, dbType, port, dbName);
    InsertServiceGrows(after, name, port);
    var t1 := InsertService(after, name, port);
    AddVolumeEntryNeverShrinks(EnsureSections(t1), name);
  }

  /** The two replacement strings for a name `a + "$&" + b`: every `$` in them
      opens `$&`. */
  lemma DollarNamePatterns(a: string, b: string, port: nat)
    requires '$' !in a && '$' !in b
    ensures SubjectPatternsOnly("services:\n" + ServiceBlock(a + "$&" + b, port))
    ensures SubjectPatternsOnly("volumes:\n" + VolumeEntry(a + "$&" + b) + "\n")
  {
    var n := a + "$&" + b;
    assert SubjectPatternsOnly(n);
    TemplateNoDollar1();
    TemplateNoDollar2();
    TemplateNoDollar3();
    TemplateNoDollar4();
    TemplateNoDollar5();
    var key := n + "-db";
    Patterns(n, "-db");
    var settings := ":\n    container_name: " + key + "\n    build:" + "\n      context: ./src/" + n;
    Patterns(":\n    container_name: ", key);
    Patterns(":\n    container_name: " + key, "\n    build:");
    Patterns(":\n    container_name: " + key + "\n    build:", "\n      context: ./src/");
    Patterns(":\n    container_name: " + key + "\n    build:" + "\n      context: ./src/", n);
    var settings2 := settings + "/docker" + "\n      dockerfile: Dockerfile" + "\n    restart: unless-stopped"
                     + "\n    env_file: ./src/";
    Patterns(settings, "/docker");
    Patterns(settings + "/docker", "\n      dockerfile: Dockerfile");
    Patterns(settings + "/docker" + "\n      dockerfile: Dockerfile", "\n    restart: unless-stopped");
    Patterns(settings + "/docker" + "\n      dockerfile: Dockerfile" + "\n    restart: unless-stopped",
             "\n    env_file: ./src/");
    Patterns(settings2, n);
    Patterns(settings2 + n, "/docker/.env");
    Patterns(settings2 + n + "/docker/.env", "\n    ");
    assert BlockSettings(n) == settings2 + n + "/docker/.env" + "\n    ";
    Patterns("\n  ", key);
    Patterns("\n  " + key, BlockSettings(n));
    var head := BlockHead(n);
    Patterns(head, "networks:");
    assert '$' !in BlockPorts(port);
    Patterns(head + "networks:", BlockPorts(port));
    Patterns(head + "networks:" + BlockPorts(port), "volumes:\n");
    Patterns("      - ", n);
    Patterns("      - " + n, "-data:/var/lib/mysql");
    Patterns("      - " + n + "-data:/var/lib/mysql", "\n  ");
    Patterns(head + "networks:" + BlockPorts(port) + "volumes:\n", BlockVolumes(n));
    Patterns("services:\n", ServiceBlock(n, port));
    Patterns("  ", n);
    Patterns("  " + n, "-data:");
    Patterns("volumes:\n", VolumeEntry(n));
    Patterns("volumes:\n" + VolumeEntry(n), "\n");
  }

  /** `SubjectPatternsConcat`, for parts that are either free of `$` or meet
      the condition themselves. */
  lemma Patterns(x: string, y: string)
    requires '$' !in x || SubjectPatternsOnly(x)
    requires '$' !in y || SubjectPatternsOnly(y)
    ensures SubjectPatternsOnly(x + y)
  {
    SubjectPatternsConcat(x, y);
  }

  /** A text holding `services:` grows when the block is inserted: the
      replacement starts with `services:\n`, which has no `$`. */
  lemma InsertServiceGrows(text: string, serviceName: string, port: nat)
    requires Contains(text, "services:")
    ensures |InsertService(text, serviceName, port)| > |text|
    ensures Contains(InsertService(text, serviceName, port), "services:")
  {
    var i := IndexOf(text, "services:").value;
    assert IsFirstOccurrence(text, "services:", i);
    var before, after := text[..i], text[i + 9..];
    TemplateNoDollar5();
    SubstituteLiteralPrefix("services:\n", ServiceBlock(serviceName, port), before, "services:", after);
    var x := Substitute(ServiceBlock(serviceName, port), before, "services:", after);
    var r := InsertService(text, serviceName, port);
    assert r == before + ("services:\n" + x) + after;
    assert r[i..i + 9] == "services:";
    assert OccursAt(r, "services:", i);
  }

  /** A prefix's substrings are the whole text's. */
  lemma ContainsPrefix(s: string, t: string, q: string)
    requires Contains(s, q) && |s| <= |t| && t[..|s|] == s
    ensures Contains(t, q)
  {
    var j :| 0 <= j <= |s| - |q| && OccursAt(s, q, j);
    assert t[j..j + |q|] == s[j..j + |q|];
    assert OccursAt(t, q, j);
  }

  /** The volume entry is inserted right after a `volumes:\n`, so it keeps
      every `services:` substring, and never shortens the text. */
  lemma AddVolumeEntryKeepsServices(text: string, serviceName: string)
    requires Contains(text, "services:")
    ensures Contains(AddVolumeEntry(text, serviceName), "services:")
  {
    if !Contains(text, VolumeEntry(serviceName)) && Contains(text, "volumes:\n") {
      var k, x := VolumeInsertPoint(text, serviceName);
      InsertKeepsContains(text, k, x, "services:");
    }
  }

  lemma AddVolumeEntryNeverShrinks(text: string, serviceName: string)
    ensures |AddVolumeEntry(text, serviceName)| >= |text|
  {
    if !Contains(text, VolumeEntry(serviceName)) && Contains(text, "volumes:\n") {
      var k, x := VolumeInsertPoint(text, serviceName);
    }
  }

  /** Where the volume step inserts, and what: its replacement starts with the
      matched `volumes:\n`, which has no `$`. */
  lemma VolumeInsertPoint(text: string, serviceName: string) returns (k: nat, x: string)
    requires !Contains(text, VolumeEntry(serviceName)) && Contains(text, "volumes:\n")
    ensures 0 < k <= |text| && text[k - 1] == '\n'
    ensures AddVolumeEntry(text, serviceName) == text[..k] + x + text[k..]
  {
    TemplateNoDollar5();
    var rest := VolumeEntry(serviceName) + "\n";
    assert "volumes:\n" + VolumeEntry(serviceName) + "\n" == "volumes:\n" + rest;
    k, x := ReplaceAfterMatch(text, "volumes:\n", rest);
    assert text[k - 1] == text[k - 9..k][8];
  }

  // ---------------------------------------------------------------------------
  // The presence check

  /** The presence check is a substring test: a file that mentions any longer
      name ending in the service's (`oauth-db` for `auth`) is left untouched. */
  lemma SubstringNameSkips(text: string, prefix: string, serviceName: string, dbType: string,
                           port: nat, dbName: string)
    requires Contains(text, prefix + ServiceKey(serviceName))
    ensures UpdateDockerComposeText(Some(text), serviceName, dbType, port, dbName) == text
  {
    var q := prefix + ServiceKey(serviceName);
    assert q[|prefix|..] == ServiceKey(serviceName);
    assert OccursAt(q, ServiceKey(serviceName), |prefix|);
    ContainsTransitive(text, q, ServiceKey(serviceName));
  }

  // ---------------------------------------------------------------------------
  // The block insertion

  /** Replacing the first occurrence of `p` by `x + (u + b + v)`, regrouped
      around `b`. */
  lemma SplitReplacement(t: string, p: string, i: nat, x: string, u: string, b: string, v: string)
    requires IsFirstOccurrence(t, p, i)
    ensures ReplaceFirst(t, p, x + (u + b + v)) == (t[..i] + x + u) + b + (v + t[i + |p|..])
  {
    assert t[..i] + (x + (u + b + v)) + t[i + |p|..] == (t[..i] + x + u) + b + (v + t[i + |p|..]);
  }

  /** The text after inserting the block splits around the block's own
      `volumes:` line. */
  lemma InsertedParts(text: string, i: nat, serviceName: string, port: nat)
      returns (pre: string, post: string)
    requires IsFirstOccurrence(text, "services:", i)
    requires '$' !in serviceName
    ensures pre == text[..i] + "services:\n" + (BlockHead(serviceName) + "networks:" + BlockPorts(port))
    ensures post == BlockVolumes(serviceName) + text[i + 9..]
    ensures InsertService(text, serviceName, port) == pre + "volumes:\n" + post
  {
    SplitReplacement(text, "services:", i, "services:\n",
                     BlockHead(serviceName) + "networks:" + BlockPorts(port),
                     "volumes:\n", BlockVolumes(serviceName));
    pre := text[..i] + "services:\n" + (BlockHead(serviceName) + "networks:" + BlockPorts(port));
    post := BlockVolumes(serviceName) + text[i + 9..];
  }

  /** Once the block is in, the text has a `networks:` and a `volumes:`
      substring, so nothing is appended. */
  lemma NoAppendAfterInsert(text: string, serviceName: string, port: nat)
    requires Contains(text, "services:") && '$' !in serviceName
    ensures EnsureSections(InsertService(text, serviceName, port)) == InsertService(text, serviceName, port)
  {
    var i := IndexOf(text, "services:").value;
    var pre, post := InsertedParts(text, i, serviceName, port);
    var u := BlockHead(serviceName) + "networks:" + BlockPorts(port);
    ContainsSelf("networks:");
    ContainsPrepend(BlockHead(serviceName), "networks:", "networks:");
    ContainsAppend(BlockHead(serviceName) + "networks:", BlockPorts(port), "networks:");
    ContainsPrepend(text[..i] + "services:\n", u, "networks:");
    ContainsAppend(pre, "volumes:\n", "networks:");
    ContainsAppend(pre + "volumes:\n", post, "networks:");
    SectionLiterals();
    ContainsPrepend(pre, "volumes:\n", "volumes:");
    ContainsAppend(pre + "volumes:\n", post, "volumes:");
  }

  /** The block key survives the volume entry insertion for a name without line
      breaks: no occurrence of it can straddle the text inserted after a line
      break. */
  lemma AddVolumeEntryKeeps(text: string, serviceName: string, q: string)
    requires Contains(text, q) && '\n' !in q && '$' !in serviceName
    ensures Contains(AddVolumeEntry(text, serviceName), q)
  {
    if !Contains(text, VolumeEntry(serviceName)) {
      assert "volumes:\n" + VolumeEntry(serviceName) + "\n" == "volumes:\n" + (VolumeEntry(serviceName) + "\n");
      InsertAfterKeepsContains(text, "volumes:\n", VolumeEntry(serviceName) + "\n", q);
    }
  }

  /** After a call on a text with a `services:` key, the service key is in the
      file, so running the update again leaves it unchanged. */
  lemma UpdateTextIdempotent(file: Option<string>, serviceName: string, dbType: string,
                             port: nat, dbName: string)
    requires Contains(file.GetOr(TextSkeleton), "services:")
    requires '\n' !in serviceName && '$' !in serviceName
    ensures var after := UpdateDockerComposeText(file, serviceName, dbType, port, dbName);
            Contains(after, ServiceKey(serviceName))
            && UpdateDockerComposeText(Some(after), serviceName, dbType, port, dbName) == after
  {
    var text := file.GetOr(TextSkeleton);
    var key := ServiceKey(serviceName);
    if !Contains(text, key) {
      var s := InsertService(text, serviceName, port);
      KeyInBlock(text, serviceName, port);
      NoAppendAfterInsert(text, serviceName, port);
      assert '\n' !in key by {
        assert key == serviceName + "-db";
      }
      AddVolumeEntryKeeps(s, serviceName, key);
    }
  }

  /** The inserted block carries the service key. */
  lemma KeyInBlock(text: string, serviceName: string, port: nat)
    requires Contains(text, "services:") && '$' !in serviceName
    ensures Contains(InsertService(text, serviceName, port), ServiceKey(serviceName))
  {
    var i := IndexOf(text, "services:").value;
    var pre, post := InsertedParts(text, i, serviceName, port);
    var key := ServiceKey(serviceName);
    var h := BlockHead(serviceName);
    ContainsSelf(key);
    ContainsPrepend("\n  ", key, key);
    ContainsAppend("\n  " + key, BlockSettings(serviceName), key);
    ContainsAppend(h, "networks:", key);
    ContainsAppend(h + "networks:", BlockPorts(port), key);
    ContainsPrepend(text[..i] + "services:\n", h + "networks:" + BlockPorts(port), key);
    ContainsAppend(pre, "volumes:\n", key);
    ContainsAppend(pre + "volumes:\n", post, key);
  }

  // ---------------------------------------------------------------------------
  // Where the volume entry lands

  /** The volume entry is inserted after the first `volumes:` line break, and
      the block's own `    volumes:` line comes before any section that
      follows `services:`: everything after the replaced `services:` key is
      left as it was, the top-level `volumes:` section included. */
  lemma VolumeEntryStaysInBlock(text: string, i: nat, serviceName: string, dbType: string,
                                port: nat, dbName: string)
    requires IsFirstOccurrence(text, "services:", i)
    requires !Contains(text, ServiceKey(serviceName)) && '$' !in serviceName
    ensures EndsWith(UpdateDockerComposeText(Some(text), serviceName, dbType, port, dbName), text[i + 9..])
  {
    var pre, post := InsertedParts(text, i, serviceName, port);
    var s := InsertService(text, serviceName, port);
    assert Contains(text, "services:");
    NoAppendAfterInsert(text, serviceName, port);
    var tail := text[i + 9..];
    assert EndsWith(s, tail) by {
      assert EndsWith(tail, tail);
      PrependKeepsEnding(BlockVolumes(serviceName), tail, tail);
      PrependKeepsEnding(pre + "volumes:\n", post, tail);
    }
    if !Contains(s, VolumeEntry(serviceName)) {
      OccursAtMiddle(pre, "volumes:\n", post);
      ReplaceKeepsEnding(s, "volumes:\n", "volumes:\n" + VolumeEntry(serviceName) + "\n", |pre|, tail);
    }
  }

  /** Replacing the first occurrence of a pattern that occurs before the last
      `|tail|` characters keeps the ending. */
  lemma ReplaceKeepsEnding(s: string, p: string, rep: string, k: nat, tail: string)
    requires OccursAt(s, p, k) && k + |p| + |tail| <= |s| && EndsWith(s, tail)
    ensures EndsWith(ReplaceFirst(s, p, rep), tail)
  {
    var j := IndexOf(s, p).value;
    assert j <= k;
    SuffixKeepsEnding(s, j + |p|, tail);
    assert ReplaceFirst(s, p, rep) == (s[..j] + rep) + s[j + |p|..];
    PrependKeepsEnding(s[..j] + rep, s[j + |p|..], tail);
  }

  /** On a missing file the new volume is never declared at the top level: the
      written file still ends with the skeleton's empty `volumes:` section. */
  lemma MissingFileVolumeUndeclared(serviceName: string, dbType: string, port: nat, dbName: string)
    requires '$' !in serviceName
    ensures EndsWith(UpdateDockerComposeText(None, serviceName, dbType, port, dbName), VolumesSection)
  {
    var t := TextSkeleton;
    assert EndsWith(VolumesSection, VolumesSection);
    PrependKeepsEnding("\nnetworks:\n  db-network:", VolumesSection, VolumesSection);
    PrependKeepsEnding(SkeletonHead + "services:", SkeletonRest, VolumesSection);
    if !Contains(t, ServiceKey(serviceName)) {
      OccursAtMiddle(SkeletonHead, "services:", SkeletonRest);
      var i := IndexOf(t, "services:").value;
      assert i <= |SkeletonHead|;
      VolumeEntryStaysInBlock(t, i, serviceName, dbType, port, dbName);
      SuffixKeepsEnding(t, i + 9, VolumesSection);
      EndingOfEnding(UpdateDockerComposeText(None, serviceName, dbType, port, dbName),
                     t[i + 9..], VolumesSection);
    }
  }

  lemma SuffixKeepsEnding(s: string, k: nat, tail: string)
    requires EndsWith(s, tail) && k + |tail| <= |s|
    ensures EndsWith(s[k..], tail)
  {
    assert s[k..][|s[k..]| - |tail|..] == s[|s| - |tail|..];
  }

  lemma PrependKeepsEnding(a: string, b: string, tail: string)
    requires EndsWith(b, tail)
    ensures EndsWith(a + b, tail)
  {
    assert (a + b)[|a + b| - |tail|..] == b[|b| - |tail|..];
  }

  lemma EndingOfEnding(s: string, t: string, u: string)
    requires EndsWith(s, t) && EndsWith(t, u)
    ensures EndsWith(s, u)
  {
    assert s[|s| - |u|..] == s[|s| - |t|..][|t| - |u|..];
  }

  // ---------------------------------------------------------------------------
  // The corrected insertion

  /** `\nvolumes:\n` only matches a top-level `volumes:` line: the block's lines
      are indented. */
  const TopVolumes: string := "\nvolumes:\n"

  /** The volume step matching the top-level line: append the section when
      there is no top-level `volumes:` line, then insert the entry under it. */
  function AddVolumeEntryFixed(text: string, serviceName: string): (r: string)
    ensures Contains(r, VolumeEntry(serviceName))
    ensures !Contains(text, VolumeEntry(serviceName)) ==>
              Contains(r, TopVolumes + VolumeEntry(serviceName) + "\n")
  {
    var t := if Contains(text, TopVolumes) then text else text + TopVolumes;
    assert Contains(t, TopVolumes) by {
      if !Contains(text, TopVolumes) {
        assert OccursAt(t, TopVolumes, |text|);
      }
    }
    if Contains(text, VolumeEntry(serviceName)) then
      text
    else
      var rep := TopVolumes + VolumeEntry(serviceName) + "\n";
      var r := ReplaceFirst(t, TopVolumes, rep);
      ReplacedContainsRep(t, TopVolumes, rep);
      EntryInReplacement(serviceName);
      ContainsTransitive(r, rep, VolumeEntry(serviceName));
      r
  }

  lemma EntryInReplacement(serviceName: string)
    ensures Contains(TopVolumes + VolumeEntry(serviceName) + "\n", VolumeEntry(serviceName))
  {
    var rep := TopVolumes + VolumeEntry(serviceName) + "\n";
    assert rep[10..10 + |VolumeEntry(serviceName)|] == VolumeEntry(serviceName);
    assert OccursAt(rep, VolumeEntry(serviceName), 10);
  }

  /** After replacing a pattern that occurs, the replacement is in the text. */
  lemma ReplacedContainsRep(t: string, p: string, rep: string)
    requires Contains(t, p)
    ensures Contains(ReplaceFirst(t, p, rep), rep)
  {
    var j := IndexOf(t, p).value;
    var r := ReplaceFirst(t, p, rep);
    assert r == t[..j] + rep + t[j + |p|..];
    assert r[j..j + |rep|] == rep;
    assert OccursAt(r, rep, j);
  }

  /** The update with the volume step corrected. */
  function UpdateDockerComposeTextFixed(file: Option<string>, serviceName: string, dbType: string,
                                        port: nat, dbName: string): string
  {
    var text := file.GetOr(TextSkeleton);
    if Contains(text, ServiceKey(serviceName)) then text
    else AddVolumeEntryFixed(EnsureSections(InsertService(text, serviceName, port)), serviceName)
  }

  /** With the correction, adding a service to a file that lacked it declares
      its volume right under a top-level `volumes:` line, whenever the entry was
      not already in the text. */
  lemma FixedDeclaresVolume(file: Option<string>, serviceName: string, dbType: string,
                            port: nat, dbName: string)
    requires var text := file.GetOr(TextSkeleton);
             !Contains(text, ServiceKey(serviceName))
             && !Contains(EnsureSections(InsertService(text, serviceName, port)), VolumeEntry(serviceName))
    ensures Contains(UpdateDockerComposeTextFixed(file, serviceName, dbType, port, dbName),
                     TopVolumes + VolumeEntry(serviceName) + "\n")
  {
  }

  /** The correction changes only the volume step. */
  lemma FixedDiffersOnlyInVolumeStep(file: Option<string>, serviceName: string, dbType: string,
                                     port: nat, dbName: string)
    ensures var text := file.GetOr(TextSkeleton);
            Contains(text, ServiceKey(serviceName)) ==>
              UpdateDockerComposeTextFixed(file, serviceName, dbType, port, dbName)
              == UpdateDockerComposeText(file, serviceName, dbType, port, dbName) == text
  {
  }
}

=== FILE: configure.dfy ===
/** The settings menu of src/core/configure.core.ts: view, change the root
    directory, reset, back. The chosen action and the typed answer are
    parameters; the follow-up menu and its recursion are left out. Each
    transition returns the registry document it saves, `None` when it saves
    nothing, or `Failure` when it throws first. */
module Configure {
  import opened Wrappers
  import opened Document
  import Prompt
  import Text
  import Registry

  /** The menu choice; `Other` is any value outside the four choices. */
  datatype ConfigAction = View | ChangeRootDir(answer: string) | Reset | Back | Other

  /** `currentConfig.rootDir || './src'`; reading a property of `null` throws. */
  function DefaultRootOffer(cfg: Value): Result<Value> {
    if cfg.Null? then Failure("Cannot read properties of null (reading 'rootDir')")
    else if cfg.Obj? && IsSet(cfg.fields, "rootDir") then Success(cfg.fields["rootDir"])
    else Success(Str(Registry.DefaultRootDir))
  }

  /** The document `reset` saves. */
  const ResetConfig: Value :=
    Obj(map["rootDir" := Str(Registry.DefaultRootDir), Registry.DatabasesKey := EmptyObj])

  /** The document saved by one pass through the menu. */
  function ConfigureCLI(file: Option<Value>, action: ConfigAction): (r: Result<Option<Value>>)
    ensures r.Failure? <==> action.ChangeRootDir? && file.Some? && !(file.value.Obj? || file.value.Arr?)
    ensures r.Success? && r.value.Some? ==> action.ChangeRootDir? || action.Reset?
    ensures action.Reset? ==> r == Success(Some(ResetConfig))
  {
    var cfg := Registry.LoadProjectConfig(file);
    match action
    case ChangeRootDir(answer) =>
      var offer := DefaultRootOffer(cfg);
      if offer.Failure? then Failure(offer.error)
      else
        var saved := SetProperty(cfg, "rootDir", Prompt.InputAnswer(answer, offer.value));
        if saved.Failure? then Failure(saved.error) else Success(Some(saved.value))
    case Reset => Success(Some(ResetConfig))
    case _ => Success(None)
  }

  /** Viewing, going back and an unknown choice never save. */
  lemma OnlyTwoActionsSave(file: Option<Value>, action: ConfigAction)
    ensures ConfigureCLI(file, action).Success? && ConfigureCLI(file, action).value.Some?
            ==> action.ChangeRootDir? || action.Reset?
    ensures !action.ChangeRootDir? ==> ConfigureCLI(file, action).Success?
  {
  }

  /** Changing the root on an object document replaces `rootDir` and nothing
      else: every other key, the registered entries included, keeps its value. */
  lemma ChangeRootOnlyRoot(cfg: Value, answer: string)
    requires cfg.Obj?
    ensures var r := ConfigureCLI(Some(cfg), ChangeRootDir(answer));
            && r.Success? && r.value.Some? && r.value.value.Obj?
            && r.value.value.fields.Keys == cfg.fields.Keys + {"rootDir"}
            && (forall k | k in cfg.fields && k != "rootDir" :: r.value.value.fields[k] == cfg.fields[k])
            && (answer != "" ==> r.value.value.fields["rootDir"] == Str(answer))
  {
  }

  /** An empty answer takes the offered default: the current root when it is
      set, so the saved document is the loaded one, and `./src` otherwise. */
  lemma EmptyAnswerKeepsRoot(cfg: Value)
    requires cfg.Obj?
    ensures var r := ConfigureCLI(Some(cfg), ChangeRootDir(""));
            && r.Success? && r.value.Some?
            && (IsSet(cfg.fields, "rootDir") ==> r.value.value == cfg)
            && (!IsSet(cfg.fields, "rootDir") ==>
                  r.value.value == Obj(cfg.fields["rootDir" := Str(Registry.DefaultRootDir)]))
  {
    if IsSet(cfg.fields, "rootDir") {
      assert cfg.fields["rootDir" := cfg.fields["rootDir"]] == cfg.fields;
    }
  }

  /** The entries' path fields are not recomputed: after moving the root, a
      registered database still resolves to the directories under the old
      root, beside the new `rootDir`. */
  lemma ChangeRootKeepsEntryPaths(cfg: Value, answer: string, dbName: string, orm: string,
                                  oldRoot: string, templatesRoot: string)
    requires Registry.HasDatabases(cfg) && "rootDir" in cfg.fields && answer != ""
    requires cfg.fields[Registry.DatabasesKey].fields == map[dbName := Registry.DatabaseEntry(dbName, orm, oldRoot, templatesRoot)]
    ensures var r := ConfigureCLI(Some(cfg), ChangeRootDir(answer));
            && r.Success? && r.value.Some?
            && var paths := Registry.GetConfigPaths(r.value, dbName);
            && paths.Success? && !paths.value.loggedMissing
            && paths.value.fields["rootDir"] == Str(answer)
            && paths.value.fields["migrationsDir"]
               == Str(Registry.EntryDir(oldRoot, dbName, orm, "migrations"))
  {
    var saved := ConfigureCLI(Some(cfg), ChangeRootDir(answer)).value.value;
    ChangeRootOnlyRoot(cfg, answer);
    assert "rootDir" != Registry.DatabasesKey by { assert "rootDir"[0] != Registry.DatabasesKey[0]; }
    Registry.ConfigPathsLookup(saved, dbName);
  }

  /** Reset discards the loaded document whatever it was: the saved document
      has the default root and no entries, so every lookup misses: it logs
      the error for every name but the inherited `Object.prototype` ones. */
  lemma ResetForgetsEverything(file: Option<Value>, dbName: string)
    ensures var r := ConfigureCLI(file, Reset);
            && r == Success(Some(ResetConfig))
            && Registry.HasDatabases(ResetConfig)
            && ResetConfig.fields[Registry.DatabasesKey].fields == map[]
            && var paths := Registry.GetConfigPaths(Some(ResetConfig), dbName);
            && paths.Success? && (paths.value.loggedMissing <==> dbName !in ObjectPrototypeNames)
            && paths.value.fields == map["rootDir" := Str(Registry.DefaultRootDir)]
  {
    assert "rootDir" != Registry.DatabasesKey by { assert "rootDir"[0] != Registry.DatabasesKey[0]; }
    Registry.ConfigPathsLookup(ResetConfig, dbName);
  }
}

=== FILE: create_database.dfy ===
/** `createDatabaseAction` of src/core/create-database.core.ts: the names it
    derives, the display-to-engine map, and the three scaffolding steps it
    runs in order with one allocated port. The steps are recorded as calls;
    what each does is `ScaffoldDatabase`, `SequelizeFiles.ScaffoldSequelizeFiles`
    and `ScaffoldCompose`. The selected display name and the typed service
    names are parameters; `compose` is the compose file's text, if any. */
module CreateDatabase {
  import opened Wrappers
  import opened Text
  import opened Document
  import Prompt
  import AllocatePort
  import ManageDocker
  import ScaffoldDatabase

  /** `databaseMap[dbType]`: the engine name for a display name, `None` for
      `undefined`. */
  function DatabaseMap(display: string): (r: Option<string>)
    ensures r.Some? <==> display in {"MySQL", "PostgreSQL", "SQLite"}
    ensures r == Some("mysql") <==> display == "MySQL"
    ensures r == Some("postgres") <==> display == "PostgreSQL"
    ensures r == Some("sqlite") <==> display == "SQLite"
  {
    if display == "MySQL" then Some("mysql")
    else if display == "PostgreSQL" then Some("postgres")
    else if display == "SQLite" then Some("sqlite")
    else None
  }

  /** `${serviceName}_db`. */
  function DbName(serviceName: string): (r: string)
    ensures |r| == |serviceName| + 3
    ensures r[..|serviceName|] == serviceName && r[|serviceName|..] == "_db"
  {
    serviceName + "_db"
  }

  /** One awaited scaffolding call with its arguments. */
  datatype SetupStep =
    | ScaffoldDatabaseStep(serviceName: string, dbType: Option<string>, dbName: string, port: nat)
    | ScaffoldSequelizeStep(serviceName: string, fileTypes: seq<string>)
    | ScaffoldComposeStep(serviceName: string, dbType: Option<string>, port: nat)

  /** The calls `createDatabaseAction` makes. The service name prompt
      refuses blank answers, so while no acceptable name was typed nothing
      runs. */
  method CreateDatabaseAction(display: string, nameAttempts: seq<string>, compose: Option<string>)
    returns (steps: seq<SetupStep>, port: nat)
    ensures steps == [] <==> Prompt.AcceptedName(nameAttempts).None?
    ensures steps != [] ==>
              var svc := Prompt.AcceptedName(nameAttempts).value;
              && Trim(svc) != ""
              && steps == [ScaffoldDatabaseStep(svc, DatabaseMap(display), svc + "_db", port),
                           ScaffoldSequelizeStep(svc, []),
                           ScaffoldComposeStep(svc, DatabaseMap(display), port)]
    ensures steps != [] ==>
              var base := AllocatePort.BasePort(display);
              var text := compose.GetOr("");
              && port >= base
              && !AllocatePort.Occupied(text, port, base)
              && (forall p | base <= p < port :: AllocatePort.Occupied(text, p, base))
  {
    var name := Prompt.AcceptedName(nameAttempts);
    if name.None? {
      return [], 0;
    }
    var svc := name.value;
    port := AllocatePort.AllocatePort(display, compose);
    var engine := DatabaseMap(display);
    steps := [ScaffoldDatabaseStep(svc, engine, DbName(svc), port), ScaffoldSequelizeStep(svc, []),
              ScaffoldComposeStep(svc, engine, port)];
  }

  /** `allocatePort` is keyed by display name and the compose entry by engine
      name; for every database the menu offers, the base port it searches
      from is the container port the compose entry maps to, and the engine
      has its own data directory. */
  lemma EngineTablesAgree(display: string)
    requires display in {"MySQL", "PostgreSQL", "SQLite"}
    ensures var engine := DatabaseMap(display).value;
            && AllocatePort.BasePort(display) == ManageDocker.DbPort(engine)
            && ManageDocker.VolumePath(engine) != "/data/unknown"
  {
    var engine := DatabaseMap(display).value;
    ManageDocker.LookupTables(engine);
    assert "PostgreSQL" != "MySQL" && "PostgreSQL" != "SQLite";
    assert "postgres" != "mysql" && "postgres" != "sqlite";
  }

  /** If `DBType.PostgreSQL` is the display name `PostgreSQL` (the key
      `allocatePort` and `databaseMap` use for it), the scaffold never takes
      its PostgreSQL branch for a database this action creates: the
      Dockerfile gets no credentials and `.env` the `<svc>_user` ones. */
  lemma DisplayNamedEnumSkipsPgBranch(display: string, rootDir: string, serviceName: string, port: nat)
    ensures var effects := ScaffoldDatabase.ScaffoldDatabase(rootDir, "PostgreSQL", serviceName,
                                                             DatabaseMap(display), DbName(serviceName), port);
            && effects[2].data.Keys == {"dbName", "port"}
            && effects[3].data["dbUsername"] == Str(serviceName + "_user")
            && effects[3].data["dbPassword"] == Str(serviceName + "_password")
  {
    var engine := DatabaseMap(display);
    assert engine != Some("PostgreSQL");
    ScaffoldDatabase.BranchData("potgres", rootDir, "PostgreSQL", serviceName, engine, DbName(serviceName), port);
  }
}

=== FILE: cron_jobs.dfy ===
/** The cron jobs of src/operations/backup.operation.ts: the schedule chosen
    for a backup, the lines installed for the backup and for the purge, what
    the generated `backup.sh` does with the arguments those lines pass, and
    the edits made to the crontab. A crontab is its text as `crontab -l`
    prints it (empty when there is none); each shell pipeline becomes a
    function from that text to the text installed. */
module CronJobs {
  import opened Wrappers
  import opened Text
  import opened Seqs
  import opened Document
  import Prompt
  import Registry
  import BackupCron
  import StringsUtils

  // ---------------------------------------------------------------------------
  // The schedule

  /** The values of the frequency menu's preset entries: hourly, daily at
      midnight, weekly on Sunday at midnight. */
  const CronPresets: seq<string> := ["0 * * * *", "0 0 * * *", "0 0 * * 0"]

  /** The menu value that asks for a custom expression. */
  const CustomChoice: string := "custom"

  /** A one-character field: `*` or a digit. */
  predicate FieldChar(c: char) {
    c == '*' || IsDigit(c)
  }

  /** The one-character fields `cs`, separated by single blanks. */
  function Spaced(cs: seq<char>): string
    requires |cs| >= 1
  {
    if |cs| == 1 then [cs[0]] else [cs[0], ' '] + Spaced(cs[1..])
  }

  /** One-character fields separated by single blanks pass the custom check
      with as many fields as there are characters. */
  lemma {:induction false} SpacedMatches(cs: seq<char>)
    requires |cs| >= 1 && forall k | 0 <= k < |cs| :: FieldChar(cs[k])
    ensures BackupCron.FieldsMatch(Spaced(cs), |cs|)
  {
    var s := Spaced(cs);
    if cs[0] != '*' {
      assert BackupCron.DigitsEnd(s, 1) == 1;
    }
    assert BackupCron.FieldEnd(s) == 1;
    if |cs| > 1 {
      SpacedMatches(cs[1..]);
      var rest := Spaced(cs[1..]);
      assert s[2..] == rest && s[1] == ' ';
      assert rest[0] == cs[1];
      assert BackupCron.SpaceEnd(s, 2) == 2;
      assert BackupCron.SpaceEnd(s, 1) == 2;
    }
  }

  /** The presets, spelled as one-character fields. */
  lemma PresetsSpaced()
    ensures Spaced(['0', '*', '*', '*', '*']) == CronPresets[0]
    ensures Spaced(['0', '0', '*', '*', '*']) == CronPresets[1]
    ensures Spaced(['0', '0', '*', '*', '0']) == CronPresets[2]
  {
  }

  /** The hourly preset passes the custom check. */
  lemma HourlyValid()
    ensures BackupCron.FieldsMatch("0 * * * *", 5)
  {
    SpacedMatches(['0', '*', '*', '*', '*']);
    PresetsSpaced();
  }

  /** The daily preset passes the custom check. */
  lemma DailyValid()
    ensures BackupCron.FieldsMatch("0 0 * * *", 5)
  {
    SpacedMatches(['0', '0', '*', '*', '*']);
    PresetsSpaced();
  }

  /** The weekly preset passes the custom check. */
  lemma WeeklyValid()
    ensures BackupCron.FieldsMatch("0 0 * * 0", 5)
  {
    SpacedMatches(['0', '0', '*', '*', '0']);
    PresetsSpaced();
  }

  // Step, range and list syntax are not part of the check: the every-five-
  // minutes step expression is refused.
  lemma StepSyntaxRejected()
    ensures !BackupCron.ValidCron("*/5 * * * *")
  {
    var s := "*/5 * * * *";
    assert BackupCron.FieldEnd(s) == 1;
    assert !IsWhitespace(s[1]);
    assert BackupCron.SpaceEnd(s, 1) == 1;
  }

  /** The expression the backup is scheduled with: the preset chosen, or the
      first custom answer the check accepts; `None` while the custom prompt
      is still waiting for one. */
  function ChosenSchedule(frequency: string, customAttempts: seq<string>): (r: Option<string>)
    requires frequency in CronPresets || frequency == CustomChoice
    ensures r.Some? ==> BackupCron.ValidCron(r.value)
    ensures frequency != CustomChoice ==> r == Some(frequency)
    ensures frequency == CustomChoice ==> (r.None? <==> forall a | a in customAttempts :: !BackupCron.ValidCron(a))
  {
    if frequency == CronPresets[0] then HourlyValid(); Some(frequency)
    else if frequency == CronPresets[1] then DailyValid(); Some(frequency)
    else if frequency == CronPresets[2] then WeeklyValid(); Some(frequency)
    else
      Prompt.ValidatedIsFirstAccepted(customAttempts, BackupCron.ValidCron);
      Prompt.Validated(customAttempts, BackupCron.ValidCron)
  }

  // ---------------------------------------------------------------------------
  // The cron lines

  /** The comment every installed line ends with; the edits find the
      service's lines by it. */
  function Tag(serviceName: string): string {
    "# Backup for " + serviceName
  }

  /** `bash <script> <args>`, the arguments separated by single spaces. */
  function Command(script: string, args: seq<string>): string {
    "bash " + script + " " + Join(args, ' ')
  }

  /** A line as the tool writes it: the command, then ` | ` and the tag. */
  function TaggedLine(body: string, serviceName: string): (line: string)
    ensures EndsWith(line, Tag(serviceName))
  {
    var line := body + " | " + Tag(serviceName);
    assert line[|line| - |Tag(serviceName)|..] == Tag(serviceName);
    line
  }

  /** The positional arguments of the backup job: service, engine, database
      name, backup folder. */
  function ScheduleArgs(serviceName: string, dbType: string, dbName: string, backupDir: string): seq<string> {
    [serviceName, dbType, dbName, backupDir]
  }

  /** The variable the backup job exports for `mysqldump`. */
  const PasswordVariable: string := "MYSQL_ROOT_PASSWORD"

  /** The root password of the generated MySQL containers. */
  const RootPassword: string := "root_password"

  /** What the backup job runs before the script. */
  const ExportPassword: string := " export " + PasswordVariable + "=" + RootPassword + " && "

  /** The command of the backup job; `script` and `backupDir` are the
      resolved absolute paths. */
  function ScheduleBody(expr: string, script: string, serviceName: string, dbType: string,
                        dbName: string, backupDir: string): string
  {
    expr + ExportPassword
      + Command(script, ScheduleArgs(serviceName, dbType, dbName, backupDir))
  }

  /** The line `configureSystemCronBackup` installs. */
  function ScheduleLine(expr: string, script: string, serviceName: string, dbType: string,
                        dbName: string, backupDir: string): (line: string)
    ensures |expr| <= |line| && line[..|expr|] == expr
    ensures EndsWith(line, Tag(serviceName))
  {
    var body := ScheduleBody(expr, script, serviceName, dbType, dbName, backupDir);
    var line := TaggedLine(body, serviceName);
    assert line[..|expr|] == body[..|expr|];
    line
  }

  /** `config.<key>` of the parsed `cron-config.json`. */
  function ConfigField(config: Value, key: string): Option<Value> {
    if config.Obj? then Get(config.fields, key) else None
  }

  /** The positional arguments of the purge job: service, `configPaths.database`,
      `<service>_db`, the stored backup folder and retention period. */
  function PurgeArgs(config: Value, serviceName: string, database: Option<Value>): (args: seq<string>)
    ensures |args| == 5 && args[0] == serviceName && args[1] == Interpolate(database)
    ensures args[2] == serviceName + "_db"
  {
    [serviceName, Interpolate(database), serviceName + "_db",
     Interpolate(ConfigField(config, "backupDir")), Interpolate(ConfigField(config, "retentionPeriod"))]
  }

  /** The command of the purge job; `script` is the resolved script path. */
  function PurgeBody(config: Value, script: string, serviceName: string, database: Option<Value>): string {
    Interpolate(ConfigField(config, "frequency")) + " " + Command(script, PurgeArgs(config, serviceName, database))
  }

  /** The line `configureDataPurge` installs. */
  function PurgeLine(config: Value, script: string, serviceName: string, database: Option<Value>): (line: string)
    ensures var freq := Interpolate(ConfigField(config, "frequency"));
            |freq| <= |line| && line[..|freq|] == freq
    ensures EndsWith(line, Tag(serviceName))
  {
    var freq := Interpolate(ConfigField(config, "frequency"));
    var body := PurgeBody(config, script, serviceName, database);
    var line := TaggedLine(body, serviceName);
    assert line[..|freq|] == body[..|freq|];
    line
  }

  // ---------------------------------------------------------------------------
  // What `sh` runs of a line

  /** `sh` starts a comment at a `#` that begins a word: at the start, or
      after a blank or an operator character. */
  predicate CommentAt(cmd: string, i: nat)
    requires i < |cmd|
  {
    cmd[i] == '#' && (i == 0 || IsWhitespace(cmd[i - 1]) || cmd[i - 1] in ";&|()<>")
  }

  /** The first comment start at or after `k`; `|cmd|` when there is none. */
  function CommentFrom(cmd: string, k: nat): (i: nat)
    requires k <= |cmd|
    ensures k <= i <= |cmd|
    ensures i < |cmd| ==> CommentAt(cmd, i)
    ensures forall j | k <= j < i :: !CommentAt(cmd, j)
    decreases |cmd| - k
  {
    if k == |cmd| then k else if CommentAt(cmd, k) then k else CommentFrom(cmd, k + 1)
  }

  /** The part of the line that `sh` executes. */
  function Uncommented(cmd: string): string {
    cmd[..CommentFrom(cmd, 0)]
  }

  /** The executed part ends in a pipe with nothing after it, which `sh`
      refuses as a syntax error: the job never runs. */
  predicate DanglingPipe(cmd: string) {
    var u := TrimEnd(Uncommented(cmd));
    u != [] && u[|u| - 1] == '|'
  }

  /** A comment that starts right after a `#`-free prefix is where `sh`'s
      comment starts. */
  lemma CommentAfter(prefix: string, rest: string)
    requires '#' !in prefix && rest != [] && rest[0] == '#'
    requires prefix != [] && prefix[|prefix| - 1] == ' '
    ensures Uncommented(prefix + rest) == prefix
  {
    var cmd := prefix + rest;
    var i := CommentFrom(cmd, 0);
    assert CommentAt(cmd, |prefix|) by {
      assert cmd[|prefix|] == rest[0];
      assert cmd[|prefix| - 1] == prefix[|prefix| - 1];
    }
    assert cmd[..|prefix|] == prefix;
  }

  /** `#` does not occur in a join of `#`-free parts. */
  lemma {:induction false} JoinAvoids(parts: seq<string>, sep: char, c: char)
    requires c != sep && forall k | 0 <= k < |parts| :: c !in parts[k]
    ensures c !in Join(parts, sep)
  {
    if |parts| > 1 {
      JoinAvoids(parts[1..], sep, c);
    }
  }

  /** A join ends with its last part. */
  lemma {:induction false} JoinEndsWithLast(parts: seq<string>, sep: char)
    requires |parts| >= 1
    ensures EndsWith(Join(parts, sep), parts[|parts| - 1])
  {
    if |parts| > 1 {
      JoinEndsWithLast(parts[1..], sep);
      EndsWithAppended(parts[0] + [sep], Join(parts[1..], sep), parts[|parts| - 1]);
    }
  }

  /** A suffix of a string is a suffix of anything it is appended to. */
  lemma EndsWithAppended(a: string, b: string, p: string)
    requires EndsWith(b, p)
    ensures EndsWith(a + b, p)
  {
    assert (a + b)[|a + b| - |p|..] == b[|b| - |p|..];
  }

  /** The line as written hands `sh` a command that ends in `|`, once the
      tag is read as a comment, whatever the command was. */
  lemma TaggedLineDanglingPipe(body: string, serviceName: string)
    requires '#' !in body
    ensures DanglingPipe(TaggedLine(body, serviceName))
  {
    var prefix := body + " | ";
    assert TaggedLine(body, serviceName) == prefix + Tag(serviceName);
    CommentAfter(prefix, Tag(serviceName));
    assert AllWhitespace(" ");
    StringsUtils.TrimEndAllWhitespace(body + " |", " ");
    assert prefix == body + " |" + " ";
  }

  /** A command of `#`-free parts has no `#`. */
  lemma CommandAvoidsHash(script: string, args: seq<string>)
    requires '#' !in script && forall k | 0 <= k < |args| :: '#' !in args[k]
    ensures '#' !in Command(script, args)
  {
    JoinAvoids(args, ' ', '#');
    assert '#' !in "bash ";
  }

  /** The password export has no `#`. */
  lemma ExportAvoidsHash()
    ensures '#' !in ExportPassword
  {
    assert '#' !in PasswordVariable && '#' !in RootPassword;
  }

  /** The backup job's command has no `#` when none of its parts has one. */
  lemma ScheduleBodyAvoidsHash(expr: string, script: string, serviceName: string, dbType: string,
                               dbName: string, backupDir: string)
    requires '#' !in expr && '#' !in script && '#' !in serviceName
    requires '#' !in dbType && '#' !in dbName && '#' !in backupDir
    ensures '#' !in ScheduleBody(expr, script, serviceName, dbType, dbName, backupDir)
  {
    CommandAvoidsHash(script, ScheduleArgs(serviceName, dbType, dbName, backupDir));
    ExportAvoidsHash();
  }

  /** The backup job as written never runs when none of its parts contains
      `#`. */
  lemma ScheduleJobNeverRuns(expr: string, script: string, serviceName: string, dbType: string,
                             dbName: string, backupDir: string)
    requires '#' !in expr && '#' !in script && '#' !in serviceName
    requires '#' !in dbType && '#' !in dbName && '#' !in backupDir
    ensures DanglingPipe(ScheduleLine(expr, script, serviceName, dbType, dbName, backupDir))
  {
    ScheduleBodyAvoidsHash(expr, script, serviceName, dbType, dbName, backupDir);
    TaggedLineDanglingPipe(ScheduleBody(expr, script, serviceName, dbType, dbName, backupDir), serviceName);
  }

  /** The purge job as written never runs either. */
  lemma PurgeJobNeverRuns(config: Value, script: string, serviceName: string, database: Option<Value>)
    requires '#' !in script && '#' !in serviceName
    requires forall k | 0 <= k < 5 :: '#' !in PurgeArgs(config, serviceName, database)[k]
    requires '#' !in Interpolate(ConfigField(config, "frequency"))
    ensures DanglingPipe(PurgeLine(config, script, serviceName, database))
  {
    CommandAvoidsHash(script, PurgeArgs(config, serviceName, database));
    TaggedLineDanglingPipe(PurgeBody(config, script, serviceName, database), serviceName);
  }

  /** The intended line: the command, a blank, then the tag as a comment. */
  function FixedTaggedLine(body: string, serviceName: string): (line: string)
    ensures EndsWith(line, Tag(serviceName))
  {
    var line := body + " " + Tag(serviceName);
    assert line[|line| - |Tag(serviceName)|..] == Tag(serviceName);
    line
  }

  /** With the pipe gone `sh` runs exactly the command, and the tag still
      marks the line for the edits. */
  lemma FixedLineRunsBody(body: string, serviceName: string)
    requires '#' !in body && body != [] && !IsWhitespace(body[|body| - 1])
    ensures TrimEnd(Uncommented(FixedTaggedLine(body, serviceName))) == body
    ensures body[|body| - 1] != '|' ==> !DanglingPipe(FixedTaggedLine(body, serviceName))
  {
    var prefix := body + " ";
    assert FixedTaggedLine(body, serviceName) == prefix + Tag(serviceName);
    CommentAfter(prefix, Tag(serviceName));
    assert AllWhitespace(" ");
    StringsUtils.TrimEndAllWhitespace(body, " ");
  }

  /** The backup line with the pipe dropped. */
  function FixedScheduleLine(expr: string, script: string, serviceName: string, dbType: string,
                             dbName: string, backupDir: string): string
  {
    FixedTaggedLine(ScheduleBody(expr, script, serviceName, dbType, dbName, backupDir), serviceName)
  }

  /** The corrected backup job runs its command: `sh` sees the whole
      command, which ends in the backup folder. */
  lemma FixedScheduleJobRuns(expr: string, script: string, serviceName: string, dbType: string,
                             dbName: string, backupDir: string)
    requires '#' !in expr && '#' !in script && '#' !in serviceName
    requires '#' !in dbType && '#' !in dbName && '#' !in backupDir
    requires backupDir != [] && !IsWhitespace(backupDir[|backupDir| - 1]) && backupDir[|backupDir| - 1] != '|'
    ensures var body := ScheduleBody(expr, script, serviceName, dbType, dbName, backupDir);
            && TrimEnd(Uncommented(FixedScheduleLine(expr, script, serviceName, dbType, dbName, backupDir))) == body
            && EndsWith(body, backupDir)
            && !DanglingPipe(FixedScheduleLine(expr, script, serviceName, dbType, dbName, backupDir))
  {
    ScheduleBodyAvoidsHash(expr, script, serviceName, dbType, dbName, backupDir);
    var body := ScheduleBody(expr, script, serviceName, dbType, dbName, backupDir);
    JoinEndsWithLast(ScheduleArgs(serviceName, dbType, dbName, backupDir), ' ');
    EndsWithAppended(expr + ExportPassword + "bash " + script + " ", Join(ScheduleArgs(serviceName, dbType, dbName, backupDir), ' '), backupDir);
    FixedLineRunsBody(body, serviceName);
  }

  // ---------------------------------------------------------------------------
  // The generated script

  /** What `backup.sh` does for its positional arguments: an unsupported
      engine stops it; otherwise it dumps the database through the
      service's `-db` container and, for a positive retention, deletes
      older files. */
  datatype ScriptRun =
    | Unsupported(dbType: string)
    | Dump(postgres: bool, container: string, database: string, file: string, purgeDays: Option<nat>)

  /** Positional argument `i` (from 0), empty when it was not passed. */
  function Arg(args: seq<string>, i: nat): string {
    if i < |args| then args[i] else ""
  }

  /** `[ "$RETENTION_PERIOD" -gt 0 ]` on a plain decimal: the days to purge
      after, or `None` when the test fails. */
  function ScriptRetention(arg: string): (r: Option<nat>)
    ensures r.Some? ==> r.value > 0 && AllDigits(arg) && DecimalValue(arg) == r.value
    ensures r.None? ==> !(arg != [] && AllDigits(arg) && DecimalValue(arg) > 0)
  {
    if arg != [] && AllDigits(arg) && DecimalValue(arg) > 0 then Some(DecimalValue(arg)) else None
  }

  /** `backup.sh` on `args`; `timestamp` is its `date` output. */
  function RunScript(args: seq<string>, timestamp: string): (r: ScriptRun)
    ensures r.Unsupported? <==> Arg(args, 1) != "mysql" && Arg(args, 1) != "postgres"
    ensures r.Dump? ==> r.postgres == (Arg(args, 1) == "postgres")
                        && r.container == Arg(args, 0) + "-db" && r.database == Arg(args, 2)
  {
    var svc, dbType := Arg(args, 0), Arg(args, 1);
    if dbType == "mysql" || dbType == "postgres" then
      Dump(dbType == "postgres", svc + "-db", Arg(args, 2),
           Arg(args, 3) + "/dump-" + svc + "-" + timestamp + ".sql", ScriptRetention(Arg(args, 4)))
    else Unsupported(dbType)
  }

  /** Lines of the backup job carry no retention, so it never purges. */
  lemma ScheduledRunKeepsFiles(serviceName: string, dbType: string, dbName: string, backupDir: string,
                               timestamp: string)
    ensures var r := RunScript(ScheduleArgs(serviceName, dbType, dbName, backupDir), timestamp);
            r.Dump? ==> r.purgeDays.None?
  {
  }

  /** Without a `database` field the purge job passes `undefined` as the
      engine, and the script stops as unsupported. */
  lemma UndefinedEngineUnsupported(config: Value, serviceName: string, timestamp: string)
    ensures RunScript(PurgeArgs(config, serviceName, None), timestamp) == Unsupported("undefined")
  {
    assert Arg(PurgeArgs(config, serviceName, None), 1) == "undefined";
  }

  /** `configPaths.database` for an entry as `addOrUpdateProjectConfig`
      writes it is `undefined`: the purge job passes `undefined` as the
      engine and the script stops as unsupported. */
  lemma RegisteredPurgeJobUnsupported(file: Option<Value>, dbName: string, orm: string, rootDir: string,
                                      templatesRoot: string, config: Value, serviceName: string,
                                      timestamp: string)
    requires file.None? || Registry.HasDatabases(file.value)
    ensures var saved := Registry.AddOrUpdateProjectConfig(file, dbName, orm, rootDir, templatesRoot);
            && saved.Success?
            && var paths := Registry.GetConfigPaths(Some(saved.value), dbName);
            && paths.Success?
            && RunScript(PurgeArgs(config, serviceName, Get(paths.value.fields, "database")), timestamp)
               == Unsupported("undefined")
  {
    Registry.WrittenEntryLacksDatabase(file, dbName, orm, rootDir, templatesRoot);
    UndefinedEngineUnsupported(config, serviceName, timestamp);
  }

  /** The purge arguments with the engine passed explicitly. */
  function FixedPurgeArgs(config: Value, serviceName: string, engine: string): (args: seq<string>)
    ensures |args| == 5 && args[1] == engine
  {
    PurgeArgs(config, serviceName, Some(Str(engine)))
  }

  /** With the engine passed, the purge job dumps that engine's database and
      purges after the configured number of days. */
  lemma FixedPurgeJobPurges(config: Value, serviceName: string, engine: string, days: nat,
                            timestamp: string)
    requires engine in {"mysql", "postgres"} && days > 0
    requires config.Obj? && Get(config.fields, "retentionPeriod") == Some(Num(days))
    ensures var r := RunScript(FixedPurgeArgs(config, serviceName, engine), timestamp);
            && r.Dump? && r.postgres == (engine == "postgres")
            && r.container == serviceName + "-db" && r.database == serviceName + "_db"
            && r.purgeDays == Some(days)
  {
    assert Interpolate(Some(Num(days))) == NatToString(days);
  }

  // ---------------------------------------------------------------------------
  // The crontab

  /** `job.includes(serviceName)`. */
  function Mentions(serviceName: string): string -> bool {
    job => Contains(job, serviceName)
  }

  /** `!job.includes("# Backup for <service>")`. */
  function Untagged(serviceName: string): string -> bool {
    job => !Contains(job, Tag(serviceName))
  }

  /** `job !== selected`. */
  function Differs(selected: string): string -> bool {
    job => job != selected
  }

  /** The jobs listed for a service: every line of the crontab that
      mentions the service's name anywhere; none for a blank crontab. */
  function ListCronJobs(tab: string, serviceName: string): (jobs: seq<string>)
    ensures Trim(tab) == "" ==> jobs == []
    ensures forall j | j in jobs :: Contains(j, serviceName) && j in Split(tab, '\n')
    ensures Trim(tab) != "" ==> forall l | l in Split(tab, '\n') && Contains(l, serviceName) :: l in jobs
  {
    if Trim(tab) == "" then [] else Filter(Split(tab, '\n'), Mentions(serviceName))
  }

  /** A change to the crontab: none, `echo "<text>" | crontab -`, or
      `crontab -r`. */
  datatype CrontabWrite = Unchanged | Install(text: string) | Clear

  /** The menu value that asks to delete every job of the service. */
  const DeleteAllChoice: string := "deleteAll"

  /** The kept lines joined and trimmed, installed unless that is empty. */
  function Rewrite(kept: seq<string>): (w: CrontabWrite)
    ensures w.Clear? <==> Trim(Join(kept, '\n')) == ""
    ensures w.Install? ==> w.text == Trim(Join(kept, '\n')) && w.text != "" && Trim(w.text) == w.text
  {
    var text := Trim(Join(kept, '\n'));
    TrimNoop(text);
    if text != "" then Install(text) else Clear
  }

  /** `removeBackupCronJob`: `selected` is the menu answer and `confirmAll`
      the answer to the delete-all confirmation. Nothing is written when
      no job is listed or the confirmation is declined; otherwise the
      installed text is never blank and has nothing to trim. */
  function RemoveBackupCronJob(tab: string, serviceName: string, selected: string, confirmAll: bool): (w: CrontabWrite)
    ensures ListCronJobs(tab, serviceName) == [] ==> w == Unchanged
    ensures selected == DeleteAllChoice && !confirmAll ==> w == Unchanged
    ensures ListCronJobs(tab, serviceName) != [] && !(selected == DeleteAllChoice && !confirmAll) ==> w != Unchanged
    ensures w.Install? ==> w.text != "" && Trim(w.text) == w.text
  {
    var lines := Split(tab, '\n');
    if ListCronJobs(tab, serviceName) == [] then Unchanged
    else if selected == DeleteAllChoice then
      if confirmAll then Rewrite(Filter(lines, Untagged(serviceName))) else Unchanged
    else Rewrite(Filter(lines, Differs(selected)))
  }

  /** The crontab after a write; `echo` ends the installed text with a
      newline. */
  function Installed(tab: string, w: CrontabWrite): (r: string)
    ensures WellFormedTab(tab) ==> WellFormedTab(r)
  {
    match w
    case Unchanged => tab
    case Install(t) => t + "\n"
    case Clear => ""
  }

  /** A crontab as `crontab -l` prints it: empty or ending in a newline. */
  predicate WellFormedTab(tab: string) {
    tab == [] || tab[|tab| - 1] == '\n'
  }

  /** A crontab reinstalled through `echo`: its trimmed text and a newline,
      or nothing when it is blank. */
  function Retabbed(tab: string): string {
    if Trim(tab) == "" then "" else Trim(tab) + "\n"
  }

  /** `(crontab -l ; echo "<line>") | crontab -`. */
  function AddCronJob(tab: string, line: string): (r: string)
    ensures WellFormedTab(r)
  {
    tab + line + "\n"
  }

  /** The lines of a crontab, without the empty piece after a final newline. */
  function TabLines(tab: string): (ls: seq<string>)
    ensures forall l | l in ls :: '\n' !in l
  {
    if tab == [] then [] else if tab[|tab| - 1] == '\n' then Split(tab[..|tab| - 1], '\n') else Split(tab, '\n')
  }

  /** Each line followed by a newline: what `grep` prints. */
  function Unlines(ls: seq<string>): (r: string)
    ensures WellFormedTab(r)
  {
    if ls == [] then "" else Unlines(ls[..|ls| - 1]) + ls[|ls| - 1] + "\n"
  }

  /** `job.includes("# Backup for <service>")`. */
  function Tagged(serviceName: string): string -> bool {
    job => Contains(job, Tag(serviceName))
  }

  /** `configureDataPurge`'s edit: `grep -v` drops the service's tagged
      lines, then the new line is appended. */
  function ReplaceCronJob(tab: string, serviceName: string, line: string): (r: string)
    ensures WellFormedTab(r)
  {
    AddCronJob(Unlines(Filter(TabLines(tab), Untagged(serviceName))), line)
  }

  // ---------------------------------------------------------------------------
  // Properties of the crontab edits

  /** The text of a well-formed crontab splits into its lines and one empty
      piece after the final newline. */
  lemma SplitWellFormed(tab: string)
    requires WellFormedTab(tab)
    ensures Split(tab, '\n') == TabLines(tab) + [""]
  {
    if tab != [] {
      var u := tab[..|tab| - 1];
      assert tab == u + ['\n'] + [];
      SplitAppend(u, [], '\n');
    }
  }

  /** Appending a line adds exactly that line. */
  lemma TabLinesAdd(tab: string, line: string)
    requires WellFormedTab(tab) && '\n' !in line
    ensures TabLines(AddCronJob(tab, line)) == TabLines(tab) + [line]
  {
    var r := AddCronJob(tab, line);
    assert r[..|r| - 1] == tab + line;
    SplitWhole(line, '\n');
    if tab != [] {
      var u := tab[..|tab| - 1];
      assert tab + line == u + ['\n'] + line;
      SplitAppend(u, line, '\n');
    } else {
      assert tab + line == line;
    }
  }

  /** The lines `grep` printed are read back as they were. */
  lemma {:induction false} TabLinesUnlines(ls: seq<string>)
    requires forall l | l in ls :: '\n' !in l
    ensures TabLines(Unlines(ls)) == ls
  {
    if ls != [] {
      var init := ls[..|ls| - 1];
      TabLinesUnlines(init);
      TabLinesAdd(Unlines(init), ls[|ls| - 1]);
      assert init + [ls[|ls| - 1]] == ls;
    }
  }

  /** A tag mentions its service. */
  lemma TagMentions(serviceName: string)
    ensures Contains(Tag(serviceName), serviceName)
  {
    ContainsSelf(serviceName);
    ContainsPrepend("# Backup for ", serviceName, serviceName);
  }

  /** Text whose trim is blank is all whitespace. */
  lemma BlankIsWhitespace(s: string)
    requires Trim(s) == ""
    ensures AllWhitespace(s)
  {
    var t := TrimStart(s);
    TrimStartParts(s);
    TrimEndParts(t);
    assert s == s[..|s| - |t|] + t;
  }

  /** After a tagged line is added the crontab is not blank and the line is
      listed for its service. */
  lemma AddedJobListed(tab: string, serviceName: string, line: string)
    requires WellFormedTab(tab) && '\n' !in line && Contains(line, Tag(serviceName))
    ensures line in ListCronJobs(AddCronJob(tab, line), serviceName)
  {
    var r := AddCronJob(tab, line);
    TagMentions(serviceName);
    ContainsTransitive(line, Tag(serviceName), serviceName);
    var j :| 0 <= j <= |line| - |Tag(serviceName)| && OccursAt(line, Tag(serviceName), j);
    assert line[j] == line[j..j + |Tag(serviceName)|][0] == '#';
    assert r[|tab| + j] == '#';
    if Trim(r) == "" {
      BlankIsWhitespace(r);
    }
    SplitWellFormed(r);
    TabLinesAdd(tab, line);
    assert line in Split(r, '\n');
  }

  /** The delete-all filter takes exactly the added line back out of a
      crontab with no job tagged for the service. */
  lemma DeleteAllDropsAdded(tab: string, serviceName: string, line: string)
    requires WellFormedTab(tab) && '\n' !in line && Contains(line, Tag(serviceName))
    requires forall l | l in TabLines(tab) :: !Contains(l, Tag(serviceName))
    ensures Filter(Split(AddCronJob(tab, line), '\n'), Untagged(serviceName)) == Split(tab, '\n')
  {
    SplitWellFormed(AddCronJob(tab, line));
    TabLinesAdd(tab, line);
    SplitWellFormed(tab);
    var keep := Untagged(serviceName);
    FilterConcat(TabLines(tab) + [line], [""], keep);
    FilterConcat(TabLines(tab), [line], keep);
    FilterAll(TabLines(tab), keep);
    assert !Contains("", Tag(serviceName));
  }

  /** Scheduling a backup and then deleting all of the service's jobs gives
      the crontab back, trimmed, when it had no job tagged for the service. */
  lemma AddThenDeleteAll(tab: string, serviceName: string, line: string)
    requires WellFormedTab(tab) && '\n' !in line && Contains(line, Tag(serviceName))
    requires forall l | l in TabLines(tab) :: !Contains(l, Tag(serviceName))
    ensures var added := AddCronJob(tab, line);
            Installed(added, RemoveBackupCronJob(added, serviceName, DeleteAllChoice, true)) == Retabbed(tab)
  {
    AddedJobListed(tab, serviceName, line);
    DeleteAllDropsAdded(tab, serviceName, line);
    JoinSplit(tab, '\n');
  }

  /** Removing the added line by value takes exactly it back out when it
      was not in the crontab before. */
  lemma RemoveDropsAdded(tab: string, line: string)
    requires WellFormedTab(tab) && '\n' !in line && line != "" && line !in TabLines(tab)
    ensures Filter(Split(AddCronJob(tab, line), '\n'), Differs(line)) == Split(tab, '\n')
  {
    SplitWellFormed(AddCronJob(tab, line));
    TabLinesAdd(tab, line);
    SplitWellFormed(tab);
    var keep := Differs(line);
    FilterConcat(TabLines(tab) + [line], [""], keep);
    FilterConcat(TabLines(tab), [line], keep);
    FilterAll(TabLines(tab), keep);
  }

  /** Scheduling a backup and then removing that job gives the crontab
      back, trimmed, when the line was not already in it. */
  lemma AddThenRemoveSelected(tab: string, serviceName: string, line: string, confirmAll: bool)
    requires WellFormedTab(tab) && '\n' !in line && Contains(line, Tag(serviceName))
    requires line !in TabLines(tab) && line != DeleteAllChoice
    ensures var added := AddCronJob(tab, line);
            Installed(added, RemoveBackupCronJob(added, serviceName, line, confirmAll)) == Retabbed(tab)
  {
    AddedJobListed(tab, serviceName, line);
    assert line != "" by { assert |line| >= |Tag(serviceName)| > 0; }
    RemoveDropsAdded(tab, line);
    JoinSplit(tab, '\n');
  }

  /** Removing a single job drops every line equal to it and keeps every
      other line in order. */
  lemma RemoveSelectedKeepsOthers(tab: string, serviceName: string, selected: string, confirmAll: bool)
    requires ListCronJobs(tab, serviceName) != [] && selected != DeleteAllChoice
    ensures var kept := Filter(Split(tab, '\n'), Differs(selected));
            && RemoveBackupCronJob(tab, serviceName, selected, confirmAll) == Rewrite(kept)
            && selected !in kept
            && IsSubsequence(kept, Split(tab, '\n'))
            && (forall k | 0 <= k < |Split(tab, '\n')| && Split(tab, '\n')[k] != selected :: Split(tab, '\n')[k] in kept)
  {
  }

  /** A tag is contained in the tag of any longer name it starts. */
  lemma TagOfLongerName(serviceName: string, suffix: string)
    ensures Contains(Tag(serviceName + suffix), Tag(serviceName))
  {
    assert Tag(serviceName + suffix) == Tag(serviceName) + suffix;
    assert OccursAt(Tag(serviceName + suffix), Tag(serviceName), 0);
  }

  /** Deleting every job of `auth` also deletes the jobs of `auth2`: the
      delete-all filter drops any line tagged for a name that starts with
      the service's name. */
  lemma DeleteAllTakesLongerNames(serviceName: string, suffix: string, line: string)
    requires Contains(line, Tag(serviceName + suffix))
    ensures !Untagged(serviceName)(line)
  {
    TagOfLongerName(serviceName, suffix);
    ContainsTransitive(line, Tag(serviceName + suffix), Tag(serviceName));
  }

  /** Every line the tool generates ends in its service's tag, so the
      delete-all filter for the service removes it. */
  lemma GeneratedLinesTagged(expr: string, script: string, serviceName: string, dbType: string,
                             dbName: string, backupDir: string, config: Value, database: Option<Value>)
    ensures !Untagged(serviceName)(ScheduleLine(expr, script, serviceName, dbType, dbName, backupDir))
    ensures !Untagged(serviceName)(PurgeLine(config, script, serviceName, database))
    ensures !Untagged(serviceName)(FixedScheduleLine(expr, script, serviceName, dbType, dbName, backupDir))
  {
    EndsWithContains(ScheduleLine(expr, script, serviceName, dbType, dbName, backupDir), Tag(serviceName));
    EndsWithContains(PurgeLine(config, script, serviceName, database), Tag(serviceName));
    EndsWithContains(FixedScheduleLine(expr, script, serviceName, dbType, dbName, backupDir), Tag(serviceName));
  }

  /** A suffix is contained. */
  lemma EndsWithContains(s: string, p: string)
    requires EndsWith(s, p)
    ensures Contains(s, p)
  {
    assert OccursAt(s, p, |s| - |p|);
  }

  /** After `configureDataPurge`'s edit the crontab holds the untagged lines
      it had, in order, then the new line. */
  lemma ReplaceKeepsUntagged(tab: string, serviceName: string, line: string)
    requires '\n' !in line
    ensures TabLines(ReplaceCronJob(tab, serviceName, line)) == Filter(TabLines(tab), Untagged(serviceName)) + [line]
  {
    var kept := Filter(TabLines(tab), Untagged(serviceName));
    TabLinesUnlines(kept);
    TabLinesAdd(Unlines(kept), line);
  }

  /** ... so the new line is the only one tagged for the service. */
  lemma ReplaceLeavesOneTagged(tab: string, serviceName: string, line: string)
    requires '\n' !in line && Contains(line, Tag(serviceName))
    ensures Filter(TabLines(ReplaceCronJob(tab, serviceName, line)), Tagged(serviceName)) == [line]
  {
    var kept := Filter(TabLines(tab), Untagged(serviceName));
    ReplaceKeepsUntagged(tab, serviceName, line);
    FilterConcat(kept, [line], Tagged(serviceName));
    FilterNone(kept, Tagged(serviceName));
  }

  /** Configuring the purge twice with the same line is configuring it once. */
  lemma ReplaceIdempotent(tab: string, serviceName: string, line: string)
    requires '\n' !in line && Contains(line, Tag(serviceName))
    ensures var once := ReplaceCronJob(tab, serviceName, line);
            ReplaceCronJob(once, serviceName, line) == once
  {
    var kept := Filter(TabLines(tab), Untagged(serviceName));
    ReplaceKeepsUntagged(tab, serviceName, line);
    FilterConcat(kept, [line], Untagged(serviceName));
    assert Filter([line], Untagged(serviceName)) == [];
    FilterIdempotent(TabLines(tab), Untagged(serviceName));
    assert kept + [] == kept;
  }

  /** Scheduling a backup twice leaves two tagged jobs: the schedule does
      not replace the one already there. */
  lemma ScheduleTwiceTwoJobs(tab: string, serviceName: string, line: string)
    requires WellFormedTab(tab) && '\n' !in line && Contains(line, Tag(serviceName))
    ensures var twice := AddCronJob(AddCronJob(tab, line), line);
            Filter(TabLines(twice), Tagged(serviceName))
            == Filter(TabLines(tab), Tagged(serviceName)) + [line, line]
  {
    var once := AddCronJob(tab, line);
    TabLinesAdd(tab, line);
    TabLinesAdd(once, line);
    FilterConcat(TabLines(tab) + [line], [line], Tagged(serviceName));
    FilterConcat(TabLines(tab), [line], Tagged(serviceName));
    assert Filter([line], Tagged(serviceName)) == [line];
  }
}

=== FILE: database_ops.dfy ===
/** The database actions of src/operations/database.operation.ts: exporting a
    dump (`exportDatabase`, `exportDatabaseDump`), resetting a database
    (`resetDatabase`), importing a dump (`importDatabaseDump`) and the file
    browser it uses (`navigateAndSelectSQLFile`). Each action is modelled as
    the decision it takes and the names it passes to `docker exec`; the
    commands themselves, the spinner and the clock are left out, the clock's
    `toISOString()` text being a parameter. Answers to prompts and what the
    file system reports are parameters too. */
module DatabaseOps {
  import opened Wrappers
  import opened Text
  import opened Document
  import Registry
  import ComposeHelper
  import CreateDatabase

  // ---------------------------------------------------------------------------
  // Dump file names

  /** `toISOString().replace(/[:.]/g, '-')`. */
  function FileStamp(iso: string): (r: string)
    ensures |r| == |iso|
    ensures forall i | 0 <= i < |iso| :: r[i] == (if iso[i] in ":." then '-' else iso[i])
  {
    if iso == [] then []
    else FileStamp(iso[..|iso| - 1]) + [if iso[|iso| - 1] in ":." then '-' else iso[|iso| - 1]]
  }

  /** The shape of `Date.prototype.toISOString()` for years 0 to 9999:
      `YYYY-MM-DDTHH:mm:ss.sssZ`, with the separators `:` and `.` at fixed
      places and nowhere else. */
  predicate IsoShaped(iso: string) {
    && |iso| == 24
    && iso[13] == ':' && iso[16] == ':' && iso[19] == '.'
    && forall i | 0 <= i < 24 && i !in {13, 16, 19} :: iso[i] !in ":."
  }

  /** `dump-${serviceName}-${timestamp}.sql`. */
  function DumpFileName(serviceName: string, iso: string): (r: string)
    ensures EndsWith(r, ".sql") && StartsWith(r, "dump-")
  {
    var r := "dump-" + serviceName + "-" + FileStamp(iso) + ".sql";
    assert r[|r| - 4..] == ".sql";
    assert r[..5] == "dump-";
    r
  }

  /** `path.join(targetDir, fileName)`. */
  function DumpFile(targetDir: string, serviceName: string, iso: string): string {
    PathJoin(targetDir, DumpFileName(serviceName, iso))
  }

  /** Two exports at different instants write different files: the stamp
      keeps every character of the timestamp except the separators, and
      those sit at the same places in every ISO timestamp. */
  lemma {:induction false} DistinctInstantsDistinctFiles(targetDir: string, serviceName: string,
                                                         a: string, b: string)
    requires IsoShaped(a) && IsoShaped(b) && a != b
    ensures DumpFile(targetDir, serviceName, a) != DumpFile(targetDir, serviceName, b)
  {
    var i :| 0 <= i < 24 && a[i] != b[i];
    assert i !in {13, 16, 19};
    assert FileStamp(a)[i] != FileStamp(b)[i];
    var prefix := targetDir + "/" + "dump-" + serviceName + "-";
    assert DumpFile(targetDir, serviceName, a) == prefix + FileStamp(a) + ".sql";
    assert DumpFile(targetDir, serviceName, b) == prefix + FileStamp(b) + ".sql";
    assert (prefix + FileStamp(a) + ".sql")[|prefix| + i] == FileStamp(a)[i];
    assert (prefix + FileStamp(b) + ".sql")[|prefix| + i] == FileStamp(b)[i];
  }

  // ---------------------------------------------------------------------------
  // Engines

  /** The two dump and restore tool sets the actions choose between. */
  datatype Engine = MySql | Postgres

  /** The message both `exportDatabase` and `resetDatabase` give for an engine
      they do not handle; for a missing one it reads `undefined`. */
  function UnsupportedMessage(dbType: Option<Value>): (r: string)
    ensures StartsWith(r, "Unsupported database type: ")
    ensures dbType.None? ==> |r| >= 36 && r[27..36] == "undefined"
  {
    var r := "Unsupported database type: " + Interpolate(dbType) + ". Supported types are mysql and postgresql.";
    assert r[..27] == "Unsupported database type: ";
    assert dbType.None? ==> r[27..36] == Interpolate(dbType);
    r
  }

  // ---------------------------------------------------------------------------
  // Export

  /** What `exportDatabase` does: refuse the engine with a message, or dump
      database `database` of container `container` into `file`. */
  datatype DumpOutcome =
    | DumpRefused(message: string)
    | Dumped(engine: Engine, container: string, database: string, file: string)

  /** `exportDatabase(serviceName, dbType, dbName, targetDir)`: `mysql` runs
      `mysqldump`, `postgresql` runs `pg_dump`, anything else is refused. */
  function ExportDatabase(serviceName: string, dbType: Option<Value>, dbName: string, targetDir: string,
                          iso: string): (r: DumpOutcome)
    ensures r.Dumped? <==> dbType in {Some(Str("mysql")), Some(Str("postgresql"))}
    ensures r.Dumped? ==> && (r.engine == Postgres <==> dbType == Some(Str("postgresql")))
                          && r.container == ComposeHelper.ServiceKey(serviceName)
                          && r.database == dbName
                          && r.file == DumpFile(targetDir, serviceName, iso)
    ensures r.DumpRefused? ==> r.message == UnsupportedMessage(dbType)
  {
    var container := ComposeHelper.ServiceKey(serviceName);
    var file := DumpFile(targetDir, serviceName, iso);
    if dbType == Some(Str("mysql")) then Dumped(MySql, container, dbName, file)
    else if dbType == Some(Str("postgresql")) then Dumped(Postgres, container, dbName, file)
    else DumpRefused(UnsupportedMessage(dbType))
  }

  /** `path.join(rootDir, serviceName, 'database', 'backups', 'manual')`. */
  function ManualBackupsDir(rootDir: string, serviceName: string): string {
    PathJoin(PathJoin(PathJoin(PathJoin(rootDir, serviceName), "database"), "backups"), "manual")
  }

  /** `exportDatabaseDump(serviceName)`: looks the service up in the registry
      and exports `<svc>_db` with the entry's `database` field as the engine
      into the manual backups folder. `Failure` when the registry lookup
      throws, or when `rootDir` is not a string and `path.join` throws. */
  function ExportDatabaseDump(file: Option<Value>, serviceName: string, iso: string): (r: Result<DumpOutcome>)
    ensures Registry.GetConfigPaths(file, serviceName).Failure? ==> r.Failure?
    ensures r.Success? ==>
              var fields := Registry.GetConfigPaths(file, serviceName).value.fields;
              exists rootDir ::
                && Get(fields, "rootDir") == Some(Str(rootDir))
                && r.value == ExportDatabase(serviceName, Get(fields, "database"), CreateDatabase.DbName(serviceName),
                                             ManualBackupsDir(rootDir, serviceName), iso)
  {
    var paths := Registry.GetConfigPaths(file, serviceName);
    if paths.Failure? then Failure(paths.error)
    else
      match Get(paths.value.fields, "rootDir")
      case Some(Str(rootDir)) =>
        Success(ExportDatabase(serviceName, Get(paths.value.fields, "database"), CreateDatabase.DbName(serviceName),
                               ManualBackupsDir(rootDir, serviceName), iso))
      case _ => Failure("The \"path\" argument must be of type string")
  }

  // ---------------------------------------------------------------------------
  // Reset

  /** What `resetDatabase` does. */
  datatype ResetOutcome =
    | ResetCancelled
    | NoComposeFile
    | ResetRefused(message: string)
    | ResetDone(engine: Engine, container: string, database: string)

  /** `resetDatabase(serviceName, dbType)`: asks first (declining is the
      default), needs `docker-compose.yml` in the working directory, and
      drops and recreates `<svc>_db` for `mysql` and `postgres`. */
  function ResetDatabase(serviceName: string, dbType: Option<Value>, confirmed: bool, composeExists: bool)
    : (r: ResetOutcome)
    ensures !confirmed <==> r == ResetCancelled
    ensures r == NoComposeFile <==> confirmed && !composeExists
    ensures r.ResetDone? <==> confirmed && composeExists && dbType in {Some(Str("mysql")), Some(Str("postgres"))}
    ensures r.ResetDone? ==> && (r.engine == Postgres <==> dbType == Some(Str("postgres")))
                             && r.container == ComposeHelper.ServiceKey(serviceName)
                             && r.database == CreateDatabase.DbName(serviceName)
    ensures r.ResetRefused? ==> r.message == UnsupportedMessage(dbType)
  {
    if !confirmed then ResetCancelled
    else if !composeExists then NoComposeFile
    else
      var container := ComposeHelper.ServiceKey(serviceName);
      var database := CreateDatabase.DbName(serviceName);
      if dbType == Some(Str("mysql")) then ResetDone(MySql, container, database)
      else if dbType == Some(Str("postgres")) then ResetDone(Postgres, container, database)
      else ResetRefused(UnsupportedMessage(dbType))
  }

  // ---------------------------------------------------------------------------
  // Choosing a dump file

  /** One directory entry as `readdir` and `lstat` report it; `lstat` does
      not follow links, so a link to a directory is not a directory. */
  datatype DirEntry = DirEntry(name: string, isDir: bool)

  /** One choice of the list prompt. */
  datatype Choice = Choice(value: string, disabled: bool)

  /** The position of the last `c` in `s`. */
  function LastIndexOf(s: string, c: char): (r: Option<nat>)
    ensures r.None? <==> c !in s
    ensures r.Some? ==> r.value < |s| && s[r.value] == c && c !in s[r.value + 1..]
  {
    if s == [] then None
    else if s[|s| - 1] == c then Some(|s| - 1)
    else
      var r := LastIndexOf(s[..|s| - 1], c);
      assert s == s[..|s| - 1] + [s[|s| - 1]];
      if r.Some? then
        assert s[r.value + 1..] == s[..|s| - 1][r.value + 1..] + [s[|s| - 1]];
        r
      else r
  }

  /** `path.extname(name)` for a directory entry's name: from the last dot
      to the end, except that a name without a dot, a name whose only dot
      leads it, and `..` have none. */
  function Extname(name: string): string {
    var dot := LastIndexOf(name, '.');
    if dot.None? || dot.value == 0 || name == ".." then "" else name[dot.value..]
  }

  /** Only names that end in `.sql` after at least one other character
      have the extension `.sql`. */
  lemma SqlExtension(name: string)
    ensures Extname(name) == ".sql" <==> |name| > 4 && EndsWith(name, ".sql")
  {
    var dot := LastIndexOf(name, '.');
    if |name| > 4 && EndsWith(name, ".sql") {
      var k := |name| - 4;
      assert name[k..] == ".sql";
      assert name[k] == '.';
      assert name[k + 1..] == "sql";
    }
    if Extname(name) == ".sql" {
      assert |name[dot.value..]| == 4;
    }
  }

  /** The choices `navigateAndSelectSQLFile` offers in `dir`: every entry by
      its full path, disabled when it is neither a directory nor a `.sql`
      file, then going up and cancelling. */
  function Choices(dir: string, entries: seq<DirEntry>): (r: seq<Choice>)
    ensures |r| == |entries| + 2
    ensures forall k | 0 <= k < |entries| ::
              && r[k].value == PathJoin(dir, entries[k].name)
              && (r[k].disabled <==> !entries[k].isDir && Extname(entries[k].name) != ".sql")
    ensures r[|entries|] == Choice("..", false) && r[|entries| + 1] == Choice("cancel", false)
  {
    seq(|entries|, k requires 0 <= k < |entries| =>
          Choice(PathJoin(dir, entries[k].name), !entries[k].isDir && Extname(entries[k].name) != ".sql"))
      + [Choice("..", false), Choice("cancel", false)]
  }

  /** Where `path.dirname` cuts `p`: scanning down from `i` to index 1, the
      first `/` that follows a character other than `/`; -1 when there is
      none. */
  function DirEnd(p: string, i: int, matchedSlash: bool): (r: int)
    requires i < |p|
    ensures r == -1 || (1 <= r <= i && p[r] == '/')
    decreases i
  {
    if i < 1 then -1
    else if p[i] == '/' then (if !matchedSlash then i else DirEnd(p, i - 1, matchedSlash))
    else DirEnd(p, i - 1, false)
  }

  /** `path.dirname(p)` on POSIX. */
  function Dirname(p: string): (r: string)
    ensures p == "/" ==> r == "/"
    ensures r in {".", "/", "//"} || (|r| < |p| && r == p[..|r|])
  {
    if p == [] then "."
    else
      var end := DirEnd(p, |p| - 1, true);
      if end == -1 then (if p[0] == '/' then "/" else ".")
      else if p[0] == '/' && end == 1 then "//"
      else p[..end]
  }

  lemma {:induction false} DirEndFindsSeparator(p: string, i: int, matchedSlash: bool, k: nat)
    requires 1 <= k < i < |p| && p[k] == '/'
    requires forall j | k < j <= i :: p[j] != '/'
    ensures DirEnd(p, i, matchedSlash) == k
    decreases i
  {
    if i - 1 > k {
      DirEndFindsSeparator(p, i - 1, false, k);
    }
  }

  /** Going up from a folder entered from `dir` comes back to `dir`. */
  lemma DirnameOfJoin(dir: string, name: string)
    requires dir != "" && dir != "/" && name != [] && '/' !in name
    ensures Dirname(PathJoin(dir, name)) == dir
  {
    var p := PathJoin(dir, name);
    assert p[|dir|] == '/';
    forall j | |dir| < j <= |p| - 1
      ensures p[j] != '/'
    {
      assert p[j] == name[j - |dir| - 1];
    }
    if |dir| >= 1 && |p| - 1 > |dir| {
      DirEndFindsSeparator(p, |p| - 1, true, |dir|);
    }
    assert p[..|dir|] == dir;
  }

  /** The state of the browser: still browsing a folder, a file chosen, or
      no file (cancelled, or an error that was logged). */
  datatype Browse = Browsing(dir: string) | Picked(file: string) | NoFile(errorLogged: bool)

  /** One round of the loop: the listing of the current folder (`None` when
      `readdir` throws), the value the user selected, and what `lstat`
      reports for it (`None` when it throws). */
  datatype Round = Round(listing: Option<seq<DirEntry>>, selected: string, selectedIsDir: Option<bool>)

  /** One round of `navigateAndSelectSQLFile` in folder `dir`. */
  function BrowseStep(dir: string, round: Round): (r: Browse)
    ensures round.listing.None? ==> r == NoFile(true)
    ensures r.Picked? ==> r.file == round.selected && round.selectedIsDir == Some(false)
    ensures round.listing.Some? && round.selected == ".." ==> r == Browsing(Dirname(dir))
    ensures round.listing.Some? && round.selected == "cancel" ==> r == NoFile(false)
  {
    if round.listing.None? then NoFile(true)
    else if round.selected == "cancel" then NoFile(false)
    else if round.selected == ".." then Browsing(Dirname(dir))
    else if round.selectedIsDir.None? then NoFile(true)
    else if round.selectedIsDir.value then Browsing(round.selected)
    else Picked(round.selected)
  }

  /** The list prompt only returns an enabled choice, and `lstat` reports
      for the selected path what it reported for the listing. */
  predicate Offered(dir: string, round: Round) {
    && round.listing.Some?
    && var entries := round.listing.value;
    && (round.selected in {"..", "cancel"}
        || exists k | 0 <= k < |entries| ::
             && round.selected == Choices(dir, entries)[k].value
             && !Choices(dir, entries)[k].disabled
             && round.selectedIsDir == Some(entries[k].isDir))
  }

  /** A file picked from an offered list is a `.sql` file of the folder. */
  lemma PickedIsSqlFile(dir: string, round: Round)
    requires Offered(dir, round)
    requires forall e | e in round.listing.value :: '/' !in e.name
    ensures var r := BrowseStep(dir, round);
            r.Picked? ==> exists name :: && DirEntry(name, false) in round.listing.value
                                         && r.file == PathJoin(dir, name)
                                         && |name| > 4 && EndsWith(name, ".sql")
  {
    var r := BrowseStep(dir, round);
    if r.Picked? {
      var entries := round.listing.value;
      assert "/" !in {"..", "cancel"} by {
        assert '/' !in ".." && '/' !in "cancel";
      }
      if round.selected in {"..", "cancel"} {
        assert false;
      }
      var k :| 0 <= k < |entries| && round.selected == Choices(dir, entries)[k].value
                && !Choices(dir, entries)[k].disabled && round.selectedIsDir == Some(entries[k].isDir);
      assert entries[k] in entries;
      assert Extname(entries[k].name) == ".sql";
      SqlExtension(entries[k].name);
      assert DirEntry(entries[k].name, false) == entries[k];
    }
  }

  /** The browser run over successive rounds from `dir`, up to the round that
      ends it. */
  function Navigate(dir: string, rounds: seq<Round>): (r: Browse)
    ensures r.Picked? ==> exists i | 0 <= i < |rounds| ::
                            rounds[i].selected == r.file && rounds[i].selectedIsDir == Some(false)
    ensures rounds == [] ==> r == Browsing(dir)
    decreases |rounds|
  {
    if rounds == [] then Browsing(dir)
    else
      var next := BrowseStep(dir, rounds[0]);
      if next.Browsing? then
        var r := Navigate(next.dir, rounds[1..]);
        if r.Picked? then
          var i :| 0 <= i < |rounds[1..]| && rounds[1..][i].selected == r.file
                   && rounds[1..][i].selectedIsDir == Some(false);
          assert rounds[i + 1] == rounds[1..][i];
          r
        else r
      else next
  }

  /** Entering a listed folder and then going up returns to where the user
      was. */
  lemma EnterThenUp(dir: string, name: string, listing: seq<DirEntry>, rest: seq<Round>)
    requires dir != "" && dir != "/" && name != [] && '/' !in name
    ensures var enter := Round(Some(listing), PathJoin(dir, name), Some(true));
            var up := Round(Some(listing), "..", None);
            Navigate(dir, [enter, up] + rest) == Navigate(dir, rest)
  {
    var enter := Round(Some(listing), PathJoin(dir, name), Some(true));
    var up := Round(Some(listing), "..", None);
    var p := PathJoin(dir, name);
    assert p[|dir|] == '/';
    assert p != "cancel" && p != ".." by {
      assert '/' !in "cancel" && '/' !in "..";
      assert p[|dir|] in p;
    }
    assert BrowseStep(dir, enter) == Browsing(p);
    DirnameOfJoin(dir, name);
    assert BrowseStep(p, up) == Browsing(dir);
    assert ([enter, up] + rest)[1..] == [up] + rest;
    assert ([up] + rest)[1..] == rest;
  }

  // ---------------------------------------------------------------------------
  // Import

  /** What `importDatabaseDump` runs: nothing without a file, otherwise the
      engine's create command for `created` and its import of `file` into
      `database`, `None` when the import command names no database. */
  datatype ImportOutcome =
    | NoFileSelected
    | Imported(engine: Engine, container: string, created: string, database: Option<string>, file: string)

  /** `dbType === 'mysql' ? <mysql> : <psql>`: every engine other than
      `mysql` gets the PostgreSQL commands. */
  function ImportEngine(dbType: Option<Value>): (e: Engine)
    ensures e == MySql <==> dbType == Some(Str("mysql"))
  {
    if dbType == Some(Str("mysql")) then MySql else Postgres
  }

  /** The database the create command names. The MySQL command writes an
      escaped backtick, which the container's `sh` keeps inside its double
      quotes, so `mysql` reads the quoted name `` ` ${dbName}` ``: the name
      with a leading space. */
  function CreatedName(engine: Engine, dbName: string): string {
    if engine == MySql then " " + dbName else dbName
  }

  /** The database the import command names. `psql -d <name>` names it.
      The MySQL command wraps the name in bare backticks inside the single
      quotes the host shell passes through, so the container's `sh` runs the
      name as a command substitution; no such command exists, it prints
      nothing, and `mysql` is left with no database argument. */
  function ImportTarget(engine: Engine, dbName: string): (t: Option<string>)
    ensures t.Some? <==> engine.Postgres?
    ensures t.Some? ==> t.value == dbName
  {
    if engine == MySql then None else Some(dbName)
  }

  /** `importDatabaseDump(serviceName, dbType, dbName)` after the browser
      ended with `picked`; editing the file first is left to the user. */
  function ImportDatabaseDump(serviceName: string, dbType: Option<Value>, dbName: string, picked: Browse)
    : (r: ImportOutcome)
    ensures r.Imported? <==> picked.Picked? && picked.file != ""
    ensures r.Imported? ==> && r.engine == ImportEngine(dbType)
                            && r.container == ComposeHelper.ServiceKey(serviceName)
                            && (r.database.Some? <==> r.engine == Postgres)
                            && (r.database.Some? ==> r.database.value == dbName)
                            && r.file == picked.file
  {
    if !picked.Picked? || picked.file == "" then NoFileSelected
    else
      var engine := ImportEngine(dbType);
      Imported(engine, ComposeHelper.ServiceKey(serviceName), CreatedName(engine, dbName),
               ImportTarget(engine, dbName), picked.file)
  }

  /** As written, a MySQL import makes sure a database exists whose name is
      the intended one with a leading space, so not the intended one. */
  lemma MySqlImportCreatesOtherDatabase(serviceName: string, dbName: string, file: string)
    requires file != ""
    ensures var r := ImportDatabaseDump(serviceName, Some(Str("mysql")), dbName, Picked(file));
            r.Imported? && r.created == " " + dbName && r.created != dbName
  {
    var r := ImportDatabaseDump(serviceName, Some(Str("mysql")), dbName, Picked(file));
    assert |r.created| != |dbName|;
  }

  /** As written, a MySQL import runs `mysql` with no database, whatever the
      name; a PostgreSQL import names the database it was given. */
  lemma MySqlImportNamesNoDatabase(serviceName: string, dbName: string, file: string)
    requires file != ""
    ensures ImportDatabaseDump(serviceName, Some(Str("mysql")), dbName, Picked(file)).database.None?
    ensures ImportDatabaseDump(serviceName, Some(Str("postgres")), dbName, Picked(file)).database == Some(dbName)
  {
    assert Str("postgres") != Str("mysql") by { assert "postgres"[0] != "mysql"[0]; }
  }

  /** The import with both MySQL commands escaping their backticks and no
      leading space: the create command and the import name the same
      database, for either engine. */
  function FixedImportDatabaseDump(serviceName: string, dbType: Option<Value>, dbName: string, picked: Browse)
    : (r: ImportOutcome)
    ensures r.Imported? <==> picked.Picked? && picked.file != ""
    ensures r.Imported? ==> && r.created == dbName && r.database == Some(dbName)
                            && r.engine == ImportEngine(dbType) && r.file == picked.file
  {
    match ImportDatabaseDump(serviceName, dbType, dbName, picked)
    case NoFileSelected => NoFileSelected
    case Imported(engine, container, _, _, file) => Imported(engine, container, dbName, Some(dbName), file)
  }

  // ---------------------------------------------------------------------------
  // Engine names

  /** `exportDatabase` names PostgreSQL `postgresql`, but the engine the
      tool records and `resetDatabase` accepts is `postgres`: a PostgreSQL
      service that can be reset cannot be exported. */
  lemma PostgresResetButNotExported(serviceName: string, dbName: string, targetDir: string, iso: string)
    ensures ResetDatabase(serviceName, Some(Str("postgres")), true, true).ResetDone?
    ensures ExportDatabase(serviceName, Some(Str("postgres")), dbName, targetDir, iso).DumpRefused?
  {
    assert Str("postgres") != Str("postgresql") by { assert |"postgres"| != |"postgresql"|; }
    assert Str("postgres") != Str("mysql") by { assert "postgres"[0] != "mysql"[0]; }
  }

  /** `exportDatabase` accepting the engine names `databaseMap` records. */
  function FixedExportDatabase(serviceName: string, dbType: Option<Value>, dbName: string, targetDir: string,
                               iso: string): (r: DumpOutcome)
    ensures r.Dumped? <==> dbType in {Some(Str("mysql")), Some(Str("postgres"))}
    ensures r.Dumped? ==> && (r.engine == Postgres <==> dbType == Some(Str("postgres")))
                          && r.container == ComposeHelper.ServiceKey(serviceName)
                          && r.database == dbName
                          && r.file == DumpFile(targetDir, serviceName, iso)
  {
    var container := ComposeHelper.ServiceKey(serviceName);
    var file := DumpFile(targetDir, serviceName, iso);
    if dbType == Some(Str("mysql")) then Dumped(MySql, container, dbName, file)
    else if dbType == Some(Str("postgres")) then Dumped(Postgres, container, dbName, file)
    else DumpRefused(UnsupportedMessage(dbType))
  }

  /** With the fixed export, every server engine `databaseMap` records can be
      exported exactly when it can be reset, with the same tools, container
      and database. */
  lemma FixedExportMatchesReset(display: string, serviceName: string, targetDir: string, iso: string)
    requires CreateDatabase.DatabaseMap(display).Some?
    ensures var dbType := Some(Str(CreateDatabase.DatabaseMap(display).value));
            var dump := FixedExportDatabase(serviceName, dbType, CreateDatabase.DbName(serviceName), targetDir, iso);
            var reset := ResetDatabase(serviceName, dbType, true, true);
            && (dump.Dumped? <==> reset.ResetDone?)
            && (dump.Dumped? ==> && dump.engine == reset.engine && dump.container == reset.container
                                 && dump.database == reset.database)
  {
  }

  // ---------------------------------------------------------------------------
  // The registered engine

  /** For a service registered by `addOrUpdateProjectConfig`, the engine the
      actions read from its paths is `undefined`: exporting is refused,
      resetting is refused after the user confirmed, and importing runs the
      PostgreSQL commands whatever the service's engine. */
  lemma RegisteredServiceActions(file: Option<Value>, serviceName: string, orm: string, rootDir: string,
                                 templatesRoot: string, iso: string, picked: string)
    requires file.None? || Registry.HasDatabases(file.value)
    requires picked != ""
    ensures var saved := Registry.AddOrUpdateProjectConfig(file, serviceName, orm, rootDir, templatesRoot);
            && saved.Success?
            && var paths := Registry.GetConfigPaths(Some(saved.value), serviceName);
            && paths.Success?
            && var dbType := Get(paths.value.fields, "database");
            && ExportDatabaseDump(Some(saved.value), serviceName, iso)
               == Success(DumpRefused(UnsupportedMessage(None)))
            && ResetDatabase(serviceName, dbType, true, true)
               == ResetRefused(UnsupportedMessage(None))
            && ImportDatabaseDump(serviceName, dbType, CreateDatabase.DbName(serviceName), Picked(picked)).engine
               == Postgres
  {
    RegisteredExport(file, serviceName, orm, rootDir, templatesRoot, iso);
  }

  /** What the export of a freshly registered service reads: no engine, and
      the manual backups folder under the saved root. */
  lemma RegisteredExport(file: Option<Value>, serviceName: string, orm: string, rootDir: string,
                         templatesRoot: string, iso: string)
    requires file.None? || Registry.HasDatabases(file.value)
    ensures var saved := Registry.AddOrUpdateProjectConfig(file, serviceName, orm, rootDir, templatesRoot);
            && saved.Success?
            && var paths := Registry.GetConfigPaths(Some(saved.value), serviceName);
            && paths.Success?
            && Get(paths.value.fields, "database") == None
            && ExportDatabaseDump(Some(saved.value), serviceName, iso)
               == Success(ExportDatabase(serviceName, None, CreateDatabase.DbName(serviceName),
                                         ManualBackupsDir(rootDir, serviceName), iso))
  {
    Registry.WrittenEntryLacksDatabase(file, serviceName, orm, rootDir, templatesRoot);
    var saved := Registry.AddOrUpdateProjectConfig(file, serviceName, orm, rootDir, templatesRoot);
    var paths := Registry.GetConfigPaths(Some(saved.value), serviceName);
    assert Get(paths.value.fields, "database") == None;
    ExportFromPaths(Some(saved.value), serviceName, iso, rootDir);
  }

  /** A lookup that yields a string root exports into that root's manual
      backups folder, with the engine the lookup yields. */
  lemma ExportFromPaths(file: Option<Value>, serviceName: string, iso: string, rootDir: string)
    requires Registry.GetConfigPaths(file, serviceName).Success?
    requires Get(Registry.GetConfigPaths(file, serviceName).value.fields, "rootDir") == Some(Str(rootDir))
    ensures ExportDatabaseDump(file, serviceName, iso)
            == Success(ExportDatabase(serviceName, Get(Registry.GetConfigPaths(file, serviceName).value.fields, "database"),
                                      CreateDatabase.DbName(serviceName), ManualBackupsDir(rootDir, serviceName), iso))
  {
  }

  /** With the engine passed explicitly, a MySQL service is exported, reset
      and imported with the MySQL tools, and a PostgreSQL one with the
      PostgreSQL tools. */
  lemma FixedEngineActions(engine: string, serviceName: string, targetDir: string, iso: string, picked: string)
    requires engine in {"mysql", "postgres"} && picked != ""
    ensures var dbType := Some(Str(engine));
            var want := if engine == "mysql" then MySql else Postgres;
            var dbName := CreateDatabase.DbName(serviceName);
            && FixedExportDatabase(serviceName, dbType, dbName, targetDir, iso).Dumped?
            && FixedExportDatabase(serviceName, dbType, dbName, targetDir, iso).engine == want
            && ResetDatabase(serviceName, dbType, true, true) == ResetDone(want, ComposeHelper.ServiceKey(serviceName), dbName)
            && FixedImportDatabaseDump(serviceName, dbType, dbName, Picked(picked)).engine == want
  {
    assert Str("postgres") != Str("mysql") by { assert "postgres"[0] != "mysql"[0]; }
  }
}

=== FILE: delete_service.dfy ===
/** `deleteServiceAction` and `deleteDockerService` of
    src/core/delete-service.core.ts: remove a service from the registry and,
    if the user agrees, its service and volume keys from the compose document.
    Removing the service folder, the container clean-up and the spinner are
    left out; prompt answers are parameters. */
module DeleteService {
  import opened Wrappers
  import opened Text
  import opened Document
  import Registry

  /** The registry key this file reads its entries from. */
  const ServicesKey: string := "services"

  /** `Object.keys(projectConfig.services || {})` as a set, over the entries
      kept under `key`. Reading a property of `null` throws. */
  function ServiceNames(cfg: Value, key: string): (r: Option<set<string>>)
    ensures r.None? <==> cfg.Null?
    ensures cfg.Obj? && IsSet(cfg.fields, key) && cfg.fields[key].Obj? ==> r == Some(cfg.fields[key].fields.Keys)
    ensures cfg.Obj? && !IsSet(cfg.fields, key) ==> r == Some({})
  {
    if cfg.Null? then None
    else if cfg.Obj? && IsSet(cfg.fields, key) && cfg.fields[key].Obj? then Some(cfg.fields[key].fields.Keys)
    else Some({})
  }

  /** The outcome of `deleteServiceAction`: the registry document saved (if
      any) and the compose document written (if any). */
  datatype Outcome = Outcome(savedConfig: Option<Value>, writtenCompose: Option<Value>)

  const NoChange: Outcome := Outcome(None, None)

  /** `deleteServiceAction` with the registry entries read from `key`.
      `compose` is the compose document when the file exists. An error thrown
      inside the `try` leaves what was already saved. */
  function DeleteServiceActionWith(key: string, file: Option<Value>, selected: string,
                                   confirmDelete: bool, compose: Option<Value>,
                                   confirmDocker: bool): (r: Result<Outcome>)
    ensures r.Success? && !confirmDelete ==> r.value == NoChange
    ensures r.Success? && r.value.writtenCompose.Some? ==> confirmDocker && compose.Some?
    ensures r.Success? && r.value.savedConfig.Some? ==>
              var saved := r.value.savedConfig.value;
              saved.Obj? && key in saved.fields && saved.fields[key].Obj? && selected !in saved.fields[key].fields
  {
    var cfg := Registry.LoadProjectConfig(file);
    var names := ServiceNames(cfg, key);
    if names.None? then Failure("Cannot read properties of null")
    else if names.value == {} then Success(NoChange)
    else if !confirmDelete then Success(NoChange)
    else if !("rootDir" in cfg.fields && cfg.fields["rootDir"].Str?) then
      // `path.join(rootDir, selectedService)` throws before the `try`.
      Failure("The \"path\" argument must be of type string")
    else
      var saved := Obj(cfg.fields[key := Obj(cfg.fields[key].fields - {selected})]);
      match compose
      case None => Success(Outcome(Some(saved), None))
      case Some(doc) =>
        match DeleteDockerService(doc, selected, confirmDocker)
        case Success(w) => Success(Outcome(Some(saved), w))
        // Caught by the `try`; the registry is already saved.
        case Failure(_) => Success(Outcome(Some(saved), None))
  }

  /** `deleteServiceAction` as written: entries read from `services`. */
  function DeleteServiceAction(file: Option<Value>, selected: string, confirmDelete: bool,
                               compose: Option<Value>, confirmDocker: bool): (r: Result<Outcome>)
    ensures r.Success? && !confirmDelete ==> r.value == NoChange
    ensures r.Success? && r.value.writtenCompose.Some? ==> confirmDocker && compose.Some?
    ensures r.Success? && r.value.savedConfig.Some? ==>
              var saved := r.value.savedConfig.value;
              saved.Obj? && ServicesKey in saved.fields && saved.fields[ServicesKey].Obj?
              && selected !in saved.fields[ServicesKey].fields
  {
    DeleteServiceActionWith(ServicesKey, file, selected, confirmDelete, compose, confirmDocker)
  }

  /** `if (o && o[k]) delete o[k]` on a section value. */
  function RemoveIfSet(section: Option<Value>, k: string): Option<Value> {
    match section
    case Some(Obj(m)) => if IsSet(m, k) then Some(Obj(m - {k})) else section
    case _ => section
  }

  /** Puts a section back when it was present. */
  function PutBack(m: map<string, Value>, sec: string, v: Option<Value>): map<string, Value> {
    if v.Some? then m[sec := v.value] else m
  }

  /** `deleteDockerService`: the compose document written, `None` when the user
      declines, `Failure` when reading `services` of an empty (null) document
      throws. */
  function DeleteDockerService(doc: Value, selected: string, confirmDocker: bool): (r: Result<Option<Value>>)
    ensures r.Failure? <==> confirmDocker && doc.Null?
    ensures r.Success? ==> (r.value.Some? <==> confirmDocker)
    ensures r.Success? && r.value.Some? && doc.Obj? ==>
              r.value.value.Obj? && r.value.value.fields.Keys == doc.fields.Keys
              && forall k | k in doc.fields && k !in {"services", "volumes"} :: r.value.value.fields[k] == doc.fields[k]
  {
    if !confirmDocker then Success(None)
    else match doc
      case Null => Failure("Cannot read properties of null (reading 'services')")
      case Obj(m) =>
        var services := RemoveIfSet(Get(m, "services"), selected + "-db");
        var volumes := RemoveIfSet(Get(m, "volumes"), selected + "-data");
        Success(Some(Obj(PutBack(PutBack(m, "services", services), "volumes", volumes))))
      case _ => Success(Some(doc))
  }

  /** The compose deletion removes exactly `<sel>-db` from `services` and
      `<sel>-data` from `volumes` when they are set, and changes nothing else;
      the file is written even when neither key was there. */
  lemma DockerDeletionEffect(m: map<string, Value>, selected: string)
    requires "services" in m && m["services"].Obj? && "volumes" in m && m["volumes"].Obj?
    ensures var r := DeleteDockerService(Obj(m), selected, true);
            var s := m["services"].fields;
            var v := m["volumes"].fields;
            && r.Success? && r.value.Some? && r.value.value.Obj?
            && r.value.value.fields.Keys == m.Keys
            && (forall k | k in m && k !in {"services", "volumes"} :: r.value.value.fields[k] == m[k])
            && r.value.value.fields["services"]
               == Obj(if IsSet(s, selected + "-db") then s - {selected + "-db"} else s)
            && r.value.value.fields["volumes"]
               == Obj(if IsSet(v, selected + "-data") then v - {selected + "-data"} else v)
  {
    assert "services" != "volumes" by { assert |"services"| != |"volumes"|; }
  }

  /** Declining the compose step writes nothing. */
  lemma DockerDeclineWritesNothing(doc: Value, selected: string)
    ensures DeleteDockerService(doc, selected, false) == Success(None)
  {
  }

  /** With no registered services, or when the user declines, neither file
      changes. */
  lemma NothingWithoutConfirmation(key: string, file: Option<Value>, selected: string,
                                   confirmDelete: bool, compose: Option<Value>, confirmDocker: bool)
    requires var cfg := Registry.LoadProjectConfig(file);
             cfg.Obj? && (!confirmDelete || !IsSet(cfg.fields, key))
    ensures DeleteServiceActionWith(key, file, selected, confirmDelete, compose, confirmDocker)
            == Success(NoChange)
  {
  }

  /** On confirmation the saved registry lacks exactly the selected entry:
      `rootDir`, the other entries and the other keys are unchanged. */
  lemma RegistryRemoval(key: string, cfg: Value, selected: string, compose: Option<Value>,
                        confirmDocker: bool)
    requires cfg.Obj? && "rootDir" in cfg.fields && cfg.fields["rootDir"].Str?
    requires IsSet(cfg.fields, key) && cfg.fields[key].Obj? && cfg.fields[key].fields != map[]
    ensures var r := DeleteServiceActionWith(key, Some(cfg), selected, true, compose, confirmDocker);
            && r.Success? && r.value.savedConfig.Some?
            && var saved := r.value.savedConfig.value;
            && saved.Obj? && saved.fields.Keys == cfg.fields.Keys
            && saved.fields[key] == Obj(cfg.fields[key].fields - {selected})
            && (forall k | k in cfg.fields && k != key :: saved.fields[k] == cfg.fields[k])
  {
    assert cfg.fields[key].fields.Keys != {} by {
      var k :| k in cfg.fields[key].fields;
    }
  }

  /** The removal keys use the raw name while `buildDockerCompose` sanitizes
      it: for a name with whitespace, the service it created survives. */
  lemma RawNameMissesSanitizedKey(m: map<string, Value>, selected: string, sanitizedKey: string)
    requires "services" in m && m["services"].Obj?
    requires sanitizedKey != selected + "-db" && sanitizedKey in m["services"].fields
    ensures var r := DeleteDockerService(Obj(m), selected, true);
            r.Success? && r.value.Some? && r.value.value.Obj?
            && "services" in r.value.value.fields && r.value.value.fields["services"].Obj?
            && sanitizedKey in r.value.value.fields["services"].fields
  {
    var r := DeleteDockerService(Obj(m), selected, true);
    var services := RemoveIfSet(Get(m, "services"), selected + "-db");
    assert services.Some? && services.value.Obj? && sanitizedKey in services.value.fields;
    var m1 := PutBack(m, "services", services);
    assert m1["services"] == services.value;
    var volumes := RemoveIfSet(Get(m, "volumes"), selected + "-data");
    assert "services" != "volumes" by { assert |"services"| != |"volumes"|; }
    assert r.value.value.fields["services"] == services.value;
  }

  // ---------------------------------------------------------------------------
  // The registry key

  /** As written, entries that `addOrUpdateProjectConfig` registered (under
      `databases`) are never offered for deletion: on a fresh registry the
      list of names read from `services` is empty and the action does
      nothing. */
  lemma RegisteredEntriesNotListed(dbName: string, orm: string, rootDir: string,
                                   templatesRoot: string, selected: string, compose: Option<Value>,
                                   confirmDocker: bool)
    ensures var saved := Registry.AddOrUpdateProjectConfig(None, dbName, orm, rootDir, templatesRoot);
            && saved.Success?
            && dbName in saved.value.fields[Registry.DatabasesKey].fields
            && ServiceNames(saved.value, ServicesKey) == Some({})
            && DeleteServiceAction(Some(saved.value), selected, true, compose, confirmDocker)
               == Success(NoChange)
  {
    Registry.AddOrUpdateEffect(None, dbName, orm, rootDir, templatesRoot);
    var saved := Registry.AddOrUpdateProjectConfig(None, dbName, orm, rootDir, templatesRoot);
    assert saved.value.fields.Keys == {Registry.DatabasesKey, "rootDir"};
    assert ServicesKey !in saved.value.fields by {
      assert ServicesKey[0] != Registry.DatabasesKey[0] && ServicesKey[0] != "rootDir"[0];
    }
  }

  /** `deleteServiceAction` reading the key the registry is written under. */
  function DeleteServiceActionFixed(file: Option<Value>, selected: string, confirmDelete: bool,
                                    compose: Option<Value>, confirmDocker: bool): Result<Outcome>
  {
    DeleteServiceActionWith(Registry.DatabasesKey, file, selected, confirmDelete, compose, confirmDocker)
  }

  /** With the key corrected, a registered entry is listed, and deleting it
      removes it from the saved registry. */
  lemma FixedDeletesRegistered(dbName: string, orm: string, rootDir: string, templatesRoot: string,
                               compose: Option<Value>, confirmDocker: bool)
    ensures var saved := Registry.AddOrUpdateProjectConfig(None, dbName, orm, rootDir, templatesRoot);
            && saved.Success?
            && ServiceNames(saved.value, Registry.DatabasesKey) == Some({dbName})
            && var r := DeleteServiceActionFixed(Some(saved.value), dbName, true, compose, confirmDocker);
            && r.Success? && r.value.savedConfig.Some? && r.value.savedConfig.value.Obj?
            && r.value.savedConfig.value.fields[Registry.DatabasesKey] == EmptyObj
  {
    Registry.AddOrUpdateEffect(None, dbName, orm, rootDir, templatesRoot);
    var saved := Registry.AddOrUpdateProjectConfig(None, dbName, orm, rootDir, templatesRoot).value;
    var entry := Registry.DatabaseEntry(dbName, orm, rootDir, templatesRoot);
    assert Registry.SetEntry(Some(EmptyObj), dbName, entry) == Success(Obj(map[dbName := entry]));
    var dbs := saved.fields[Registry.DatabasesKey].fields;
    assert dbs == map[dbName := entry];
    assert IsSet(saved.fields, Registry.DatabasesKey) && dbs.Keys == {dbName};
    RegistryRemoval(Registry.DatabasesKey, saved, dbName, compose, confirmDocker);
    assert dbs - {dbName} == map[];
  }
}

=== FILE: document.dfy ===
/** The parsed form of the tool's JSON and YAML documents, with JavaScript's
    notion of truthiness. A key that is missing reads as `undefined`; a YAML
    key written with no body (`key:`) loads as `null`; both are falsy. */
module Document {
  import opened Wrappers
  import opened Text

  datatype Value =
    | Null
    | Bool(b: bool)
    | Num(n: int)
    | Str(s: string)
    | Arr(items: seq<Value>)
    | Obj(fields: map<string, Value>)

  const EmptyObj: Value := Obj(map[])

  /** The properties every object inherits from `Object.prototype`. Each is a
      function, except `__proto__`, which is the prototype object itself; so
      reading one of them is truthy, and spreading what it reads adds no
      field. */
  const ObjectPrototypeNames: set<string> :=
    {"constructor", "toString", "isPrototypeOf", "hasOwnProperty", "propertyIsEnumerable",
     "toLocaleString", "valueOf", "__defineGetter__", "__defineSetter__", "__lookupGetter__",
     "__lookupSetter__", "__proto__"}

  /** JavaScript truthiness: null, false, 0 and "" are falsy; every array and
      object, even an empty one, is truthy. */
  predicate Truthy(v: Value) {
    match v
    case Null => false
    case Bool(b) => b
    case Num(n) => n != 0
    case Str(s) => s != ""
    case _ => true
  }

  /** `o[k]` on an object's fields: `None` is `undefined`. */
  function Get(fields: map<string, Value>, k: string): Option<Value> {
    if k in fields then Some(fields[k]) else None
  }

  /** The read `o[k]` is truthy: the key is present and its value is truthy. */
  predicate IsSet(fields: map<string, Value>, k: string) {
    k in fields && Truthy(fields[k])
  }

  /** `a || b` where `a` is the read `o[k]`. */
  function OrDefault(fields: map<string, Value>, k: string, default: Value): Value {
    if IsSet(fields, k) then fields[k] else default
  }

  /** The assignment `target[key] = v` in strict mode, as the document is
      then saved: an object gets the key, an array takes a property that the
      JSON or YAML output drops, and anything else throws. */
  function SetProperty(target: Value, key: string, v: Value): (r: Result<Value>)
    ensures r.Success? <==> target.Obj? || target.Arr?
    ensures target.Obj? ==> r == Success(Obj(target.fields[key := v]))
    ensures target.Arr? ==> r == Success(target)
  {
    match target
    case Obj(m) => Success(Obj(m[key := v]))
    case Arr(_) => Success(target)
    case Null => Failure("Cannot set properties of null")
    case _ => Failure("Cannot create property '" + key + "' on a primitive")
  }

  /** `String(v)` of a JSON value: array elements are joined with `,`, a
      `null` element giving nothing. */
  function ToText(v: Value): string
    decreases v
  {
    match v
    case Null => "null"
    case Bool(b) => if b then "true" else "false"
    case Num(n) => if n < 0 then "-" + NatToString(-n) else NatToString(n)
    case Str(s) => s
    case Obj(_) => "[object Object]"
    case Arr(items) =>
      Join(seq(|items|, i requires 0 <= i < |items| => if items[i].Null? then "" else ToText(items[i])), ',')
  }

  /** `${x}` where `x` is read from a parsed document: `None` is `undefined`. */
  function Interpolate(x: Option<Value>): (r: string)
    ensures x.None? ==> r == "undefined"
    ensures x.Some? && x.value.Str? ==> r == x.value.s
  {
    if x.None? then "undefined" else ToText(x.value)
  }
}

=== FILE: error_handler.dfy ===
/** `handlerError` of src/utils/error-handler.utils.ts: it reports a caught
    error with an optional context line and, when the message names a known
    error code, that code's possible solutions. The error is any JavaScript
    value (`None` for `undefined`); the report is the logger lines printed,
    and whether the handler threw before finishing. */
module ErrorHandler {
  import opened Wrappers
  import opened Text
  import opened Document
  import opened Logger

  /** The keys of `errorSolutions`, in the order `Object.keys` gives them. */
  const ErrorKeys: seq<string> := ["ECONNREFUSED", "ENOENT"]

  const DatabaseRunning: string := "Ensure your database is running."
  const ContainerReachable: string := "If using Docker, check that the container is up and reachable."
  const CheckSequelizerc: string := "Verify your database configuration in \".sequelizerc\"."
  const FileExists: string := "Check if the file or directory exists."
  const CheckFilePath: string := "Verify the file path in your configuration."

  /** `errorSolutions[key]`. */
  function Solutions(key: string): seq<string> {
    if key == "ECONNREFUSED" then [DatabaseRunning, ContainerReachable, CheckSequelizerc]
    else if key == "ENOENT" then [FileExists, CheckFilePath]
    else []
  }

  /** `err?.<key>`: a property of an object; reading one of `undefined` or
      `null` gives `undefined`, and so does reading it from a primitive or an
      array, which have no such property. */
  function Prop(err: Option<Value>, key: string): Option<Value> {
    if err.Some? && err.value.Obj? then Get(err.value.fields, key) else None
  }

  /** `err?.message || err?.error || 'Unknown error occurred'`. */
  function MessageOf(err: Option<Value>): (m: Value)
    ensures Truthy(m)
    ensures Prop(err, "message").Some? && Truthy(Prop(err, "message").value) ==> m == Prop(err, "message").value
    ensures !(Prop(err, "message").Some? && Truthy(Prop(err, "message").value))
            && Prop(err, "error").Some? && Truthy(Prop(err, "error").value)
            ==> m == Prop(err, "error").value
    ensures m == Str("Unknown error occurred") || Some(m) == Prop(err, "message") || Some(m) == Prop(err, "error")
  {
    var message := Prop(err, "message");
    var error := Prop(err, "error");
    if message.Some? && Truthy(message.value) then message.value
    else if error.Some? && Truthy(error.value) then error.value
    else Str("Unknown error occurred")
  }

  /** `errorMessage.includes(key)`: a substring test on a string, an element
      test on an array; `None` when the value has no `includes` method and
      the call throws. */
  function Includes(message: Value, key: string): Option<bool> {
    match message
    case Str(s) => Some(Contains(s, key))
    case Arr(items) => Some(Str(key) in items)
    case _ => None
  }

  /** The first key in `keys` that the message includes. */
  function FindKey(message: Value, keys: seq<string>): (r: Option<string>)
    requires message.Str? || message.Arr?
    ensures r.Some? ==> r.value in keys && Includes(message, r.value) == Some(true)
    decreases |keys|
  {
    if keys == [] then None
    else if Includes(message, keys[0]) == Some(true) then Some(keys[0])
    else FindKey(message, keys[1..])
  }

  /** `find` reports the first key the message includes, and nothing exactly
      when it includes none. */
  lemma {:induction false} FindKeyFirst(message: Value, keys: seq<string>)
    requires message.Str? || message.Arr?
    ensures var r := FindKey(message, keys);
            && (r.Some? ==> exists i | 0 <= i < |keys| ::
                              && keys[i] == r.value
                              && Includes(message, keys[i]) == Some(true)
                              && forall j | 0 <= j < i :: Includes(message, keys[j]) == Some(false))
            && (r.None? <==> forall i | 0 <= i < |keys| :: Includes(message, keys[i]) == Some(false))
    decreases |keys|
  {
    if keys != [] && Includes(message, keys[0]) != Some(true) {
      FindKeyFirst(message, keys[1..]);
      var r := FindKey(message, keys[1..]);
      if r.Some? {
        var i :| 0 <= i < |keys[1..]| && keys[1..][i] == r.value && Includes(message, keys[1..][i]) == Some(true)
                 && forall j | 0 <= j < i :: Includes(message, keys[1..][j]) == Some(false);
        assert keys[i + 1] == keys[1..][i];
        forall j | 0 <= j < i + 1
          ensures Includes(message, keys[j]) == Some(false)
        {
          if j > 0 {
            assert keys[j] == keys[1..][j - 1];
          }
        }
      } else {
        forall i | 0 <= i < |keys|
          ensures Includes(message, keys[i]) == Some(false)
        {
          if i > 0 {
            assert keys[i] == keys[1..][i - 1];
          }
        }
      }
    }
  }

  const ContextPrefix: string := "\U{1F50D} Context: "
  const MatchPrefix: string := "\U{274C} ERROR: "
  const SolutionsHeader: string := "\U{2139}\U{FE0F}  Possible solutions:"
  const SolutionPrefix: string := "   - "
  const OtherPrefix: string := "\U{274C} An error occurred: "

  /** What the handler printed, and whether it threw afterwards. */
  datatype Report = Report(lines: seq<Line>, threw: bool)

  /** The context line, printed when `context` is truthy. */
  function ContextLines(context: string): seq<Line> {
    if context != "" then [Line(Info, ContextPrefix + context)] else []
  }

  /** The success line for each solution, in order. */
  function SolutionLines(solutions: seq<string>): (r: seq<Line>)
    ensures |r| == |solutions|
    ensures forall i | 0 <= i < |solutions| :: r[i] == Line(Level.Success, SolutionPrefix + solutions[i])
  {
    seq(|solutions|, i requires 0 <= i < |solutions| => Line(Level.Success, SolutionPrefix + solutions[i]))
  }

  /** What `handlerError` prints after the context line for the message
      `message`: the report of the first key it includes, or the message
      itself; it throws when the message has no `includes` method. */
  function Reported(message: Value): (r: Report)
    ensures r.threw <==> !(message.Str? || message.Arr?)
  {
    if !(message.Str? || message.Arr?) then Report([], true)
    else
      match FindKey(message, ErrorKeys)
      case Some(key) => Report(MatchedLines(key), false)
      case None => Report([Line(Error, OtherPrefix + ToText(message))], false)
  }

  /** The report for a matched key: the error line naming it, the header,
      then the key's solutions. */
  function MatchedLines(key: string): (lines: seq<Line>)
    ensures |lines| == 2 + |Solutions(key)|
    ensures lines[0] == Line(Error, MatchPrefix + key) && lines[1] == Line(Warn, SolutionsHeader)
    ensures forall i | 2 <= i < |lines| :: lines[i] == Line(Level.Success, SolutionPrefix + Solutions(key)[i - 2])
  {
    [Line(Error, MatchPrefix + key), Line(Warn, SolutionsHeader)] + SolutionLines(Solutions(key))
  }

  /** `handlerError(err, context)`. */
  function HandlerError(err: Option<Value>, context: string): (r: Report)
    ensures r.threw <==> !(MessageOf(err).Str? || MessageOf(err).Arr?)
    ensures |ContextLines(context)| <= |r.lines| && r.lines[..|ContextLines(context)|] == ContextLines(context)
  {
    var body := Reported(MessageOf(err));
    var r := Report(ContextLines(context) + body.lines, body.threw);
    assert r.lines[..|ContextLines(context)|] == ContextLines(context);
    r
  }

  /** Nothing after the context is printed at info, and only the first
      line of the report is an error line. */
  lemma ReportedLevels(message: Value)
    ensures var lines := Reported(message).lines;
            forall i | 0 <= i < |lines| :: lines[i].level != Info && (lines[i].level == Error ==> i == 0)
  {
  }

  /** The context line is printed, first, exactly when the context is not
      empty: it is the only line at info. */
  lemma ContextLineFirst(err: Option<Value>, context: string)
    ensures var r := HandlerError(err, context);
            && (context != "" ==> |r.lines| >= 1 && r.lines[0] == Line(Info, ContextPrefix + context))
            && forall i | 0 <= i < |r.lines| :: (r.lines[i].level == Info <==> context != "" && i == 0)
  {
    var body := Reported(MessageOf(err)).lines;
    var head := ContextLines(context);
    ReportedLevels(MessageOf(err));
    var lines := HandlerError(err, context).lines;
    assert lines == head + body;
    forall i | |head| <= i < |lines|
      ensures lines[i].level != Info
    {
      assert lines[i] == body[i - |head|];
    }
  }

  /** When the message includes a key, the handler reports the first key in
      `errorSolutions` order: the error line naming it, the header, then
      exactly that key's solutions in order. */
  lemma MatchReport(err: Option<Value>, context: string, key: string)
    requires MessageOf(err).Str? || MessageOf(err).Arr?
    requires key in ErrorKeys && Includes(MessageOf(err), key) == Some(true)
    requires key == "ENOENT" ==> Includes(MessageOf(err), "ECONNREFUSED") == Some(false)
    ensures var r := HandlerError(err, context);
            var n := |ContextLines(context)|;
            && !r.threw
            && r.lines[n..] == MatchedLines(key)
            && |r.lines| == n + 2 + |Solutions(key)|
  {
    FoundKey(MessageOf(err), key);
    var head := ContextLines(context);
    var tail := MatchedLines(key);
    assert HandlerError(err, context).lines == head + tail;
    assert (head + tail)[|head|..] == tail;
  }

  /** The key `FindKey` reports when the message includes `key` and no
      earlier one. */
  lemma FoundKey(message: Value, key: string)
    requires message.Str? || message.Arr?
    requires key in ErrorKeys && Includes(message, key) == Some(true)
    requires key == "ENOENT" ==> Includes(message, "ECONNREFUSED") == Some(false)
    ensures FindKey(message, ErrorKeys) == Some(key)
  {
    if key != "ECONNREFUSED" {
      assert ErrorKeys[1..] == ["ENOENT"];
      assert FindKey(message, ["ENOENT"]) == Some("ENOENT");
    }
  }

  /** A message that mentions both codes is reported as a refused
      connection, on the only error line printed. */
  lemma RefusedConnectionWins(err: Option<Value>, context: string)
    requires MessageOf(err).Str? && Contains(MessageOf(err).s, "ECONNREFUSED") && Contains(MessageOf(err).s, "ENOENT")
    ensures var lines := HandlerError(err, context).lines;
            var n := |ContextLines(context)|;
            && lines[n] == Line(Error, MatchPrefix + "ECONNREFUSED")
            && forall i | 0 <= i < |lines| && i != n :: lines[i].level != Error
  {
    MatchReport(err, context, "ECONNREFUSED");
    var message := MessageOf(err);
    ReportedLevels(message);
    var body := Reported(message).lines;
    var head := ContextLines(context);
    var lines := HandlerError(err, context).lines;
    assert lines == head + body;
    forall i | 0 <= i < |lines| && i != |head|
      ensures lines[i].level != Error
    {
      if i < |head| {
        assert lines[i] == head[i];
      } else {
        assert lines[i] == body[i - |head|];
      }
    }
  }

  /** When the message includes no key, the handler prints exactly one line
      after the context: an error line carrying the message's text. */
  lemma NoMatchReport(err: Option<Value>, context: string)
    requires MessageOf(err).Str? || MessageOf(err).Arr?
    requires forall key | key in ErrorKeys :: Includes(MessageOf(err), key) == Some(false)
    ensures var r := HandlerError(err, context);
            var n := |ContextLines(context)|;
            && !r.threw && |r.lines| == n + 1
            && r.lines[n] == Line(Error, OtherPrefix + ToText(MessageOf(err)))
            && (MessageOf(err).Str? ==> EndsWith(r.lines[n].text, MessageOf(err).s))
  {
    var message := MessageOf(err);
    FindKeyFirst(message, ErrorKeys);
    assert forall i | 0 <= i < |ErrorKeys| :: Includes(message, ErrorKeys[i]) == Some(false) by {
      forall i | 0 <= i < |ErrorKeys|
        ensures Includes(message, ErrorKeys[i]) == Some(false)
      {
        assert ErrorKeys[i] in ErrorKeys;
      }
    }
    var text := OtherPrefix + ToText(message);
    if message.Str? {
      assert text[|text| - |message.s|..] == message.s;
    }
  }

  /** An error whose `message` is a string is reported by that string: a
      refused connection from a `Database Migration` run gets the context
      line, the code and its three solutions. */
  lemma RefusedMigrationReport(text: string)
    requires Contains(text, "ECONNREFUSED")
    ensures var r := HandlerError(Some(Obj(map["message" := Str(text)])), "Database Migration");
            && |r.lines| == 6
            && r.lines[0] == Line(Info, ContextPrefix + "Database Migration")
            && r.lines[1] == Line(Error, MatchPrefix + "ECONNREFUSED")
            && r.lines[5] == Line(Level.Success, SolutionPrefix + CheckSequelizerc)
  {
    var err := Some(Obj(map["message" := Str(text)]));
    assert MessageOf(err) == Str(text);
    MatchReport(err, "Database Migration", "ECONNREFUSED");
    var lines := HandlerError(err, "Database Migration").lines;
    var tail := MatchedLines("ECONNREFUSED");
    assert |ContextLines("Database Migration")| == 1;
    assert lines[1..] == tail;
    assert lines[1] == tail[0] && lines[5] == tail[4];
  }
}

=== FILE: file_path.dfy ===
/** `getTimestamp` of src/utils/file-path.utils.ts: the digits of an ISO-8601
    instant, used as the sortable prefix of generated migration and seeder files. */
module FilePath {
  import opened Text
  import opened Seqs

  /** The characters `/[-T:.Z]/g` removes. */
  predicate IsStripped(c: char) {
    c == '-' || c == 'T' || c == ':' || c == '.' || c == 'Z'
  }

  function KeepChar(c: char): bool {
    !IsStripped(c)
  }

  /** `iso.replace(/[-T:.Z]/g, '')`, for the `toISOString()` value `iso`: the
      characters of `iso` in order, every occurrence of the five separators
      removed and every occurrence of any other character kept. */
  function GetTimestamp(iso: string): (r: string)
    ensures forall k | 0 <= k < |r| :: !IsStripped(r[k])
    ensures IsSubsequence(r, iso)
    ensures forall c :: multiset(r)[c] == if IsStripped(c) then 0 else multiset(iso)[c]
  {
    FilterCounts(iso, KeepChar);
    Filter(iso, KeepChar)
  }

  /** Removing the separators twice is removing them once. */
  lemma GetTimestampIdempotent(iso: string)
    ensures GetTimestamp(GetTimestamp(iso)) == GetTimestamp(iso)
  {
    FilterIdempotent(iso, KeepChar);
  }

  // ---------------------------------------------------------------------------
  // The shape of `Date.prototype.toISOString`

  /** The calendar fields of an instant, as `toISOString` prints them. */
  datatype Instant = Instant(year: nat, month: nat, day: nat, hour: nat,
                             minute: nat, second: nat, milli: nat)
  {
    /** A four-digit year and in-range fields. */
    predicate Valid() {
      year < 10000 && 1 <= month <= 12 && 1 <= day <= 31 && hour < 24
      && minute < 60 && second < 60 && milli < 1000
    }
  }

  /** `n` written with exactly `width` digits, zero-padded on the left. */
  function PadDecimal(n: nat, width: nat): (s: string)
    requires n < Pow10(width)
    ensures |s| == width && AllDigits(s)
  {
    if width == 0 then ""
    else PadDecimal(n / 10, width - 1) + [DigitChar(n % 10)]
  }

  /** `YYYY-MM-DDTHH:mm:ss.sssZ`. */
  function IsoString(i: Instant): (s: string)
    requires i.Valid()
    ensures |s| == 24
  {
    PadDecimal(i.year, 4) + "-" + PadDecimal(i.month, 2) + "-" + PadDecimal(i.day, 2)
    + "T" + PadDecimal(i.hour, 2) + ":" + PadDecimal(i.minute, 2) + ":"
    + PadDecimal(i.second, 2) + "." + PadDecimal(i.milli, 3) + "Z"
  }

  /** The seventeen digits `YYYYMMDDHHmmssSSS`. */
  function DigitGroups(i: Instant): (s: string)
    requires i.Valid()
    ensures |s| == 17 && AllDigits(s)
  {
    PadDecimal(i.year, 4) + PadDecimal(i.month, 2) + PadDecimal(i.day, 2)
    + PadDecimal(i.hour, 2) + PadDecimal(i.minute, 2) + PadDecimal(i.second, 2)
    + PadDecimal(i.milli, 3)
  }

  /** For an ISO instant the timestamp is exactly its seventeen digits. */
  lemma TimestampOfIso(i: Instant)
    requires i.Valid()
    ensures GetTimestamp(IsoString(i)) == DigitGroups(i)
    ensures |GetTimestamp(IsoString(i))| == 17 && AllDigits(GetTimestamp(IsoString(i)))
  {
    var y, mo, d := PadDecimal(i.year, 4), PadDecimal(i.month, 2), PadDecimal(i.day, 2);
    var h, mi, s := PadDecimal(i.hour, 2), PadDecimal(i.minute, 2), PadDecimal(i.second, 2);
    var ms := PadDecimal(i.milli, 3);
    KeepDigits([], y);
    assert [] + y == y;
    DropSeparator(y, '-');
    KeepDigits(y + "-", mo);
    DropSeparator(y + "-" + mo, '-');
    KeepDigits(y + "-" + mo + "-", d);
    DropSeparator(y + "-" + mo + "-" + d, 'T');
    KeepDigits(y + "-" + mo + "-" + d + "T", h);
    DropSeparator(y + "-" + mo + "-" + d + "T" + h, ':');
    KeepDigits(y + "-" + mo + "-" + d + "T" + h + ":", mi);
    DropSeparator(y + "-" + mo + "-" + d + "T" + h + ":" + mi, ':');
    KeepDigits(y + "-" + mo + "-" + d + "T" + h + ":" + mi + ":", s);
    DropSeparator(y + "-" + mo + "-" + d + "T" + h + ":" + mi + ":" + s, '.');
    KeepDigits(y + "-" + mo + "-" + d + "T" + h + ":" + mi + ":" + s + ".", ms);
    DropSeparator(y + "-" + mo + "-" + d + "T" + h + ":" + mi + ":" + s + "." + ms, 'Z');
  }

  /** Digits survive the filter. */
  lemma KeepDigits(acc: string, digits: string)
    requires AllDigits(digits)
    ensures Filter(acc + digits, KeepChar) == Filter(acc, KeepChar) + digits
  {
    FilterConcat(acc, digits, KeepChar);
    FilterAll(digits, KeepChar);
  }

  /** A separator does not. */
  lemma DropSeparator(acc: string, c: char)
    requires IsStripped(c)
    ensures Filter(acc + [c], KeepChar) == Filter(acc, KeepChar)
  {
    FilterConcat(acc, [c], KeepChar);
    FilterNone([c], KeepChar);
    assert Filter(acc, KeepChar) + [] == Filter(acc, KeepChar);
  }

  // ---------------------------------------------------------------------------
  // Order

  /** JavaScript's `<` on strings: code-unit order, a proper prefix first. */
  predicate LexLess(a: string, b: string) {
    if a == [] then b != []
    else if b == [] then false
    else a[0] < b[0] || (a[0] == b[0] && LexLess(a[1..], b[1..]))
  }

  /** Time order of valid instants: the fields compared from the year down. */
  predicate Before(i: Instant, j: Instant) {
    if i.year != j.year then i.year < j.year
    else if i.month != j.month then i.month < j.month
    else if i.day != j.day then i.day < j.day
    else if i.hour != j.hour then i.hour < j.hour
    else if i.minute != j.minute then i.minute < j.minute
    else if i.second != j.second then i.second < j.second
    else i.milli < j.milli
  }

  /** Because every field has a fixed width, comparing two timestamps as strings
      compares the instants they were taken at. */
  lemma TimestampOrderIsTimeOrder(i: Instant, j: Instant)
    requires i.Valid() && j.Valid()
    ensures Before(i, j) <==> LexLess(GetTimestamp(IsoString(i)), GetTimestamp(IsoString(j)))
  {
    TimestampOfIso(i);
    TimestampOfIso(j);
    DigitGroupsArePadded(i);
    DigitGroupsArePadded(j);
    BeforeIsFieldsLess(i, j);
    PaddedOrder(Fields(i), Fields(j), Widths, 0);
  }

  /** The printed widths of the seven fields. */
  const Widths: seq<nat> := [4, 2, 2, 2, 2, 2, 3]

  function Fields(i: Instant): (xs: seq<nat>)
    requires i.Valid()
    ensures |xs| == |Widths| && forall m | 0 <= m < |xs| :: xs[m] < Pow10(Widths[m])
  {
    [i.year, i.month, i.day, i.hour, i.minute, i.second, i.milli]
  }

  /** The fields from position `k` on, each padded to its width, concatenated. */
  function Padded(xs: seq<nat>, ws: seq<nat>, k: nat): (s: string)
    requires |xs| == |ws| && k <= |xs|
    requires forall m | 0 <= m < |xs| :: xs[m] < Pow10(ws[m])
    ensures AllDigits(s)
    decreases |xs| - k
  {
    if k == |xs| then ""
    else PadDecimal(xs[k], ws[k]) + Padded(xs, ws, k + 1)
  }

  /** Lexicographic order on the fields from position `k` on. */
  predicate FieldsLess(xs: seq<nat>, ys: seq<nat>, k: nat)
    requires |xs| == |ys| && k <= |xs|
    decreases |xs| - k
  {
    k < |xs| && (xs[k] < ys[k] || (xs[k] == ys[k] && FieldsLess(xs, ys, k + 1)))
  }

  lemma BeforeIsFieldsLess(i: Instant, j: Instant)
    requires i.Valid() && j.Valid()
    ensures Before(i, j) <==> FieldsLess(Fields(i), Fields(j), 0)
  {
    var xs, ys := Fields(i), Fields(j);
    assert !FieldsLess(xs, ys, 7);
    assert FieldsLess(xs, ys, 6) <==> i.milli < j.milli;
    assert FieldsLess(xs, ys, 5) <==> i.second < j.second || (i.second == j.second && i.milli < j.milli);
    assert FieldsLess(xs, ys, 4) <==> i.minute < j.minute || (i.minute == j.minute && FieldsLess(xs, ys, 5));
    assert FieldsLess(xs, ys, 3) <==> i.hour < j.hour || (i.hour == j.hour && FieldsLess(xs, ys, 4));
    assert FieldsLess(xs, ys, 2) <==> i.day < j.day || (i.day == j.day && FieldsLess(xs, ys, 3));
    assert FieldsLess(xs, ys, 1) <==> i.month < j.month || (i.month == j.month && FieldsLess(xs, ys, 2));
  }

  lemma DigitGroupsArePadded(i: Instant)
    requires i.Valid()
    ensures DigitGroups(i) == Padded(Fields(i), Widths, 0)
  {
    var xs := Fields(i);
    var y, mo, d := PadDecimal(i.year, 4), PadDecimal(i.month, 2), PadDecimal(i.day, 2);
    var h, mi, s := PadDecimal(i.hour, 2), PadDecimal(i.minute, 2), PadDecimal(i.second, 2);
    var ms := PadDecimal(i.milli, 3);
    assert Padded(xs, Widths, 7) == "";
    assert Padded(xs, Widths, 6) == ms;
    assert Padded(xs, Widths, 5) == s + ms;
    assert Padded(xs, Widths, 4) == mi + (s + ms);
    assert Padded(xs, Widths, 3) == h + (mi + (s + ms));
    assert Padded(xs, Widths, 2) == d + (h + (mi + (s + ms)));
    assert Padded(xs, Widths, 1) == mo + (d + (h + (mi + (s + ms))));
    assert Padded(xs, Widths, 0) == y + (mo + (d + (h + (mi + (s + ms)))));
    assert y + (mo + (d + (h + (mi + (s + ms))))) == y + mo + d + h + mi + s + ms;
  }

  /** Comparing padded field lists as strings compares the fields lexicographically. */
  lemma {:induction false} PaddedOrder(xs: seq<nat>, ys: seq<nat>, ws: seq<nat>, k: nat)
    requires |xs| == |ws| && |ys| == |ws| && k <= |xs|
    requires forall m | 0 <= m < |xs| :: xs[m] < Pow10(ws[m])
    requires forall m | 0 <= m < |ys| :: ys[m] < Pow10(ws[m])
    ensures FieldsLess(xs, ys, k) <==> LexLess(Padded(xs, ws, k), Padded(ys, ws, k))
    decreases |xs| - k
  {
    if k < |xs| {
      PaddedOrder(xs, ys, ws, k + 1);
      var a, b := PadDecimal(xs[k], ws[k]), PadDecimal(ys[k], ws[k]);
      LexLessConcat(a, Padded(xs, ws, k + 1), b, Padded(ys, ws, k + 1));
      PadDecimalOrder(xs[k], ys[k], ws[k]);
      PadDecimalInjective(xs[k], ys[k], ws[k]);
    }
  }

  /** Comparing equal-width prefixes decides, unless they are equal. */
  lemma {:induction false} LexLessConcat(a1: string, b1: string, a2: string, b2: string)
    requires |a1| == |a2|
    ensures LexLess(a1 + b1, a2 + b2) <==> LexLess(a1, a2) || (a1 == a2 && LexLess(b1, b2))
    decreases |a1|
  {
    if a1 == [] {
      assert a1 + b1 == b1 && a2 + b2 == b2;
    } else {
      assert (a1 + b1)[0] == a1[0] && (a2 + b2)[0] == a2[0];
      assert (a1 + b1)[1..] == a1[1..] + b1 && (a2 + b2)[1..] == a2[1..] + b2;
      LexLessConcat(a1[1..], b1, a2[1..], b2);
      if a1[0] == a2[0] && a1[1..] == a2[1..] {
        assert a1 == [a1[0]] + a1[1..] && a2 == [a2[0]] + a2[1..];
      }
    }
  }

  /** Zero-padded numbers of one width compare as strings like the numbers. */
  lemma {:induction false} PadDecimalOrder(m: nat, n: nat, width: nat)
    requires m < Pow10(width) && n < Pow10(width)
    ensures m < n <==> LexLess(PadDecimal(m, width), PadDecimal(n, width))
  {
    if width == 0 {
    } else {
      var a, b := PadDecimal(m / 10, width - 1), PadDecimal(n / 10, width - 1);
      PadDecimalOrder(m / 10, n / 10, width - 1);
      PadDecimalInjective(m / 10, n / 10, width - 1);
      LexLessConcat(a, [DigitChar(m % 10)], b, [DigitChar(n % 10)]);
      assert LexLess([DigitChar(m % 10)], [DigitChar(n % 10)]) <==> m % 10 < n % 10;
    }
  }

  /** Zero padding to one width keeps different numbers apart. */
  lemma {:induction false} PadDecimalInjective(m: nat, n: nat, width: nat)
    requires m < Pow10(width) && n < Pow10(width)
    ensures PadDecimal(m, width) == PadDecimal(n, width) <==> m == n
  {
    if width > 0 {
      var a, b := PadDecimal(m / 10, width - 1), PadDecimal(n / 10, width - 1);
      PadDecimalInjective(m / 10, n / 10, width - 1);
      var sm, sn := PadDecimal(m, width), PadDecimal(n, width);
      if sm == sn {
        assert sm[..width - 1] == a && sn[..width - 1] == b;
        assert DigitValue(sm[width - 1]) == m % 10 && DigitValue(sn[width - 1]) == n % 10;
      }
    }
  }
}

=== FILE: init_cli.dfy ===
/** `initCLI` of src/cmd/init.ts: write the default sequelize-blueprint
    configuration when the file does not exist. The file is `None` when it
    does not exist; the function returns the document written, if any. */
module InitCli {
  import opened Wrappers
  import opened Document

  /** The default blueprint configuration. */
  const BlueprintDefault: Value :=
    Obj(map[
      "rootDir" := Str("./src"),
      "migrationsDir" := Str("/sequelize/migrations"),
      "modelsDir" := Str("/sequelize/models"),
      "seedersDir" := Str("/sequelize/seeders")
    ])

  /** The document written: the default exactly when there is no file. */
  function InitCLI(file: Option<Value>): (written: Option<Value>)
    ensures written.Some? <==> file.None?
    ensures written.Some? ==>
              written.value.Obj?
              && written.value.fields.Keys == {"rootDir", "migrationsDir", "modelsDir", "seedersDir"}
  {
    if file.None? then Some(BlueprintDefault) else None
  }

  /** The file after a call: the existing one, or the default just written. */
  function AfterInit(file: Option<Value>): Option<Value> {
    match InitCLI(file)
    case Some(w) => Some(w)
    case None => file
  }

  /** Exactly one of the two happens: a missing file gets the default, an
      existing one is never overwritten. */
  lemma WritesOnlyWhenAbsent(file: Option<Value>)
    ensures InitCLI(file).Some? <==> file.None?
    ensures file.Some? ==> AfterInit(file) == file
    ensures file.None? ==> AfterInit(file) == Some(BlueprintDefault)
  {
  }

  /** A second call writes nothing and leaves the file as the first left it. */
  lemma InitIdempotent(file: Option<Value>)
    ensures InitCLI(AfterInit(file)).None?
    ensures AfterInit(AfterInit(file)) == AfterInit(file)
  {
  }
}

=== FILE: logger.dfy ===
/** The console logger of src/utils/logger.utils.ts and its dispatch of the
    Sequelize command-line tool's output lines. Colours are left out: a
    printed line is its level and its text. The module is strict-mode code,
    so a handler called as a plain function has `this` undefined. */
module Logger {
  import opened Wrappers
  import Document

  /** The logger's methods; `custom` carries the name of its colour
      function. */
  datatype Level = Success | Error | Warn | Info | Debug | Custom(colour: string)

  /** One `console.log` call. */
  datatype Line = Line(level: Level, text: string)

  /** One call of a logger method. */
  datatype Call = Call(level: Level, message: string)

  /** What a sequence of logger calls prints: one line per call. */
  function LogAll(calls: seq<Call>): (lines: seq<Line>)
    ensures |lines| == |calls|
    decreases |calls|
  {
    if calls == [] then []
    else LogAll(calls[..|calls| - 1]) + [Line(calls[|calls| - 1].level, calls[|calls| - 1].message)]
  }

  /** Every call prints its message exactly once, at its own level, in the
      order of the calls. */
  lemma {:induction false} OneLinePerCall(calls: seq<Call>)
    ensures |LogAll(calls)| == |calls|
    ensures forall i | 0 <= i < |calls| :: LogAll(calls)[i] == Line(calls[i].level, calls[i].message)
    decreases |calls|
  {
    if calls != [] {
      OneLinePerCall(calls[..|calls| - 1]);
    }
  }

  /** Printing two batches of calls prints the first batch's lines, then the
      second's. */
  lemma {:induction false} LogAllAppend(a: seq<Call>, b: seq<Call>)
    ensures LogAll(a + b) == LogAll(a) + LogAll(b)
    decreases |b|
  {
    if b == [] {
      assert a + b == a;
    } else {
      assert (a + b)[..|a + b| - 1] == a + b[..|b| - 1];
      assert (a + b)[|a + b| - 1] == b[|b| - 1];
      LogAllAppend(a, b[..|b| - 1]);
    }
  }

  // ---------------------------------------------------------------------------
  // Sequelize messages

  /** The own keys of `sequelizeCLIMessageHandler` and the level each
      handler logs at. */
  function HandlerLevel(message: string): (r: Option<Level>)
    ensures r.Some? <==> message in {"No migration to execute", "All migrations executed successfully",
                                     "Migration execution complete"}
    ensures r.Some? ==> (r.value == Info <==> message == "No migration to execute")
    ensures r.Some? ==> r.value in {Info, Level.Success}
  {
    if message == "No migration to execute" then Some(Info)
    else if message == "All migrations executed successfully" then Some(Level.Success)
    else if message == "Migration execution complete" then Some(Level.Success)
    else None
  }

  /** Properties every plain object inherits from `Object.prototype` whose
      call with `this` undefined returns without printing: `Object(message)`,
      `toString` and `isPrototypeOf` of a string. */
  const SilentPrototypeNames: set<string> := {"constructor", "toString", "isPrototypeOf"}

  /** The other inherited properties: their call with `this` undefined
      throws a `TypeError`; `__proto__` is an object, not a function, and
      throws too. */
  const ThrowingPrototypeNames: set<string> := Document.ObjectPrototypeNames - SilentPrototypeNames

  /** What `handlerSequelizeMessage` does with one line. */
  datatype Outcome = Logged(line: Line) | Silent | Throws

  /** `handlerSequelizeMessage(message)`: `sequelizeCLIMessageHandler[message]`
      finds an own handler, or an inherited `Object.prototype` member, or
      nothing, and then logs at info. */
  function HandlerSequelizeMessage(message: string): (r: Outcome)
    ensures r.Logged? ==> r.line.text == message
    ensures r.Logged? ==> r.line.level == HandlerLevel(message).GetOr(Info)
  {
    var own := HandlerLevel(message);
    if own.Some? then Logged(Line(own.value, message))
    else if message in SilentPrototypeNames then Silent
    else if message in ThrowingPrototypeNames then Throws
    else Logged(Line(Info, message))
  }

  /** The three known messages are logged at their levels; matching is
      exact, so any other line that is not an `Object.prototype` name, even
      one containing a known message, is logged at info. */
  lemma SequelizeLevels(message: string)
    ensures HandlerSequelizeMessage("No migration to execute") == Logged(Line(Info, "No migration to execute"))
    ensures HandlerSequelizeMessage("All migrations executed successfully")
            == Logged(Line(Level.Success, "All migrations executed successfully"))
    ensures HandlerSequelizeMessage("Migration execution complete")
            == Logged(Line(Level.Success, "Migration execution complete"))
    ensures message !in {"No migration to execute", "All migrations executed successfully",
                         "Migration execution complete"}
            && message !in SilentPrototypeNames && message !in ThrowingPrototypeNames
            ==> HandlerSequelizeMessage(message) == Logged(Line(Info, message))
  {
  }

  /** As written, a line that names an inherited member is not logged at
      all: `constructor` prints nothing, and `valueOf` throws. */
  lemma PrototypeNamesNotLogged(message: string)
    requires message in SilentPrototypeNames || message in ThrowingPrototypeNames
    ensures !HandlerSequelizeMessage(message).Logged?
    ensures HandlerSequelizeMessage("constructor") == Silent
    ensures HandlerSequelizeMessage("valueOf") == Throws
  {
    assert HandlerLevel(message).None? by {
      assert forall k | k in SilentPrototypeNames + ThrowingPrototypeNames :: |k| < 23;
    }
  }

  /** The dispatch with an own-key lookup: every line is logged exactly
      once. */
  function FixedHandlerSequelizeMessage(message: string): (r: Outcome)
    ensures r.Logged? && r.line.text == message
    ensures r.line.level == (if message == "No migration to execute" then Info
                             else if HandlerLevel(message).Some? then Level.Success else Info)
  {
    Logged(Line(HandlerLevel(message).GetOr(Info), message))
  }

  /** The fixed dispatch agrees with the one as written on every line that
      does not name an inherited member. */
  lemma FixedAgreesOnOrdinaryLines(message: string)
    requires message !in SilentPrototypeNames && message !in ThrowingPrototypeNames
    ensures FixedHandlerSequelizeMessage(message) == HandlerSequelizeMessage(message)
  {
  }
}

=== FILE: manage_docker.dfy ===
/** `buildDockerCompose` and `createDockerComposeFile` of
    src/operations/manage-docker.operation.ts: insert a database service and its
    volume into the compose document if they are absent.

    The file is modelled as the document `yaml.load` gives (`None` when the file
    does not exist), the registry as `Registry` reads it, and the working
    directory as a parameter. The merge runs in memory and the file is written
    last, so a `Failure` here means that nothing is written: either the service
    folder could not be computed, which throws before the `try` and reaches the
    caller, or the merge threw inside the `try` and the `catch` logged it. */
module ManageDocker {
  import opened Wrappers
  import opened Text
  import opened Document
  import opened StringsUtils
  import Registry
  import NodePath

  /** The three section names are different keys. */
  lemma SectionNamesDistinct()
    ensures "services" != "volumes" && "services" != "networks" && "volumes" != "networks"
    ensures "version" != "services" && "version" != "volumes" && "version" != "networks"
  {
    assert "services"[0] != "volumes"[0] && "services"[0] != "networks"[0];
    assert "volumes"[0] != "networks"[0];
    assert "version"[1] != "volumes"[1];
  }

  /** `{'db-network': {}}`. */
  const DefaultNetworks: Value := Obj(map["db-network" := EmptyObj])

  /** The document used when there is no compose file yet. */
  const Skeleton: Value :=
    Obj(map["version" := Str("3.8"), "services" := EmptyObj,
            "networks" := DefaultNetworks, "volumes" := EmptyObj])

  /** `${sanitizeName(serviceName)}-db`. */
  function ServiceKey(serviceName: string): string {
    SanitizeName(serviceName) + "-db"
  }

  /** `${sanitizeName(serviceName)}-data`. */
  function VolumeKey(serviceName: string): string {
    SanitizeName(serviceName) + "-data"
  }

  /** `volumeMappingPaths[dbType] || '/data/unknown'`. */
  function VolumePath(dbType: string): string {
    if dbType == "mysql" then "/var/lib/mysql"
    else if dbType == "postgres" then "/var/lib/postgresql/data"
    else if dbType == "sqlite" then "/data/sqlite"
    else "/data/unknown"
  }

  /** `defaultPorts[dbType] || 3306`. */
  function DbPort(dbType: string): nat {
    if dbType == "postgres" then 5432 else 3306
  }

  /** The lookup tables: three engines have a data directory, only PostgreSQL a
      container port other than MySQL's. */
  lemma LookupTables(dbType: string)
    ensures VolumePath(dbType) == "/data/unknown" <==> dbType !in {"mysql", "postgres", "sqlite"}
    ensures DbPort(dbType) == 3306 <==> dbType != "postgres"
    ensures DbPort("postgres") == 5432 && VolumePath("postgres") == "/var/lib/postgresql/data"
    ensures DbPort("mysql") == 3306 && VolumePath("mysql") == "/var/lib/mysql"
  {
  }

  /** The service entry written for a new database. `context` is the path of the
      service's docker folder relative to the compose file's folder; the env
      file is `path.join(context, '.env')`. */
  function ServiceEntry(serviceName: string, dbType: string, port: nat, context: string): (v: Value)
    ensures v.Obj? && Truthy(v)
    ensures v.fields.Keys == {"container_name", "build", "restart", "env_file",
                              "networks", "ports", "volumes"}
    ensures v.fields["container_name"] == Str(ServiceKey(serviceName))
    ensures v.fields["restart"] == Str("unless-stopped")
    ensures v.fields["networks"] == Arr([Str("db-network")])
    ensures v.fields["ports"] == Arr([Str(NatToString(port) + ":" + NatToString(DbPort(dbType)))])
    ensures v.fields["volumes"] == Arr([Str(VolumeKey(serviceName) + ":" + VolumePath(dbType))])
  {
    Obj(map[
      "container_name" := Str(ServiceKey(serviceName)),
      "build" := Obj(map["context" := Str(context), "dockerfile" := Str("Dockerfile")]),
      "restart" := Str("unless-stopped"),
      "env_file" := Str(NodePath.JoinPaths([context, ".env"])),
      "networks" := Arr([Str("db-network")]),
      "ports" := Arr([Str(NatToString(port) + ":" + NatToString(DbPort(dbType)))]),
      "volumes" := Arr([Str(VolumeKey(serviceName) + ":" + VolumePath(dbType))])
    ])
  }

  /** `o[k] = o[k] || default` on an object's fields. */
  function SetDefault(fields: map<string, Value>, k: string, default: Value): (r: map<string, Value>)
    requires Truthy(default)
    ensures r.Keys == fields.Keys + {k} && IsSet(r, k)
    ensures IsSet(fields, k) ==> r == fields
    ensures forall j | j in fields && j != k :: r[j] == fields[j]
  {
    if IsSet(fields, k) then fields else fields[k := default]
  }

  /** `if (!c[key]) c[key] = entry` on the value `c` of a section that is
      already truthy. An object gets the key; an array takes the assignment as a
      property that the YAML dump drops; assigning a property of a string, number
      or boolean throws in strict mode. */
  function InsertIfAbsent(c: Value, key: string, entry: Value): (r: Result<Value>)
    requires Truthy(entry)
    ensures r.Success? <==> c.Obj? || c.Arr?
    ensures c.Arr? ==> r == Success(c)
    ensures c.Obj? && IsSet(c.fields, key) ==> r == Success(c)
    ensures c.Obj? && !IsSet(c.fields, key) ==> r == Success(Obj(c.fields[key := entry]))
  {
    match c
    case Obj(m) => Success(if IsSet(m, key) then c else Obj(m[key := entry]))
    case Arr(_) => Success(c)
    case _ => Failure("Cannot create property '" + key + "' on a primitive")
  }

  /** The in-memory merge on a loaded document: default the three sections,
      then insert the service under `sKey` and an empty volume under `vKey`. */
  function Merge(doc: Value, sKey: string, vKey: string, entry: Value): (r: Result<Value>)
    requires Truthy(entry)
    ensures doc.Arr? ==> r == Success(doc)
    ensures r.Success? ==> (r.value.Obj? <==> doc.Obj?)
    ensures r.Success? && doc.Obj? ==>
              IsSet(r.value.fields, "services") && IsSet(r.value.fields, "volumes")
              && IsSet(r.value.fields, "networks")
  {
    match doc
    case Obj(m) =>
      var m3 := Sections(m);
      var services := InsertIfAbsent(m3["services"], sKey, entry);
      if services.Failure? then Failure(services.error)
      else
        var volumes := InsertIfAbsent(m3["volumes"], vKey, EmptyObj);
        if volumes.Failure? then Failure(volumes.error)
        else Success(Obj(m3["services" := services.value]["volumes" := volumes.value]))
    case Arr(_) =>
      // The three sections become properties of the array, which the dump drops.
      Success(doc)
    case Null => Failure("Cannot read properties of undefined (reading 'services')")
    case _ => Failure("Cannot create property 'services' on a primitive")
  }

  /** `services ||= {}; volumes ||= {}; networks ||= {'db-network': {}}`. */
  function Sections(m: map<string, Value>): (r: map<string, Value>)
    ensures r.Keys == m.Keys + {"services", "volumes", "networks"}
    ensures IsSet(r, "services") && IsSet(r, "volumes") && IsSet(r, "networks")
    ensures forall k | k in m && k !in {"services", "volumes", "networks"} :: r[k] == m[k]
    ensures r["services"] == OrDefault(m, "services", EmptyObj)
    ensures r["volumes"] == OrDefault(m, "volumes", EmptyObj)
    ensures r["networks"] == OrDefault(m, "networks", DefaultNetworks)
  {
    var m1 := SetDefault(m, "services", EmptyObj);
    var m2 := SetDefault(m1, "volumes", EmptyObj);
    assert "services" != "volumes" by { assert |"services"| != |"volumes"|; }
    assert "networks" != "services" && "networks" != "volumes" by {
      assert "networks"[0] != "services"[0] && |"networks"| != |"volumes"|;
    }
    SetDefault(m2, "networks", DefaultNetworks)
  }

  /** `path.join(getConfigPaths(serviceName).rootDir, serviceName)`, computed
      before the `try`. Reading the registry throws when it has no `databases`,
      and `path.join` throws when `rootDir` is not a string, as when the
      registry has none. */
  function ServiceDir(registry: Option<Value>, serviceName: string): (r: Result<string>)
    ensures r.Success? <==> Registry.GetConfigPaths(registry, serviceName).Success?
                            && RootOf(Registry.GetConfigPaths(registry, serviceName).value).Some?
    ensures r.Success? ==>
              r.value == NodePath.JoinPaths([RootOf(Registry.GetConfigPaths(registry, serviceName).value).value,
                                             serviceName])
  {
    var paths := Registry.GetConfigPaths(registry, serviceName);
    if paths.Failure? then Failure(paths.error)
    else
      match Get(paths.value.fields, "rootDir")
      case Some(Str(root)) => Success(NodePath.JoinPaths([root, serviceName]))
      case None => Failure("The \"path\" argument must be of type string. Received undefined")
      case Some(_) => Failure("The \"path\" argument must be of type string")
  }

  /** The `rootDir` of looked-up paths when it is a string. */
  function RootOf(paths: Registry.ConfigPaths): Option<string> {
    match Get(paths.fields, "rootDir")
    case Some(Str(root)) => Some(root)
    case _ => None
  }

  /** `path.relative(path.dirname('./docker-compose.yml'), path.join(serviceDir,
      'docker'))`, from the working directory `cwd`. */
  function ContextPath(cwd: string, serviceDir: string): string {
    NodePath.Relative(cwd, ".", NodePath.JoinPaths([serviceDir, "docker"]))
  }

  /** The document that `buildDockerCompose` writes, or `Failure` when it
      throws and writes nothing. */
  function BuildDockerCompose(file: Option<Value>, registry: Option<Value>, cwd: string,
                              serviceName: string, dbType: string, port: nat): (r: Result<Value>)
    ensures ServiceDir(registry, serviceName).Failure? ==> r.Failure?
    ensures file.None? ==> (r.Success? <==> ServiceDir(registry, serviceName).Success?)
    ensures r.Success? ==> (r.value.Obj? <==> file.None? || file.value.Obj?)
  {
    match ServiceDir(registry, serviceName)
    case Failure(e) => Failure(e)
    case Success(dir) =>
      var entry := ServiceEntry(serviceName, dbType, port, ContextPath(cwd, dir));
      MergeOnSkeleton(ServiceKey(serviceName), VolumeKey(serviceName), entry);
      Merge(file.GetOr(Skeleton), ServiceKey(serviceName), VolumeKey(serviceName), entry)
  }

  /** `createDockerComposeFile`: writes the skeleton only when there is no file. */
  function CreateDockerComposeFile(file: Option<Value>): (after: Option<Value>)
    ensures file.None? ==> after == Some(Skeleton)
    ensures file.Some? ==> after == file
  {
    if file.None? then Some(Skeleton) else file
  }

  // ---------------------------------------------------------------------------
  // Properties of the merge

  /** `o[k]` is a truthy string, number or boolean. */
  predicate TruthyScalar(fields: map<string, Value>, k: string) {
    IsSet(fields, k) && !fields[k].Obj? && !fields[k].Arr?
  }

  /** The entry a build writes once it has computed the service folder. */
  function EntryIn(registry: Option<Value>, cwd: string, serviceName: string, dbType: string, port: nat): Value
    requires ServiceDir(registry, serviceName).Success?
  {
    ServiceEntry(serviceName, dbType, port, ContextPath(cwd, ServiceDir(registry, serviceName).value))
  }

  /** With no file and a computable service folder, the written document is
      the skeleton holding the new service and its volume. */
  lemma BuildOnMissingFile(registry: Option<Value>, cwd: string, serviceName: string, dbType: string,
                           port: nat)
    requires ServiceDir(registry, serviceName).Success?
    ensures BuildDockerCompose(None, registry, cwd, serviceName, dbType, port)
         == Success(Obj(map[
              "version" := Str("3.8"),
              "services" := Obj(map[ServiceKey(serviceName) := EntryIn(registry, cwd, serviceName, dbType, port)]),
              "networks" := DefaultNetworks,
              "volumes" := Obj(map[VolumeKey(serviceName) := EmptyObj])]))
  {
    MergeOnSkeleton(ServiceKey(serviceName), VolumeKey(serviceName),
                    EntryIn(registry, cwd, serviceName, dbType, port));
  }

  lemma MergeOnSkeleton(sKey: string, vKey: string, entry: Value)
    requires Truthy(entry)
    ensures Merge(Skeleton, sKey, vKey, entry)
         == Success(Obj(map[
              "version" := Str("3.8"),
              "services" := Obj(map[sKey := entry]),
              "networks" := DefaultNetworks,
              "volumes" := Obj(map[vKey := EmptyObj])]))
  {
    SectionNamesDistinct();
    var m := Skeleton.fields;
    assert Sections(m) == m;
    assert m["services" := Obj(map[sKey := entry])]["volumes" := Obj(map[vKey := EmptyObj])]
        == map["version" := Str("3.8"), "services" := Obj(map[sKey := entry]),
               "networks" := DefaultNetworks, "volumes" := Obj(map[vKey := EmptyObj])];
  }

  /** The build fails exactly when the service folder cannot be computed, or
      when the loaded document is neither an object nor an array, or its
      `services` or `volumes` section is a truthy scalar. */
  lemma BuildFailsExactly(file: Option<Value>, registry: Option<Value>, cwd: string,
                          serviceName: string, dbType: string, port: nat)
    ensures var doc := file.GetOr(Skeleton);
            BuildDockerCompose(file, registry, cwd, serviceName, dbType, port).Failure?
            <==> ServiceDir(registry, serviceName).Failure?
                 || !(doc.Obj? || doc.Arr?)
                 || (doc.Obj? && (TruthyScalar(doc.fields, "services") || TruthyScalar(doc.fields, "volumes")))
  {
    if ServiceDir(registry, serviceName).Success? {
      MergeFailsExactly(file.GetOr(Skeleton), ServiceKey(serviceName), VolumeKey(serviceName),
                        EntryIn(registry, cwd, serviceName, dbType, port));
    }
  }

  /** Without a registry file there is no `rootDir`, so `path.join` throws
      before anything is read or written. */
  lemma BuildNeedsRegistry(file: Option<Value>, cwd: string, serviceName: string, dbType: string, port: nat)
    ensures BuildDockerCompose(file, None, cwd, serviceName, dbType, port).Failure?
  {
    var cfg := Registry.LoadProjectConfig(None);
    assert "rootDir" !in cfg.fields by {
      assert "rootDir" != Registry.DatabasesKey by { assert "rootDir"[0] != Registry.DatabasesKey[0]; }
    }
    assert ServiceDir(None, serviceName).Failure?;
  }

  /** A registry without `databases` throws on the lookup, before anything
      is read or written. */
  lemma BuildNeedsDatabases(file: Option<Value>, cfg: Value, cwd: string, serviceName: string,
                            dbType: string, port: nat)
    requires cfg.Obj? && Registry.DatabasesKey !in cfg.fields
    ensures BuildDockerCompose(file, Some(cfg), cwd, serviceName, dbType, port).Failure?
  {
    assert Registry.GetConfigPaths(Some(cfg), serviceName).Failure?;
  }

  /** On a registry with `databases` whose entry for the service (if any)
      does not itself carry a `rootDir`, the folder is computed exactly when
      the registry's `rootDir` is a string, and is then that root joined with
      the service name. */
  lemma ServiceDirFromRoot(cfg: Value, serviceName: string)
    requires Registry.HasDatabases(cfg)
    requires var dbs := cfg.fields[Registry.DatabasesKey].fields;
             serviceName in dbs && dbs[serviceName].Obj? ==> "rootDir" !in dbs[serviceName].fields
    ensures ServiceDir(Some(cfg), serviceName).Success? <==> "rootDir" in cfg.fields && cfg.fields["rootDir"].Str?
    ensures "rootDir" in cfg.fields && cfg.fields["rootDir"].Str? ==>
              ServiceDir(Some(cfg), serviceName).value
              == NodePath.JoinPaths([cfg.fields["rootDir"].s, serviceName])
  {
  }

  /** With the default root `./src`, a plain service name and a working
      directory `/cs`, the build context is `src/<name>/docker` and the env
      file `src/<name>/docker/.env`. */
  lemma DefaultRootContext(cs: seq<string>, serviceName: string)
    requires |cs| >= 1 && NodePath.AllPlain(cs) && NodePath.Plain(serviceName)
    ensures var dir := NodePath.JoinPaths([Registry.DefaultRootDir, serviceName]);
            var context := ContextPath("/" + Join(cs, '/'), dir);
            && context == "src/" + serviceName + "/docker"
            && NodePath.JoinPaths([context, ".env"]) == "src/" + serviceName + "/docker/.env"
  {
    var rs := ["src", serviceName];
    assert NodePath.AllPlain(rs);
    var cwd := "/" + Join(cs, '/');
    DefaultServiceDir(serviceName);
    ContextBelowCwd(cs, rs);
    SrcSpelling(serviceName);
    assert ContextPath(cwd, NodePath.JoinPaths([Registry.DefaultRootDir, serviceName]))
        == ContextPath(cwd, Join(rs, '/'));
  }

  /** `path.join('./src', name)` is `src/<name>`. */
  lemma DefaultServiceDir(serviceName: string)
    requires NodePath.Plain(serviceName)
    ensures NodePath.JoinPaths([Registry.DefaultRootDir, serviceName]) == Join(["src", serviceName], '/')
  {
    assert NodePath.AllPlain(["src"]);
    assert NodePath.RootSpelling(true, ["src"]) == Registry.DefaultRootDir;
    NodePath.JoinNameUnderRoot(true, ["src"], serviceName);
    assert ["src"] + [serviceName] == ["src", serviceName];
  }

  /** A service folder spelled by plain segments `rs` below the working
      directory gets the context `rs/docker` and the env file
      `rs/docker/.env`. */
  lemma ContextBelowCwd(cs: seq<string>, rs: seq<string>)
    requires |cs| >= 1 && NodePath.AllPlain(cs) && |rs| >= 1 && NodePath.AllPlain(rs)
    ensures ContextPath("/" + Join(cs, '/'), Join(rs, '/')) == Join(rs + ["docker"], '/')
    ensures NodePath.JoinPaths([Join(rs + ["docker"], '/'), ".env"]) == Join(rs + ["docker", ".env"], '/')
  {
    var segs := rs + ["docker"];
    assert NodePath.RootSpelling(false, rs) == Join(rs, '/');
    NodePath.JoinNameUnderRoot(false, rs, "docker");
    NodePath.PlainAppend(rs, ["docker"]);
    NodePath.RelativeBelowCwd(cs, segs);
    assert NodePath.RootSpelling(false, segs) == Join(segs, '/');
    NodePath.JoinNameUnderRoot(false, segs, ".env");
    assert segs + [".env"] == rs + ["docker", ".env"];
  }

  /** The spelling of the default folders. */
  lemma SrcSpelling(serviceName: string)
    ensures Join(["src", serviceName] + ["docker"], '/') == "src/" + serviceName + "/docker"
    ensures Join(["src", serviceName] + ["docker", ".env"], '/') == "src/" + serviceName + "/docker/.env"
  {
    assert ["src", serviceName] + ["docker"] == ["src", serviceName, "docker"];
    assert ["src", serviceName] + ["docker", ".env"] == ["src", serviceName, "docker", ".env"];
    assert Join([".env"], '/') == ".env";
    assert Join(["docker", ".env"], '/') == "docker/.env";
    assert Join([serviceName, "docker", ".env"], '/') == serviceName + "/docker/.env";
    assert Join(["docker"], '/') == "docker";
    assert Join([serviceName, "docker"], '/') == serviceName + "/docker";
  }

  /** The merge alone fails exactly on a scalar document or a truthy scalar
      section. */
  lemma MergeFailsExactly(doc: Value, sKey: string, vKey: string, entry: Value)
    requires Truthy(entry)
    ensures Merge(doc, sKey, vKey, entry).Failure?
            <==> !(doc.Obj? || doc.Arr?)
                 || (doc.Obj? && (TruthyScalar(doc.fields, "services") || TruthyScalar(doc.fields, "volumes")))
  {
  }

  /** On an object document, the merge keeps every top-level key but `services`,
      `volumes` and `networks`; keeps a truthy `networks` as it was; and in the
      `services` and `volumes` objects keeps every other entry, and an entry that
      is already set. */
  lemma BuildPreserves(file: Option<Value>, registry: Option<Value>, cwd: string, serviceName: string,
                       dbType: string, port: nat, d: Value)
    requires file.Some? && file.value.Obj?
    requires BuildDockerCompose(file, registry, cwd, serviceName, dbType, port) == Success(d)
    ensures d.Obj?
    ensures d.fields.Keys == file.value.fields.Keys + {"services", "volumes", "networks"}
    ensures forall k | k in file.value.fields && k !in {"services", "volumes", "networks"} ::
              d.fields[k] == file.value.fields[k]
    ensures d.fields["networks"] == OrDefault(file.value.fields, "networks", DefaultNetworks)
    ensures SectionKept(file.value.fields, d.fields, "services", ServiceKey(serviceName))
    ensures SectionKept(file.value.fields, d.fields, "volumes", VolumeKey(serviceName))
  {
    MergePreserves(file.value, ServiceKey(serviceName), VolumeKey(serviceName),
                   EntryIn(registry, cwd, serviceName, dbType, port), d);
  }

  /** When the section `sec` of `before` is an object, the section of `after` is
      one too, and keeps every entry but `key`, and `key` as well when it is set. */
  predicate SectionKept(before: map<string, Value>, after: map<string, Value>, sec: string, key: string) {
    IsSet(before, sec) && before[sec].Obj? ==>
      sec in after && after[sec].Obj?
      && (forall k | k in before[sec].fields && k != key ::
            k in after[sec].fields && after[sec].fields[k] == before[sec].fields[k])
      && (IsSet(before[sec].fields, key) ==> after[sec] == before[sec])
  }

  lemma MergePreserves(doc: Value, sKey: string, vKey: string, entry: Value, d: Value)
    requires Truthy(entry) && doc.Obj?
    requires Merge(doc, sKey, vKey, entry) == Success(d)
    ensures d.Obj?
    ensures d.fields.Keys == doc.fields.Keys + {"services", "volumes", "networks"}
    ensures forall k | k in doc.fields && k !in {"services", "volumes", "networks"} ::
              d.fields[k] == doc.fields[k]
    ensures d.fields["networks"] == OrDefault(doc.fields, "networks", DefaultNetworks)
    ensures SectionKept(doc.fields, d.fields, "services", sKey)
    ensures SectionKept(doc.fields, d.fields, "volumes", vKey)
  {
    var m3, s, v := MergeParts(doc, sKey, vKey, entry);
    InsertKeeps(m3["services"], sKey, entry, s);
    InsertKeeps(m3["volumes"], vKey, EmptyObj, v);
    SectionsKept(doc.fields, m3, s, v, d.fields);
  }

  /** Inserting into an object keeps its other entries, and all of them when
      the key is already set. */
  lemma InsertKeeps(c: Value, key: string, entry: Value, r: Value)
    requires Truthy(entry)
    requires InsertIfAbsent(c, key, entry) == Success(r)
    ensures c.Obj? ==> r.Obj? && (forall k | k in c.fields && k != key ::
                                    k in r.fields && r.fields[k] == c.fields[k])
    ensures c.Obj? && IsSet(c.fields, key) ==> r == c
  {
  }

  /** What putting the two updated sections back keeps of the loaded fields. */
  lemma SectionsKept(before: map<string, Value>, m3: map<string, Value>, s: Value, v: Value,
                     after: map<string, Value>)
    requires m3 == Sections(before) && after == m3["services" := s]["volumes" := v]
    requires IsSet(before, "services") && before["services"].Obj? ==> s.Obj?
    ensures after.Keys == before.Keys + {"services", "volumes", "networks"}
    ensures forall k | k in before && k !in {"services", "volumes", "networks"} :: after[k] == before[k]
    ensures after["networks"] == OrDefault(before, "networks", DefaultNetworks)
    ensures after["services"] == s && after["volumes"] == v
  {
  }

  /** On an object document, afterwards the new service and its volume are set:
      the service is the new entry unless a truthy one was already there, and the
      volume is `{}` unless a truthy one was already there. */
  lemma BuildInserts(file: Option<Value>, registry: Option<Value>, cwd: string, serviceName: string,
                     dbType: string, port: nat, d: Value)
    requires file.Some? && file.value.Obj?
    requires BuildDockerCompose(file, registry, cwd, serviceName, dbType, port) == Success(d)
    ensures ServiceDir(registry, serviceName).Success? && d.Obj?
    ensures SectionGets(file.value.fields, d.fields, "services", ServiceKey(serviceName),
                        EntryIn(registry, cwd, serviceName, dbType, port))
    ensures SectionGets(file.value.fields, d.fields, "volumes", VolumeKey(serviceName), EmptyObj)
  {
    MergeInserts(file.value, ServiceKey(serviceName), VolumeKey(serviceName),
                 EntryIn(registry, cwd, serviceName, dbType, port), d);
  }

  /** When the section `sec` of `after` is an object, `key` is set in it, and
      holds `entry` unless it was set in `before`. */
  predicate SectionGets(before: map<string, Value>, after: map<string, Value>, sec: string,
                        key: string, entry: Value) {
    sec in after && (after[sec].Obj? ==>
      IsSet(after[sec].fields, key)
      && (var b := OrDefault(before, sec, EmptyObj);
          b.Obj? && !IsSet(b.fields, key) ==> after[sec].fields[key] == entry))
  }

  lemma MergeInserts(doc: Value, sKey: string, vKey: string, entry: Value, d: Value)
    requires Truthy(entry) && doc.Obj?
    requires Merge(doc, sKey, vKey, entry) == Success(d)
    ensures d.Obj?
    ensures SectionGets(doc.fields, d.fields, "services", sKey, entry)
    ensures SectionGets(doc.fields, d.fields, "volumes", vKey, EmptyObj)
  {
    SectionNamesDistinct();
    var m3 := Sections(doc.fields);
    var s := InsertIfAbsent(m3["services"], sKey, entry).value;
    var v := InsertIfAbsent(m3["volumes"], vKey, EmptyObj).value;
    assert d.fields == m3["services" := s]["volumes" := v];
  }

  /** Running the merge again with the same arguments changes nothing. */
  lemma BuildIdempotent(file: Option<Value>, registry: Option<Value>, cwd: string, serviceName: string,
                        dbType: string, port: nat, d: Value)
    requires BuildDockerCompose(file, registry, cwd, serviceName, dbType, port) == Success(d)
    ensures BuildDockerCompose(Some(d), registry, cwd, serviceName, dbType, port) == Success(d)
  {
    MergeIdempotent(file.GetOr(Skeleton), ServiceKey(serviceName), VolumeKey(serviceName),
                    EntryIn(registry, cwd, serviceName, dbType, port), d);
  }

  lemma MergeIdempotent(doc: Value, sKey: string, vKey: string, entry: Value, d: Value)
    requires Truthy(entry)
    requires Merge(doc, sKey, vKey, entry) == Success(d)
    ensures Merge(d, sKey, vKey, entry) == Success(d)
  {
    if doc.Obj? {
      var m3, s, v := MergeParts(doc, sKey, vKey, entry);
      InsertAgain(m3["services"], sKey, entry, s);
      InsertAgain(m3["volumes"], vKey, EmptyObj, v);
      var n := UpdateSections(m3, s, v);
      var m3', s', v' := MergeParts(d, sKey, vKey, entry);
    }
  }

  /** A document whose sections are set and already hold both keys is
      returned as it was. */
  lemma MergeWhenPresent(doc: Value, sKey: string, vKey: string, entry: Value)
    requires Truthy(entry) && doc.Obj?
    requires IsSet(doc.fields, "services") && doc.fields["services"].Obj?
    requires IsSet(doc.fields, "volumes") && doc.fields["volumes"].Obj?
    requires IsSet(doc.fields, "networks")
    requires IsSet(doc.fields["services"].fields, sKey)
    requires IsSet(doc.fields["volumes"].fields, vKey)
    ensures Merge(doc, sKey, vKey, entry) == Success(doc)
  {
    SectionsWhenSet(doc.fields);
    var m3, s, v := MergeParts(doc, sKey, vKey, entry);
    assert s == m3["services"] && v == m3["volumes"];
    assert m3["services" := s]["volumes" := v] == m3;
  }

  /** The intermediate values of a successful merge on an object document. */
  lemma MergeParts(doc: Value, sKey: string, vKey: string, entry: Value)
      returns (m3: map<string, Value>, s: Value, v: Value)
    requires Truthy(entry) && doc.Obj?
    requires Merge(doc, sKey, vKey, entry).Success?
    ensures m3 == Sections(doc.fields)
    ensures InsertIfAbsent(m3["services"], sKey, entry) == Success(s)
    ensures InsertIfAbsent(m3["volumes"], vKey, EmptyObj) == Success(v)
    ensures Merge(doc, sKey, vKey, entry) == Success(Obj(m3["services" := s]["volumes" := v]))
  {
    m3 := Sections(doc.fields);
    s := InsertIfAbsent(m3["services"], sKey, entry).value;
    v := InsertIfAbsent(m3["volumes"], vKey, EmptyObj).value;
  }

  /** Inserting into the result of an insertion changes nothing. */
  lemma InsertAgain(c: Value, key: string, entry: Value, r: Value)
    requires Truthy(entry)
    requires InsertIfAbsent(c, key, entry) == Success(r)
    ensures InsertIfAbsent(r, key, entry) == Success(r)
  {
  }

  /** Putting back sections that are objects or arrays gives a document whose
      sections are all set, so defaulting them changes nothing. */
  lemma UpdateSections(m3: map<string, Value>, s: Value, v: Value) returns (n: map<string, Value>)
    requires IsSet(m3, "services") && IsSet(m3, "volumes") && IsSet(m3, "networks")
    requires (s.Obj? || s.Arr?) && (v.Obj? || v.Arr?)
    ensures n == m3["services" := s]["volumes" := v]
    ensures Sections(n) == n && n["services"] == s && n["volumes"] == v
    ensures n["services" := s]["volumes" := v] == n
  {
    n := m3["services" := s]["volumes" := v];
    SectionsWhenSet(n);
  }

  /** Defaulting sections that are all set changes nothing. */
  lemma SectionsWhenSet(m: map<string, Value>)
    requires IsSet(m, "services") && IsSet(m, "volumes") && IsSet(m, "networks")
    ensures Sections(m) == m
  {
  }
}

=== FILE: node_path.dfy ===
/** The POSIX flavour of Node's `path` module as far as the tool uses it:
    `path.normalize`, `path.join` (which normalises its result) and
    `path.relative` (which resolves both sides against the working directory
    first). A path is handled through its `/`-separated segments, as Node's
    `normalizeString` does. */
module NodePath {
  import opened Text

  /** A segment that normalisation keeps as it is: not empty, not `.` or `..`,
      and free of `/`. */
  predicate Plain(seg: string) {
    seg != "" && seg != "." && seg != ".." && '/' !in seg
  }

  predicate AllPlain(segs: seq<string>) {
    forall k | 0 <= k < |segs| :: Plain(segs[k])
  }

  /** One step of `normalizeString`: empty and `.` segments vanish; `..` drops
      the segment before it, unless there is none or it is itself `..`, in
      which case a relative path keeps the `..` and an absolute one drops it. */
  function Step(acc: seq<string>, seg: string, aboveRoot: bool): seq<string> {
    if seg == "" || seg == "." then acc
    else if seg == ".." then
      if |acc| > 0 && acc[|acc| - 1] != ".." then acc[..|acc| - 1]
      else if aboveRoot then acc + [".."]
      else acc
    else acc + [seg]
  }

  /** `normalizeString` over the segments `segs`, starting from `acc`. */
  function Resolve(acc: seq<string>, segs: seq<string>, aboveRoot: bool): seq<string>
    decreases |segs|
  {
    if segs == [] then acc else Resolve(Step(acc, segs[0], aboveRoot), segs[1..], aboveRoot)
  }

  /** `path.normalize(p)`: `.` for the empty path; otherwise the resolved
      segments, with the leading `/` of an absolute path and the trailing `/`
      of the input kept. */
  function Normalize(p: string): (r: string)
    ensures r != ""
  {
    if p == "" then "."
    else
      var absolute := p[0] == '/';
      var trailing := p[|p| - 1] == '/';
      var body := Join(Resolve([], Split(p, '/'), !absolute), '/');
      if body == "" then
        if absolute then "/" else if trailing then "./" else "."
      else
        (if absolute then "/" else "") + body + (if trailing then "/" else "")
  }

  /** The parts that are not empty, in order. */
  function DropEmpty(parts: seq<string>): (r: seq<string>)
    ensures forall k | 0 <= k < |r| :: r[k] != ""
    ensures forall k | 0 <= k < |parts| && parts[k] != "" :: parts[k] in r
  {
    if parts == [] then []
    else
      var rest := DropEmpty(parts[1..]);
      assert forall k | 1 <= k < |parts| :: parts[k] == parts[1..][k - 1];
      (if parts[0] == "" then [] else [parts[0]]) + rest
  }

  /** `path.join(...parts)`: the non-empty parts joined with `/` and
      normalised, or `.` when every part is empty. */
  function JoinPaths(parts: seq<string>): (r: string)
    ensures r != ""
  {
    var kept := DropEmpty(parts);
    if kept == [] then "." else Normalize(Join(kept, '/'))
  }

  /** `path.resolve(p)` as a list of segments: a relative path is taken from
      the working directory `cwd`, and the result is absolute, so `..` never
      climbs above the root. */
  function ResolveSegments(cwd: string, p: string): seq<string> {
    var full := if |p| > 0 && p[0] == '/' then p else cwd + "/" + p;
    Resolve([], Split(full, '/'), false)
  }

  /** The length of the longest common prefix of two segment lists. */
  function CommonPrefix(a: seq<string>, b: seq<string>): (n: nat)
    ensures n <= |a| && n <= |b| && a[..n] == b[..n]
    ensures n < |a| && n < |b| ==> a[n] != b[n]
    decreases |a|
  {
    if a == [] || b == [] || a[0] != b[0] then 0
    else
      var n := 1 + CommonPrefix(a[1..], b[1..]);
      assert a[..n] == [a[0]] + a[1..][..n - 1];
      assert b[..n] == [b[0]] + b[1..][..n - 1];
      n
  }

  /** `n` copies of `..`. */
  function Ups(n: nat): (r: seq<string>)
    ensures |r| == n && forall k | 0 <= k < n :: r[k] == ".."
  {
    if n == 0 then [] else [".."] + Ups(n - 1)
  }

  /** `path.relative(from, to)`: both resolved; the empty string when they are
      the same place; otherwise one `..` for each segment of `from` past the
      common prefix, then the rest of `to`. */
  function Relative(cwd: string, from: string, to: string): string {
    var f := ResolveSegments(cwd, from);
    var t := ResolveSegments(cwd, to);
    if f == t then ""
    else
      var n := CommonPrefix(f, t);
      Join(Ups(|f| - n) + t[n..], '/')
  }

  // ---------------------------------------------------------------------------
  // Joining and splitting segment lists

  /** Joining two non-empty lists puts one separator between their joins. */
  lemma {:induction false} JoinAppend(a: seq<string>, b: seq<string>, sep: char)
    requires |a| >= 1 && |b| >= 1
    ensures Join(a + b, sep) == Join(a, sep) + [sep] + Join(b, sep)
  {
    if |a| == 1 {
      assert (a + b)[1..] == b;
    } else {
      JoinAppend(a[1..], b, sep);
      assert (a + b)[1..] == a[1..] + b;
    }
  }

  /** Splitting the join of separator-free segments gives them back. */
  lemma {:induction false} SplitJoin(segs: seq<string>, sep: char)
    requires |segs| >= 1 && forall k | 0 <= k < |segs| :: sep !in segs[k]
    ensures Split(Join(segs, sep), sep) == segs
  {
    SplitWhole(segs[0], sep);
    if |segs| > 1 {
      SplitJoin(segs[1..], sep);
      SplitAppend(segs[0], Join(segs[1..], sep), sep);
      assert [segs[0]] + segs[1..] == segs;
    }
  }

  /** The join of a list ends with the join's last segment. */
  lemma {:induction false} JoinEnds(segs: seq<string>, sep: char)
    requires |segs| >= 1
    ensures EndsWith(Join(segs, sep), segs[|segs| - 1])
  {
    if |segs| > 1 {
      JoinEnds(segs[1..], sep);
      var j := Join(segs[1..], sep);
      assert Join(segs, sep) == (segs[0] + [sep]) + j;
    }
  }

  // ---------------------------------------------------------------------------
  // Resolution

  /** Resolution runs segment by segment, so it can be split anywhere. */
  lemma {:induction false} ResolveAppend(acc: seq<string>, a: seq<string>, b: seq<string>, aboveRoot: bool)
    ensures Resolve(acc, a + b, aboveRoot) == Resolve(Resolve(acc, a, aboveRoot), b, aboveRoot)
    decreases |a|
  {
    if a != [] {
      assert (a + b)[0] == a[0] && (a + b)[1..] == a[1..] + b;
      ResolveAppend(Step(acc, a[0], aboveRoot), a[1..], b, aboveRoot);
    } else {
      assert a + b == b;
    }
  }

  /** Plain segments are appended as they are. */
  lemma {:induction false} ResolvePlain(acc: seq<string>, segs: seq<string>, aboveRoot: bool)
    requires AllPlain(segs)
    ensures Resolve(acc, segs, aboveRoot) == acc + segs
    decreases |segs|
  {
    if segs != [] {
      ResolvePlain(acc + [segs[0]], segs[1..], aboveRoot);
      assert acc + [segs[0]] + segs[1..] == acc + segs;
    }
  }

  /** Every segment of the list is free of `/`. */
  predicate SlashFree(segs: seq<string>) {
    forall k | 0 <= k < |segs| :: '/' !in segs[k]
  }

  lemma SlashFreeAppend(a: seq<string>, b: seq<string>)
    requires SlashFree(a) && SlashFree(b)
    ensures SlashFree(a + b)
  {
    assert forall k | |a| <= k < |a + b| :: (a + b)[k] == b[k - |a|];
  }

  /** Normalising a path whose segments resolve to a non-empty plain list,
      without a leading or trailing `/`, gives their join. */
  lemma NormalizeRelative(p: string, segs: seq<string>, plain: seq<string>)
    requires p != "" && p[0] != '/' && p[|p| - 1] != '/'
    requires Split(p, '/') == segs && Resolve([], segs, true) == plain && |plain| >= 1
    requires AllPlain(plain)
    ensures Normalize(p) == Join(plain, '/')
  {
    var body := Join(Resolve([], Split(p, '/'), !(p[0] == '/')), '/');
    assert body == Join(plain, '/');
    JoinEnds(plain, '/');
    assert plain[|plain| - 1] != "";
    assert body != "";
  }

  /** `path.join` of non-empty parts whose text, once joined, is the join of
      `/`-free segments that resolve to the plain list `plain`. */
  lemma JoinPathsVia(parts: seq<string>, segs: seq<string>, plain: seq<string>)
    requires DropEmpty(parts) == parts
    requires |parts| >= 1 && Join(parts, '/') == Join(segs, '/')
    requires |segs| >= 1 && SlashFree(segs) && segs[0] != "" && segs[|segs| - 1] != ""
    requires Resolve([], segs, true) == plain && |plain| >= 1 && AllPlain(plain)
    ensures JoinPaths(parts) == Join(plain, '/')
  {
    SplitJoin(segs, '/');
    JoinStarts(segs, '/');
    JoinEnds(segs, '/');
    NormalizeRelative(Join(segs, '/'), segs, plain);
  }

  // ---------------------------------------------------------------------------
  // Properties of `path.join`

  /** Parts that are all non-empty are all kept. */
  lemma {:induction false} KeepNonEmpty(segs: seq<string>)
    requires forall k | 0 <= k < |segs| :: segs[k] != ""
    ensures DropEmpty(segs) == segs
  {
    if segs != [] {
      KeepNonEmpty(segs[1..]);
      assert [segs[0]] + segs[1..] == segs;
    }
  }

  /** Joining plain segments only puts `/` between them. */
  lemma JoinPathsPlain(segs: seq<string>)
    requires |segs| >= 1 && AllPlain(segs)
    ensures JoinPaths(segs) == Join(segs, '/')
  {
    ResolvePlain([], segs, true);
    KeepNonEmpty(segs);
    JoinPathsVia(segs, segs, segs);
  }

  /** The join of a list starts with the join's first segment. */
  lemma JoinStarts(segs: seq<string>, sep: char)
    requires |segs| >= 1
    ensures StartsWith(Join(segs, sep), segs[0])
  {
    if |segs| > 1 {
      assert Join(segs, sep) == segs[0] + ([sep] + Join(segs[1..], sep));
    }
  }

  /** A relative root spelled `rs` joined with `/`, optionally behind `./`
      (as the default `./src` is). */
  function RootSpelling(dotted: bool, rs: seq<string>): string {
    (if dotted then "./" else "") + Join(rs, '/')
  }

  /** The segments of that spelling. */
  function RootSegments(dotted: bool, rs: seq<string>): seq<string> {
    (if dotted then ["."] else []) + rs
  }

  /** The spelling is the join of its segments, which are `/`-free and
      resolve to `rs`; it is a non-empty relative path. */
  lemma RootSpelled(dotted: bool, rs: seq<string>)
    requires |rs| >= 1 && AllPlain(rs)
    ensures var segs := RootSegments(dotted, rs);
            && RootSpelling(dotted, rs) == Join(segs, '/')
            && |segs| >= 1 && SlashFree(segs) && segs[0] != ""
            && Resolve([], segs, true) == rs
    ensures RootSpelling(dotted, rs) != ""
  {
    var segs := RootSegments(dotted, rs);
    if dotted {
      JoinAppend(["."], rs, '/');
      assert Join(segs, '/') == "." + "/" + Join(rs, '/');
      ResolveAppend([], ["."], rs, true);
    } else {
      assert segs == rs;
    }
    ResolvePlain([], rs, true);
    JoinStarts(segs, '/');
  }

  /** `path.join(root, a, b, '/' + leaf)`, as the registry builds its folders. */
  function JoinFolder(root: string, a: string, b: string, leaf: string): string {
    JoinPaths([root, a, b, "/" + leaf])
  }

  /** Under such a root the folder's doubled `/` and the `./` vanish. */
  lemma JoinUnderRoot(dotted: bool, rs: seq<string>, a: string, b: string, leaf: string)
    requires |rs| >= 1 && AllPlain(rs) && Plain(a) && Plain(b) && Plain(leaf)
    ensures JoinFolder(RootSpelling(dotted, rs), a, b, leaf) == Join(rs + [a, b, leaf], '/')
  {
    var parts, segs, plain := FolderPlan(dotted, rs, a, b, leaf);
    JoinPathsVia(parts, segs, plain);
  }

  /** What `JoinPathsVia` needs to know about a folder's parts. */
  lemma FolderPlan(dotted: bool, rs: seq<string>, a: string, b: string, leaf: string)
      returns (parts: seq<string>, segs: seq<string>, plain: seq<string>)
    requires |rs| >= 1 && AllPlain(rs) && Plain(a) && Plain(b) && Plain(leaf)
    ensures parts == [RootSpelling(dotted, rs), a, b, "/" + leaf] && plain == rs + [a, b, leaf]
    ensures DropEmpty(parts) == parts
    ensures |parts| >= 1 && Join(parts, '/') == Join(segs, '/')
    ensures |segs| >= 1 && SlashFree(segs) && segs[0] != "" && segs[|segs| - 1] != ""
    ensures Resolve([], segs, true) == plain && |plain| >= 1 && AllPlain(plain)
  {
    parts := [RootSpelling(dotted, rs), a, b, "/" + leaf];
    segs := FolderSegments(dotted, rs, a, b, leaf);
    plain := rs + [a, b, leaf];
    assert AllPlain([a, b, leaf]);
    PlainAppend(rs, [a, b, leaf]);
    assert |"/" + leaf| > 0;
    KeepNonEmpty(parts);
  }

  /** The segments of the text `path.join` puts together for a folder. */
  lemma FolderSegments(dotted: bool, rs: seq<string>, a: string, b: string, leaf: string)
      returns (segs: seq<string>)
    requires |rs| >= 1 && AllPlain(rs) && Plain(a) && Plain(b) && Plain(leaf)
    ensures Join([RootSpelling(dotted, rs), a, b, "/" + leaf], '/') == Join(segs, '/')
    ensures |segs| >= 1 && SlashFree(segs) && segs[0] != "" && segs[|segs| - 1] != ""
    ensures Resolve([], segs, true) == rs + [a, b, leaf]
    ensures RootSpelling(dotted, rs) != ""
  {
    var root := RootSpelling(dotted, rs);
    RootSpelled(dotted, rs);
    var pre := RootSegments(dotted, rs);
    var tail := [a, b, "", leaf];
    segs := pre + tail;
    JoinAppend(pre, tail, '/');
    JoinFour(root, a, b, "/" + leaf);
    JoinFour(a, b, "", leaf);
    assert Join([root, a, b, "/" + leaf], '/') == Join(segs, '/');
    assert SlashFree(tail);
    SlashFreeAppend(pre, tail);
    ResolveAppend([], pre, tail, true);
    ResolveFolder(rs, a, b, leaf);
    assert segs[0] == pre[0] && segs[|segs| - 1] == leaf;
  }

  lemma JoinFour(w: string, x: string, y: string, z: string)
    ensures Join([w, x, y, z], '/') == w + "/" + (x + "/" + (y + "/" + z))
  {
    assert [w, x, y, z][1..] == [x, y, z] && [x, y, z][1..] == [y, z] && [y, z][1..] == [z];
    assert Join([y, z], '/') == y + "/" + z;
    assert Join([x, y, z], '/') == x + "/" + (y + "/" + z);
  }

  /** The segments `a`, `b`, ``, `leaf` resolve to `a`, `b`, `leaf`. */
  lemma ResolveFolder(acc: seq<string>, a: string, b: string, leaf: string)
    requires Plain(a) && Plain(b) && Plain(leaf)
    ensures Resolve(acc, [a, b, "", leaf], true) == acc + [a, b, leaf]
  {
    var r := acc + [a, b, leaf];
    assert [leaf][1..] == [];
    assert Resolve(acc + [a, b], [leaf], true) == r by { assert acc + [a, b] + [leaf] == r; }
    assert ["", leaf][1..] == [leaf];
    assert Resolve(acc + [a, b], ["", leaf], true) == r;
    assert [b, "", leaf][1..] == ["", leaf];
    assert Resolve(acc + [a], [b, "", leaf], true) == r by { assert acc + [a] + [b] == acc + [a, b]; }
    assert [a, b, "", leaf][1..] == [b, "", leaf];
  }

  lemma PlainAppend(a: seq<string>, b: seq<string>)
    requires AllPlain(a) && AllPlain(b)
    ensures AllPlain(a + b)
  {
    assert forall k | |a| <= k < |a + b| :: (a + b)[k] == b[k - |a|];
  }

  /** `path.join(root, name)` under such a root. */
  lemma JoinNameUnderRoot(dotted: bool, rs: seq<string>, name: string)
    requires |rs| >= 1 && AllPlain(rs) && Plain(name)
    ensures JoinPaths([RootSpelling(dotted, rs), name]) == Join(rs + [name], '/')
  {
    var root := RootSpelling(dotted, rs);
    var segs := NameSegments(dotted, rs, name);
    PlainAppend(rs, [name]);
    KeepNonEmpty([root, name]);
    JoinPathsVia([root, name], segs, rs + [name]);
  }

  /** The segments of the text `path.join` puts together for a name. */
  lemma NameSegments(dotted: bool, rs: seq<string>, name: string) returns (segs: seq<string>)
    requires |rs| >= 1 && AllPlain(rs) && Plain(name)
    ensures Join([RootSpelling(dotted, rs), name], '/') == Join(segs, '/')
    ensures |segs| >= 1 && SlashFree(segs) && segs[0] != "" && segs[|segs| - 1] != ""
    ensures Resolve([], segs, true) == rs + [name]
    ensures RootSpelling(dotted, rs) != ""
  {
    var root := RootSpelling(dotted, rs);
    RootSpelled(dotted, rs);
    var pre := RootSegments(dotted, rs);
    segs := pre + [name];
    JoinAppend(pre, [name], '/');
    assert Join([root, name], '/') == Join(segs, '/');
    assert SlashFree([name]);
    SlashFreeAppend(pre, [name]);
    ResolveAppend([], pre, [name], true);
    ResolvePlain(rs, [name], true);
    assert segs[0] == pre[0] && segs[|segs| - 1] == name;
  }

  // ---------------------------------------------------------------------------
  // Properties of `path.relative`

  /** A path below the working directory, taken relative to `.`, is spelled by
      its own plain segments. */
  lemma RelativeBelowCwd(cs: seq<string>, segs: seq<string>)
    requires |cs| >= 1 && AllPlain(cs) && |segs| >= 1 && AllPlain(segs)
    ensures Relative("/" + Join(cs, '/'), ".", Join(segs, '/')) == Join(segs, '/')
  {
    var cwd := "/" + Join(cs, '/');
    CwdSegments(cs);
    BelowCwdSegments(cs, segs);
    var t := cs + segs;
    assert ResolveSegments(cwd, ".") != t by { assert |t| > |cs|; }
    PrefixCommon(cs, segs);
    assert t[|cs|..] == segs;
    assert Ups(0) + segs == segs;
  }

  /** The working directory `/cs` resolves `.` to its own segments. */
  lemma CwdSegments(cs: seq<string>)
    requires |cs| >= 1 && AllPlain(cs)
    ensures ResolveSegments("/" + Join(cs, '/'), ".") == cs
  {
    var cwd := "/" + Join(cs, '/');
    assert SlashFree(["."]);
    SplitJoin(["."], '/');
    assert Join(["."], '/') == ".";
    SplitBelow(cs, ".", ["."]);
    ResolveBelow(cs, ["."]);
    assert Resolve(cs, ["."], false) == Resolve(cs, [], false) == cs;
    assert ResolveSegments(cwd, ".") == Resolve([], Split(cwd + "/" + ".", '/'), false);
  }

  /** The working directory `/cs` resolves the relative `segs` to `cs + segs`. */
  lemma BelowCwdSegments(cs: seq<string>, segs: seq<string>)
    requires |cs| >= 1 && AllPlain(cs) && |segs| >= 1 && AllPlain(segs)
    ensures ResolveSegments("/" + Join(cs, '/'), Join(segs, '/')) == cs + segs
  {
    JoinStarts(segs, '/');
    SplitJoin(segs, '/');
    SplitBelow(cs, Join(segs, '/'), segs);
    ResolveBelow(cs, segs);
    ResolvePlain(cs, segs, false);
  }

  /** The text `/cs/p` splits into an empty segment, `cs`, and the parts of `p`. */
  lemma SplitBelow(cs: seq<string>, p: string, ps: seq<string>)
    requires |cs| >= 1 && AllPlain(cs) && Split(p, '/') == ps
    ensures Split("/" + Join(cs, '/') + "/" + p, '/') == [""] + cs + ps
  {
    var j := Join(cs, '/');
    assert SlashFree(cs);
    SplitJoin(cs, '/');
    SplitAppend(j, p, '/');
    SplitAppend("", j + "/" + p, '/');
    assert "/" + j + "/" + p == "" + ['/'] + (j + ['/'] + p);
  }

  /** Resolving `["", cs..., rest...]` resolves `rest` from `cs`. */
  lemma ResolveBelow(cs: seq<string>, rest: seq<string>)
    requires AllPlain(cs)
    ensures Resolve([], [""] + cs + rest, false) == Resolve(cs, rest, false)
  {
    ResolveAppend([], [""] + cs, rest, false);
    ResolveAppend([], [""], cs, false);
    assert [""][1..] == [];
    assert Resolve([], [""], false) == [];
    ResolvePlain([], cs, false);
    assert [] + cs == cs;
  }

  /** A list is the whole common prefix of itself and any extension of it. */
  lemma {:induction false} PrefixCommon(a: seq<string>, b: seq<string>)
    requires |b| >= 1
    ensures CommonPrefix(a, a + b) == |a|
  {
    if a != [] {
      PrefixCommon(a[1..], b);
      assert (a + b)[1..] == a[1..] + b;
    }
  }
}

=== FILE: plans.dfy ===
/** What the scaffolding and generation steps do to the file system, recorded
    rather than performed: directories ensured and templates rendered, as
    (template, output, data) triples. A plan that is not complete stopped
    part-way, because a call threw or a prompt was never answered acceptably;
    nothing after that point happens. */
module Plans {
  import opened Document

  datatype Effect =
    | EnsureDir(dir: string)
    | RenderFile(template: string, output: string, data: map<string, Value>)

  datatype Plan = Plan(effects: seq<Effect>, complete: bool)

  /** The outputs of the rendered files of a plan, in order. */
  function Outputs(effects: seq<Effect>): (r: seq<string>)
    ensures |r| <= |effects|
  {
    if effects == [] then []
    else
      var rest := Outputs(effects[1..]);
      if effects[0].RenderFile? then [effects[0].output] + rest else rest
  }
}

=== FILE: prompt.dfy ===
/** The pieces of inquirer's behaviour the transitions depend on: an `input`
    question answered with an empty line yields its `default`, and one with a
    `validate` function asks again until an answer passes. */
module Prompt {
  import opened Wrappers
  import opened Text
  import opened Document

  /** The value an `input` question yields for the typed `answer`. */
  function InputAnswer(answer: string, default: Value): (v: Value)
    ensures answer == "" ==> v == default
    ensures answer != "" ==> v == Str(answer) && Truthy(v)
  {
    if answer == "" then default else Str(answer)
  }

  /** The answer of an `input` question with a `validate` function: the
      prompt asks again after every refused answer, so the answer is the
      first typed one that `valid` accepts; `None` while it is still
      waiting. */
  function Validated(attempts: seq<string>, valid: string -> bool): (r: Option<string>)
    ensures r.Some? ==> valid(r.value) && r.value in attempts
  {
    if attempts == [] then None
    else if valid(attempts[0]) then Some(attempts[0])
    else Validated(attempts[1..], valid)
  }

  /** Every answer in `answers` is refused. */
  predicate AllRefused(answers: seq<string>, valid: string -> bool) {
    forall a | a in answers :: !valid(a)
  }

  /** The validated answer is the first accepted one, and there is none
      exactly when every answer is refused. */
  lemma {:induction false} ValidatedIsFirstAccepted(attempts: seq<string>, valid: string -> bool)
    ensures Validated(attempts, valid).None? <==> AllRefused(attempts, valid)
    ensures Validated(attempts, valid).Some? ==>
              exists i | 0 <= i < |attempts| ::
                attempts[i] == Validated(attempts, valid).value && AllRefused(attempts[..i], valid)
  {
    if attempts != [] {
      var tail := attempts[1..];
      assert attempts == [attempts[0]] + tail;
      ValidatedIsFirstAccepted(tail, valid);
      if !valid(attempts[0]) {
        if Validated(tail, valid).Some? {
          var i :| 0 <= i < |tail| && tail[i] == Validated(tail, valid).value && AllRefused(tail[..i], valid);
          assert attempts[..i + 1] == [attempts[0]] + tail[..i];
          assert attempts[i + 1] == tail[i];
        }
      } else {
        assert attempts[..0] == [];
      }
    }
  }

  /** `validate: (input) => input.trim() !== ''`. */
  predicate NonBlank(answer: string) {
    Trim(answer) != ""
  }

  /** The name answer: the first typed answer whose trim is not empty. */
  function AcceptedName(attempts: seq<string>): (r: Option<string>)
    ensures r.Some? ==> Trim(r.value) != "" && r.value in attempts
  {
    Validated(attempts, NonBlank)
  }

  /** The accepted name is the first non-blank answer, and there is none
      exactly when every answer is blank. */
  lemma AcceptedNameIsFirstValid(attempts: seq<string>)
    ensures AcceptedName(attempts).None? <==> forall a | a in attempts :: Trim(a) == ""
    ensures AcceptedName(attempts).Some? ==>
              exists i | 0 <= i < |attempts| ::
                attempts[i] == AcceptedName(attempts).value && forall a | a in attempts[..i] :: Trim(a) == ""
  {
    ValidatedIsFirstAccepted(attempts, NonBlank);
  }
}

=== FILE: registry.dfy ===
/** The project registry `.mastermindrc` of src/helper/mastermind-config.helper.ts:
    `loadProjectConfig`, `saveProjectConfig`, `addOrUpdateProjectConfig` and
    `getConfigPaths`. The file is the parsed JSON document (`None` when the file
    does not exist); saving writes the document as it is, so each transition
    returns the document it saves, or `Failure` when it throws first. */
module Registry {
  import opened Wrappers
  import opened Text
  import opened Document
  import NodePath

  /** `DEFAULT_ROOT_DIR`. */
  const DefaultRootDir: string := "./src"

  /** The key under which this helper keeps its entries. */
  const DatabasesKey: string := "databases"

  /** `loadProjectConfig`: the parsed file, or `{databases: {}}` without one. */
  function LoadProjectConfig(file: Option<Value>): (cfg: Value)
    ensures file.Some? ==> cfg == file.value
    ensures file.None? ==> cfg.Obj? && cfg.fields.Keys == {DatabasesKey}
                           && cfg.fields[DatabasesKey] == EmptyObj
  {
    match file
    case Some(v) => v
    case None => Obj(map[DatabasesKey := EmptyObj])
  }

  /** `path.join(rootDir, dbName, orm.toLowerCase(), '/' + leaf)`: one of the
      three folders of a database, normalised as `path.join` does. */
  function EntryDir(rootDir: string, dbName: string, orm: string, leaf: string): string {
    NodePath.JoinFolder(rootDir, dbName, ToLower(orm), leaf)
  }

  /** The entry `addOrUpdateProjectConfig` stores. `templatesRoot` stands for
      the package's `../templates` folder, already resolved to an absolute path. */
  function DatabaseEntry(dbName: string, orm: string, rootDir: string, templatesRoot: string): (e: Value)
    ensures e.Obj? && e.fields.Keys == {"orm", "migrationsDir", "modelsDir", "seedersDir", "templatesDir"}
    ensures e.fields["orm"] == Str(orm)
    ensures e.fields["migrationsDir"] == Str(EntryDir(rootDir, dbName, orm, "migrations"))
    ensures e.fields["modelsDir"] == Str(EntryDir(rootDir, dbName, orm, "models"))
    ensures e.fields["seedersDir"] == Str(EntryDir(rootDir, dbName, orm, "seeders"))
  {
    Obj(map[
      "orm" := Str(orm),
      "migrationsDir" := Str(EntryDir(rootDir, dbName, orm, "migrations")),
      "modelsDir" := Str(EntryDir(rootDir, dbName, orm, "models")),
      "seedersDir" := Str(EntryDir(rootDir, dbName, orm, "seeders")),
      "templatesDir" := Str(PathJoin(templatesRoot, ToLower(orm)))
    ])
  }

  /** Under a relative root spelled with plain segments, with or without a
      leading `./`, a folder is the root's segments, the database name, the
      lower-cased ORM and the leaf joined by single `/`: the `./` and the `//`
      before the leaf are normalised away. */
  lemma EntryDirUnderRoot(dotted: bool, rs: seq<string>, dbName: string, orm: string, leaf: string)
    requires |rs| >= 1 && NodePath.AllPlain(rs)
    requires NodePath.Plain(dbName) && NodePath.Plain(ToLower(orm)) && NodePath.Plain(leaf)
    ensures EntryDir(NodePath.RootSpelling(dotted, rs), dbName, orm, leaf)
            == Join(rs + [dbName, ToLower(orm), leaf], '/')
  {
    NodePath.JoinUnderRoot(dotted, rs, dbName, ToLower(orm), leaf);
  }

  /** With the default root `./src` the stored migrations folder is
      `src/<name>/<orm>/migrations`, without the `./`. */
  lemma DefaultRootEntry(dbName: string, orm: string, templatesRoot: string)
    requires NodePath.Plain(dbName) && NodePath.Plain(ToLower(orm))
    ensures DatabaseEntry(dbName, orm, DefaultRootDir, templatesRoot).fields["migrationsDir"]
            == Str("src/" + dbName + "/" + ToLower(orm) + "/migrations")
  {
    DefaultEntryDir(dbName, orm, "migrations");
  }

  /** A folder under `./src`. */
  lemma DefaultEntryDir(dbName: string, orm: string, leaf: string)
    requires NodePath.Plain(dbName) && NodePath.Plain(ToLower(orm)) && NodePath.Plain(leaf)
    ensures EntryDir(DefaultRootDir, dbName, orm, leaf) == "src/" + dbName + "/" + ToLower(orm) + "/" + leaf
  {
    var lower := ToLower(orm);
    assert NodePath.RootSpelling(true, ["src"]) == DefaultRootDir;
    assert NodePath.AllPlain(["src"]);
    EntryDirUnderRoot(true, ["src"], dbName, orm, leaf);
    NodePath.JoinFour("src", dbName, lower, leaf);
    assert ["src"] + [dbName, lower, leaf] == ["src", dbName, lower, leaf];
  }

  /** `projectConfig.databases[dbName] = entry`: an object gets the key; an
      array takes it as a property that the JSON output drops; a missing or
      null `databases` throws, and so does a string, number or boolean. */
  function SetEntry(databases: Option<Value>, dbName: string, entry: Value): Result<Value> {
    match databases
    case Some(Obj(m)) => Success(Obj(m[dbName := entry]))
    case Some(Arr(_)) => Success(databases.value)
    case None => Failure("Cannot set properties of undefined")
    case Some(Null) => Failure("Cannot set properties of null")
    case Some(_) => Failure("Cannot create property '" + dbName + "' on a primitive")
  }

  /** `addOrUpdateProjectConfig(dbName, orm, rootDir)`: the document saved, or
      `Failure` when the assignments throw and nothing is saved. */
  function AddOrUpdateProjectConfig(file: Option<Value>, dbName: string, orm: string,
                                    rootDir: string, templatesRoot: string): (r: Result<Value>)
    ensures var cfg := LoadProjectConfig(file);
            r.Failure? <==> !cfg.Obj? || DatabasesKey !in cfg.fields
                            || !(cfg.fields[DatabasesKey].Obj? || cfg.fields[DatabasesKey].Arr?)
    ensures r.Success? ==> r.value.Obj? && "rootDir" in r.value.fields && r.value.fields["rootDir"] == Str(rootDir)
  {
    var entry := DatabaseEntry(dbName, orm, rootDir, templatesRoot);
    SaveEntryFailsExactly(file, dbName, rootDir, entry);
    SaveEntry(file, dbName, rootDir, entry)
  }

  /** The two assignments `addOrUpdateProjectConfig` makes, for any entry:
      `projectConfig.rootDir = rootDir` and `projectConfig.databases[dbName] = entry`. */
  function SaveEntry(file: Option<Value>, dbName: string, rootDir: string, entry: Value): Result<Value>
  {
    match LoadProjectConfig(file)
    case Obj(m) =>
      var databases := SetEntry(Get(m, DatabasesKey), dbName, entry);
      if databases.Failure? then Failure(databases.error)
      else Success(Obj(m["rootDir" := Str(rootDir)][DatabasesKey := databases.value]))
    case Arr(_) =>
      // `rootDir` becomes a property of the array; `databases` reads undefined.
      Failure("Cannot set properties of undefined")
    case Null => Failure("Cannot set properties of null")
    case _ => Failure("Cannot create property 'rootDir' on a primitive")
  }

  /** A registry document whose `databases` is an object. */
  predicate HasDatabases(cfg: Value) {
    cfg.Obj? && DatabasesKey in cfg.fields && cfg.fields[DatabasesKey].Obj?
  }

  /** On a document with a `databases` object, the saved document has the new
      `rootDir`, the new entry under `dbName` in full, and every other entry
      and every other top-level key as it was. */
  lemma AddOrUpdateEffect(file: Option<Value>, dbName: string, orm: string, rootDir: string,
                          templatesRoot: string)
    requires file.None? || HasDatabases(file.value)
    ensures var cfg := LoadProjectConfig(file);
            var r := AddOrUpdateProjectConfig(file, dbName, orm, rootDir, templatesRoot);
            && r.Success? && HasDatabases(r.value)
            && r.value.fields["rootDir"] == Str(rootDir)
            && r.value.fields[DatabasesKey].fields[dbName] == DatabaseEntry(dbName, orm, rootDir, templatesRoot)
            && (forall k | k in cfg.fields[DatabasesKey].fields && k != dbName ::
                  k in r.value.fields[DatabasesKey].fields
                  && r.value.fields[DatabasesKey].fields[k] == cfg.fields[DatabasesKey].fields[k])
            && r.value.fields.Keys == cfg.fields.Keys + {"rootDir"}
            && (forall k | k in cfg.fields && k !in {"rootDir", DatabasesKey} ::
                  r.value.fields[k] == cfg.fields[k])
  {
    SaveEntryEffect(file, dbName, rootDir, DatabaseEntry(dbName, orm, rootDir, templatesRoot));
  }

  lemma SaveEntryEffect(file: Option<Value>, dbName: string, rootDir: string, entry: Value)
    requires file.None? || HasDatabases(file.value)
    ensures var cfg := LoadProjectConfig(file);
            var r := SaveEntry(file, dbName, rootDir, entry);
            && r.Success? && HasDatabases(r.value)
            && r.value.fields["rootDir"] == Str(rootDir)
            && r.value.fields[DatabasesKey].fields[dbName] == entry
            && (forall k | k in cfg.fields[DatabasesKey].fields && k != dbName ::
                  k in r.value.fields[DatabasesKey].fields
                  && r.value.fields[DatabasesKey].fields[k] == cfg.fields[DatabasesKey].fields[k])
            && r.value.fields.Keys == cfg.fields.Keys + {"rootDir"}
            && (forall k | k in cfg.fields && k !in {"rootDir", DatabasesKey} ::
                  r.value.fields[k] == cfg.fields[k])
  {
    assert "rootDir" != DatabasesKey by { assert "rootDir"[0] != DatabasesKey[0]; }
  }

  /** The update fails exactly when the document is not an object or its
      `databases` is neither an object nor an array. */
  lemma AddOrUpdateFailsExactly(file: Option<Value>, dbName: string, orm: string, rootDir: string,
                                templatesRoot: string)
    ensures var cfg := LoadProjectConfig(file);
            AddOrUpdateProjectConfig(file, dbName, orm, rootDir, templatesRoot).Failure?
            <==> !cfg.Obj? || DatabasesKey !in cfg.fields
                 || !(cfg.fields[DatabasesKey].Obj? || cfg.fields[DatabasesKey].Arr?)
  {
    SaveEntryFailsExactly(file, dbName, rootDir, DatabaseEntry(dbName, orm, rootDir, templatesRoot));
  }

  lemma SaveEntryFailsExactly(file: Option<Value>, dbName: string, rootDir: string, entry: Value)
    ensures var cfg := LoadProjectConfig(file);
            SaveEntry(file, dbName, rootDir, entry).Failure?
            <==> !cfg.Obj? || DatabasesKey !in cfg.fields
                 || !(cfg.fields[DatabasesKey].Obj? || cfg.fields[DatabasesKey].Arr?)
  {
  }

  /** The document-wide `rootDir` is whatever the last update passed: a
      second update overwrites it, while the first entry stays. */
  lemma LastWriterWins(file: Option<Value>, a: string, b: string, orm: string,
                       rootA: string, rootB: string, templatesRoot: string)
    requires file.None? || HasDatabases(file.value)
    requires a != b
    ensures var first := AddOrUpdateProjectConfig(file, a, orm, rootA, templatesRoot);
            first.Success?
            && var second := AddOrUpdateProjectConfig(Some(first.value), b, orm, rootB, templatesRoot);
            second.Success? && HasDatabases(second.value) && "rootDir" in second.value.fields
            && a in second.value.fields[DatabasesKey].fields
            && second.value.fields["rootDir"] == Str(rootB)
            && second.value.fields[DatabasesKey].fields[a] == DatabaseEntry(a, orm, rootA, templatesRoot)
  {
    SaveTwice(file, a, b, rootA, rootB, DatabaseEntry(a, orm, rootA, templatesRoot),
              DatabaseEntry(b, orm, rootB, templatesRoot));
  }

  lemma SaveTwice(file: Option<Value>, a: string, b: string, rootA: string, rootB: string,
                  ea: Value, eb: Value)
    requires file.None? || HasDatabases(file.value)
    requires a != b
    ensures var first := SaveEntry(file, a, rootA, ea);
            first.Success?
            && var second := SaveEntry(Some(first.value), b, rootB, eb);
            second.Success? && HasDatabases(second.value) && "rootDir" in second.value.fields
            && a in second.value.fields[DatabasesKey].fields
            && second.value.fields["rootDir"] == Str(rootB)
            && second.value.fields[DatabasesKey].fields[a] == ea
  {
    SaveEntryEffect(file, a, rootA, ea);
    var first := SaveEntry(file, a, rootA, ea);
    SaveEntryEffect(Some(first.value), b, rootB, eb);
  }

  /** What `getConfigPaths` returns: the merged fields, and whether it logged
      that the entry was not found. */
  datatype ConfigPaths = ConfigPaths(fields: map<string, Value>, loggedMissing: bool)

  /** `getConfigPaths(dbName)`: `{rootDir, ...databases[dbName]}`. Reading
      `databases[dbName]` throws when `databases` is missing or null. It finds
      an own entry first, and otherwise a member inherited from
      `Object.prototype`, which is truthy (so nothing is logged) and spreads
      nothing; an entry that is not an object spreads nothing either. */
  function GetConfigPaths(file: Option<Value>, dbName: string): (r: Result<ConfigPaths>)
    ensures var cfg := LoadProjectConfig(file);
            r.Success? <==> cfg.Obj? && DatabasesKey in cfg.fields && !cfg.fields[DatabasesKey].Null?
    ensures var cfg := LoadProjectConfig(file);
            r.Success? && !r.value.loggedMissing ==>
              (cfg.fields[DatabasesKey].Obj? && dbName in cfg.fields[DatabasesKey].fields)
              || dbName in ObjectPrototypeNames
    ensures var cfg := LoadProjectConfig(file);
            r.Success? && dbName in ObjectPrototypeNames
            && !(cfg.fields[DatabasesKey].Obj? && dbName in cfg.fields[DatabasesKey].fields) ==>
              !r.value.loggedMissing && r.value.fields.Keys <= {"rootDir"}
  {
    var cfg := LoadProjectConfig(file);
    if cfg.Null? then Failure("Cannot read properties of null")
    else
      var databases := if cfg.Obj? then Get(cfg.fields, DatabasesKey) else None;
      if databases.None? || databases.value.Null? then Failure("Cannot read properties of undefined")
      else
        var entry := if databases.value.Obj? then Get(databases.value.fields, dbName) else None;
        var inherited := entry.None? && dbName in ObjectPrototypeNames;
        var root: map<string, Value> :=
          if cfg.Obj? && "rootDir" in cfg.fields then map["rootDir" := cfg.fields["rootDir"]] else map[];
        var spread: map<string, Value> := if entry.Some? && entry.value.Obj? then entry.value.fields else map[];
        Success(ConfigPaths(root + spread, !(inherited || (entry.Some? && Truthy(entry.value)))))
  }

  /** For a registered name the paths are `rootDir` overlaid with the entry's
      fields and no error is logged; for an unregistered one only `rootDir`
      remains, and the error is logged unless the name is inherited from
      `Object.prototype`. */
  lemma ConfigPathsLookup(cfg: Value, dbName: string)
    requires HasDatabases(cfg) && "rootDir" in cfg.fields
    ensures var r := GetConfigPaths(Some(cfg), dbName);
            var dbs := cfg.fields[DatabasesKey].fields;
            && r.Success?
            && (dbName in dbs && dbs[dbName].Obj? ==>
                  !r.value.loggedMissing
                  && r.value.fields.Keys == {"rootDir"} + dbs[dbName].fields.Keys
                  && (forall k | k in dbs[dbName].fields :: r.value.fields[k] == dbs[dbName].fields[k])
                  && ("rootDir" !in dbs[dbName].fields ==> r.value.fields["rootDir"] == cfg.fields["rootDir"]))
            && (dbName !in dbs ==>
                  (r.value.loggedMissing <==> dbName !in ObjectPrototypeNames)
                  && r.value.fields == map["rootDir" := cfg.fields["rootDir"]])
  {
  }

  /** As written, a name inherited from `Object.prototype` is found in an
      empty `databases`: `constructor` logs no error, yet the paths hold only
      `rootDir`. */
  lemma PrototypeNameFound(rootDir: string)
    ensures var cfg := Obj(map[DatabasesKey := EmptyObj, "rootDir" := Str(rootDir)]);
            var r := GetConfigPaths(Some(cfg), "constructor");
            && r.Success? && !r.value.loggedMissing
            && r.value.fields == map["rootDir" := Str(rootDir)]
  {
    var cfg := Obj(map[DatabasesKey := EmptyObj, "rootDir" := Str(rootDir)]);
    ConfigPathsLookup(cfg, "constructor");
  }

  /** Without a `databases` key (as in a registry keyed `services`), looking
      up paths throws. */
  lemma ConfigPathsNeedDatabases(cfg: Value, dbName: string)
    requires cfg.Obj? && DatabasesKey !in cfg.fields
    ensures GetConfigPaths(Some(cfg), dbName).Failure?
    ensures AddOrUpdateProjectConfig(Some(cfg), dbName, "sequelize", DefaultRootDir, "").Failure?
  {
  }

  /** No registry entry written by `addOrUpdateProjectConfig` has a
      `database` field, so the merged paths of a registered name have none;
      their `rootDir` is the one just saved. */
  lemma WrittenEntryLacksDatabase(file: Option<Value>, dbName: string, orm: string, rootDir: string,
                                  templatesRoot: string)
    requires file.None? || HasDatabases(file.value)
    ensures var saved := AddOrUpdateProjectConfig(file, dbName, orm, rootDir, templatesRoot);
            && saved.Success?
            && var paths := GetConfigPaths(Some(saved.value), dbName);
            && paths.Success? && !paths.value.loggedMissing
            && "database" !in paths.value.fields
            && Get(paths.value.fields, "rootDir") == Some(Str(rootDir))
  {
    var entry := DatabaseEntry(dbName, orm, rootDir, templatesRoot);
    var saved := AddOrUpdateProjectConfig(file, dbName, orm, rootDir, templatesRoot);
    var dbs := LoadProjectConfig(file).fields[DatabasesKey].fields;
    assert saved.value.fields[DatabasesKey] == Obj(dbs[dbName := entry]);
    assert |"database"| == 8;
    assert "database" !in entry.fields.Keys;
    assert |"rootDir"| == 7;
    assert "rootDir" !in entry.fields.Keys;
  }
}

=== FILE: scaffold_compose.dfy ===
/** `scaffoldDockerCompose` of src/service/scaffold-docker-compose.service.ts:
    the create-or-update decision over the two confirm prompts. Its imports name
    `createDockerComposeFile` and `buildDockerCompose`, which only
    src/operations/manage-docker.operation.ts exports, so the merge is
    `ManageDocker`'s. The prompt answers, the registry and the working
    directory are parameters. A build that throws before its `try` leaves the
    compose file as it was at that point, which is all this model tracks. */
module ScaffoldCompose {
  import opened Wrappers
  import opened Text
  import opened Document
  import ManageDocker

  /** The compose document on disk after a build: the merged one, or the one
      before when the build failed and wrote nothing. */
  function AfterBuild(file: Option<Value>, registry: Option<Value>, cwd: string, serviceName: string,
                      dbType: string, port: nat): Option<Value>
  {
    match ManageDocker.BuildDockerCompose(file, registry, cwd, serviceName, dbType, port)
    case Success(d) => Some(d)
    case Failure(_) => file
  }

  /** The compose document after `scaffoldDockerCompose`. `confirmCreate` is
      asked only when there is no file, `useCompose` only when there is one. */
  function ScaffoldDockerCompose(file: Option<Value>, registry: Option<Value>, cwd: string,
                                 confirmCreate: bool, useCompose: bool,
                                 serviceName: string, dbType: string, port: nat): (after: Option<Value>)
    ensures after.None? <==> file.None? && !confirmCreate
    ensures file.Some? && !useCompose ==> after == file
  {
    if file.None? then
      if !confirmCreate then None
      else AfterBuild(ManageDocker.CreateDockerComposeFile(file), registry, cwd, serviceName, dbType, port)
    else if useCompose then AfterBuild(file, registry, cwd, serviceName, dbType, port)
    else file
  }

  /** The decision table: declining creation leaves no file; confirming
      creates the skeleton and merges the service into it, and when the service
      folder cannot be computed the bare skeleton stays behind; an existing file
      is merged into only when the user agrees, and is otherwise left as it
      was. */
  lemma ScaffoldDecisions(file: Option<Value>, registry: Option<Value>, cwd: string,
                          confirmCreate: bool, useCompose: bool,
                          serviceName: string, dbType: string, port: nat)
    ensures var after := ScaffoldDockerCompose(file, registry, cwd, confirmCreate, useCompose,
                                               serviceName, dbType, port);
            var dir := ManageDocker.ServiceDir(registry, serviceName);
            && (file.None? && !confirmCreate ==> after.None?)
            && (file.None? && confirmCreate && dir.Success? ==>
                  after == Some(Obj(map[
                    "version" := Str("3.8"),
                    "services" := Obj(map[ManageDocker.ServiceKey(serviceName) :=
                                          ManageDocker.EntryIn(registry, cwd, serviceName, dbType, port)]),
                    "networks" := ManageDocker.DefaultNetworks,
                    "volumes" := Obj(map[ManageDocker.VolumeKey(serviceName) := EmptyObj])])))
            && (file.None? && confirmCreate && dir.Failure? ==> after == Some(ManageDocker.Skeleton))
            && (file.Some? && !useCompose ==> after == file)
            && (file.Some? && useCompose ==> after.Some?)
  {
    if file.None? && confirmCreate && ManageDocker.ServiceDir(registry, serviceName).Success? {
      ManageDocker.BuildOnMissingFile(registry, cwd, serviceName, dbType, port);
    }
  }

  /** `after` keeps what matters of the object document `doc`: every
      top-level key other than the three sections, with its value, and a set
      `networks` section. */
  predicate KeptOver(doc: Value, after: Option<Value>)
    requires doc.Obj?
  {
    after.Some? && after.value.Obj?
    && (forall k | k in doc.fields && k !in {"services", "volumes", "networks"} ::
          k in after.value.fields && after.value.fields[k] == doc.fields[k])
    && (IsSet(doc.fields, "networks") ==> "networks" in after.value.fields
                                           && after.value.fields["networks"] == doc.fields["networks"])
  }

  /** An existing object file is never replaced by the skeleton: whatever the
      answers and whether or not the merge succeeds, its other top-level keys
      and a set `networks` section are kept. */
  lemma ExistingFileKept(doc: Value, registry: Option<Value>, cwd: string, useCompose: bool,
                         serviceName: string, dbType: string, port: nat)
    requires doc.Obj?
    ensures KeptOver(doc, ScaffoldDockerCompose(Some(doc), registry, cwd, false, useCompose,
                                                serviceName, dbType, port))
  {
    var r := ManageDocker.BuildDockerCompose(Some(doc), registry, cwd, serviceName, dbType, port);
    if useCompose && r.Success? {
      ManageDocker.BuildPreserves(Some(doc), registry, cwd, serviceName, dbType, port, r.value);
    }
  }

  /** The entry a merge writes for a MySQL (or any non-PostgreSQL) database
      maps the chosen port to container port 3306. */
  lemma EntryPorts(serviceName: string, dbType: string, port: nat, context: string)
    requires dbType != "postgres"
    ensures ManageDocker.ServiceEntry(serviceName, dbType, port, context).fields["ports"]
            == Arr([Str(NatToString(port) + ":3306")])
  {
    var v := ManageDocker.ServiceEntry(serviceName, dbType, port, context);
    assert v.fields["ports"] == Arr([Str(NatToString(port) + ":" + NatToString(ManageDocker.DbPort(dbType)))]);
    NatToString3306();
    PortMapping(NatToString(port));
  }

  lemma PortMapping(p: string)
    ensures p + ":" + "3306" == p + ":3306"
  {
  }
}

=== FILE: scaffold_database.dfy ===
/** `scaffoldDatabase` of src/service/scaffold-database.service.ts as the
    folders it ensures and the templates it renders, in order. `rootDir` is
    what `getRootDir` returns. The branch condition compares `dbType` with
    `DBType.PostgreSQL`, an enum member whose value is not part of this model,
    so that value is the parameter `pgValue`. A `dbType` of `None` is the
    `undefined` the caller passes for an unmapped display name. */
module ScaffoldDatabase {
  import opened Wrappers
  import opened Text
  import opened Document
  import opened Plans

  /** A template-literal interpolation `${x}` of a string that may be
      undefined. */
  function Shown(x: Option<string>): (s: string)
    ensures x.Some? ==> s == x.value
  {
    if x.Some? then x.value else "undefined"
  }

  /** A data property that may be undefined. */
  function Field(x: Option<string>): (v: Value)
    ensures Truthy(v) ==> x.Some? && v == Str(x.value)
  {
    if x.Some? then Str(x.value) else Null
  }

  /** The database user and password a template receives. */
  datatype Credentials = Credentials(user: string, password: string)

  /** `<svc>User` / `<svc>Password`, as the PostgreSQL branch writes them. */
  function CamelCredentials(serviceName: string): Credentials {
    Credentials(serviceName + "User", serviceName + "Password")
  }

  /** `<svc>_user` / `<svc>_password`, as the other branch writes them. */
  function SnakeCredentials(serviceName: string): Credentials {
    Credentials(serviceName + "_user", serviceName + "_password")
  }

  function CredentialFields(c: Credentials): map<string, Value> {
    map["dbUsername" := Str(c.user), "dbPassword" := Str(c.password)]
  }

  const DockerfilePath: string := "/docker/Dockerfile"
  const EnvPath: string := "/docker/.env"
  const ConfigPath: string := "/sequelize/config.ts"
  const InitSqlPath: string := "/docker/init.sql"

  /** The template of `file` under `database/<dbType>/`. */
  function TemplatePath(dbType: Option<string>, file: string): string {
    "database/" + Shown(dbType) + file
  }

  /** The `init.sql` step of the `switch (dbType)`: the `mysql` case and the
      case labelled `pgCase`, each with its own credentials; any other value
      renders nothing. */
  function InitSql(pgCase: string, baseDir: string, serviceName: string, dbType: Option<string>,
                   dbName: string): (r: seq<Effect>)
    ensures |r| <= 1
  {
    if dbType == Some("mysql") || dbType == Some(pgCase) then
      var c := if dbType == Some("mysql") then SnakeCredentials(serviceName) else CamelCredentials(serviceName);
      [RenderFile(TemplatePath(dbType, "/docker/init.sql.ejs"), baseDir + InitSqlPath,
                  CredentialFields(c)["dbName" := Str(dbName)])]
    else []
  }

  /** The Dockerfile render: the PostgreSQL branch passes the credentials,
      the other branch only `dbName` and `port`. */
  function DockerfileRender(baseDir: string, pg: bool, serviceName: string, dbType: Option<string>,
                            dbName: string, port: nat): Effect
  {
    var common := map["dbName" := Str(dbName), "port" := Num(port)];
    RenderFile(TemplatePath(dbType, "/docker/Dockerfile." + Shown(dbType) + ".ejs"), baseDir + DockerfilePath,
               if pg then common + CredentialFields(CamelCredentials(serviceName)) else common)
  }

  /** The `.env` render, with the credentials of the branch taken. */
  function EnvRender(baseDir: string, pg: bool, serviceName: string, dbType: Option<string>,
                     dbName: string, port: nat): Effect
  {
    var c := if pg then CamelCredentials(serviceName) else SnakeCredentials(serviceName);
    RenderFile(TemplatePath(dbType, "/docker/env." + Shown(dbType) + ".ejs"), baseDir + EnvPath,
               map["dbName" := Str(dbName), "port" := Num(port)] + CredentialFields(c))
  }

  /** The `config.ts` render that follows either branch. */
  function ConfigRender(baseDir: string, dbType: Option<string>, dbName: string, port: nat): Effect {
    RenderFile(TemplatePath(dbType, "/config/config.ts.ejs"), baseDir + ConfigPath,
               map["dbType" := Field(dbType), "port" := Num(port), "dbName" := Str(dbName)])
  }

  /** `scaffoldDatabase` with the PostgreSQL case of the `init.sql` switch
      labelled `pgCase`. */
  function ScaffoldDatabaseWith(pgCase: string, rootDir: string, pgValue: string, serviceName: string,
                                dbType: Option<string>, dbName: string, port: nat): (effects: seq<Effect>)
    ensures 5 <= |effects| <= 6
    ensures |effects| == 6 <==> dbType == Some("mysql") || dbType == Some(pgCase)
  {
    var baseDir := JoinSegment(rootDir, serviceName);
    var pg := dbType == Some(pgValue);
    [EnsureDir(JoinSegment(baseDir, "docker")), EnsureDir(JoinSegment(baseDir, "sequelize")),
     DockerfileRender(baseDir, pg, serviceName, dbType, dbName, port),
     EnvRender(baseDir, pg, serviceName, dbType, dbName, port),
     ConfigRender(baseDir, dbType, dbName, port)]
    + InitSql(pgCase, baseDir, serviceName, dbType, dbName)
  }

  /** `scaffoldDatabase` as written: the switch's PostgreSQL case is labelled
      `'potgres'`. */
  function ScaffoldDatabase(rootDir: string, pgValue: string, serviceName: string,
                            dbType: Option<string>, dbName: string, port: nat): (effects: seq<Effect>)
    ensures 5 <= |effects| <= 6
    ensures |effects| == 6 <==> dbType == Some("mysql") || dbType == Some("potgres")
    ensures effects[0] == EnsureDir(JoinSegment(JoinSegment(rootDir, serviceName), "docker"))
    ensures effects[1] == EnsureDir(JoinSegment(JoinSegment(rootDir, serviceName), "sequelize"))
  {
    ScaffoldDatabaseWith("potgres", rootDir, pgValue, serviceName, dbType, dbName, port)
  }

  /** `scaffoldDatabase` with the case labelled `'postgres'`, the engine name
      the caller passes. */
  function ScaffoldDatabaseFixed(rootDir: string, pgValue: string, serviceName: string,
                                 dbType: Option<string>, dbName: string, port: nat): (effects: seq<Effect>)
    ensures 5 <= |effects| <= 6
  {
    ScaffoldDatabaseWith("postgres", rootDir, pgValue, serviceName, dbType, dbName, port)
  }

  /** A path lies under `dir` when it starts with `dir + "/"`. */
  predicate Under(dir: string, path: string) {
    dir + "/" <= path
  }

  /** The folder or file an effect touches. */
  function Target(e: Effect): string {
    if e.EnsureDir? then e.dir else e.output
  }

  lemma AppendUnder(dir: string, suffix: string)
    requires |suffix| > 0 && suffix[0] == '/'
    ensures Under(dir, dir + suffix)
  {
    assert (dir + suffix)[..|dir| + 1] == dir + "/";
  }

  /** The two folders are `docker` and `sequelize` under `<rootDir>/<svc>`. */
  lemma FoldersFirst(pgCase: string, rootDir: string, pgValue: string, serviceName: string,
                     dbType: Option<string>, dbName: string, port: nat)
    ensures var effects := ScaffoldDatabaseWith(pgCase, rootDir, pgValue, serviceName, dbType, dbName, port);
            var baseDir := JoinSegment(rootDir, serviceName);
            effects[0] == EnsureDir(baseDir + "/docker") && effects[1] == EnsureDir(baseDir + "/sequelize")
  {
    var baseDir := JoinSegment(rootDir, serviceName);
    assert TrimSlashes("docker") == "docker";
    assert TrimSlashes("sequelize") == "sequelize";
    assert baseDir + "/" + "docker" == baseDir + "/docker";
    assert baseDir + "/" + "sequelize" == baseDir + "/sequelize";
  }

  /** After the folders come only renders, and Dockerfile, `.env` and
      `config.ts` are rendered in every plan, in that order. */
  lemma RendersFollow(pgCase: string, rootDir: string, pgValue: string, serviceName: string,
                      dbType: Option<string>, dbName: string, port: nat)
    ensures var effects := ScaffoldDatabaseWith(pgCase, rootDir, pgValue, serviceName, dbType, dbName, port);
            var baseDir := JoinSegment(rootDir, serviceName);
            && (forall i | 2 <= i < |effects| :: effects[i].RenderFile?)
            && effects[2].output == baseDir + DockerfilePath
            && effects[3].output == baseDir + EnvPath
            && effects[4].output == baseDir + ConfigPath
            && (|effects| == 6 ==> effects[5].output == baseDir + InitSqlPath)
  {
  }

  /** Whatever the branch, everything the scaffold touches lies under
      `<rootDir>/<svc>`. */
  lemma EverythingUnderService(pgCase: string, rootDir: string, pgValue: string, serviceName: string,
                               dbType: Option<string>, dbName: string, port: nat)
    ensures var effects := ScaffoldDatabaseWith(pgCase, rootDir, pgValue, serviceName, dbType, dbName, port);
            forall i | 0 <= i < |effects| :: Under(JoinSegment(rootDir, serviceName), Target(effects[i]))
  {
    var effects := ScaffoldDatabaseWith(pgCase, rootDir, pgValue, serviceName, dbType, dbName, port);
    var baseDir := JoinSegment(rootDir, serviceName);
    FoldersFirst(pgCase, rootDir, pgValue, serviceName, dbType, dbName, port);
    RendersFollow(pgCase, rootDir, pgValue, serviceName, dbType, dbName, port);
    AppendUnder(baseDir, "/docker");
    AppendUnder(baseDir, "/sequelize");
    AppendUnder(baseDir, DockerfilePath);
    AppendUnder(baseDir, EnvPath);
    AppendUnder(baseDir, ConfigPath);
    AppendUnder(baseDir, InitSqlPath);
  }

  /** `init.sql` is rendered exactly for `mysql` and for the value the
      switch's second case names. */
  lemma InitSqlExactly(pgCase: string, rootDir: string, pgValue: string, serviceName: string,
                       dbType: Option<string>, dbName: string, port: nat)
    ensures var effects := ScaffoldDatabaseWith(pgCase, rootDir, pgValue, serviceName, dbType, dbName, port);
            var out := JoinSegment(rootDir, serviceName) + InitSqlPath;
            (exists i | 0 <= i < |effects| :: effects[i].RenderFile? && effects[i].output == out)
            <==> dbType == Some("mysql") || dbType == Some(pgCase)
  {
    var effects := ScaffoldDatabaseWith(pgCase, rootDir, pgValue, serviceName, dbType, dbName, port);
    var baseDir := JoinSegment(rootDir, serviceName);
    var out := baseDir + InitSqlPath;
    assert |DockerfilePath| != |InitSqlPath| && |EnvPath| != |InitSqlPath| && |ConfigPath| != |InitSqlPath|;
    if dbType == Some("mysql") || dbType == Some(pgCase) {
      assert effects[5].RenderFile? && effects[5].output == out;
    } else {
      forall i | 0 <= i < |effects| && effects[i].RenderFile? ensures effects[i].output != out {
        assert 2 <= i <= 4;
      }
    }
  }

  /** As written, a database the caller maps to `postgres` gets no
      `init.sql`: the switch case is spelled `'potgres'`. */
  lemma PostgresGetsNoInitSql(rootDir: string, pgValue: string, serviceName: string, dbName: string, port: nat)
    ensures var effects := ScaffoldDatabase(rootDir, pgValue, serviceName, Some("postgres"), dbName, port);
            |effects| == 5
            && forall i | 0 <= i < |effects| && effects[i].RenderFile? ::
                 effects[i].output != JoinSegment(rootDir, serviceName) + InitSqlPath
  {
    assert "postgres" != "mysql" && "postgres" != "potgres";
    InitSqlExactly("potgres", rootDir, pgValue, serviceName, Some("postgres"), dbName, port);
  }

  /** With the case spelled `'postgres'`, both engines that have an init
      script get one, from their own template, with the credentials their
      `.env` uses whenever the Dockerfile branch agrees with the engine. */
  lemma FixedInitSqlForBothEngines(rootDir: string, pgValue: string, serviceName: string,
                                   engine: string, dbName: string, port: nat)
    requires engine == "mysql" || engine == "postgres"
    requires pgValue == engine <==> engine == "postgres"
    ensures var effects := ScaffoldDatabaseFixed(rootDir, pgValue, serviceName, Some(engine), dbName, port);
            var baseDir := JoinSegment(rootDir, serviceName);
            && |effects| == 6
            && effects[5] == RenderFile("database/" + engine + "/docker/init.sql.ejs", baseDir + InitSqlPath,
                                        effects[5].data)
            && effects[5].data["dbName"] == Str(dbName)
            && effects[5].data["dbUsername"] == effects[3].data["dbUsername"]
            && effects[5].data["dbPassword"] == effects[3].data["dbPassword"]
  {
    assert "mysql" != "postgres";
    var baseDir := JoinSegment(rootDir, serviceName);
    var effects := ScaffoldDatabaseFixed(rootDir, pgValue, serviceName, Some(engine), dbName, port);
    var c := if engine == "mysql" then SnakeCredentials(serviceName) else CamelCredentials(serviceName);
    assert effects[3] == EnvRender(baseDir, engine == "postgres", serviceName, Some(engine), dbName, port);
    assert effects[3].data == map["dbName" := Str(dbName), "port" := Num(port)] + CredentialFields(c);
    assert effects[5] == InitSql("postgres", baseDir, serviceName, Some(engine), dbName)[0];
    assert effects[5].data == CredentialFields(c)["dbName" := Str(dbName)];
  }

  /** The PostgreSQL branch puts the `<svc>User` credentials in both
      Dockerfile and `.env`; the other branch gives the Dockerfile only
      `dbName` and `port` and the `.env` the `<svc>_user` credentials. Every
      file that takes a port gets the same one. */
  lemma BranchData(pgCase: string, rootDir: string, pgValue: string, serviceName: string,
                   dbType: Option<string>, dbName: string, port: nat)
    ensures var effects := ScaffoldDatabaseWith(pgCase, rootDir, pgValue, serviceName, dbType, dbName, port);
            var c := if dbType == Some(pgValue) then CamelCredentials(serviceName) else SnakeCredentials(serviceName);
            && effects[3].data.Keys == {"dbName", "port", "dbUsername", "dbPassword"}
            && effects[3].data["dbUsername"] == Str(c.user)
            && effects[3].data["dbPassword"] == Str(c.password)
            && (dbType == Some(pgValue) ==> effects[2].data == effects[3].data)
            && (dbType != Some(pgValue) ==> effects[2].data.Keys == {"dbName", "port"})
            && effects[2].data["port"] == effects[3].data["port"] == effects[4].data["port"] == Num(port)
            && effects[2].data["dbName"] == effects[3].data["dbName"] == effects[4].data["dbName"] == Str(dbName)
  {
    var baseDir := JoinSegment(rootDir, serviceName);
    var pg := dbType == Some(pgValue);
    var effects := ScaffoldDatabaseWith(pgCase, rootDir, pgValue, serviceName, dbType, dbName, port);
    assert effects[2] == DockerfileRender(baseDir, pg, serviceName, dbType, dbName, port);
    assert effects[3] == EnvRender(baseDir, pg, serviceName, dbType, dbName, port);
    assert effects[4] == ConfigRender(baseDir, dbType, dbName, port);
    RenderData(baseDir, pg, serviceName, dbType, dbName, port);
  }

  lemma RenderData(baseDir: string, pg: bool, serviceName: string, dbType: Option<string>, dbName: string,
                   port: nat)
    ensures var docker := DockerfileRender(baseDir, pg, serviceName, dbType, dbName, port).data;
            var env := EnvRender(baseDir, pg, serviceName, dbType, dbName, port).data;
            var config := ConfigRender(baseDir, dbType, dbName, port).data;
            var c := if pg then CamelCredentials(serviceName) else SnakeCredentials(serviceName);
            && env.Keys == {"dbName", "port", "dbUsername", "dbPassword"}
            && env["dbUsername"] == Str(c.user) && env["dbPassword"] == Str(c.password)
            && (pg ==> docker == env)
            && (!pg ==> docker.Keys == {"dbName", "port"})
            && docker["port"] == env["port"] == config["port"] == Num(port)
            && docker["dbName"] == env["dbName"] == config["dbName"] == Str(dbName)
  {
  }

  /** The `config.ts` and `init.sql` renders do not depend on the branch:
      whatever `DBType.PostgreSQL` is, `config.ts` receives `{dbType, port,
      dbName}` from the engine's own `config.ts.ejs`. */
  lemma ConfigIndependentOfBranch(pgCase: string, rootDir: string, pgA: string, pgB: string,
                                  serviceName: string, dbType: Option<string>, dbName: string, port: nat)
    ensures var a := ScaffoldDatabaseWith(pgCase, rootDir, pgA, serviceName, dbType, dbName, port);
            var b := ScaffoldDatabaseWith(pgCase, rootDir, pgB, serviceName, dbType, dbName, port);
            && a[4] == b[4]
            && a[4].template == "database/" + Shown(dbType) + "/config/config.ts.ejs"
            && a[4].data.Keys == {"dbType", "port", "dbName"}
            && a[4].data["dbType"] == Field(dbType)
            && a[5..] == b[5..]
  {
  }
}

=== FILE: seqs.dfy ===
/** Order-preserving selection from a sequence: `Array.prototype.filter`. */
module Seqs {

  /** `a` is obtained from `b` by deleting elements, keeping the order of the rest. */
  predicate IsSubsequence<T(==)>(a: seq<T>, b: seq<T>)
    decreases |b|
  {
    if a == [] then true
    else if b == [] then false
    else if a[0] == b[0] then IsSubsequence(a[1..], b[1..])
    else IsSubsequence(a, b[1..])
  }

  /** `xs.filter(keep)`: exactly the elements that satisfy `keep`, in their order. */
  function Filter<T(==)>(xs: seq<T>, keep: T -> bool): (r: seq<T>)
    ensures |r| <= |xs|
    ensures forall k | 0 <= k < |r| :: keep(r[k])
    ensures forall k | 0 <= k < |xs| && keep(xs[k]) :: xs[k] in r
    ensures forall x | x in r :: x in xs
    ensures IsSubsequence(r, xs)
  {
    if xs == [] then []
    else
      var rest := Filter(xs[1..], keep);
      if keep(xs[0]) then
        assert ([xs[0]] + rest)[1..] == rest;
        [xs[0]] + rest
      else
        assert rest == [] || rest[0] in xs[1..];
        rest
  }

  /** Filtering keeps every occurrence of a kept value and none of a dropped one. */
  lemma {:induction false} FilterCounts<T>(xs: seq<T>, keep: T -> bool)
    ensures forall x :: multiset(Filter(xs, keep))[x] == if keep(x) then multiset(xs)[x] else 0
  {
    if xs != [] {
      FilterCounts(xs[1..], keep);
      assert xs == [xs[0]] + xs[1..];
      assert multiset(xs) == multiset{xs[0]} + multiset(xs[1..]);
    }
  }

  /** Filtering with a predicate that every element meets keeps the sequence whole. */
  lemma {:induction false} FilterAll<T>(xs: seq<T>, keep: T -> bool)
    requires forall k | 0 <= k < |xs| :: keep(xs[k])
    ensures Filter(xs, keep) == xs
  {
    if xs != [] {
      FilterAll(xs[1..], keep);
      assert [xs[0]] + xs[1..] == xs;
    }
  }

  /** Filtering distributes over concatenation. */
  lemma {:induction false} FilterConcat<T>(a: seq<T>, b: seq<T>, keep: T -> bool)
    ensures Filter(a + b, keep) == Filter(a, keep) + Filter(b, keep)
  {
    if a != [] {
      assert (a + b)[0] == a[0];
      assert (a + b)[1..] == a[1..] + b;
      FilterConcat(a[1..], b, keep);
      if keep(a[0]) {
        assert Filter(a + b, keep) == [a[0]] + Filter(a[1..] + b, keep);
      }
    } else {
      assert a + b == b;
    }
  }

  /** Filtering with a predicate that no element meets leaves nothing. */
  lemma {:induction false} FilterNone<T>(xs: seq<T>, keep: T -> bool)
    requires forall k | 0 <= k < |xs| :: !keep(xs[k])
    ensures Filter(xs, keep) == []
  {
    if xs != [] {
      FilterNone(xs[1..], keep);
    }
  }

  /** Filtering twice with the same predicate is filtering once. */
  lemma FilterIdempotent<T>(xs: seq<T>, keep: T -> bool)
    ensures Filter(Filter(xs, keep), keep) == Filter(xs, keep)
  {
    FilterAll(Filter(xs, keep), keep);
  }
}

=== FILE: sequelize_files.dfy ===
/** The Sequelize scaffolding and file generation, in four variants that name
    their files differently:
    - `scaffoldSequelizeTemplate` and `generateSequelizeFiles` of
      src/operations/sequelize-files.operation.ts, whose directories come from
      the registry's `getConfigPaths`;
    - `generateSequelizeFiles` of src/helper/generate-sequelize-files.helper.ts
      and `scaffoldSequelizeFiles` of
      src/service/scaffold-sequelize-files.service.ts, whose directories come
      from the blueprint configuration;
    - `generateFiles` of src/helper/generate-files.helper.ts, the same with
      templates named without the `sequelize/` prefix.
    Every file type the user picked is a request carrying the prompt answers
    for it and the `getTimestamp()` value at the time its branch ran. */
module SequelizeFiles {
  import opened Wrappers
  import opened Text
  import opened Document
  import opened Seqs
  import opened StringsUtils
  import opened Plans
  import Prompt
  import Registry
  import InitCli

  /** The three file types of the `switch`. */
  datatype FileKind = Migration | Seeder | Model

  /** The `case` a picked label selects; `None` falls to `default`. */
  function KindOf(fileType: string): Option<FileKind> {
    if fileType == "Migrations" then Some(Migration)
    else if fileType == "Seeders" then Some(Seeder)
    else if fileType == "Models" then Some(Model)
    else None
  }

  /** One picked file type: the name answers in the order they were typed
      (the prompt asks again while the trimmed answer is empty), the table
      name answer, and the timestamp of the moment the branch ran. */
  datatype FileRequest = FileRequest(fileType: string, nameAttempts: seq<string>, tableAnswer: string,
                                     stamp: string)

  /** What one iteration of the `for ... switch` does. */
  datatype Step = Emit(effect: Effect) | Skip | Halt

  /** The `for (const type of fileTypes)` loop over the requests. */
  function RunRequests(reqs: seq<FileRequest>, step: FileRequest -> Step): (p: Plan)
    ensures |p.effects| <= |reqs|
    ensures p.complete <==> forall k | 0 <= k < |reqs| :: !step(reqs[k]).Halt?
    ensures (forall k | 0 <= k < |reqs| :: step(reqs[k]).Skip?) ==> p == Plan([], true)
  {
    if reqs == [] then Plan([], true)
    else match step(reqs[0])
      case Halt => Plan([], false)
      case Skip => RunRequests(reqs[1..], step)
      case Emit(e) =>
        var rest := RunRequests(reqs[1..], step);
        Plan([e] + rest.effects, rest.complete)
  }

  /** When every request emits, the loop completes with one effect per
      request, in request order. */
  lemma {:induction false} RunEmitsInOrder(reqs: seq<FileRequest>, step: FileRequest -> Step)
    requires forall k | 0 <= k < |reqs| :: step(reqs[k]).Emit?
    ensures var p := RunRequests(reqs, step);
            p.complete && |p.effects| == |reqs|
            && forall k | 0 <= k < |reqs| :: p.effects[k] == step(reqs[k]).effect
  {
    if reqs != [] {
      RunEmitsInOrder(reqs[1..], step);
      var rest := RunRequests(reqs[1..], step);
      forall k | 0 <= k < |reqs|
        ensures RunRequests(reqs, step).effects[k] == step(reqs[k]).effect
      {
        if k > 0 { assert reqs[k] == reqs[1..][k - 1]; }
      }
    }
  }

  /** Requests that are skipped leave no trace: the loop does what it does
      on the requests that remain after dropping them. */
  lemma {:induction false} SkippedAreIgnored(reqs: seq<FileRequest>, step: FileRequest -> Step)
    ensures RunRequests(reqs, step) == RunRequests(Filter(reqs, r => !step(r).Skip?), step)
  {
    if reqs != [] {
      SkippedAreIgnored(reqs[1..], step);
      assert reqs == [reqs[0]] + reqs[1..];
      FilterConcat([reqs[0]], reqs[1..], r => !step(r).Skip?);
      if !step(reqs[0]).Skip? {
        var f := Filter(reqs, r => !step(r).Skip?);
        assert f == [reqs[0]] + Filter(reqs[1..], r => !step(r).Skip?);
        assert f[1..] == Filter(reqs[1..], r => !step(r).Skip?);
      }
    }
  }

  // ---------------------------------------------------------------------------
  // File names

  /** `${timestamp}-${name.toLocaleLowerCase()}.ts`. */
  function MigrationFileName(stamp: string, name: string): string {
    stamp + "-" + ToLower(name) + ".ts"
  }

  /** `${timestamp}-${name.toLocaleLowerCase()}.seed.ts`. */
  function StampedSeedFileName(stamp: string, name: string): string {
    stamp + "-" + ToLower(name) + ".seed.ts"
  }

  /** `${name.toLocaleLowerCase()}.model.ts`. */
  function LowerModelFileName(name: string): string {
    ToLower(name) + ".model.ts"
  }

  /** `${name}.seed.ts`. */
  function RawSeedFileName(name: string): string {
    name + ".seed.ts"
  }

  /** `${name}.model.ts`. */
  function RawModelFileName(name: string): string {
    name + ".model.ts"
  }

  /** The table name prompt defaults to the entered name. */
  function TableName(tableAnswer: string, name: string): Value {
    Prompt.InputAnswer(tableAnswer, Str(name))
  }

  /** The template each file type is rendered from. */
  datatype TemplateNames = TemplateNames(migration: string, seed: string, model: string)

  const SequelizeTemplates: TemplateNames :=
    TemplateNames("sequelize/migrations/migration.ejs", "sequelize/seeders/seed.ejs", "/sequelize/models/model.ejs")

  /** The names src/helper/generate-files.helper.ts uses. */
  const PlainTemplates: TemplateNames :=
    TemplateNames("migrations/migration.ejs", "seeders/seed.ejs", "models/model.ejs")

  /** A digit-only timestamp keeps a file name free of slashes at its ends,
      so `path.join` leaves it whole. */
  lemma StampedNamesJoinWhole(stamp: string, name: string)
    requires AllDigits(stamp)
    ensures TrimSlashes(MigrationFileName(stamp, name)) == MigrationFileName(stamp, name)
    ensures TrimSlashes(StampedSeedFileName(stamp, name)) == StampedSeedFileName(stamp, name)
  {
    var m := MigrationFileName(stamp, name);
    var sd := StampedSeedFileName(stamp, name);
    assert m[|m| - 1] == 's' && sd[|sd| - 1] == 's';
    if |stamp| == 0 {
      assert m[0] == '-' && sd[0] == '-';
    } else {
      assert m[0] == stamp[0] && sd[0] == stamp[0] && IsDigit(stamp[0]);
    }
  }

  /** A name that does not start with `/` gives file names that join whole. */
  lemma NamedFilesJoinWhole(name: string)
    requires NoLeadingSlash(name)
    ensures TrimSlashes(LowerModelFileName(name)) == LowerModelFileName(name)
    ensures TrimSlashes(RawSeedFileName(name)) == RawSeedFileName(name)
    ensures TrimSlashes(RawModelFileName(name)) == RawModelFileName(name)
  {
    var l := LowerModelFileName(name);
    var s := RawSeedFileName(name);
    var m := RawModelFileName(name);
    assert l[|l| - 1] == 's' && s[|s| - 1] == 's' && m[|m| - 1] == 's';
    if |name| == 0 {
      assert l[0] == '.' && s[0] == '.' && m[0] == '.';
    } else {
      assert l[0] == ToLowerChar(name[0]) && s[0] == name[0] && m[0] == name[0];
    }
  }

  // ---------------------------------------------------------------------------
  // src/operations/sequelize-files.operation.ts

  /** A directory from `getConfigPaths`; `path.join` and `fs.ensureDir` throw on
      anything but a string. */
  function DirOf(paths: map<string, Value>, key: string): Option<string> {
    if key in paths && paths[key].Str? then Some(paths[key].s) else None
  }

  /** The three directories of the operations variant are configured. */
  predicate HasDirs(paths: map<string, Value>) {
    DirOf(paths, "migrationsDir").Some? && DirOf(paths, "seedersDir").Some?
    && DirOf(paths, "modelsDir").Some?
  }

  /** The file one branch of `generateSequelizeFiles` renders, with the call's
      one timestamp; `None` when the directory is not a string. */
  function OperationFile(paths: map<string, Value>, stamp: string, kind: FileKind, name: string,
                         table: Value): Option<Effect>
  {
    var t := SequelizeTemplates;
    match kind
    case Migration =>
      var dir := DirOf(paths, "migrationsDir");
      if dir.None? then None
      else Some(RenderFile(t.migration, JoinSegment(dir.value, MigrationFileName(stamp, name)),
                           map["migrationName" := Str(name)]))
    case Seeder =>
      var dir := DirOf(paths, "seedersDir");
      if dir.None? then None
      else Some(RenderFile(t.seed, JoinSegment(dir.value, StampedSeedFileName(stamp, name)),
                           map["seederName" := Str(name), "tableName" := table]))
    case Model =>
      var dir := DirOf(paths, "modelsDir");
      if dir.None? then None
      else Some(RenderFile(t.model, JoinSegment(dir.value, LowerModelFileName(name)),
                           map["modelName" := Str(name), "tableName" := table,
                               "modelClassName" := Str(CapitalizeString(name))]))
  }

  /** One iteration of `generateSequelizeFiles`, given the `case` taken and
      the accepted name. */
  function OperationChoice(paths: map<string, Value>, stamp: string, kind: Option<FileKind>,
                           name: Option<string>, tableAnswer: string): Step
  {
    if kind.None? then Skip
    else if name.None? then Halt
    else match OperationFile(paths, stamp, kind.value, name.value, TableName(tableAnswer, name.value))
      case None => Halt
      case Some(e) => Emit(e)
  }

  function OperationStep(paths: map<string, Value>, stamp: string, req: FileRequest): Step {
    OperationChoice(paths, stamp, KindOf(req.fileType), Prompt.AcceptedName(req.nameAttempts), req.tableAnswer)
  }

  /** `generateSequelizeFiles(serviceName, fileTypes)` of the operations file;
      `paths` is what `getConfigPaths(serviceName)` returned and `stamp` the
      one `getTimestamp()` of the call. */
  function GenerateSequelizeFiles(paths: map<string, Value>, stamp: string,
                                  reqs: seq<FileRequest>): (p: Plan)
    ensures |p.effects| <= |reqs|
    ensures p.complete ==>
              forall k | 0 <= k < |reqs| && KindOf(reqs[k].fileType).Some? ::
                Prompt.AcceptedName(reqs[k].nameAttempts).Some?
    ensures (forall k | 0 <= k < |reqs| :: KindOf(reqs[k].fileType).None?) ==> p == Plan([], true)
  {
    RunRequests(reqs, req => OperationStep(paths, stamp, req))
  }

  /** Migration and seeder files carry the call's timestamp and the
      lower-cased name, a model file is the lower-cased name while its class
      name capitalizes the name as entered, and each sits in its configured
      directory. */
  lemma OperationNaming(paths: map<string, Value>, stamp: string, kind: FileKind, name: string,
                        table: Value)
    requires HasDirs(paths) && AllDigits(stamp)
    ensures var e := OperationFile(paths, stamp, kind, name, table);
            && e.Some? && e.value.RenderFile?
            && (kind == Migration ==>
                  e.value.output == DirOf(paths, "migrationsDir").value + "/" + (stamp + "-" + ToLower(name) + ".ts"))
            && (kind == Seeder ==>
                  e.value.output == DirOf(paths, "seedersDir").value + "/" + (stamp + "-" + ToLower(name) + ".seed.ts")
                  && e.value.data["tableName"] == table)
            && (kind == Model ==>
                  (NoLeadingSlash(name) ==>
                     e.value.output == DirOf(paths, "modelsDir").value + "/" + (ToLower(name) + ".model.ts"))
                  && e.value.data["modelClassName"] == Str(CapitalizeString(name)))
  {
    StampedNamesJoinWhole(stamp, name);
    if NoLeadingSlash(name) {
      NamedFilesJoinWhole(name);
    }
  }

  /** A known type with an answered name emits its file. */
  lemma OperationChoiceEmits(paths: map<string, Value>, stamp: string, kind: FileKind, name: string,
                             tableAnswer: string)
    requires HasDirs(paths)
    ensures var e := OperationFile(paths, stamp, kind, name, TableName(tableAnswer, name));
            e.Some? && OperationChoice(paths, stamp, Some(kind), Some(name), tableAnswer) == Emit(e.value)
  {
  }

  /** The operations variant uses one timestamp for the whole call: with the
      directories set and every name answered, the call completes with one file
      per request, and every migration file of the call sits in the migrations
      directory and starts with that timestamp. */
  lemma OneTimestampPerCall(paths: map<string, Value>, stamp: string, reqs: seq<FileRequest>)
    requires HasDirs(paths) && AllDigits(stamp)
    requires forall k | 0 <= k < |reqs| :: KindOf(reqs[k].fileType).Some? && Prompt.AcceptedName(reqs[k].nameAttempts).Some?
    ensures var p := GenerateSequelizeFiles(paths, stamp, reqs);
            p.complete && |p.effects| == |reqs|
            && forall k | 0 <= k < |reqs| && KindOf(reqs[k].fileType) == Some(Migration) ::
                 p.effects[k].RenderFile?
                 && StartsWith(p.effects[k].output, DirOf(paths, "migrationsDir").value + "/" + (stamp + "-"))
  {
    var step := req => OperationStep(paths, stamp, req);
    var pre := DirOf(paths, "migrationsDir").value + "/" + (stamp + "-");
    forall k | 0 <= k < |reqs|
      ensures step(reqs[k]).Emit? && step(reqs[k]).effect.RenderFile?
      ensures KindOf(reqs[k].fileType) == Some(Migration) ==> StartsWith(step(reqs[k]).effect.output, pre)
    {
      MigrationCarriesStamp(paths, stamp, KindOf(reqs[k].fileType).value, Prompt.AcceptedName(reqs[k].nameAttempts).value,
                            reqs[k].tableAnswer);
    }
    RunEmitsInOrder(reqs, step);
  }

  lemma MigrationCarriesStamp(paths: map<string, Value>, stamp: string, kind: FileKind, name: string,
                              tableAnswer: string)
    requires HasDirs(paths) && AllDigits(stamp)
    ensures var s := OperationChoice(paths, stamp, Some(kind), Some(name), tableAnswer);
            && s.Emit? && s.effect.RenderFile?
            && (kind == Migration ==>
                  StartsWith(s.effect.output, DirOf(paths, "migrationsDir").value + "/" + (stamp + "-")))
  {
    OperationChoiceEmits(paths, stamp, kind, name, tableAnswer);
    OperationNaming(paths, stamp, kind, name, TableName(tableAnswer, name));
    PrefixStartsWith(DirOf(paths, "migrationsDir").value + "/", stamp + "-", ToLower(name) + ".ts");
  }

  lemma PrefixStartsWith(a: string, b: string, c: string)
    ensures a + (b + c) == a + b + c && StartsWith(a + b + c, a + b)
  {
    assert (a + b + c)[..|a + b|] == a + b;
  }

  /** Unknown file types produce nothing: the call does what it does on the
      known ones alone. */
  lemma OperationIgnoresUnknown(paths: map<string, Value>, stamp: string, reqs: seq<FileRequest>)
    ensures GenerateSequelizeFiles(paths, stamp, reqs)
            == GenerateSequelizeFiles(paths, stamp, Filter(reqs, (r: FileRequest) => KindOf(r.fileType).Some?))
  {
    var step := req => OperationStep(paths, stamp, req);
    SkippedAreIgnored(reqs, step);
    FilterSame(reqs, r => !step(r).Skip?, (r: FileRequest) => KindOf(r.fileType).Some?);
  }

  lemma {:induction false} FilterSame<T>(xs: seq<T>, f: T -> bool, g: T -> bool)
    requires forall x :: f(x) == g(x)
    ensures Filter(xs, f) == Filter(xs, g)
  {
    if xs != [] {
      FilterSame(xs[1..], f, g);
    }
  }

  /** `scaffoldSequelizeTemplate(serviceName)`: the three configured
      directories, then `config.ts` and `.sequelizerc` under
      `<rootDir>/<service>/sequelize`. */
  function ScaffoldSequelizeTemplate(paths: map<string, Value>, serviceName: string): (p: Plan)
    ensures p.complete <==> DirOf(paths, "rootDir").Some? && DirOf(paths, "migrationsDir").Some?
                            && DirOf(paths, "modelsDir").Some? && DirOf(paths, "seedersDir").Some?
    ensures p.complete ==> |p.effects| == 5
    ensures forall k | 0 <= k < |p.effects| && k < 3 :: p.effects[k].EnsureDir?
  {
    var root := DirOf(paths, "rootDir");
    if root.None? then Plan([], false)
    else
      var baseDir := JoinSegment(JoinSegment(root.value, serviceName), "sequelize");
      var m := DirOf(paths, "migrationsDir");
      var mo := DirOf(paths, "modelsDir");
      var s := DirOf(paths, "seedersDir");
      if m.None? then Plan([], false)
      else if mo.None? then Plan([EnsureDir(m.value)], false)
      else if s.None? then Plan([EnsureDir(m.value), EnsureDir(mo.value)], false)
      else Plan([EnsureDir(m.value), EnsureDir(mo.value), EnsureDir(s.value),
                 RenderFile("sequelize/config/config.ts.ejs", baseDir + "/config.ts", map[]),
                 RenderFile("/sequelize/sequelizerc.ejs", JoinSegment(baseDir, ".sequelizerc"), map[])], true)
  }

  /** For a registered database the scaffold ensures exactly its three
      registry directories (under the lower-cased ORM folder) and renders the
      two files under the `sequelize` folder. */
  lemma TemplateScaffoldForEntry(rootDir: string, serviceName: string, orm: string, templatesRoot: string)
    requires NoEndSlash(serviceName)
    ensures var paths := map["rootDir" := Str(rootDir)]
                         + Registry.DatabaseEntry(serviceName, orm, rootDir, templatesRoot).fields;
            var p := ScaffoldSequelizeTemplate(paths, serviceName);
            && p.complete
            && p.effects == [EnsureDir(Registry.EntryDir(rootDir, serviceName, orm, "migrations")),
                             EnsureDir(Registry.EntryDir(rootDir, serviceName, orm, "models")),
                             EnsureDir(Registry.EntryDir(rootDir, serviceName, orm, "seeders")),
                             RenderFile("sequelize/config/config.ts.ejs",
                                        rootDir + "/" + serviceName + "/sequelize" + "/config.ts", map[]),
                             RenderFile("/sequelize/sequelizerc.ejs",
                                        rootDir + "/" + serviceName + "/sequelize" + "/.sequelizerc", map[])]
  {
    var paths := map["rootDir" := Str(rootDir)]
                 + Registry.DatabaseEntry(serviceName, orm, rootDir, templatesRoot).fields;
    EntryDirs(rootDir, serviceName, orm, templatesRoot);
    TemplateScaffoldPlan(paths, serviceName, rootDir);
  }

  /** The directories the registry entry provides, as `getConfigPaths` merges
      them with the root. */
  lemma EntryDirs(rootDir: string, serviceName: string, orm: string, templatesRoot: string)
    ensures var paths := map["rootDir" := Str(rootDir)]
                         + Registry.DatabaseEntry(serviceName, orm, rootDir, templatesRoot).fields;
            && DirOf(paths, "rootDir") == Some(rootDir)
            && DirOf(paths, "migrationsDir") == Some(Registry.EntryDir(rootDir, serviceName, orm, "migrations"))
            && DirOf(paths, "modelsDir") == Some(Registry.EntryDir(rootDir, serviceName, orm, "models"))
            && DirOf(paths, "seedersDir") == Some(Registry.EntryDir(rootDir, serviceName, orm, "seeders"))
  {
    var e := Registry.DatabaseEntry(serviceName, orm, rootDir, templatesRoot);
    assert "rootDir" !in e.fields by {
      assert "rootDir" != "orm" && "rootDir"[0] != "migrationsDir"[0] && "rootDir"[0] != "seedersDir"[0]
             && "rootDir"[0] != "templatesDir"[0] && "rootDir"[0] != "modelsDir"[0];
    }
  }

  /** With a root and all three directories set, the scaffold completes. */
  lemma TemplateScaffoldPlan(paths: map<string, Value>, serviceName: string, rootDir: string)
    requires HasDirs(paths) && DirOf(paths, "rootDir") == Some(rootDir) && NoEndSlash(serviceName)
    ensures var p := ScaffoldSequelizeTemplate(paths, serviceName);
            && p.complete
            && p.effects == [EnsureDir(DirOf(paths, "migrationsDir").value), EnsureDir(DirOf(paths, "modelsDir").value),
                             EnsureDir(DirOf(paths, "seedersDir").value),
                             RenderFile("sequelize/config/config.ts.ejs",
                                        rootDir + "/" + serviceName + "/sequelize" + "/config.ts", map[]),
                             RenderFile("/sequelize/sequelizerc.ejs",
                                        rootDir + "/" + serviceName + "/sequelize" + "/.sequelizerc", map[])]
  {
    assert TrimSlashes(".sequelizerc") == ".sequelizerc" && TrimSlashes("sequelize") == "sequelize";
    assert TrimSlashes(serviceName) == serviceName;
    var base := JoinSegment(JoinSegment(rootDir, serviceName), "sequelize");
    assert base == rootDir + "/" + serviceName + "/sequelize";
    var p := ScaffoldSequelizeTemplate(paths, serviceName);
    assert p.effects[3].output == rootDir + "/" + serviceName + "/sequelize" + "/config.ts";
    assert p.effects[4].output == rootDir + "/" + serviceName + "/sequelize" + "/.sequelizerc";
  }


  // ---------------------------------------------------------------------------
  // The blueprint-configured variants

  /** The blueprint configuration's three directories. */
  datatype BlueprintDirs = BlueprintDirs(migrationsDir: string, modelsDir: string, seedersDir: string)

  /** The directories src/cmd/init.ts writes. */
  const DefaultDirs: BlueprintDirs :=
    BlueprintDirs(SequelizeFolder + "migrations", SequelizeFolder + "models", SequelizeFolder + "seeders")

  const SequelizeFolder: string := "/sequelize/"

  /** `path.join(rootDir, serviceName, dir, fileName)`. */
  function ServicePath(rootDir: string, serviceName: string, dir: string, fileName: string): string {
    JoinSegment(JoinSegment(JoinSegment(rootDir, serviceName), dir), fileName)
  }

  /** The file one branch renders in the loop shared, statement for statement,
      by src/helper/generate-sequelize-files.helper.ts and
      src/service/scaffold-sequelize-files.service.ts, and with other template
      names by src/helper/generate-files.helper.ts: a migration takes the
      timestamp of its own branch, and seeders and models keep the name as
      entered. */
  function BlueprintFile(rootDir: string, cfg: BlueprintDirs, serviceName: string, t: TemplateNames,
                         kind: FileKind, stamp: string, name: string, table: Value): Effect
  {
    match kind
    case Migration =>
      RenderFile(t.migration, ServicePath(rootDir, serviceName, cfg.migrationsDir, MigrationFileName(stamp, name)),
                 map["migrationName" := Str(name)])
    case Seeder =>
      RenderFile(t.seed, ServicePath(rootDir, serviceName, cfg.seedersDir, RawSeedFileName(name)),
                 map["seederName" := Str(name), "tableName" := table])
    case Model =>
      RenderFile(t.model, ServicePath(rootDir, serviceName, cfg.modelsDir, RawModelFileName(name)),
                 map["modelName" := Str(name), "tableName" := table])
  }

  function BlueprintStep(rootDir: string, cfg: BlueprintDirs, serviceName: string, t: TemplateNames,
                         req: FileRequest): Step
  {
    var kind := KindOf(req.fileType);
    var name := Prompt.AcceptedName(req.nameAttempts);
    if kind.None? then Skip
    else if name.None? then Halt
    else Emit(BlueprintFile(rootDir, cfg, serviceName, t, kind.value, req.stamp, name.value,
                            TableName(req.tableAnswer, name.value)))
  }

  /** `generateSequelizeFiles` of src/helper/generate-sequelize-files.helper.ts. */
  function GenerateBlueprintFiles(rootDir: string, cfg: BlueprintDirs, serviceName: string,
                                  reqs: seq<FileRequest>): (p: Plan)
    ensures |p.effects| <= |reqs|
    ensures p.complete <==>
              forall k | 0 <= k < |reqs| && KindOf(reqs[k].fileType).Some? ::
                Prompt.AcceptedName(reqs[k].nameAttempts).Some?
    ensures (forall k | 0 <= k < |reqs| :: KindOf(reqs[k].fileType).None?) ==> p == Plan([], true)
  {
    RunRequests(reqs, req => BlueprintStep(rootDir, cfg, serviceName, SequelizeTemplates, req))
  }

  /** `generateFiles` of src/helper/generate-files.helper.ts. */
  function GenerateFiles(rootDir: string, cfg: BlueprintDirs, serviceName: string,
                         reqs: seq<FileRequest>): (p: Plan)
    ensures |p.effects| <= |reqs|
    ensures p.complete <==>
              forall k | 0 <= k < |reqs| && KindOf(reqs[k].fileType).Some? ::
                Prompt.AcceptedName(reqs[k].nameAttempts).Some?
    ensures (forall k | 0 <= k < |reqs| :: KindOf(reqs[k].fileType).None?) ==> p == Plan([], true)
  {
    RunRequests(reqs, req => BlueprintStep(rootDir, cfg, serviceName, PlainTemplates, req))
  }

  /** `scaffoldSequelizeFiles(serviceName, fileTypes)`: the three fixed
      sub-folders, `.sequelizerc`, then the files. */
  function ScaffoldSequelizeFiles(rootDir: string, cfg: BlueprintDirs, serviceName: string,
                                  reqs: seq<FileRequest>): (p: Plan)
    ensures 4 <= |p.effects| <= 4 + |reqs|
    ensures p.complete <==>
              forall k | 0 <= k < |reqs| && KindOf(reqs[k].fileType).Some? ::
                Prompt.AcceptedName(reqs[k].nameAttempts).Some?
  {
    var baseDir := JoinSegment(JoinSegment(rootDir, serviceName), "sequelize");
    var fixed := [EnsureDir(JoinSegment(baseDir, "migrations")), EnsureDir(JoinSegment(baseDir, "models")),
                  EnsureDir(JoinSegment(baseDir, "seeders")),
                  RenderFile("/sequelize/sequelizerc.ejs",
                             JoinSegment(JoinSegment(JoinSegment(rootDir, serviceName), "/sequelize/"), ".sequelizerc"),
                             map[])];
    var files := GenerateBlueprintFiles(rootDir, cfg, serviceName, reqs);
    Plan(fixed + files.effects, files.complete)
  }

  /** With the default blueprint directories, files land under
      `<root>/<service>/sequelize`: a migration timestamped and lower-cased, a
      seeder and a model under the name as entered, and no class name is
      passed to the model template. */
  lemma BlueprintNaming(rootDir: string, serviceName: string, t: TemplateNames, kind: FileKind,
                        stamp: string, name: string, table: Value)
    requires NoEndSlash(serviceName) && AllDigits(stamp) && NoLeadingSlash(name)
    ensures var base := rootDir + "/" + serviceName + "/sequelize";
            var e := BlueprintFile(rootDir, DefaultDirs, serviceName, t, kind, stamp, name, table);
            && e.RenderFile?
            && (kind == Migration ==> e.output == base + "/" + "migrations" + "/" + (stamp + "-" + ToLower(name) + ".ts"))
            && (kind == Seeder ==> e.output == base + "/" + "seeders" + "/" + (name + ".seed.ts"))
            && (kind == Model ==> e.output == base + "/" + "models" + "/" + (name + ".model.ts")
                                  && "modelClassName" !in e.data)
  {
    StampedNamesJoinWhole(stamp, name);
    NamedFilesJoinWhole(name);
    match kind
    case Migration =>
      DefaultDirJoin(rootDir, serviceName, "migrations", MigrationFileName(stamp, name));
    case Seeder =>
      DefaultDirJoin(rootDir, serviceName, "seeders", RawSeedFileName(name));
    case Model =>
      DefaultDirJoin(rootDir, serviceName, "models", RawModelFileName(name));
  }

  /** `path.join(rootDir, serviceName, '/sequelize/<sub>', file)`. */
  lemma DefaultDirJoin(rootDir: string, serviceName: string, sub: string, file: string)
    requires NoEndSlash(serviceName) && TrimSlashes(file) == file
    requires |sub| > 0 && sub[|sub| - 1] != '/'
    ensures ServicePath(rootDir, serviceName, SequelizeFolder + sub, file)
            == rootDir + "/" + serviceName + "/sequelize" + "/" + sub + "/" + file
  {
    var seg := SequelizeFolder + sub;
    assert seg[0] == '/' && seg[1..] == "sequelize/" + sub;
    assert TrimSlashes(seg) == "sequelize/" + sub;
    assert "/" + ("sequelize/" + sub) == "/sequelize" + "/" + sub;
  }

  /** The default directories are the ones the blueprint initialisation
      writes. */
  lemma DefaultDirsMatchInit()
    ensures InitCli.BlueprintDefault.fields["migrationsDir"] == Str(DefaultDirs.migrationsDir)
    ensures InitCli.BlueprintDefault.fields["modelsDir"] == Str(DefaultDirs.modelsDir)
    ensures InitCli.BlueprintDefault.fields["seedersDir"] == Str(DefaultDirs.seedersDir)
  {
    assert SequelizeFolder + "migrations" == "/sequelize/migrations";
    assert SequelizeFolder + "models" == "/sequelize/models";
    assert SequelizeFolder + "seeders" == "/sequelize/seeders";
  }

  /** `generateFiles` writes the same file with the same data as the
      blueprint `generateSequelizeFiles`; only the template name differs. */
  lemma GenerateFilesMatchesBlueprint(rootDir: string, cfg: BlueprintDirs, serviceName: string,
                                      kind: FileKind, stamp: string, name: string, table: Value)
    ensures var a := BlueprintFile(rootDir, cfg, serviceName, SequelizeTemplates, kind, stamp, name, table);
            var b := BlueprintFile(rootDir, cfg, serviceName, PlainTemplates, kind, stamp, name, table);
            a.output == b.output && a.data == b.data && a.template != b.template
  {
    TemplatesDiffer(kind);
  }

  lemma TemplatesDiffer(kind: FileKind)
    ensures kind == Migration ==> SequelizeTemplates.migration != PlainTemplates.migration
    ensures kind == Seeder ==> SequelizeTemplates.seed != PlainTemplates.seed
    ensures kind == Model ==> SequelizeTemplates.model != PlainTemplates.model
  {
    assert |SequelizeTemplates.migration| != |PlainTemplates.migration|;
    assert |SequelizeTemplates.seed| != |PlainTemplates.seed|;
    assert |SequelizeTemplates.model| != |PlainTemplates.model|;
  }

  /** `scaffoldSequelizeFiles` always ensures the three fixed sub-folders of
      the service's `sequelize` folder and renders `.sequelizerc` into that
      same folder (its `'/sequelize/'` segment joins like `'sequelize'`); the
      files follow, and with no file types that is all it does. */
  lemma ScaffoldFilesFixedPart(rootDir: string, cfg: BlueprintDirs, serviceName: string,
                               reqs: seq<FileRequest>)
    ensures var base := JoinSegment(JoinSegment(rootDir, serviceName), "sequelize");
            var p := ScaffoldSequelizeFiles(rootDir, cfg, serviceName, reqs);
            && |p.effects| >= 4
            && p.effects[..4] == [EnsureDir(PathJoin(base, "migrations")), EnsureDir(PathJoin(base, "models")),
                                  EnsureDir(PathJoin(base, "seeders")),
                                  RenderFile("/sequelize/sequelizerc.ejs", PathJoin(base, ".sequelizerc"), map[])]
            && p.effects[4..] == GenerateBlueprintFiles(rootDir, cfg, serviceName, reqs).effects
            && p.complete == GenerateBlueprintFiles(rootDir, cfg, serviceName, reqs).complete
            && (reqs == [] ==> p.complete && |p.effects| == 4)
  {
    assert TrimSlashes("/sequelize/") == "sequelize";
    assert TrimSlashes(".sequelizerc") == ".sequelizerc";
    assert TrimSlashes("migrations") == "migrations" && TrimSlashes("models") == "models"
           && TrimSlashes("seeders") == "seeders";
  }

  // ---------------------------------------------------------------------------
  // getFilesInFolder

  /** `getFilesInFolder(folderPath, extension)` of both
      src/operations/sequelize-files.operation.ts and
      src/helper/run-sequelize-command.helper.ts; `listing` is the folder's
      `readdirSync`, `None` when it does not exist. */
  function GetFilesInFolder(listing: Option<seq<string>>, extension: string): (r: seq<string>)
    ensures listing.None? ==> r == []
    ensures forall k | 0 <= k < |r| :: EndsWith(r[k], extension)
    ensures listing.Some? ==>
              IsSubsequence(r, listing.value)
              && forall k | 0 <= k < |listing.value| && EndsWith(listing.value[k], extension) ::
                   listing.value[k] in r
  {
    if listing.None? then [] else Filter(listing.value, f => EndsWith(f, extension))
  }

  /** Listing twice is listing once, and a listing with no match gives []. */
  lemma FilesInFolderStable(listing: seq<string>, extension: string)
    ensures GetFilesInFolder(Some(GetFilesInFolder(Some(listing), extension)), extension)
            == GetFilesInFolder(Some(listing), extension)
    ensures (forall k | 0 <= k < |listing| :: !EndsWith(listing[k], extension))
            ==> GetFilesInFolder(Some(listing), extension) == []
  {
    FilterIdempotent(listing, f => EndsWith(f, extension));
    if forall k | 0 <= k < |listing| :: !EndsWith(listing[k], extension) {
      FilterNone(listing, f => EndsWith(f, extension));
    }
  }
}

=== FILE: strings_utils.dfy ===
/** `sanitizeName` and `capitalizeString` of src/utils/strings.utils.ts. */
module StringsUtils {
  import opened Text

  /** `s.replace(/\s+/g, '-')`: every maximal run of whitespace becomes one "-". */
  function CollapseRuns(s: string): (r: string)
    ensures NoWhitespace(r)
    decreases |s|
  {
    if s == [] then []
    else if IsWhitespace(s[0]) then
      "-" + CollapseRuns(TrimStart(s))
    else [s[0]] + CollapseRuns(s[1..])
  }

  /** `name.trim().replace(/\s+/g, '-')`: the key stem of a service's container
      and volume. */
  function SanitizeName(name: string): (r: string)
    ensures NoWhitespace(r)
  {
    CollapseRuns(Trim(name))
  }

  /** Whitespace-free names pass through unchanged. */
  lemma SanitizeNameKeepsClean(name: string)
    requires NoWhitespace(name)
    ensures SanitizeName(name) == name
  {
    CollapseRunsPrefix(name, []);
    assert name + [] == name;
  }

  /** Sanitizing is idempotent. */
  lemma SanitizeNameIdempotent(name: string)
    ensures SanitizeName(SanitizeName(name)) == SanitizeName(name)
  {
    SanitizeNameKeepsClean(SanitizeName(name));
  }

  /** Sanitizing is not injective: two words separated by a space or by a hyphen
      give the same key, so "my db" and "my-db" share containers and volumes. */
  lemma SanitizeNameNotInjective(a: string, b: string)
    requires a != [] && NoWhitespace(a) && b != [] && NoWhitespace(b)
    ensures SanitizeName(a + " " + b) == SanitizeName(a + "-" + b) == a + "-" + b
  {
    HyphenatedIsClean(a, b);
    SpacedIsHyphenated(a, b);
  }

  /** A hyphen-joined pair of clean words is its own key. */
  lemma HyphenatedIsClean(a: string, b: string)
    requires NoWhitespace(a) && NoWhitespace(b)
    ensures SanitizeName(a + "-" + b) == a + "-" + b
  {
    assert NoWhitespace(a + "-" + b);
    SanitizeNameKeepsClean(a + "-" + b);
  }

  /** A space between two clean words becomes a hyphen. */
  lemma SpacedIsHyphenated(a: string, b: string)
    requires a != [] && NoWhitespace(a) && b != [] && NoWhitespace(b)
    ensures SanitizeName(a + " " + b) == a + "-" + b
  {
    TwoWords(a, b);
    JoinCons(a, [b]);
    SanitizeNameIsJoinOfWords(a + " " + b);
  }

  /** Two words separated by one space. */
  lemma TwoWords(a: string, b: string)
    requires a != [] && NoWhitespace(a) && b != [] && NoWhitespace(b)
    ensures Words(a + " " + b) == [a, b]
  {
    WordsAfterWord(a, " ", b);
    OneWord(b);
  }

  /** A non-empty whitespace-free string is a single word. */
  lemma OneWord(w: string)
    requires w != [] && NoWhitespace(w)
    ensures Words(w) == [w]
  {
    WordPrefixWhole(w);
    WordsOfWordStart(w);
    assert w[|w|..] == [];
    assert Words([]) == [];
  }

  /** The first word of a whitespace-free string is all of it. */
  lemma {:induction false} WordPrefixWhole(w: string)
    requires NoWhitespace(w)
    ensures WordPrefix(w) == w
  {
    if w != [] {
      WordPrefixWhole(w[1..]);
      assert [w[0]] + w[1..] == w;
    }
  }

  // ---------------------------------------------------------------------------
  // Reference definition: the words of a name joined with "-"

  /** The longest whitespace-free prefix of `s`. */
  function WordPrefix(s: string): (w: string)
    ensures |w| <= |s| && w == s[..|w|] && NoWhitespace(w)
    ensures |w| < |s| ==> IsWhitespace(s[|w|])
  {
    if s == [] || IsWhitespace(s[0]) then [] else [s[0]] + WordPrefix(s[1..])
  }

  /** The maximal whitespace-free runs of `s`, in order. */
  function Words(s: string): (ws: seq<string>)
    ensures forall k | 0 <= k < |ws| :: ws[k] != [] && NoWhitespace(ws[k])
    decreases |s|
  {
    var t := TrimStart(s);
    if t == [] then []
    else
      var w := WordPrefix(t);
      [w] + Words(t[|w|..])
  }

  lemma {:induction false} CollapseRunsPrefix(w: string, s: string)
    requires NoWhitespace(w)
    ensures CollapseRuns(w + s) == w + CollapseRuns(s)
    decreases |w|
  {
    if w != [] {
      var x := w + s;
      assert x[0] == w[0];
      assert !IsWhitespace(x[0]);
      assert x[1..] == w[1..] + s;
      assert CollapseRuns(x) == [x[0]] + CollapseRuns(x[1..]);
      CollapseRunsPrefix(w[1..], s);
      assert w == [w[0]] + w[1..];
    } else {
      assert w + s == s;
    }
  }

  /** `sanitizeName` joins the maximal whitespace-free runs of the name with single
      hyphens: leading and trailing whitespace disappears, every inner run of
      whitespace becomes exactly one "-", and all other characters keep their order. */
  lemma SanitizeNameIsJoinOfWords(name: string)
    ensures SanitizeName(name) == Join(Words(name), '-')
  {
    var a := TrimStart(name);
    assert TrimStart(a) == a;
    assert Words(name) == Words(a);
    CollapseTrimEndIsJoin(a);
  }

  /** For a string without leading whitespace, collapsing the runs of its
      right-trimmed form joins its words with "-". */
  lemma {:induction false} CollapseTrimEndIsJoin(s: string)
    requires s == [] || !IsWhitespace(s[0])
    ensures CollapseRuns(TrimEnd(s)) == Join(Words(s), '-')
    decreases |s|
  {
    if s != [] {
      var w, pre, t := SplitFirstWord(s);
      if t == [] {
        assert s == w + pre;
        LastWordIsJoin(w, pre);
      } else {
        CollapseTrimEndIsJoin(t);
        NextWordIsJoin(w, pre, t);
      }
    }
  }

  /** The case of a single word followed by whitespace. */
  lemma LastWordIsJoin(w: string, pre: string)
    requires w != [] && NoWhitespace(w) && AllWhitespace(pre)
    ensures CollapseRuns(TrimEnd(w + pre)) == Join(Words(w + pre), '-')
  {
    assert w + pre + [] == w + pre;
    WordsAfterWord(w, pre, []);
    assert Words([]) == [];
    TrimEndAllWhitespace(w, pre);
    CollapseRunsPrefix(w, []);
    assert w + [] == w;
  }

  /** The inductive step: one more word in front of a joined rest. */
  lemma NextWordIsJoin(w: string, pre: string, t: string)
    requires w != [] && NoWhitespace(w)
    requires pre != [] && AllWhitespace(pre)
    requires t != [] && !IsWhitespace(t[0])
    requires CollapseRuns(TrimEnd(t)) == Join(Words(t), '-')
    ensures CollapseRuns(TrimEnd(w + pre + t)) == Join(Words(w + pre + t), '-')
  {
    WordsAfterWord(w, pre, t);
    CollapseAfterWord(w, pre, t);
    WordsOfWordStart(t);
    JoinCons(w, Words(t));
  }

  /** A string that starts with a non-space is its first word, a run of
      whitespace, and a rest that is empty or starts with a non-space. */
  lemma SplitFirstWord(s: string) returns (w: string, pre: string, t: string)
    requires s != [] && !IsWhitespace(s[0])
    ensures s == w + pre + t && |t| < |s|
    ensures w != [] && NoWhitespace(w) && AllWhitespace(pre)
    ensures t == [] || (pre != [] && !IsWhitespace(t[0]))
  {
    w := WordPrefix(s);
    var rest := s[|w|..];
    t := TrimStart(rest);
    TrimStartParts(rest);
    pre := rest[..|rest| - |t|];
    assert rest == pre + t;
    assert s == s[..|w|] + rest;
  }

  /** The words of a word, a whitespace run and a rest are that word and the
      words of the rest. */
  lemma WordsAfterWord(w: string, pre: string, t: string)
    requires w != [] && NoWhitespace(w) && AllWhitespace(pre)
    requires t == [] || (pre != [] && !IsWhitespace(t[0]))
    ensures Words(w + pre + t) == [w] + Words(t)
  {
    var s := w + (pre + t);
    assert w + pre + t == s;
    assert (pre + t == [] || IsWhitespace((pre + t)[0])) by {
      if pre != [] { assert (pre + t)[0] == pre[0]; }
    }
    WordPrefixOfWord(w, pre + t);
    assert s[0] == w[0];
    WordsOfWordStart(s);
    assert s[|w|..] == pre + t;
    WordsSkipWhitespace(pre, t);
  }

  /** The words of a string that starts with a non-space: its first word, then
      the words of what follows it. */
  lemma WordsOfWordStart(s: string)
    requires s != [] && !IsWhitespace(s[0])
    ensures Words(s) == [WordPrefix(s)] + Words(s[|WordPrefix(s)|..])
  {
    assert TrimStart(s) == s;
  }

  /** Leading whitespace does not change the words. */
  lemma WordsSkipWhitespace(pre: string, t: string)
    requires AllWhitespace(pre) && (t == [] || !IsWhitespace(t[0]))
    ensures Words(pre + t) == Words(t)
  {
    TrimStartPrefix(pre, t);
    assert TrimStart(t) == t;
  }

  /** The first word of a word followed by whitespace (or nothing) is that word. */
  lemma {:induction false} WordPrefixOfWord(w: string, r: string)
    requires NoWhitespace(w) && (r == [] || IsWhitespace(r[0]))
    ensures WordPrefix(w + r) == w
    decreases |w|
  {
    if w == [] {
      assert w + r == r;
    } else {
      assert (w + r)[1..] == w[1..] + r;
      WordPrefixOfWord(w[1..], r);
      assert [w[0]] + w[1..] == w;
    }
  }

  /** Right-trimming and collapsing a word, a whitespace run and a string that
      starts with a non-space puts one "-" between the word and the rest. */
  lemma CollapseAfterWord(w: string, pre: string, t: string)
    requires w != [] && NoWhitespace(w)
    requires pre != [] && AllWhitespace(pre)
    requires t != [] && !IsWhitespace(t[0])
    ensures CollapseRuns(TrimEnd(w + pre + t)) == w + "-" + CollapseRuns(TrimEnd(t))
  {
    var x := TrimEndAfterWord(w, pre, t);
    CollapseRunsPrefix(w, pre + x);
    CollapseRunsAfterSpace(pre, x);
    assert w + ("-" + CollapseRuns(x)) == w + "-" + CollapseRuns(x);
  }

  /** Right-trimming a word, a whitespace run and a string that starts with a
      non-space only trims the last part, and that part keeps its first character. */
  lemma TrimEndAfterWord(w: string, pre: string, t: string) returns (x: string)
    requires pre != [] && AllWhitespace(pre)
    requires t != [] && !IsWhitespace(t[0])
    ensures x == TrimEnd(t) && x != [] && !IsWhitespace(x[0])
    ensures TrimEnd(w + pre + t) == w + (pre + x)
  {
    x := TrimEnd(t);
    TrimEndParts(t);
    assert !AllWhitespace(t);
    TrimEndAppend(pre, t);
    assert !AllWhitespace(pre + t) by { assert (pre + t)[|pre|] == t[0]; }
    TrimEndAppend(w, pre + t);
    assert w + pre + t == w + (pre + t);
  }

  /** A non-empty whitespace run before a non-space collapses to one "-". */
  lemma CollapseRunsAfterSpace(pre: string, x: string)
    requires pre != [] && AllWhitespace(pre)
    requires x == [] || !IsWhitespace(x[0])
    ensures CollapseRuns(pre + x) == "-" + CollapseRuns(x)
  {
    assert (pre + x)[0] == pre[0];
    TrimStartPrefix(pre, x);
  }

  /** Joining a word in front of a non-empty list puts the separator between. */
  lemma JoinCons(w: string, ws: seq<string>)
    requires |ws| >= 1
    ensures Join([w] + ws, '-') == w + "-" + Join(ws, '-')
  {
    assert ([w] + ws)[1..] == ws;
  }

  /** Trailing whitespace after a word that ends in a non-space is trimmed away. */
  lemma {:induction false} TrimEndAllWhitespace(w: string, r: string)
    requires w != [] && !IsWhitespace(w[|w| - 1]) && AllWhitespace(r)
    ensures TrimEnd(w + r) == w
    decreases |r|
  {
    if r != [] {
      assert (w + r)[..|w + r| - 1] == w + r[..|r| - 1];
      TrimEndAllWhitespace(w, r[..|r| - 1]);
    } else {
      assert w + r == w;
    }
  }

  /** Trimming the end of `a + b` only touches `b` when `b` is not all whitespace. */
  lemma {:induction false} TrimEndAppend(a: string, b: string)
    requires !AllWhitespace(b)
    ensures TrimEnd(a + b) == a + TrimEnd(b)
    decreases |b|
  {
    if IsWhitespace(b[|b| - 1]) {
      assert (a + b)[..|a + b| - 1] == a + b[..|b| - 1];
      TrimEndAppend(a, b[..|b| - 1]);
    }
  }

  /** Leading whitespace before a string that starts with a non-space is trimmed away. */
  lemma {:induction false} TrimStartPrefix(pre: string, x: string)
    requires AllWhitespace(pre) && (x == [] || !IsWhitespace(x[0]))
    ensures TrimStart(pre + x) == x
    decreases |pre|
  {
    if pre != [] {
      assert (pre + x)[1..] == pre[1..] + x;
      TrimStartPrefix(pre[1..], x);
    } else {
      assert pre + x == x;
    }
  }

  // ---------------------------------------------------------------------------

  /** `str.charAt(0).toUpperCase() + str.slice(1)`, for ASCII letters. */
  function CapitalizeString(s: string): (r: string)
    ensures |r| == |s|
    ensures s != [] ==> r[0] == ToUpperChar(s[0]) && r[1..] == s[1..]
  {
    if s == [] then "" else [ToUpperChar(s[0])] + s[1..]
  }

  /** Capitalizing twice is capitalizing once. */
  lemma CapitalizeIdempotent(s: string)
    ensures CapitalizeString(CapitalizeString(s)) == CapitalizeString(s)
  {
  }
}

=== FILE: text.dfy ===
/** The JavaScript string operations the tool relies on, over `string = seq<char>`:
    whitespace, substring search, first-occurrence replacement, trimming, ASCII case
    mapping, decimal spelling of numbers, and splitting/joining on a separator. */
module Text {
  import opened Wrappers

  /** The WhiteSpace and LineTerminator characters of ECMAScript: the set that
      `String.prototype.trim` removes, the regular-expression class `\s` matches
      and `parseInt` skips. */
  predicate IsWhitespace(c: char) {
    if c <= ' ' then c == ' ' || '\t' <= c <= '\r'
    else if c < '\U{00A0}' then false
    else
      || c == '\U{00A0}' || c == '\U{1680}' || ('\U{2000}' <= c <= '\U{200A}')
      || c == '\U{2028}' || c == '\U{2029}' || c == '\U{202F}' || c == '\U{205F}'
      || c == '\U{3000}' || c == '\U{FEFF}'
  }

  predicate NoWhitespace(s: string) {
    forall i | 0 <= i < |s| :: !IsWhitespace(s[i])
  }

  predicate AllWhitespace(s: string) {
    forall i | 0 <= i < |s| :: IsWhitespace(s[i])
  }

  // ---------------------------------------------------------------------------
  // Decimal digits

  predicate IsDigit(c: char) {
    '0' <= c <= '9'
  }

  predicate AllDigits(s: string) {
    forall i | 0 <= i < |s| :: IsDigit(s[i])
  }

  function DigitValue(c: char): (d: nat)
    requires IsDigit(c)
    ensures d < 10
  {
    c as int - '0' as int
  }

  function DigitChar(d: nat): (c: char)
    requires d < 10
    ensures IsDigit(c) && DigitValue(c) == d
  {
    ('0' as int + d) as char
  }

  function Pow10(k: nat): (r: nat)
    ensures r >= 1
  {
    if k == 0 then 1 else 10 * Pow10(k - 1)
  }

  /** The number a string of decimal digits denotes; it is below 10^|s|. */
  function DecimalValue(s: string): (v: nat)
    requires AllDigits(s)
    ensures v < Pow10(|s|)
  {
    if s == [] then 0 else DecimalValue(s[..|s| - 1]) * 10 + DigitValue(s[|s| - 1])
  }

  /** `${n}` for a non-negative integer: its shortest decimal spelling, which
      denotes `n` again. */
  function NatToString(n: nat): (s: string)
    ensures 1 <= |s| && AllDigits(s)
    ensures |s| > 1 ==> s[0] != '0'
    ensures DecimalValue(s) == n
  {
    if n < 10 then [DigitChar(n)]
    else
      var s := NatToString(n / 10) + [DigitChar(n % 10)];
      assert s[..|s| - 1] == NatToString(n / 10);
      s
  }

  /** The spelling is never longer than needed: `n` is below 10^|spelling|. */
  lemma NatToStringBound(n: nat)
    ensures n < Pow10(|NatToString(n)|)
  {
  }

  /** MySQL's port in decimal. */
  lemma NatToString3306()
    ensures NatToString(3306) == "3306"
  {
    assert NatToString(3) == "3" by { assert DigitChar(3) == '3'; }
    assert NatToString(33) == "33" by { assert DigitChar(33 % 10) == '3'; }
    assert NatToString(330) == "330" by { assert DigitChar(330 % 10) == '0'; }
    assert NatToString(3306) == "3306" by { assert DigitChar(3306 % 10) == '6'; }
  }

  /** Powers of ten grow with the exponent. */
  lemma {:induction false} Pow10Monotone(a: nat, b: nat)
    requires a <= b
    ensures Pow10(a) <= Pow10(b)
  {
    if a < b {
      Pow10Monotone(a, b - 1);
    }
  }

  /** Different numbers are spelled differently. */
  lemma NatToStringInjective(m: nat, n: nat)
    requires NatToString(m) == NatToString(n)
    ensures m == n
  {
    assert DecimalValue(NatToString(m)) == m;
  }

  // ---------------------------------------------------------------------------
  // Substrings

  /** `p` occurs in `t` starting at index `i`. */
  predicate OccursAt(t: string, p: string, i: int) {
    0 <= i && i + |p| <= |t| && t[i..i + |p|] == p
  }

  /** `t.includes(p)`. */
  predicate Contains(t: string, p: string) {
    exists i | 0 <= i <= |t| - |p| :: OccursAt(t, p, i)
  }

  /** `i` is the index of the first occurrence of `p` in `t`. */
  predicate IsFirstOccurrence(t: string, p: string, i: int) {
    OccursAt(t, p, i) && forall j | 0 <= j < i :: !OccursAt(t, p, j)
  }

  /** `s.startsWith(p)`. */
  predicate StartsWith(s: string, p: string) {
    |p| <= |s| && s[..|p|] == p
  }

  /** `s.endsWith(p)`. */
  predicate EndsWith(s: string, p: string) {
    |p| <= |s| && s[|s| - |p|..] == p
  }

  function IndexOfFrom(t: string, p: string, i: nat): (r: Option<nat>)
    requires i <= |t|
    ensures r.Some? ==> i <= r.value && OccursAt(t, p, r.value)
    ensures r.Some? ==> forall j | i <= j < r.value :: !OccursAt(t, p, j)
    ensures r.None? ==> forall j | i <= j :: !OccursAt(t, p, j)
    decreases |t| - i
  {
    if i + |p| > |t| then None
    else if t[i..i + |p|] == p then Some(i)
    else if i == |t| then None
    else IndexOfFrom(t, p, i + 1)
  }

  /** `t.indexOf(p)`, with `None` for -1. */
  function IndexOf(t: string, p: string): (r: Option<nat>)
    ensures r.Some? <==> Contains(t, p)
    ensures r.Some? ==> IsFirstOccurrence(t, p, r.value)
  {
    var r := IndexOfFrom(t, p, 0);
    if r.None? then
      assert !Contains(t, p) by {
        forall i | 0 <= i <= |t| - |p| ensures !OccursAt(t, p, i) { }
      }
      r
    else
      r
  }

  /** The first occurrence of `p`, and only that one, replaced by `rep` taken
      literally; without an occurrence `t` is returned as is. This is what
      `t.replace(p, rep)` does when `rep` holds no `$` (see `Replace`). */
  function ReplaceFirst(t: string, p: string, rep: string): (r: string)
    ensures !Contains(t, p) ==> r == t
    ensures forall i {:trigger IsFirstOccurrence(t, p, i)} | IsFirstOccurrence(t, p, i) :: r == t[..i] + rep + t[i + |p|..]
  {
    match IndexOf(t, p)
    case None => t
    case Some(i) =>
      assert forall k | IsFirstOccurrence(t, p, k) :: k == i;
      t[..i] + rep + t[i + |p|..]
  }

  /** The replacement patterns of `String.prototype.replace` with a string
      pattern (`GetSubstitution`): `$$` stands for `$`, `$&` for the matched
      text, `` $` `` for the text before the match and `$'` for the text after
      it. A string pattern has no capture groups, so any other `$` stands for
      itself. */
  function Substitute(rep: string, before: string, matched: string, after: string): (r: string)
    ensures '$' !in rep ==> r == rep
    decreases |rep|
  {
    if rep == [] then []
    else if rep[0] == '$' && |rep| >= 2 && rep[1] in "$&`'" then
      var part := if rep[1] == '$' then "$" else if rep[1] == '&' then matched
                  else if rep[1] == '`' then before else after;
      part + Substitute(rep[2..], before, matched, after)
    else
      assert rep == [rep[0]] + rep[1..];
      [rep[0]] + Substitute(rep[1..], before, matched, after)
  }

  /** `t.replace(p, rep)` with a string pattern and a replacement string: the
      first occurrence of `p` is replaced by `rep` with its `$` patterns
      expanded. */
  function Replace(t: string, p: string, rep: string): (r: string)
    ensures !Contains(t, p) ==> r == t
    ensures '$' !in rep ==> r == ReplaceFirst(t, p, rep)
    ensures forall i {:trigger IsFirstOccurrence(t, p, i)} | IsFirstOccurrence(t, p, i) ::
              r == t[..i] + Substitute(rep, t[..i], p, t[i + |p|..]) + t[i + |p|..]
  {
    match IndexOf(t, p)
    case None => t
    case Some(i) =>
      assert forall k | IsFirstOccurrence(t, p, k) :: k == i;
      t[..i] + Substitute(rep, t[..i], p, t[i + |p|..]) + t[i + |p|..]
  }

  /** Every `$` of `rep` opens `$&`, `` $` `` or `$'`: one that expands to
      text taken from the subject. */
  predicate SubjectPatternsOnly(rep: string) {
    forall k | 0 <= k < |rep| && rep[k] == '$' :: k + 1 < |rep| && rep[k + 1] in "&`'"
  }

  /** A replacement whose `$`s all expand to subject text adds no `$` to a
      subject that has none. */
  lemma {:induction false} SubstituteNoDollar(rep: string, before: string, matched: string, after: string)
    requires SubjectPatternsOnly(rep)
    requires '$' !in before && '$' !in matched && '$' !in after
    ensures '$' !in Substitute(rep, before, matched, after)
    decreases |rep|
  {
    if rep != [] {
      if rep[0] == '$' {
        assert rep[1] in "&`'";
        assert SubjectPatternsOnly(rep[2..]) by {
          forall k | 0 <= k < |rep[2..]| && rep[2..][k] == '$'
            ensures k + 1 < |rep[2..]| && rep[2..][k + 1] in "&`'"
          {
            assert rep[k + 2] == '$';
          }
        }
        SubstituteNoDollar(rep[2..], before, matched, after);
      } else {
        assert SubjectPatternsOnly(rep[1..]) by {
          forall k | 0 <= k < |rep[1..]| && rep[1..][k] == '$'
            ensures k + 1 < |rep[1..]| && rep[1..][k + 1] in "&`'"
          {
            assert rep[k + 1] == '$';
          }
        }
        SubstituteNoDollar(rep[1..], before, matched, after);
      }
    }
  }

  /** Text without `$` passes through the expansion unchanged. */
  lemma {:induction false} SubstituteLiteralPrefix(x: string, y: string, before: string, matched: string,
                                                   after: string)
    requires '$' !in x
    ensures Substitute(x + y, before, matched, after) == x + Substitute(y, before, matched, after)
    decreases |x|
  {
    if x != [] {
      assert (x + y)[0] == x[0] && (x + y)[1..] == x[1..] + y;
      SubstituteLiteralPrefix(x[1..], y, before, matched, after);
      assert x == [x[0]] + x[1..];
    } else {
      assert x + y == y;
    }
  }

  /** The condition holds of each part of a concatenation, so of the whole. */
  lemma SubjectPatternsConcat(a: string, b: string)
    requires SubjectPatternsOnly(a) && SubjectPatternsOnly(b)
    ensures SubjectPatternsOnly(a + b)
  {
    forall k | 0 <= k < |a + b| && (a + b)[k] == '$'
      ensures k + 1 < |a + b| && (a + b)[k + 1] in "&`'"
    {
      if k < |a| {
        assert a[k] == '$';
      } else {
        assert b[k - |a|] == '$';
      }
    }
  }

  /** Replacing in a text without `$`, by a replacement whose `$`s all expand
      to subject text, leaves a text without `$`. */
  lemma ReplaceNoDollar(t: string, p: string, rep: string)
    requires '$' !in t && SubjectPatternsOnly(rep)
    ensures '$' !in Replace(t, p, rep)
  {
    if Contains(t, p) {
      var i := IndexOf(t, p).value;
      assert IsFirstOccurrence(t, p, i);
      var before, after := t[..i], t[i + |p|..];
      NoCharInSlices(t, '$', i, i + |p|);
      assert t[i..i + |p|] == p;
      var x := Substitute(rep, before, p, after);
      SubstituteNoDollar(rep, before, p, after);
      assert Replace(t, p, rep) == before + x + after;
    }
  }

  /** Replacing the first `p` by `p + rest`, for a `p` without `$`, keeps the
      match and inserts the expansion of `rest` right after it. */
  lemma ReplaceAfterMatch(t: string, p: string, rest: string) returns (k: nat, x: string)
    requires Contains(t, p) && '$' !in p
    ensures |p| <= k <= |t| && t[k - |p|..k] == p
    ensures Replace(t, p, p + rest) == t[..k] + x + t[k..]
  {
    var j := IndexOf(t, p).value;
    assert IsFirstOccurrence(t, p, j);
    k := j + |p|;
    var before, after := t[..j], t[k..];
    var r := Replace(t, p, p + rest);
    assert r == before + Substitute(p + rest, before, p, after) + after;
    SubstituteLiteralPrefix(p, rest, before, p, after);
    x := Substitute(rest, before, p, after);
    PrefixThroughMatch(t, p, j);
    assert r == before + (p + x) + after;
    assert t[k - |p|..k] == p;
    SeqAssoc(before, p, x, after);
  }

  /** Regrouping a four-part concatenation, proved apart from the facts about
      `Replace` that make it expensive in context. */
  lemma SeqAssoc<T>(a: seq<T>, b: seq<T>, c: seq<T>, d: seq<T>)
    ensures a + (b + c) + d == (a + b) + c + d
  {
  }

  /** The text up to the end of an occurrence is the text before it plus the pattern. */
  lemma PrefixThroughMatch(t: string, p: string, j: nat)
    requires OccursAt(t, p, j)
    ensures t[..j + |p|] == t[..j] + p
  {
    assert t[..j + |p|] == t[..j] + t[j..j + |p|];
  }

  /** A character absent from a text is absent from its slices. */
  lemma NoCharInSlices(t: string, c: char, i: nat, j: nat)
    requires c !in t && i <= j <= |t|
    ensures c !in t[..i] && c !in t[i..j] && c !in t[j..]
  {
  }

  /** A text that contains `q` contains every character of `q`. */
  lemma ContainsChar(t: string, q: string, c: char)
    requires Contains(t, q) && c in q
    ensures c in t
  {
    var j :| 0 <= j <= |t| - |q| && OccursAt(t, q, j);
    var k :| 0 <= k < |q| && q[k] == c;
    assert t[j..j + |q|][k] == t[j + k];
  }

  /** A substring survives inserting text right after the first occurrence of a
      pattern, as long as the pattern's last character does not occur in it: no
      occurrence can straddle the insertion point. */
  lemma {:induction false} InsertAfterKeepsContains(t: string, p: string, x: string, q: string)
    requires Contains(t, q)
    requires |p| > 0 && p[|p| - 1] !in q
    ensures Contains(ReplaceFirst(t, p, p + x), q)
  {
    if Contains(t, p) {
      var k := InsertAfterFirst(t, p, x);
      InsertKeepsContains(t, k, x, q);
    }
  }

  /** Replacing the first occurrence of `p` by `p + x` inserts `x` right
      after that occurrence, at a position `k` preceded by `p`'s last
      character. */
  lemma InsertAfterFirst(t: string, p: string, x: string) returns (k: nat)
    requires Contains(t, p) && |p| > 0
    ensures 0 < k <= |t| && t[k - 1] == p[|p| - 1]
    ensures ReplaceFirst(t, p, p + x) == t[..k] + x + t[k..]
  {
    var i := ReplaceFirstSplit(t, p, p + x);
    k := i + |p|;
    assert t[..k] == t[..i] + p by { assert t[i..k] == p; }
    assert t[..i] + (p + x) + t[k..] == t[..k] + x + t[k..];
    assert t[i..k][|p| - 1] == t[k - 1];
  }

  /** When the pattern occurs, the replacement splits the text at an
      occurrence of it. */
  lemma ReplaceFirstSplit(t: string, p: string, rep: string) returns (i: nat)
    requires Contains(t, p)
    ensures OccursAt(t, p, i) && ReplaceFirst(t, p, rep) == t[..i] + rep + t[i + |p|..]
  {
    i := IndexOf(t, p).value;
  }

  /** Inserting `x` at position `k` of `t` keeps every substring of `t` whose
      characters exclude the one just before `k`. */
  lemma InsertKeepsContains(t: string, k: int, x: string, q: string)
    requires Contains(t, q)
    requires 0 < k <= |t| && t[k - 1] !in q
    ensures Contains(t[..k] + x + t[k..], q)
  {
    var r := t[..k] + x + t[k..];
    var j :| 0 <= j <= |t| - |q| && OccursAt(t, q, j);
    if j + |q| <= k {
      assert r[j..j + |q|] == t[j..j + |q|];
      assert OccursAt(r, q, j);
    } else {
      StraddleUsesChar(t, q, j, k);
      assert r[j + |x|..j + |x| + |q|] == t[j..j + |q|];
      assert OccursAt(r, q, j + |x|);
    }
  }

  /** An occurrence that covers position `k - 1` uses the character there. */
  lemma StraddleUsesChar(t: string, q: string, j: int, k: int)
    requires OccursAt(t, q, j) && 0 < k <= j + |q|
    ensures j < k ==> t[k - 1] in q
  {
    if j < k {
      assert t[j..j + |q|][k - 1 - j] == t[k - 1];
    }
  }

  /** A string contains every substring of each of its parts. */
  lemma ContainsInMiddle(a: string, b: string, c: string, q: string)
    requires Contains(b, q)
    ensures Contains(a + b + c, q)
  {
    var j :| 0 <= j <= |b| - |q| && OccursAt(b, q, j);
    assert (a + b + c)[|a| + j..|a| + j + |q|] == b[j..j + |q|];
    assert OccursAt(a + b + c, q, |a| + j);
  }

  /** Appending text keeps every substring. */
  lemma ContainsAppend(a: string, b: string, q: string)
    requires Contains(a, q)
    ensures Contains(a + b, q)
  {
    var j :| 0 <= j <= |a| - |q| && OccursAt(a, q, j);
    assert (a + b)[j..j + |q|] == a[j..j + |q|];
    assert OccursAt(a + b, q, j);
  }

  /** Prepending text keeps every substring. */
  lemma ContainsPrepend(a: string, b: string, q: string)
    requires Contains(b, q)
    ensures Contains(a + b, q)
  {
    var j :| 0 <= j <= |b| - |q| && OccursAt(b, q, j);
    assert (a + b)[|a| + j..|a| + j + |q|] == b[j..j + |q|];
    assert OccursAt(a + b, q, |a| + j);
  }

  /** The middle part of a concatenation occurs right after the first. */
  lemma OccursAtMiddle(a: string, b: string, c: string)
    ensures OccursAt(a + b + c, b, |a|)
  {
    assert (a + b + c)[|a|..|a| + |b|] == b;
  }

  /** A string contains itself. */
  lemma ContainsSelf(a: string)
    ensures Contains(a, a)
  {
    assert OccursAt(a, a, 0);
  }

  /** If `q` contains `p`, any string containing `q` contains `p`. */
  lemma ContainsTransitive(t: string, q: string, p: string)
    requires Contains(t, q) && Contains(q, p)
    ensures Contains(t, p)
  {
    var j :| 0 <= j <= |t| - |q| && OccursAt(t, q, j);
    var k :| 0 <= k <= |q| - |p| && OccursAt(q, p, k);
    forall m | 0 <= m < |p| ensures t[j + k + m] == p[m] {
      assert t[j..j + |q|][k + m] == q[k + m] == q[k..k + |p|][m];
    }
    assert t[j + k..j + k + |p|] == p;
    assert OccursAt(t, p, j + k);
  }

  // ---------------------------------------------------------------------------
  // Paths

  /** `path.join(a, b)` for segments that are already normalised. */
  function PathJoin(a: string, b: string): string {
    a + "/" + b
  }

  predicate NoLeadingSlash(s: string) {
    |s| == 0 || s[0] != '/'
  }

  predicate NoEndSlash(s: string) {
    |s| == 0 || (s[0] != '/' && s[|s| - 1] != '/')
  }

  /** A segment with one leading and one trailing `/` dropped. */
  function TrimSlashes(seg: string): (r: string)
    ensures |r| <= |seg|
    ensures NoEndSlash(seg) ==> r == seg
  {
    var s := if |seg| > 0 && seg[0] == '/' then seg[1..] else seg;
    if |s| > 0 && s[|s| - 1] == '/' then s[..|s| - 1] else s
  }

  /** `path.join(dir, seg)` where `seg` may carry one slash at either end (as
      `/sequelize/migrations` and `/sequelize/` do), which path.join drops. */
  function JoinSegment(dir: string, seg: string): string {
    PathJoin(dir, TrimSlashes(seg))
  }

  // ---------------------------------------------------------------------------
  // Trimming

  /** `s.trimStart()`: drops the leading whitespace. */
  function TrimStart(s: string): (r: string)
    ensures |r| <= |s|
    ensures r == [] || !IsWhitespace(r[0])
    ensures s == [] || !IsWhitespace(s[0]) ==> r == s
  {
    if s != [] && IsWhitespace(s[0]) then TrimStart(s[1..]) else s
  }

  /** What `trimStart` keeps is a suffix, and what it drops is whitespace. */
  lemma {:induction false} TrimStartParts(s: string)
    ensures var r := TrimStart(s); r == s[|s| - |r|..] && AllWhitespace(s[..|s| - |r|])
    decreases |s|
  {
    if s != [] && IsWhitespace(s[0]) {
      TrimStartParts(s[1..]);
      var r := TrimStart(s);
      assert s[1..][|s| - 1 - |r|..] == s[|s| - |r|..];
      assert forall i | 1 <= i < |s| - |r| :: s[i] == s[1..][..|s| - 1 - |r|][i - 1];
    } else {
      assert s[|s| - |s|..] == s;
    }
  }

  /** `s.trimEnd()`: drops the trailing whitespace. */
  function TrimEnd(s: string): (r: string)
    ensures |r| <= |s|
    ensures r == [] || !IsWhitespace(r[|r| - 1])
    ensures s == [] || !IsWhitespace(s[|s| - 1]) ==> r == s
  {
    if s != [] && IsWhitespace(s[|s| - 1]) then TrimEnd(s[..|s| - 1]) else s
  }

  /** What `trimEnd` keeps is a prefix, and what it drops is whitespace. */
  lemma {:induction false} TrimEndParts(s: string)
    ensures var r := TrimEnd(s); r == s[..|r|] && AllWhitespace(s[|r|..])
    decreases |s|
  {
    if s != [] && IsWhitespace(s[|s| - 1]) {
      var u := s[..|s| - 1];
      TrimEndParts(u);
      var r := TrimEnd(s);
      assert u[..|r|] == s[..|r|];
      assert forall i | |r| <= i < |s| - 1 :: s[i] == u[|r|..][i - |r|];
    } else {
      assert s[..|s|] == s;
    }
  }

  /** `s.trim()`. */
  function Trim(s: string): (r: string)
    ensures |r| <= |s|
    ensures r == [] || (!IsWhitespace(r[0]) && !IsWhitespace(r[|r| - 1]))
    ensures NoWhitespace(s) ==> r == s
  {
    var t := TrimStart(s);
    TrimEndParts(t);
    TrimEnd(t)
  }

  /** Trimming a string without leading or trailing whitespace changes nothing. */
  lemma TrimNoop(s: string)
    requires s == [] || (!IsWhitespace(s[0]) && !IsWhitespace(s[|s| - 1]))
    ensures Trim(s) == s
  {
  }

  // ---------------------------------------------------------------------------
  // ASCII case mapping

  function ToLowerChar(c: char): char {
    if 'A' <= c <= 'Z' then (c as int + 32) as char else c
  }

  function ToUpperChar(c: char): char {
    if 'a' <= c <= 'z' then (c as int - 32) as char else c
  }

  /** `s.toLocaleLowerCase()`, restricted to ASCII letters. */
  function ToLower(s: string): (r: string)
    ensures |r| == |s|
    ensures forall i | 0 <= i < |s| :: r[i] == ToLowerChar(s[i])
  {
    seq(|s|, i requires 0 <= i < |s| => ToLowerChar(s[i]))
  }

  /** Lower-casing is idempotent. */
  lemma ToLowerIdempotent(s: string)
    ensures ToLower(ToLower(s)) == ToLower(s)
  {
  }

  // ---------------------------------------------------------------------------
  // Splitting and joining

  /** `s.split(sep)` for a one-character separator: always at least one part, and
      no part contains the separator. */
  function Split(s: string, sep: char): (parts: seq<string>)
    ensures |parts| >= 1
    ensures forall k | 0 <= k < |parts| :: sep !in parts[k]
  {
    if s == [] then [""]
    else
      var rest := Split(s[1..], sep);
      if s[0] == sep then [""] + rest
      else [[s[0]] + rest[0]] + rest[1..]
  }

  /** `parts.join(sep)`. */
  function Join(parts: seq<string>, sep: char): string {
    if |parts| == 0 then ""
    else if |parts| == 1 then parts[0]
    else parts[0] + [sep] + Join(parts[1..], sep)
  }

  /** Joining the parts of a split gives the original text back. */
  lemma {:induction false} JoinSplit(s: string, sep: char)
    ensures Join(Split(s, sep), sep) == s
  {
    if s != [] {
      var rest := Split(s[1..], sep);
      JoinSplit(s[1..], sep);
      if s[0] != sep {
        var parts := [[s[0]] + rest[0]] + rest[1..];
        assert parts[1..] == rest[1..];
        if |rest| == 1 {
          assert Join(parts, sep) == [s[0]] + rest[0];
        } else {
          assert Join(rest, sep) == rest[0] + [sep] + Join(rest[1..], sep);
        }
      } else {
        assert ([""] + rest)[1..] == rest;
      }
    }
  }

  /** Splitting text that contains a separator at a given point splits the
      two sides independently. */
  lemma {:induction false} SplitAppend(a: string, b: string, sep: char)
    ensures Split(a + [sep] + b, sep) == Split(a, sep) + Split(b, sep)
  {
    if a == [] {
      assert a + [sep] + b == [sep] + b;
      assert ([sep] + b)[1..] == b;
    } else {
      var s := a + [sep] + b;
      assert s[0] == a[0];
      assert s[1..] == a[1..] + [sep] + b;
      SplitAppend(a[1..], b, sep);
    }
  }

  /** Text without the separator is a single part. */
  lemma {:induction false} SplitWhole(s: string, sep: char)
    requires sep !in s
    ensures Split(s, sep) == [s]
  {
    if s != [] {
      SplitWhole(s[1..], sep);
      assert [s[0]] + s[1..] == s;
    }
  }
}

=== FILE: wrappers.dfy ===
/** Failure-carrying result types shared by every module of the model. */
module Wrappers {

  /** A value that may be missing: a JavaScript `undefined`, or an absent file. */
  datatype Option<+T> = None | Some(value: T) {
    function GetOr(default: T): T {
      match this
      case Some(v) => v
      case None => default
    }
  }

  /** The outcome of an operation that can throw: `Failure` carries the reason. */
  datatype Result<+R> = Success(value: R) | Failure(error: string)
}
